=== FILE: README.md ===
# CanLiang log ingestion, modelled in Dafny

CanLiang reads the log files that the BetterGI automation agent writes, one
file per day (`better-genshin-impact<YYYYMMDD>.log`). From each day it
extracts two facts:

- the item pickups (`交互或拾取："name"`), with their time and the config
  group that was running;
- how long the agent was active that day.

A web front end then charts these facts. The repository carries several
generations of the same parser, and this project models each of them
separately, because they disagree.

Each module below lives in `src/` under the file of the same name (in
lower case with underscores).

**Log-data manager.** `Manager` (release/app/infrastructure/manager.py)
is the current version; it is a class over a directory and a store.

- `FramedPattern` splits the text into entries. It uses two patterns,
  one for the first line and one for later lines. Both are written out as
  the match Python's backtracking settles on, including the skipped
  entries that come from non-overlapping `findall`.
- `EntryScan` walks the entries once:
  - it skips forbidden keywords;
  - it tracks the running config group;
  - it counts pickups and records the new ones against a dedup list that
    lives as long as the process;
  - it passes each time to `Segments`, the rule that entries less than
    five minutes apart share one segment.
- `Database` is the SQLite store over abstract tables. Past days are
  committed to it once. Today's file is parsed again on every call and
  put in front of the stored data.
- `InfraUtils` converts timestamps and checks the dict-of-lists tables
  for emptiness.
- `Entities` holds the value objects.
- `LegacyManager` (release/app/infrastructure/db.py) is the older manager,
  which has no store.

**Single-file parsers.**

- `GapParser` (mini/app.py and release/log_parser.py) adds every pause
  longer than five minutes to the duration.
- `FrameAnalysis` holds their `analyse_*` aggregations. The release copy
  reads tables bound when it is imported.
- `ServerApp` (server/app.py) times the windows between main-window
  markers.
- `ServerAnalyse` (server/analyse.py) only counts.
- `OpenPattern` is their shared entry pattern.
- `Clock` is their `strptime` time of day.
- `Durations` formats "x小时y分钟" and reads it back.

**Smaller cores.**

- `Incremental` (server/incremental_parser.py) is the run tracker that
  resumes from stored offsets.
- `Upgrade` (upgrade_logs.py) converts legacy lines and does the
  backup-then-rewrite.
- `LogControllers`, `WebhookControllers` and `ApiControllers` are the
  controller facades over injected managers.
- `PreviewModes` is the preview-mode validation.
- `Streaming` is the frame-delay tracker, the buffer pool and the Sunshine
  engine bookkeeping.
- `WindowFinder` and `Programs` filter window candidates and list
  programs.
- `SiteNumbers`, `SiteAnalysis` and `Inventory` are the front end's
  statistics and inventory helpers (website/lib).

**Shared helpers.** `Strings`, `PyInt`, `Tallies` (a Python `dict` used
as a counter, in insertion order), `LogLines`, `Layouts` and `Wrappers`.

**How the model is built.**

- A source loop that updates state is a Dafny `method` with loop
  invariants, proved equal to a recursive specification function.
- Each property is then proved about that function.
- Classes whose fields the source updates in place are Dafny classes.
- Where the source raises, the model returns `None` (or a `raised` flag).

## Model

| member | source | states |
|---|---|---|
| Clock.WholeSeconds | release/log_parser.py:90-91 | `int(delta.total_seconds())` truncates toward zero: for a non-negative difference the result is the whole seconds at or below it, for a negative one the whole seconds at or above it |
| Clock.ClockFields | release/log_parser.py:54 | `strptime(ts, '%H:%M:%S.%f')` on in-range fields yields `H*3600 + M*60 + S` seconds plus the fraction read as a decimal fraction of a second, in microseconds |
| Clock.ClockWithinDay | release/log_parser.py:54 | every time `strptime` accepts lies within one day: non-negative and below 24 hours |
| Clock.ClockAgreesWithManager | mini/app.py:93 | on the three-digit-fraction timestamps BetterGI writes, the `strptime` value is exactly a thousand times the manager's millisecond count |
| Clock.HourOutOfRange | server/app.py:111 | an hour above 23 makes `strptime` raise, while the manager's `parse_timestamp_to_seconds` reads it as that many hours |
| Clock.HourTwentyFour | server/app.py:114 | `24:00:00.000` is rejected by `strptime` and read as 86 400 000 ms (a whole day) by the manager |
| Clock.ClockRejectsHour | release/log_parser.py:54 | a well-formed text whose hour field is out of range does not convert |
| Clock.FractionIsDecimal | release/log_parser.py:54 | under `%f`, `.5` and `.500` are the same instant (half a second) |
| InfraUtils.ParseTimestampFields | release/app/infrastructure/utils.py:123-140 | digit fields `H:M:S.F` convert to `H*3600000 + M*60000 + S*1000 + F` milliseconds |
| InfraUtils.FractionCountsMilliseconds | release/app/infrastructure/utils.py:136-140 | the fraction is read with `int()` as a count of milliseconds, so `S.5` is 495 ms earlier than `S.500` |
| InfraUtils.FractionDifference | release/app/infrastructure/utils.py:136-140 | two timestamps differing only in the fraction differ by the difference of the fractions' integer values |
| InfraUtils.ParseTimestampTooFewParts | release/app/infrastructure/utils.py:133-134 | a text with fewer than three `:`-separated parts raises (the model's `None`) |
| InfraUtils.CheckDictEmptyRaises | release/app/infrastructure/utils.py:143-163 | `check_dict_empty` raises exactly when two value lists differ in length |
| InfraUtils.CheckDictEmptyTrue | release/app/infrastructure/utils.py:143-163 | it answers `True` exactly for a non-empty dict whose lists are all empty; `{}` answers `False` |
| InfraUtils.SetMoreThanOne | release/app/infrastructure/utils.py:158 | a set of lengths has more than one member exactly when it holds two different lengths |
| Entities.NewItemInfo | release/app/domain/entities.py:30-45 | an `ItemInfo` built from name, time and date keeps them and has no config group |
| Entities.FormatDurationInfo | release/app/domain/entities.py:58-82 | `format_duration` renders exactly as `format_timedelta`, and gives "0分钟" for a zero duration |
| Entities.NewConfigGroup | release/app/domain/entities.py:98-111 | a `ConfigGroup(name)` has no scripts and no start or end time |
| PyInt.DropUnderscores | release/app/infrastructure/utils.py:134-139 | the digits that `int()` reads keep every character but `_`, and text without `_` is unchanged |
| PyInt.ParseUnsigned | release/app/infrastructure/utils.py:134-139 | the unsigned part converts exactly when it is digits with single underscores between them |
| PyInt.ParseDigits | release/app/infrastructure/utils.py:134-139 | `int()` of a run of ASCII digits is its decimal value |
| PyInt.ParseNegativeDigits | release/app/infrastructure/utils.py:134-139 | `int()` of a minus sign followed by digits is the negated decimal value |
| PyInt.ParseIntOfString | release/app/infrastructure/utils.py:134-139 | round trip: `int(str(n)) == n` for every integer |
| PyInt.ParseNatString | release/app/infrastructure/utils.py:134-139 | round trip for non-negative numbers |
| PyInt.ParseNegativeString | release/app/infrastructure/utils.py:134-139 | round trip for negative numbers |
| PyInt.ParseIntRejects | release/app/infrastructure/utils.py:134-139 | empty or blank text, and a sign with no digits, make `int()` raise |
| Segments.Tick | release/app/infrastructure/manager.py:130-140 | after one kept entry the last time is that entry's, and a segment is open once any entry has been seen |
| Segments.Advance | release/app/infrastructure/manager.py:130-140 | the loop's own three variables are updated exactly as the segment tracker specifies |
| Segments.TickCloses | release/app/infrastructure/manager.py:134-138 | a segment is closed exactly when an entry comes more than 300 s after the previous one, and closed segments are never changed |
| Segments.TicksSpanned | release/app/infrastructure/manager.py:81-144 | while times never go backwards, the closed segments run forward and their total length is at most the time elapsed since the first entry |
| Segments.SumSecondsBound | release/app/infrastructure/manager.py:147 | the sum of `int(end - start)` over forward segments is non-negative and at most their total length |
| Segments.DurationBounds | release/app/infrastructure/manager.py:142-147 | for times that never go backwards, the active duration lies between zero and the span from the first to the last kept entry |
| Segments.BackwardClock | release/app/infrastructure/manager.py:142-147 | a clock that goes back gives a negative duration: entries at 10 s then 5 s give -5 s |
| PreviewModes.NormalizeSpec | release/app/api/preview.py:37-42 | `normalize_preview_mode` returns exactly the four known modes unchanged, and raises `ValueError` naming any other text |
| PreviewModes.CategoriesSpec | release/app/api/preview.py:45-60 | for a known mode, the browser, external-client and disabled checks each name exactly their modes, and exactly one of them holds; an unknown mode makes all three raise |
| PreviewModes.EnsureBrowserCapableSpec | release/app/api/preview.py:63-73 | an unknown mode raises `ValueError` whatever is allowed; a known mode passes, unchanged, exactly when it is allowed, and otherwise `PreviewModeError` carries it; with the default allow-set it passes exactly when the mode supports the browser |
| Inventory.ColorOfName | website/lib/utils-inventory.ts:19-24 | looking a category's label up in `categoryColors` gives that category's colour |
| Inventory.RelicKeywords | website/lib/utils-inventory.ts:59-83 | the relic test holds exactly when the name contains 家, 游医, 医的 or 运儿, or contains 的 together with one of the fifteen piece names: the longer keywords 冒险家, 险家 and 幸运儿 add nothing |
| Inventory.NotRelic | website/lib/utils-inventory.ts:59-83 | a name without any of the characters 家, 医, 运 and 的 is never a relic |
| Inventory.MineralsReachable | website/lib/utils-inventory.ts:85-86 | the relic test never shadows the mineral list: every listed mineral is categorised 矿物 |
| Inventory.FoodsReachable | website/lib/utils-inventory.ts:87-95 | neither the relic test nor the mineral list shadows the food list: every listed food is categorised 食材 |
| Inventory.CategoryExamples | website/__tests__/utils/inventory.test.ts:4-9 | 冒险家之花 is a relic, 铁块 a mineral, 苹果 a food and 未知物品 falls to 其他 |
| Inventory.ItemColorSpec | website/lib/utils-inventory.ts:239-242 | every name has the colour of its category, and the relic colour goes to relic names only |
| Inventory.ItemsOf | website/lib/utils-inventory.ts:114-117 | a category's table never holds more entries than the item table |
| Inventory.CategorizedStep | website/lib/utils-inventory.ts:114-117 | writing one new entry puts it, with its count, into its own category's table and leaves the other three tables alone |
| Inventory.CategorizeBy | website/lib/utils-inventory.ts:106-120 | the loop of `categorizeItems`, for any classifier, builds the four category tables in order, each holding the entries its category takes |
| Inventory.CategorizeItems | website/lib/utils-inventory.ts:106-120 | `categorizeItems` is that loop with `getCategory` as the classifier |
| Inventory.ItemsOfMembers | website/lib/utils-inventory.ts:114-117 | an entry is in a category's table exactly when it is in the item table and its name falls in that category |
| Inventory.ItemsOfKeys | website/lib/utils-inventory.ts:114-117 | a name is a key of a category's table exactly when it is a key of the item table and falls in that category |
| Inventory.ItemsOfGet | website/lib/utils-inventory.ts:114-117 | every name's count lands in its own category's table, and every other table reads 0 for it |
| Inventory.CategoriesTotal | website/lib/utils-inventory.ts:171-173 | the totals of the four category tables add up to `getTotalItemCount` of the item table |
| Inventory.CategoryTotals | website/lib/utils-inventory.ts:127-140 | one total per category, in the categories' order, each with its name, its summed counts and its colour |
| Inventory.SumCounts | website/lib/utils-inventory.ts:131 | the `reduce` over a table's values yields the table's total |
| Inventory.GetCategoryTotals | website/lib/utils-inventory.ts:127-140 | the loop of `getCategoryTotals` pushes exactly those totals |
| Inventory.CategorizedTotals | website/lib/utils-inventory.ts:106-140 | after categorising, there are four totals in the order 圣遗物, 矿物, 食材, 其他, each with its colour, and they add up to all the items |
| Inventory.CategoryTotalsExample | website/__tests__/utils/inventory.test.ts:19-33 | categories given in any order give their totals in that order, 0 for an empty category, each with its colour |
| Inventory.CategorizeExample | website/__tests__/utils/inventory.test.ts:11-17 | 苹果 lands in 食材 with 2, 铁块 in 矿物 with 1 and 未知物品 in 其他 with 3 |
| Inventory.InsertByCount | website/lib/utils-inventory.ts:150 | inserting into a list sorted by count, largest first, keeps it sorted and adds exactly the new entry |
| Inventory.SortByCount | website/lib/utils-inventory.ts:150 | the sort by count yields a permutation of the entries in non-increasing count order |
| Inventory.TopItemsSpec | website/lib/utils-inventory.ts:148-152 | `getTopItems` returns `min(limit, n)` entries of the table for a non-negative limit and `n + limit` clamped to 0 for a negative one, in non-increasing order; no entry left out has a larger count than one kept |
| Inventory.InsertByCountStable | website/lib/utils-inventory.ts:150 | one insertion step places the new entry after every entry of its own count and leaves the order of each count's entries alone |
| Inventory.SortByCountStable | website/lib/utils-inventory.ts:150 | the sort is stable: for every count, the entries of that count come out in their input order |
| Inventory.TopItemsStable | website/lib/utils-inventory.ts:148-152 | among equal counts the top items are the first ones of the table: for every count, the kept entries of that count are a prefix of the table's entries of that count |
| Inventory.TopSlice | website/lib/utils-inventory.ts:151 | a prefix of a list sorted by count is sorted and no smaller than anything it leaves out |
| Inventory.KeepMatchingSpec | website/lib/utils-inventory.ts:162 | the filter keeps each entry whose name contains the term, ignoring ASCII case, exactly as often as it occurs, and drops every other entry |
| Inventory.FilterAndSortSpec | website/lib/utils-inventory.ts:160-164 | `filterAndSortItems` returns exactly the matching entries, largest count first; an empty search term keeps every entry |
| Inventory.UniqueItemCountSpec | website/lib/utils-inventory.ts:180-182 | `getUniqueItemCount` is the number of distinct item names |
| Inventory.PieChartSingle | website/lib/utils-inventory.ts:192-204 | when exactly one category is above zero, the chart is one full circle for it, labelled '100.0' with an empty path |
| Inventory.PieChartArcs | website/lib/utils-inventory.ts:206-231 | with no category above zero, or with at least two, every category gets its own arc, in order, carrying its name, count and colour |
| Inventory.PieChartExample | website/__tests__/utils/inventory.test.ts:35-44 | two equal categories give two arcs, the first for 食材 |
| SiteNumbers.JsRem | website/lib/functions.ts:9 | JavaScript's `%` by a positive divisor lies in `[0, d)` for a non-negative dividend and in `(-d, 0]` for a negative one |
| SiteNumbers.FormatDurationSpec | website/lib/functions.ts:7-12 | for a non-negative duration, `formatDuration` names the whole hours and the whole minutes left over, always both parts: "h小时m分钟" |
| SiteNumbers.FormatDurationNegative | website/lib/functions.ts:7-12 | below zero, `Math.floor` rounds both parts down while `%` keeps the sign: -30 s reads "-1小时-1分钟" |
| SiteNumbers.LeadingDigits | website/lib/functions.ts:116 | the digits `parseInt` reads are a leading run of ASCII digits, and the run stops at the first non-digit |
| SiteNumbers.JsParseIntDigits | website/lib/functions.ts:116 | `parseInt` reads a run of digits as its decimal value and ignores whatever follows a non-digit |
| SiteNumbers.JsParseIntUnsigned | website/lib/functions.ts:116 | text that starts with a digit reads as the value of its leading digits |
| SiteNumbers.TrimStartSpec | website/lib/functions.ts:116 | `parseInt` drops a prefix made only of JavaScript white space (WhiteSpace and LineTerminator), and what it keeps starts with another character |
| SiteNumbers.JsSpaceExamples | website/lib/functions.ts:116 | U+001C, white space to Python but not to JavaScript, makes `"\u001C5"` NaN, while U+FEFF is skipped and `"\uFEFF5"` reads 5 |
| SiteNumbers.JsParseIntNoDigits | website/lib/functions.ts:116 | text without any digit reads as NaN |
| SiteNumbers.StampFields | website/lib/functions.ts:114-116 | a time stamp's three fields are read with `parseInt`: the hours before the first ':', the minutes before the second, and the seconds up to the '.' |
| SiteNumbers.StampSecondsOf | website/lib/functions.ts:114-116 | a stamp written from whole hours, minutes and seconds reads back as `3600 * hours + 60 * minutes + seconds`, whatever its milliseconds |
| SiteNumbers.NumeralField | website/lib/functions.ts:116 | a written number holds neither ':' nor '.', and `parseInt` reads it back |
| SiteNumbers.StampSecondsThrows | website/lib/functions.ts:114-115 | a stamp with fewer than three ':'-separated parts leaves `seconds` undefined, and the code throws |
| SiteNumbers.EscapeCharSpec | website/lib/functions.ts:449-460 | exactly the five characters `<`, `>`, `&`, `"` and `'` are replaced, each by an entity from `&` to `;`; every other character is kept |
| SiteNumbers.EscapeRoundTrip | website/lib/functions.ts:449-460 | escaping loses nothing: reading the entities back gives the original text |
| SiteNumbers.UnescapeChar | website/lib/functions.ts:449-460 | an escaped character followed by any text reads back as that character followed by the rest read back |
| SiteNumbers.EscapedHasNoMarkup | website/lib/functions.ts:449-460 | no `<`, `>`, `"` or `'` survives escaping, and the text never gets shorter |
| SiteAnalysis.Select | website/lib/functions.ts:54-61 | the filtered item rows stay four parallel arrays of one length |
| SiteAnalysis.WhereSpec | website/lib/functions.ts:54-61 | the date or task filter keeps every row whose column holds the value, as often as it occurs, and no other row |
| SiteAnalysis.WhereAppend | website/lib/functions.ts:54-61 | one more row is kept at the end exactly when its column holds the value |
| SiteAnalysis.SelectRows | website/lib/functions.ts:54-61 | the pushing loop's rows are the filter of the rows it has visited, in order |
| SiteAnalysis.FilterRows | website/lib/functions.ts:54-61 | the `forEach` that pushes the rows whose date (or task) equals the value yields exactly those rows |
| SiteAnalysis.CountKeysSpec | website/lib/functions.ts:88-90 | counting `(counts[key] \|\| 0) + 1` gives each key once and never a zero; each key's count is how often it occurs, and the counts add up to the number of keys |
| SiteAnalysis.CountKeysShape | website/lib/functions.ts:88-90 | the counter has unique, positive entries that add up to the number of keys counted |
| SiteAnalysis.CountKeysGet | website/lib/functions.ts:88-90 | a key's count is its number of occurrences, and a key is present exactly when it occurs |
| SiteAnalysis.CountNames | website/lib/functions.ts:88-90 | the counting loop over the kept rows' names builds that counter |
| SiteAnalysis.SumDurations | website/lib/functions.ts:96 | the `reduce` over the recorded durations gives their sum |
| SiteAnalysis.SumDurationsOn | website/lib/functions.ts:98-102 | the `forEach` adding the durations recorded under a date gives the play time of that date |
| SiteAnalysis.ByDateSpec | website/lib/functions.ts:181-189 | the per-date duration series has each recorded date once, each holding exactly the play time recorded under it, and the series adds up to the whole play time |
| SiteAnalysis.DurationsByDate | website/lib/functions.ts:181-189 | the loop that builds `trendData[date]` from the duration arrays yields that series |
| SiteAnalysis.Times | website/lib/functions.ts:114-116 | every stamp has its reading, index by index |
| SiteAnalysis.SpanOf | website/lib/functions.ts:119-125 | a date's span, when there is one, is among the spans and belongs to that date |
| SiteAnalysis.ObserveSpec | website/lib/functions.ts:119-125 | folding a time in keeps one span per date, starts `{min: t, max: t}` for a new date, widens a known date's span with `Math.min`/`Math.max`, and leaves every other date alone |
| SiteAnalysis.ObserveAt | website/lib/functions.ts:119-125 | after folding a time in, every date's span is what `ObserveSpec` describes, for that date and for any other |
| SiteAnalysis.ObserveUnique | website/lib/functions.ts:119-125 | folding a time in keeps one span per date |
| SiteAnalysis.ObserveOrdered | website/lib/functions.ts:124-125 | folding a number in keeps every span numeric with its minimum at most its maximum |
| SiteAnalysis.ObserveCovers | website/lib/functions.ts:124-125 | folding a number in keeps every time already covered by its date's span covered |
| SiteAnalysis.SpansBounds | website/lib/functions.ts:110-126 | when every stamp reads as a number, the spans give each date once, each in order, and every kept row's time lies within its date's span |
| SiteAnalysis.SpansAttained | website/lib/functions.ts:110-126 | a date's minimum and maximum are each the time of some kept row on that date |
| SiteAnalysis.SpansAttainedLast | website/lib/functions.ts:110-126 | the same when the last row visited falls on that date |
| SiteAnalysis.SpansUnique | website/lib/functions.ts:110-126 | the spans give each date at most once |
| SiteAnalysis.SpanTotalNonNegative | website/lib/functions.ts:129-133 | with every span in order, the summed play time is a non-negative number |
| SiteAnalysis.SpansThrow | website/lib/functions.ts:114-115 | one kept stamp with fewer than three ':'-separated parts makes the whole computation throw |
| SiteAnalysis.SpansSome | website/lib/functions.ts:110-126 | the spans can be built exactly when every kept row's stamp has three parts |
| SiteAnalysis.CollectSpans | website/lib/functions.ts:110-126 | the `forEach` over the kept stamps yields the spans, or stops at the first TypeError |
| SiteAnalysis.FoldSpans | website/lib/functions.ts:110-126 | the loop folding times that were read up front yields the same spans |
| SiteAnalysis.TotalOfSpans | website/lib/functions.ts:129-133 | the loop `totalDuration += max - min` yields the summed play time of the spans |
| SiteAnalysis.MatchingDatesSize | website/lib/functions.ts:159-177 | one date per matching row |
| SiteAnalysis.MatchingDatesCount | website/lib/functions.ts:159-177 | a date occurs among the matching dates once for each matching row on that date |
| SiteAnalysis.OnDateStep | website/lib/functions.ts:169-177 | one more row adds one to its date's matching rows exactly when it matches |
| SiteAnalysis.MatchingDatesStep | website/lib/functions.ts:169-177 | one more row adds its date once to the matching dates exactly when it matches |
| SiteAnalysis.CountDates | website/lib/functions.ts:159-177 | the `forEach` counting one per matching row under its date builds the counter of the matching dates |
| SiteAnalysis.Filtered | website/lib/functions.ts:43-85 | the rows `calculateItemTrend` keeps stay four parallel arrays |
| SiteAnalysis.FilteredRows | website/lib/functions.ts:43-85 | the kept rows are those of the date (unless 'all'), then those of the selected task (unless 'all'), in order |
| SiteAnalysis.CalculateItemTrend | website/lib/functions.ts:28-147 | the method computes `calculateItemTrend`: the kept rows, their item counts and the formatted play time, or the TypeError of a bad stamp |
| SiteAnalysis.TotalDurationAll | website/lib/functions.ts:93-103 | with every task shown, the play time is the whole recorded play time ('all' dates) or the play time recorded under the date |
| SiteAnalysis.TotalDurationStamps | website/lib/functions.ts:104-134 | for one task the play time is missing exactly when a kept stamp has fewer than three parts, and it is a non-negative number when every stamp reads as one |
| SiteAnalysis.ItemTrendSpec | website/lib/functions.ts:28-147 | `calculateItemTrend` throws exactly when the play time comes from stamps and one of them is bad, always with the same TypeError; otherwise it counts every kept row's item once under its name |
| SiteAnalysis.CountPoints | website/lib/functions.ts:159-177 | a counter read as a series has one point per key, with the key's count |
| SiteAnalysis.SpanPoints | website/lib/functions.ts:220-222 | the spans read as a series have one point per date, `max - min` |
| SiteAnalysis.CountPointsLookup | website/lib/functions.ts:159-177 | the series answers, for a key, exactly what the counter holds, and nothing for a missing key |
| SiteAnalysis.CountPointsSum | website/lib/functions.ts:159-177 | the series adds up to the counter's total |
| SiteAnalysis.SpanPointsLookup | website/lib/functions.ts:220-222 | the spans series answers `max - min` of the date's span, and nothing for a date without one |
| SiteAnalysis.SpanPointsSum | website/lib/functions.ts:220-222 | the spans series adds up to the summed play time |
| SiteAnalysis.CalculateTrendData | website/lib/functions.ts:150-228 | the method computes `calculateTrendData` for both series kinds, or the TypeError of a bad stamp |
| SiteAnalysis.DateCounts | website/lib/functions.ts:159-177 | per date, the series counts the matching rows on it; all dates together count every matching row |
| SiteAnalysis.TrendItemsSpec | website/lib/functions.ts:156-178 | the 'totalItems' series counts, per date, the rows of the selected task (of every task for 'all'), and adds up to their number |
| SiteAnalysis.TrendDurationAllSpec | website/lib/functions.ts:181-189 | the 'duration' series for 'all' gives each recorded date its play time, and adds up to the whole play time |
| SiteAnalysis.TrendAgreesWithItemTrend | website/lib/functions.ts:95-102 | the play time of a date in the 'duration' series is the one `calculateItemTrend` formats for that date |
| SiteAnalysis.SpanSeries | website/lib/functions.ts:196-222 | when every kept stamp reads as a number, the series has a point exactly for the dates of the kept rows, each the latest minus the earliest time of that date's rows |
| SiteAnalysis.TrendDurationTaskSpec | website/lib/functions.ts:191-224 | the 'duration' series of one task throws exactly when one of its rows has a bad stamp; otherwise each date of the selected task has its latest minus earliest time |
| SiteAnalysis.TaskSpans | website/lib/functions.ts:196-222 | the same statement for any readings of the stamps |
| SiteAnalysis.SpansSnoc | website/lib/functions.ts:110-126 | one more row folds its time into the spans when it matches, keeps them when it does not, and throws on a bad stamp |
| SiteAnalysis.SpansSelect | website/lib/functions.ts:77-84 | spanning the rows the task-name filter kept is spanning the selected task's rows of the whole table |
| SiteAnalysis.TimesSelect | website/lib/functions.ts:77-84 | reading the kept rows' stamps gives the kept entries of the whole table's readings |
| SiteAnalysis.TrendSumsToItemTrend | website/lib/functions.ts:104-134 | for one task, the 'duration' series throws exactly when `calculateItemTrend` over all dates throws, and otherwise adds up to the play time that call formats |
| SiteAnalysis.CalculateAnItemTrend | website/lib/functions.ts:229-247 | the method computes `calculateAnItemTrend` |
| SiteAnalysis.AnItemTrendSpec | website/lib/functions.ts:229-247 | each date of the item's series counts its rows of the item (and of the selected task unless 'all'); the series adds up to all of them |
| Streaming.FromValueSpec | release/app/streaming/preview.py:41-51 | every backend is found again from its value, its values are exactly the modes the preview API accepts, and `None`, the empty text or any other value means no preview |
| Streaming.CreateEngineSpec | release/app/streaming/preview.py:248-253 | the manager builds a Sunshine engine exactly for the Sunshine mode, a discarding one otherwise |
| Streaming.DelaysSpec | release/app/streaming/preview.py:62-77 | a fresh or reset tracker answers nothing to its first timestamp, then every time the non-negative gap to the timestamp before |
| Streaming.DelaysTelescope | release/app/streaming/preview.py:68-74 | on timestamps that never go back, the delays add up to the time from the first to the last |
| Streaming.FrameDelayTracker.constructor | release/app/streaming/preview.py:65-66 | a new tracker has seen no timestamp |
| Streaming.FrameDelayTracker.Observe | release/app/streaming/preview.py:68-74 | the answer and the remembered timestamp are those of one observation from the old state |
| Streaming.FrameDelayTracker.Reset | release/app/streaming/preview.py:76-77 | the tracker forgets its timestamp |
| Streaming.AcquireSpec | release/app/streaming/preview.py:90-104 | the buffer has the requested shape, which becomes the resolution; on the same resolution a pooled buffer is reused before a new one is made; a new resolution empties the pool and makes a new buffer; the pool's bound is kept |
| Streaming.ReleaseSpec | release/app/streaming/preview.py:106-111 | a buffer of another shape than the resolution is dropped; otherwise it is pooled exactly when there is room; the bound is kept |
| Streaming.RunKeepsValid | release/app/streaming/preview.py:80-116 | whatever sequence of acquire, release and clear calls is made, the pool never holds more than its maximum nor a buffer of a stale shape |
| Streaming.FrameBufferPool.constructor | release/app/streaming/preview.py:83-88 | a new pool is empty, has no resolution and has made no buffer |
| Streaming.FrameBufferPool.Acquire | release/app/streaming/preview.py:94-104 | the pool's new state and the buffer handed out are those `AcquireSpec` describes |
| Streaming.FrameBufferPool.Release | release/app/streaming/preview.py:106-111 | the pool's new state is the one `ReleaseSpec` describes |
| Streaming.FrameBufferPool.Clear | release/app/streaming/preview.py:113-116 | the pool is emptied and forgets its resolution |
| Streaming.FrameKeepsSpaced | release/app/streaming/preview.py:173-200 | one frame only adds samples, which stay at least the sampling interval apart |
| Streaming.FramesSpec | release/app/streaming/preview.py:173-200 | frame after frame, samples are only added, always an interval apart, and an engine with no sample yet samples its very first frame |
| Streaming.SunshinePreviewEngine.constructor | release/app/streaming/preview.py:139-165 | a new engine has an empty pool, no buffer, no rebuild, no delay and no sample |
| Streaming.SunshinePreviewEngine.EnsureBuffer | release/app/streaming/preview.py:181-193 | the active buffer is kept when it has the frame's shape; otherwise it goes back to the pool, a buffer of the shape is acquired and one rebuild more is counted; the pool stays bounded |
| Streaming.SunshinePreviewEngine.MaybeSample | release/app/streaming/preview.py:195-200 | a sample is appended exactly at the first frame or once the interval has passed since the last sample |
| Streaming.SunshinePreviewEngine.HandleFrame | release/app/streaming/preview.py:173-179 | the frame's time is its own timestamp or the clock's; the engine then holds a buffer of the frame's shape, rebuilt exactly when the shape changed, and its timing is one more frame |
| Streaming.SunshinePreviewEngine.Stop | release/app/streaming/preview.py:227-234 | the buffer goes back, the pool is cleared, the delay and last sample are forgotten, the samples and rebuild count are kept |
| Streaming.SoakSamplesSpec | release/app/streaming/preview.py:256-290 | the soak test always has a frame, samples the first one at one interval with no delay, and keeps its samples at least the sampling interval apart |
| Streaming.DriveFrames | release/app/streaming/preview.py:283-287 | the driving loop hands the engine the frames one interval apart, whatever their shapes |
| Streaming.RunSoakTest | release/app/streaming/preview.py:256-290 | a non-positive frame interval or duration raises its own ValueError; otherwise the answer is the samples of the soak test |
| WindowFinder.BlacklistSpec | release/app/streaming/window_finder.py:45-65 | the stored names are lower-case and hold every given name (or every default one when none is given), lower-cased |
| WindowFinder.VisibleHandlesSpec | release/app/streaming/window_finder.py:94-97 | the handles collected are exactly those of the visible windows |
| WindowFinder.NamedSpec | release/app/streaming/window_finder.py:99-103 | a handle is yielded with a name exactly when its process name resolves to that non-empty text |
| WindowFinder.VisibleWindowsSpec | release/app/streaming/window_finder.py:89-105 | what is yielded is exactly the visible windows whose process name resolves to a non-empty text, each with its name |
| WindowFinder.FirstHandleSpec | release/app/streaming/window_finder.py:67-76 | the answer is the handle of the first window with the name, and 0 when none has it |
| WindowFinder.IsCandidateSpec | release/app/streaming/window_finder.py:138-150 | a candidate is an `.exe`, not blacklisted, not a Windows or Microsoft component; past those tests, an empty rectangle excludes it and a failed rectangle lookup keeps it |
| WindowFinder.CandidateNamesSpec | release/app/streaming/window_finder.py:78-87 | a name is appended exactly when some window with that name is a candidate |
| WindowFinder.SortedUniqueSpec | release/app/streaming/window_finder.py:85 | the answer is ascending, without duplicates, and holds exactly the given names |
| WindowFinder.Finder.constructor | release/app/streaming/window_finder.py:45-65 | the finder stores the blacklist built from its argument and the window system it queries |
| WindowFinder.Finder.IterVisibleWindows | release/app/streaming/window_finder.py:89-105 | the loops yield exactly the visible named windows, in order |
| WindowFinder.Finder.Find | release/app/streaming/window_finder.py:67-76 | the loop answers the first visible window whose process name is the lower-cased query, 0 if none |
| WindowFinder.Finder.ListVisiblePrograms | release/app/streaming/window_finder.py:78-87 | the answer is sorted, without duplicates, and holds exactly the names of the visible candidate windows |
| Programs.ListProgramsSpec | release/app/streaming/programs.py:15-20 | without an allowlist the finder's names come back unchanged; with one, a name is kept exactly when its lower-case form is allowed; either way the finder's order is kept |
| Programs.ListProgramsMembers | release/app/streaming/programs.py:17-20 | with an allowlist, a name is kept exactly when its lower-case form is among the lower-cased allowed names |
| Programs.ListProgramsOrder | release/app/streaming/programs.py:15-20 | the answer keeps the finder's names in their order, leaving some out |
| Programs.ListWithDesktop | release/app/streaming/programs.py:22-24 | the answer is the listed programs followed by the desktop label |
| Durations.FormatShape | server/app.py:27-51 | the minutes part is always below 60; the text has both parts, only the hours, only the minutes, or is "0分钟", exactly according to which of the two counts is positive |
| Durations.FormatBelowMinute | server/app.py:37-51 | less than a minute reads as "0分钟" |
| Durations.ParseDuration | server/app.py:54-70 | the hours and minutes read are never negative |
| Durations.ParseBothParts | server/app.py:64-67 | a text with both parts gives back both numbers |
| Durations.ParseDigitParts | server/app.py:64-67 | two digit runs around "小时" and before "分钟" give back their decimal values, leading zeros included |
| Durations.ParseMinutesOnly | server/app.py:64-70 | a text with only the minutes does not match the pattern and reads as (0, 0) |
| Durations.ParseHoursOnly | server/app.py:64-70 | a text with only the hours does not match the pattern and reads as (0, 0) |
| Durations.FormatThenParse | server/app.py:27-70 | reading back a formatted duration recovers its hours and minutes exactly when both are positive, and (0, 0) otherwise |
| Durations.FormatOnePartExamples | server/app.py:27-51 | 1800 s is "30分钟", 7200 s is "2小时", 65 s is "1分钟" |
| Durations.FormatTwoPartExamples | server/app.py:27-51 | 5430 s is "1小时30分钟", 3780 s is "1小时3分钟" |
| LogLines.RenderLineShape | release/app/infrastructure/manager.py:20-21 | a well-formed entry is written as a line that opens with `[` and ends in a newline, with no newline in its header and neither a newline nor a `[` in its detail line |
| LogLines.RenderLineNoInnerBoundary | release/app/infrastructure/manager.py:20-21 | no newline directly followed by `[` occurs inside a written entry, so the next entry starts only after it |
| LogLines.RenderAppend | release/app/infrastructure/manager.py:20-21 | writing two runs of entries one after the other writes their texts one after the other |
| Strings.IndexOf | release/app/infrastructure/manager.py:88 | the first place where the text occurs, found exactly when it occurs |
| Strings.Strip | release/app/infrastructure/manager.py:85 | `str.strip()` never lengthens, leaves no white space at either end, and keeps a text with none there |
| Strings.StripChar | release/app/infrastructure/manager.py:115 | `strip('"')` leaves no quote at either end and keeps a text without one |
| Strings.Split | release/app/infrastructure/manager.py:115 | `str.split(sep)` always gives a part, no part holds the separator, and a text without it gives itself |
| Strings.SplitConcat | release/app/infrastructure/utils.py:133 | a text cut at its first separator splits into its head and the split of the rest |
| Strings.Lower | release/app/streaming/programs.py:19-20 | `lower()` keeps the length and lower-cases each character |
| Strings.LowerIdempotent | release/app/streaming/programs.py:19-20 | lower-casing twice is lower-casing once |
| Strings.LessTrans | release/app/infrastructure/manager.py:308 | the string order `sorted` uses is transitive |
| Strings.LessTotal | release/app/infrastructure/manager.py:308 | any two different strings are ordered one way or the other |
| Strings.InsertDesc | release/app/infrastructure/manager.py:308 | inserting into a descending list keeps it descending and adds exactly the new text |
| Strings.SortDesc | release/app/infrastructure/manager.py:308 | `sorted(..., reverse=True)` gives a descending permutation of its input |
| Strings.SortAsc | server/app.py:250 | `sorted(...)` gives an ascending permutation of its input |
| Strings.SortDescDistinct | release/app/infrastructure/manager.py:308 | sorting distinct keys keeps them distinct and all there |
| Strings.NatToStringValue | server/app.py:45-48 | the decimal text written for a number reads back as that number |
| Tallies.IncSpec | release/app/infrastructure/manager.py:116 | `d[k] = d.get(k, 0) + 1` keeps one entry per key, adds one to that key's count and to the total, leaves every other key alone, and appends the key only when it is new |
| Tallies.IncGet | release/app/infrastructure/manager.py:116 | after counting a key once more, its count is one higher and every other count is unchanged |
| Tallies.IncTotal | release/app/infrastructure/manager.py:116 | counting a key once more adds one to the counter's total |
| Tallies.IncPositive | release/app/infrastructure/manager.py:116 | counting keeps every count positive |
| Tallies.TotalNonNegative | release/app/infrastructure/manager.py:116 | with every count positive, the total is at least the number of keys |
| Tallies.Remove | release/app/infrastructure/manager.py:209 | `del d[k]` leaves no entry for the key and adds none |
| Tallies.GetRemove | release/app/infrastructure/manager.py:207-209 | after `del`, the removed key counts 0 and every other key keeps its count |
| Tallies.RemoveAbsent | release/app/infrastructure/manager.py:208 | deleting a key that is not there (the `in` guard) changes nothing |
| Tallies.AddToSpec | server/incremental_parser.py:120 | `d[k] += v` on a defaultdict adds `v` to that key only, adds `v` to the total, and the keys become the old ones plus `k` |
| Tallies.MergeSpec | server/app.py:324-325 | adding one counter into another adds every key's count and the totals |
| Tallies.IncAllSpec | server/analyse.py:18-21 | counting a list of names adds their number to the total and every name becomes a key |
| Tallies.IncAllGet | server/analyse.py:18-21 | each key's count grows by its number of occurrences among the names |
| Tallies.IncAllKeys | server/analyse.py:18-21 | the keys end in first-seen order: the old keys, then each new name where it first appears |
| Tallies.FirstSeenSpec | server/analyse.py:18-21 | first-seen order holds each key once and exactly the keys seen |
| EntryScan.HeaderDetails | release/app/infrastructure/manager.py:85-88 | a leading `[...] ` tag is cut off the stripped header text, which is otherwise kept: the result is a suffix of it |
| EntryScan.TaskBegin | release/app/infrastructure/manager.py:98-100 | a group name, when found, holds no quote and sits between the begin marker's prefix and its middle part at the start of the text |
| EntryScan.NextTask | release/app/infrastructure/manager.py:98-103 | with no begin marker and no current group, there is still no group |
| EntryScan.GroupOf | release/app/infrastructure/manager.py:125 | an item's group is never the empty text: an empty group name counts as none |
| EntryScan.ItemName | release/app/infrastructure/manager.py:115 | a name is found exactly when the text has a full-width colon, i.e. when `split('：')[1]` does not raise |
| EntryScan.Collect | release/app/infrastructure/manager.py:114-128 | collecting a pickup counts its name once more and leaves the group and the segments alone |
| EntryScan.View | release/app/infrastructure/manager.py:82-107 | an entry's text is its details, its time the matched time, and its reading the parsed timestamp |
| EntryScan.Views | release/app/infrastructure/manager.py:81-107 | the entries read are the matches read one by one, in order |
| EntryScan.CollectPickup | release/app/infrastructure/manager.py:114-128 | the method updating the counter, the item list and the dedup list does what `Collect` describes |
| EntryScan.Visit | release/app/infrastructure/manager.py:82-140 | one loop iteration does one step of the walk |
| EntryScan.ScanEntries | release/app/infrastructure/manager.py:81-140 | the `for match in matches` loop yields the walk over all entries |
| EntryScan.StepRaises | release/app/infrastructure/manager.py:114-115 | an entry raises exactly when it is a kept pickup without a full-width colon, and then the dedup list is left as it was |
| EntryScan.StepEffect | release/app/infrastructure/manager.py:93-140 | after one entry, the segments take its time exactly when it is kept, the group moves unless a forbidden keyword skipped it, and the total grows by one exactly for a kept pickup |
| EntryScan.ScanRaisesIff | release/app/infrastructure/manager.py:81-140 | the walk raises exactly when some entry is a kept pickup without a colon |
| EntryScan.ScanTimes | release/app/infrastructure/manager.py:130-140 | the segment tracker ends having seen exactly the times of the kept entries, in order |
| EntryScan.ScanTotal | release/app/infrastructure/manager.py:114-116 | the item counts add up to the number of kept pickups |
| EntryScan.ScanTask | release/app/infrastructure/manager.py:93-103 | the group at the end is the one the begin and end markers lead to, timestamp or not |
| EntryScan.StartSound | release/app/infrastructure/manager.py:72-73 | the walk starts sound from any duplicate-free dedup list |
| EntryScan.IncSound | release/app/infrastructure/manager.py:116 | counting an allowed name keeps the counter sound, adds one to its total and makes the name a key |
| EntryScan.CollectSound | release/app/infrastructure/manager.py:114-128 | collecting an allowed pickup keeps the walk sound |
| EntryScan.ItemNameAllowed | release/app/infrastructure/manager.py:94-115 | a name cut from a text without a forbidden keyword has none either |
| EntryScan.StepSound | release/app/infrastructure/manager.py:81-140 | every step keeps the walk sound: counts unique, positive and free of forbidden names; the dedup list duplicate-free and grown by one key per recorded item; items of this date and counted |
| EntryScan.ScanCounts | release/app/infrastructure/manager.py:114-128 | whether the walk finishes and the counts it ends with do not depend on the dedup list or the segments |
| EntryScan.ScanSound | release/app/infrastructure/manager.py:81-140 | the whole walk ends sound, and when it raises, the dedup list has only grown and stays duplicate-free |
| EntryScan.ScanGrows | release/app/infrastructure/manager.py:113-127 | the walk only appends keys to the dedup list, whether it finishes or raises |
| EntryScan.StepRepeat | release/app/infrastructure/manager.py:113-127 | one entry against a dedup list already holding the keys it would add: the same outcome, counts, group and segments, no item recorded, the dedup list unchanged |
| EntryScan.ScanRepeat | release/app/infrastructure/manager.py:81-140 | the walk repeated against a dedup list holding every key the first walk left: the same finish or raise, counts, group and segments, no item recorded, the dedup list unchanged |
| EntryScan.DropForbiddenKeeps | release/app/infrastructure/manager.py:205-209 | deleting the forbidden names from a finished counter changes nothing, since none was counted |
| EntryScan.TaskBeginOf | release/app/infrastructure/manager.py:98-100 | a begin line of a quote-free group name and a digit count gives back that name |
| EntryScan.BeginLineNoEnd | release/app/infrastructure/manager.py:102 | a begin line never holds its group's end marker |
| EntryScan.BeginSetsTask | release/app/infrastructure/manager.py:98-103 | a begin line sets the group, whatever the group was |
| EntryScan.BadTimestampSetsTask | release/app/infrastructure/manager.py:97-111 | a begin line with an unreadable timestamp still sets the group, and changes nothing else |
| FramedPattern.EntryAt | release/app/infrastructure/manager.py:20-21 | a match of the pattern body starts at a `[` and ends just after a newline, inside the text |
| FramedPattern.FirstLine | release/app/infrastructure/manager.py:20 | `FIRST_LINE_PATTERN.match` succeeds exactly when the pattern body matches at the very start |
| FramedPattern.LogAt | release/app/infrastructure/manager.py:21 | a `LOG_PATTERN` match tried at a newline opens just after it, at an entry boundary |
| FramedPattern.Tokens | release/app/infrastructure/manager.py:67-70 | the matches are the `findall` ones, preceded by the first-line match when there is one |
| FramedPattern.FindAllSound | release/app/infrastructure/manager.py:21 | `findall` reports only places where the pattern matches, left to right, without overlap |
| FramedPattern.SkipNoMatch | release/app/infrastructure/manager.py:21 | `findall` skips the places where nothing matches |
| FramedPattern.EntryAtLine | release/app/infrastructure/manager.py:20-21 | a written entry followed by the end of the text or another entry is matched whole, with its own groups |
| FramedPattern.GroupsOfLine | release/app/infrastructure/manager.py:20-21 | the four groups of a matched written entry are its time, level, header text and detail line |
| FramedPattern.FindAllLaidOut | release/app/infrastructure/manager.py:21 | over written entries, `findall` matches every second entry after the first: the newline ending one match cannot start the next |
| FramedPattern.AlternateChain | release/app/infrastructure/manager.py:21 | a search that alternately skips an entry and matches the next one yields every second entry |
| FramedPattern.FindAllPair | release/app/infrastructure/manager.py:21 | from one entry's start, the search skips it and matches the entry after it, or finds nothing past the last one |
| FramedPattern.LayoutGroups | release/app/infrastructure/manager.py:20-21 | each written entry's match carries that entry's groups |
| FramedPattern.AlternateGroups | release/app/infrastructure/manager.py:21 | the groups of the alternate matches are those of every second entry |
| FramedPattern.TokensOfRendered | release/app/infrastructure/manager.py:67-70 | the manager reads, from a log of well-formed entries, the first entry and then every second one |
| FramedPattern.ThirdEntryLost | release/app/infrastructure/manager.py:67-70 | of three entries the manager reads the first two only, and loses the third |
| OpenPattern.OpenAt | release/log_parser.py:29 | a match starts at a `[` and lies inside the text |
| OpenPattern.OpenTokens | release/log_parser.py:29-30 | one group tuple per `findall` match |
| OpenPattern.FindAllOpenSound | release/log_parser.py:30 | `findall` reports only places where the pattern matches, left to right, without overlap |
| OpenPattern.OpenAtLine | release/log_parser.py:29 | a written entry followed by the end of the text or another entry is matched whole |
| OpenPattern.OpenGroupsOfLine | release/log_parser.py:29 | the groups of a matched written entry are its time, level, header text and detail line |
| OpenPattern.OpenStep | release/log_parser.py:30 | from one entry's start, `findall` matches that entry and goes on from the next one |
| OpenPattern.FindAllOpenLaidOut | release/log_parser.py:30 | over written entries, `findall` matches every entry, in order |
| OpenPattern.LineGroups | release/log_parser.py:29-30 | the groups of those matches are the entries' own groups |
| OpenPattern.OpenTokensOfRendered | release/log_parser.py:29-30 | the single-file parsers read every entry of a log of well-formed entries, in order |
| OpenPattern.ThirdEntryKept | release/log_parser.py:29-30 | of three entries the single-file parsers read all three |
| Layouts.RenderLayout | release/app/infrastructure/manager.py:20-21 | a log written from well-formed entries lays them out one after the other, each starting at a `[` and ending in a newline |
| Layouts.LayoutLine | release/app/infrastructure/manager.py:20-21 | each laid-out entry starts at a `[`, ends with a newline, and is followed by the end of the text or another `[` |
| Layouts.NoBoundaryInEntry | release/app/infrastructure/manager.py:21 | inside a laid-out entry, no newline is followed by `[`, so `LOG_PATTERN` cannot start there |
| Layouts.LayoutCons | release/app/infrastructure/manager.py:20-21 | one well-formed entry written before a laid-out log gives a laid-out log |
| GapParser.Tick | mini/app.py:117-138 | after a time, a stretch is open and ends at that time, and the duration never shrinks |
| GapParser.TicksBounded | mini/app.py:117-143 | on times that never go back, the stretch stays bounded by the first time and ends at the last one |
| GapParser.GapDurationBounds | mini/app.py:117-143 | on times that never go back, the duration is non-negative and at most the time from the first entry to the last |
| GapParser.TwoRunsExample | mini/app.py:117-143 | two runs ten minutes apart count 780 s here (the ten-minute pause is added), where the manager counts 300 s |
| GapParser.ThreeRunsExample | mini/app.py:117-143 | three runs with two long pauses count 870 s |
| GapParser.PauseAddedExample | mini/app.py:124-143 | a pause of more than five minutes is added to the duration, not left out |
| GapParser.BackwardStretch | mini/app.py:141-143 | a clock that goes back inside the last stretch makes the duration negative |
| GapParser.View | mini/app.py:83-93 | an entry's text is its stripped detail line, its time the matched time, and its reading the `strptime` result |
| GapParser.StepRaises | mini/app.py:89-100 | one entry raises exactly when it passes the keyword filter and its time does not parse, or it is a pickup without a full-width colon |
| GapParser.ScanSpec | mini/app.py:82-143 | the step-by-step walk agrees with the closed description of what it computes |
| GapParser.NewRowsBound | mini/app.py:104-115 | at most one new row per pickup; every new row is of this date, counted, and absent from the global item table |
| GapParser.GapParseSpec | mini/app.py:53-153 | `parse_log` raises exactly when some entry raises; otherwise it counts every pickup once under its name, its duration is the pause rule's, and its rows are the pickups the global table did not hold |
| GapParser.GapParseFrameFree | mini/app.py:53-153 | whether `parse_log` raises, its counts and its duration do not depend on the global item table |
| GapParser.NewRowsEmptyFrame | mini/app.py:104-115 | with an empty global table, every pickup becomes a new row, in order |
| GapParser.NewRowsCovered | mini/app.py:104-115 | when the table holds every pickup row already, nothing new is recorded |
| GapParser.DuplicateRecordedTwice | mini/app.py:104-115 | the same pickup twice in one file is recorded twice, since only the global table is searched |
| GapParser.ReadLogFrameFree | mini/app.py:156-174 | whether a file is read, its counts and its duration do not depend on the global item table |
| GapParser.GapListLogsSpec | mini/app.py:177-223 | exactly the readable files with an item are listed; one duration per listed file, of that file; every row collected is of a listed date and new to the table |
| GapParser.FirstCallRecordsAll | mini/app.py:177-223 | with an empty global table, every pickup of every listed file is collected |
| GapParser.CoveredFile | mini/app.py:199-219 | a file whose pickups the table already holds is listed as before, with the same duration and no new row |
| GapParser.CoveredCall | mini/app.py:177-223 | when the table holds every pickup, the listing and durations are unchanged and no row is collected |
| GapParser.Alternation | mini/app.py:177-223 | since each call replaces the global table with the rows it collected, a second call collects nothing and a third one is the first again |
| GapParser.Advance | mini/app.py:117-138 | the method updating the stretch does one `Tick` |
| GapParser.Visit | mini/app.py:83-138 | one loop iteration does one step of the walk |
| GapParser.GapLogParser.constructor | mini/app.py:21-23 | the global item and duration tables start empty and the list cache unset |
| GapParser.GapLogParser.ParseLog | mini/app.py:53-153 | the loop over the matches yields `parse_log` of the text against the global table |
| GapParser.GapLogParser.ReadLogFile | mini/app.py:156-174 | reading a file yields its parse, or the error result when it is missing |
| GapParser.GapLogParser.GetLogList | mini/app.py:177-223 | the method lists the files with items and replaces both global tables with what it collected |
| GapParser.GapLogParser.LogList | mini/app.py:244-255 | a non-empty cached list is answered unchanged; otherwise the list is rebuilt, sorted newest first, and cached |
| Incremental.Classify | server/incremental_parser.py:104-129 | a line opens a run exactly when the start pattern occurs in it; a product line carries the first product match found; an end line has neither |
| Incremental.DaysInYear | server/incremental_parser.py:41 | a year has 366 days when it is a leap year and 365 otherwise |
| Incremental.NextDateOrdinal | server/incremental_parser.py:41 | the day after a valid date is valid and one day further in the calendar count |
| Incremental.DayText | server/incremental_parser.py:40 | the day `%d` reads, followed only by white space, lies between 1 and 31 |
| Incremental.DateFields | server/incremental_parser.py:40 | a date part `%Y%m%d` reads has a month from 1 to 12 and a day from 1 to 31 |
| Incremental.EightDigitDate | server/incremental_parser.py:40 | an eight-digit `YYYYMMDD` date part with a month and a day in range reads as those three numbers |
| Incremental.OneDigitMonth | server/incremental_parser.py:40 | `2025430` reads as 2025-04-30, a valid date |
| Incremental.TwoDigitMonthFirst | server/incremental_parser.py:40 | where a two-digit and a one-digit month both fit, as in `2025111`, the two-digit month is taken: 2025-11-01 |
| Incremental.StampOf | server/incremental_parser.py:36-42 | a line has no time exactly when the bracketed timestamp pattern does not occur in it |
| Incremental.AcrossMidnight | server/incremental_parser.py:41-47 | a run closed on the next day's file lasts a whole day plus the difference of the two times |
| Incremental.Flush | server/incremental_parser.py:45-50 | a closed run's record keeps its id, group and products, ends at the end time, and lasts from its start to its end |
| Incremental.StartRule | server/incremental_parser.py:104-114 | a start line (re)opens its run with no products and its start time, which is missing when the line has no timestamp, and leaves every other open run alone |
| Incremental.ProductRule | server/incremental_parser.py:116-121 | a product line of an open run adds its count to that product of that run only |
| Incremental.AddToRunSpec | server/incremental_parser.py:120 | `products[name] += count` adds the count to one product of one run and changes nothing else |
| Incremental.IgnoredRule | server/incremental_parser.py:116-129 | a line that opens nothing, or names a run that is not open, changes nothing |
| Incremental.EndRule | server/incremental_parser.py:123-128 | an end line of an open run closes it and appends its record, lasting from its start to the line's time; it raises when either time is missing |
| Incremental.LinesConcat | server/incremental_parser.py:103 | the lines read join back into the unread text, each ending at its first newline |
| Incremental.EndOffset | server/incremental_parser.py:131 | the stored offset is past the end of the text and never goes back |
| Incremental.WalkFilesOffsets | server/incremental_parser.py:94-131 | after a pass, every log file was read to its end and every other stored offset is kept |
| Incremental.QuietWalk | server/incremental_parser.py:94-131 | a pass over files already read to their end changes nothing and appends no record |
| Incremental.RerunQuiet | server/incremental_parser.py:79-143 | running the parser again right after a pass appends nothing and keeps the saved state |
| Incremental.AddRunGroups | server/incremental_parser.py:65-69 | adding a run adds its group at the end when it is new and counts one more run |
| Incremental.AddRunFind | server/incremental_parser.py:65-69 | adding a run adds one run, its duration and its products to its own group's totals and to no other group |
| Incremental.TallySpec | server/incremental_parser.py:56-69 | the summary has each group once, counts every record once, and gives each group its number of runs, summed duration and summed products |
| Incremental.TruncDiv | server/incremental_parser.py:75-76 | `int()` of a quotient truncates towards zero, for either sign |
| Incremental.RowOf | server/incremental_parser.py:74-76 | a summary row gives the group, the run count, the whole seconds of the total and the product count; the average is the truncated total over the run count |
| Incremental.Summary | server/incremental_parser.py:56-76 | one summary row per group |
| Incremental.ApplyLine | server/incremental_parser.py:104-129 | one loop iteration applies the rules to one line |
| Incremental.ScanFile | server/incremental_parser.py:101-131 | reading a file from its offset walks its unread lines and answers the end offset |
| Incremental.ScanLines | server/incremental_parser.py:103-129 | the `for line in f` loop walks the lines in order, stopping at a line that raises |
| Incremental.ReadFile | server/incremental_parser.py:95-131 | a file is skipped unless it is a log file, and is otherwise read from its stored offset |
| Incremental.PassFiles | server/incremental_parser.py:94-131 | the loop over the sorted directory walks the files in order |
| Incremental.RunTracker.constructor | server/incremental_parser.py:24-28 | with no state file, no offsets and no open runs are known |
| Incremental.RunTracker.ParseLogs | server/incremental_parser.py:79-143 | a pass appends the records it closed; when it finishes, the offsets and open runs are saved and the summary is computed from all records; when it raises, the saved state is kept |
| Incremental.RunTracker.WriteSummary | server/incremental_parser.py:56-76 | the summary written is the one of all records |
| Manager.FileDates | release/app/infrastructure/manager.py:185-187 | at most one date per directory entry |
| Manager.RemoveSuffixOfDigits | release/app/infrastructure/manager.py:185 | removing ".log" from a digit date followed by ".log" gives back the date |
| Manager.DateOfFileName | release/app/infrastructure/manager.py:185 | the date cut out of a log file's name is the date it was named after |
| Manager.FileDatesListed | release/app/infrastructure/manager.py:185-187 | a log file named after a date puts that date in the list |
| Manager.FileDatesFrom | release/app/infrastructure/manager.py:185-187 | every date listed comes from an entry named like a BetterGI log |
| Manager.Pending | release/app/infrastructure/manager.py:193-196 | a date is pending exactly when it is listed, not stored, and not today |
| Manager.PendingMembers | release/app/infrastructure/manager.py:190-196 | which dates are pending depends only on which dates are stored, not on their order |
| Manager.FilesToProcess | release/app/infrastructure/manager.py:193-196 | the loop collecting the pending dates yields exactly those |
| Manager.ParseSpec | release/app/infrastructure/manager.py:55-153 | `parse_log` raises exactly when some entry is a kept pickup without a colon; otherwise its counts are sound with no forbidden name, add up to the kept pickups, its duration is the segment rule's, and each item recorded is of this date, counted, and added once to the dedup list |
| Manager.ReadLogCacheFree | release/app/infrastructure/manager.py:155-175 | whether a file reads and the counts it gives do not depend on the dedup list |
| Manager.ReadLogGrows | release/app/infrastructure/manager.py:155-175 | a read only appends to the dedup list |
| Manager.ReadLogRepeat | release/app/infrastructure/manager.py:155-175 | a file read again under a dedup list holding every key the first read left gives the same outcome, counts and duration, no item, and leaves that list unchanged |
| Manager.ToStored | release/app/infrastructure/manager.py:214-221 | each item is stored with its name, time and group, in order |
| Manager.InsertDates | release/app/infrastructure/manager.py:222 | inserting a day's data adds that day to the stored dates and keeps the others |
| Manager.IngestDates | release/app/infrastructure/manager.py:199-222 | after the pending days are processed, the stored dates are the old ones plus each processed date whose log has items (unless the store fails), each once |
| Manager.HistoryDates | release/app/infrastructure/manager.py:177-228 | after `_get_historical_data`, the stored dates are the old ones plus the listed past days with items; today is never stored; only days without items stay pending |
| Manager.IngestNoInsert | release/app/infrastructure/manager.py:198-222 | a pass over days none of which the store would take leaves the tables unchanged |
| Manager.HistoryTwice | release/app/infrastructure/manager.py:177-228 | a second `_get_historical_data`, under any dedup list, stores nothing new |
| Manager.RefreshTwice | release/app/infrastructure/manager.py:261-319 | a second `get_log_list` over the tables the first left, under any dedup list, builds the same durations and item lists |
| Manager.TodayDataSpec | release/app/infrastructure/manager.py:230-259 | today's data is empty unless today's log reads and has items, in which case its items are that log's, all of today, read on a cleared dedup list |
| Manager.SetDurationAt | release/app/infrastructure/manager.py:298 | setting a day's duration changes that day's only |
| Manager.SetDurationDistinct | release/app/infrastructure/manager.py:298 | setting a day's duration keeps one entry per day |
| Manager.Columns | release/app/infrastructure/manager.py:285-290 | the four item lists hold each item's name, time, date and group text at the same index |
| Manager.PrependItemsSpec | release/app/infrastructure/manager.py:301-305 | inserting today's items one by one at the front puts them before the history in reverse order, in all four lists alike |
| Manager.PrependEach | release/app/infrastructure/manager.py:301-305 | the `insert(0, ...)` loop yields those four lists |
| Manager.MergeToday | release/app/infrastructure/manager.py:292-317 | the method merging today's data into the history yields the merged listing |
| Manager.MergeSpec | release/app/infrastructure/manager.py:292-319 | today is listed exactly when the history has it or today has a positive duration and items, with today's duration then; every other day keeps its history; the log list is the days in descending order, each once |
| Manager.DurationsAlong | release/app/infrastructure/manager.py:333-339 | the durations are read along the dates, index by index |
| Manager.LogDataManager.constructor | release/app/infrastructure/manager.py:31-53 | a new manager has an empty dedup list, empty data, no log list, and opens the store |
| Manager.LogDataManager.ParseLog | release/app/infrastructure/manager.py:55-153 | the parse and the grown dedup list are `ParseSpec`'s, and nothing else changes |
| Manager.LogDataManager.ReadLogFile | release/app/infrastructure/manager.py:155-175 | a missing or unreadable file gives `None`; otherwise the file's parse |
| Manager.LogDataManager.GetHistoricalData | release/app/infrastructure/manager.py:177-228 | the store and dedup list end as `HistoryDates` describes, and the answer is the stored durations and items without today, or nothing when the store fails |
| Manager.LogDataManager.IngestAll | release/app/infrastructure/manager.py:199-222 | the loop over the pending days processes them in order |
| Manager.LogDataManager.IngestOne | release/app/infrastructure/manager.py:200-222 | one day is read and, when it has items, stored with its duration and items |
| Manager.LogDataManager.GetTodayData | release/app/infrastructure/manager.py:230-259 | the dedup list is cleared before today's log is read; the answer is `TodayDataSpec`'s |
| Manager.LogDataManager.GetLogList | release/app/infrastructure/manager.py:261-319 | the store takes the new past days, the data become the history merged with today (the one refresh `RefreshTwice` is about), and the log list is cached and answered |
| Manager.LogDataManager.GetDurationData | release/app/infrastructure/manager.py:321-341 | the list is refreshed first, as `GetLogList` states; the answer is the dates newest first, each with its duration |
| Manager.LogDataManager.GetItemData | release/app/infrastructure/manager.py:343-353 | the list is refreshed first, as `GetLogList` states; the answer is the item lists it built |
| LegacyManager.ListLogsSpec | release/app/infrastructure/db.py:162-215 | exactly the listed dates whose log reads and has items are listed, whatever the dedup list; one duration per listed day; the four item lists stay parallel and every item carries a listed day; the dedup list only grows |
| LegacyManager.ListLogsOrder | release/app/infrastructure/db.py:189-215 | the log list is the listable dates in listing order, whatever the dedup list |
| LegacyManager.ListLogsRepeat | release/app/infrastructure/db.py:162-215 | the loop run again under a dedup list holding every key the first run left lists the same days with the same durations, records no item and leaves that list unchanged |
| LegacyManager.ListLogsTwice | release/app/infrastructure/db.py:162-215 | a second `get_log_list` over the same files lists the same days in the same order with the same durations, and its item lists are empty, every pickup being in the dedup list already |
| LegacyManager.ReadLogFacts | release/app/infrastructure/db.py:140-160 | reading a file only grows the dedup list, which stays duplicate-free; the file counts exactly when it is listable; its items carry its date |
| LegacyManager.AppendedDates | release/app/infrastructure/db.py:206-210 | appending a day's items keeps every item's date among the listed days |
| LegacyManager.AppendLoop | release/app/infrastructure/db.py:206-210 | the appending loop adds each item's name, time, date and group text at the end of the four lists |
| LegacyManager.LegacyLogDataManager.constructor | release/app/infrastructure/db.py:29-44 | a new manager has an empty dedup list, empty data and no log list |
| LegacyManager.LegacyLogDataManager.ParseLog | release/app/infrastructure/db.py:46-138 | the parse reads each entry's details from its detail line alone and grows the dedup list; nothing else changes |
| LegacyManager.LegacyLogDataManager.ReadLogFile | release/app/infrastructure/db.py:140-160 | a missing or unreadable file gives `None`; otherwise the file's parse |
| LegacyManager.LegacyLogDataManager.GetLogList | release/app/infrastructure/db.py:162-215 | the log list, durations and item lists are rebuilt from all listed files under the dedup list, which is never cleared |
| LegacyManager.LegacyLogDataManager.GetDurationData | release/app/infrastructure/db.py:217-226 | a non-empty log list is answered from what is kept, otherwise the list is rebuilt first; the answer is the dates and their durations |
| LegacyManager.LegacyLogDataManager.GetItemData | release/app/infrastructure/db.py:228-237 | the same rule, answering the item lists |
| Database.OtherDays | release/app/infrastructure/database.py:132-135 | the rows left after `INSERT OR REPLACE` drops a date's row are exactly the other dates' rows |
| Database.ItemsOff | release/app/infrastructure/database.py:138 | `DELETE FROM items WHERE date_str = ?` keeps exactly the other dates' items |
| Database.ItemsOn | release/app/infrastructure/database.py:189-198 | a `WHERE date_str` selection holds exactly the items of that date |
| Database.RowsFor | release/app/infrastructure/database.py:141-149 | one stored row per given item, all of the date |
| Database.InsertRow | release/app/infrastructure/database.py:132-135 | after an insert, the date's row is the last, with its duration and item count, and appears once; other dates' rows are kept; one row per date is kept |
| Database.InsertItems | release/app/infrastructure/database.py:137-149 | after an insert, the date's items are exactly the given ones and every other date's items are kept |
| Database.InsertIdempotent | release/app/infrastructure/database.py:115-157 | inserting the same day's data twice is inserting it once |
| Database.DeleteEffect | release/app/infrastructure/database.py:311-337 | deleting a date removes its row and items and keeps every other date's; one row per date is kept |
| Database.DurationsOfSpec | release/app/infrastructure/database.py:175-205 | the durations answered are exactly the stored rows', today left out when asked |
| Database.Column | release/app/infrastructure/database.py:238-248 | a date's item lists have one entry per item of that date |
| Database.GroupedSpec | release/app/infrastructure/database.py:236-250 | grouping by date gives each date once, and each date's lists hold exactly its items, in stored order |
| Database.PostOf | release/app/infrastructure/database.py:349-378 | a payload is saved exactly when it carries an event, with the next id, the current time and that event |
| Database.Recent | release/app/infrastructure/database.py:396-409 | the clean-up keeps exactly the posts created at or after the cut-off |
| Database.InsertByTime | release/app/infrastructure/database.py:440-445 | inserting a post keeps the newest-first order and adds exactly that post |
| Database.ByTimeDesc | release/app/infrastructure/database.py:443 | `ORDER BY create_time DESC` gives a newest-first permutation of the posts |
| Database.Limit | release/app/infrastructure/database.py:444 | `LIMIT` keeps the first posts, as many as asked, all of them for a negative limit |
| Database.WebhookQuery | release/app/infrastructure/database.py:423-462 | the posts answered are newest first, as many as the limit allows, and all recent |
| Database.DatabaseManager.constructor | release/app/infrastructure/database.py:21-30 | a new store holds the given tables and no post, and does not fail |
| Database.DatabaseManager.Outage | release/app/infrastructure/database.py:39-58 | the database turning unusable or usable again: every later connection raises, or none does, and the tables stay as they were |
| Database.DatabaseManager.InsertLogFileData | release/app/infrastructure/database.py:115-157 | a working store replaces the day's row and items and answers `True`; a failing one changes nothing and answers `False` |
| Database.DatabaseManager.GetStoredDates | release/app/infrastructure/database.py:159-173 | the stored dates newest first, each once; none when the store fails |
| Database.DatabaseManager.GetDurationData | release/app/infrastructure/database.py:175-205 | the stored durations, today left out when asked; none when the store fails |
| Database.DatabaseManager.GetItemData | release/app/infrastructure/database.py:207-253 | the stored items grouped by date, today left out when asked; none when the store fails |
| Database.DatabaseManager.GetLogFileInfo | release/app/infrastructure/database.py:255-284 | a row is answered exactly when the date is stored, and it is that date's row |
| Database.DatabaseManager.GetDatabaseStats | release/app/infrastructure/database.py:286-309 | the numbers of stored days and items, or zeros when the store fails |
| Database.DatabaseManager.DeleteLogData | release/app/infrastructure/database.py:311-337 | a working store deletes the day's row and items and answers `True`; a failing one changes nothing |
| Database.DatabaseManager.SaveWebhookData | release/app/infrastructure/database.py:339-382 | a payload with an event is appended with the next id; anything else, or a failing store, changes nothing and answers `False` |
| Database.DatabaseManager.CleanupOldWebhookData | release/app/infrastructure/database.py:386-421 | the posts older than the cut-off are deleted |
| Database.DatabaseManager.GetWebhookData | release/app/infrastructure/database.py:423-462 | posts older than three days are cleaned up first; the answer is the rest newest first, limited |
| Database.Serialize | release/app/infrastructure/database.py:477-496 | an item is stored unless it is `None` or neither an object with a name nor a dictionary |
| Database.SerializedSpec | release/app/infrastructure/database.py:477-496 | the serialized items are exactly the storable ones, no more of them than given |
| Database.FlattenSpec | release/app/infrastructure/database.py:514-537 | the flattened lists stay parallel and their dates ascend, each a key of the grouping |
| Database.FlattenDates | release/app/infrastructure/database.py:521-530 | the loop over the sorted dates yields the flattened lists |
| Database.LogDatabase.constructor | release/app/infrastructure/database.py:468-469 | the wrapper opens a store holding the given tables |
| Database.LogDatabase.StoreLogData | release/app/infrastructure/database.py:471-498 | the storable items are serialized and the day inserted, as `insert_log_file_data` does |
| Database.LogDatabase.IsDateStored | release/app/infrastructure/database.py:500-501 | a date is stored exactly when the store works and holds it |
| Database.LogDatabase.GetDurationData | release/app/infrastructure/database.py:506-512 | the dates ascend, each with its stored duration |
| Database.LogDatabase.GetItemData | release/app/infrastructure/database.py:514-537 | the four lists are parallel, their dates ascending, built from the grouped items |
| Database.LogDatabase.GetDatabaseStats | release/app/infrastructure/database.py:539-540 | the store's counts, zeros when it fails |
| Database.LogDatabase.DeleteLogData | release/app/infrastructure/database.py:542-543 | the store's delete |
| LogControllers.GetLogListSpec | release/app/controllers/logs.py:48-56 | the answer is the list read (the manager's cached list when non-empty, else a fresh one) back to front with the same elements; a non-empty cache means the manager is not asked; a raising manager gives `[]` |
| LogControllers.RepeatedLogList | release/app/controllers/logs.py:52 | with a non-empty cached list, the answer is that list reversed, whatever a fetch would give |
| LogControllers.ReversedOrder | release/app/controllers/logs.py:31-34 | a list is newest first exactly when its reversal is oldest first |
| LogControllers.ManagerListOldestFirst | release/app/controllers/logs.py:52-53 | since the manager's list is newest first, this facade answers it oldest first |
| LogControllers.GetLogDataSpec | release/app/controllers/logs.py:58-75 | both answers are passed on when the manager answers; if either call raises, the answer is the empty lists; parallel lists stay parallel |
| WebhookControllers.ValidateEventSpec | release/app/controllers/webhooks.py:23-28 | a payload passes exactly when its event is present, not `None` and not empty, and then the store saves a non-empty event |
| WebhookControllers.SaveDataSpec | release/app/controllers/webhooks.py:43-56 | the save succeeds exactly when the payload passes and the store answers `True`; a refused payload never reaches the store; each outcome has its message, an exception's text after the internal-error prefix |
| WebhookControllers.SaveThroughStore | release/app/controllers/webhooks.py:50-53 | through the store, the save succeeds exactly when the payload passes and the store works |
| WebhookControllers.GetWebhookDataSpec | release/app/controllers/webhooks.py:58-71 | the count is the number of rows answered; success exactly when the store answers, with its rows; otherwise no rows and the error message |
| WebhookControllers.ChooseStorageSpec | release/app/controllers/webhooks.py:34-41 | an injected store is used; otherwise the store is the database file inside the log directory |
| ApiControllers.ListCallSpec | release/app/api/controllers.py:126-144 | the answer is the facade's reversed list; when the list was read it is also reversed where it lies, so the cache now holds the answer; a raising manager leaves the cache and answers `[]` |
| ApiControllers.ConsecutiveCallsAlternate | release/app/api/controllers.py:134-141 | since `reverse()` works in place on the cached list, consecutive calls alternate between the two orders |
| ApiControllers.FreshManagerOrder | release/app/api/controllers.py:134-141 | the first call answers a fresh manager's list oldest first, the second newest first |
| ApiControllers.LogController.constructor | release/app/api/controllers.py:117-124 | the controller opens its own manager, with no cached list |
| ApiControllers.LogController.GetLogList | release/app/api/controllers.py:126-144 | the answer and the cache left are `ListCall`'s; a non-empty cache means the manager's data and store are untouched |
| ApiControllers.LogController.GetLogData | release/app/api/controllers.py:146-170 | both answers come from the one listing a single refresh gives, the second refresh storing nothing new: the dates newest first, each with its duration, and the four item lists; that date list is left cached |
| ApiControllers.ApiSaveDataAgrees | release/app/api/controllers.py:190-227 | this `save_data` and the facade's agree, except that an event that is `None` or empty goes to the store here |
| ApiControllers.WebhookController.constructor | release/app/api/controllers.py:179-188 | the controller opens its own store, with no webhook rows |
| ApiControllers.WebhookController.SaveData | release/app/api/controllers.py:190-227 | a payload without an event is refused and nothing is saved; otherwise the store decides, and a row is added exactly on success |
| ApiControllers.WebhookController.GetWebhookData | release/app/api/controllers.py:229-253 | the answer succeeds with its count, holding the recent rows newest first, limited |
| FrameAnalysis.ValueCountsSpec | mini/app.py:330 | `value_counts()` maps every value to its number of occurrences, once per value; the counts sum to the number of rows and the keys are exactly the values present |
| FrameAnalysis.ColumnOf | mini/app.py:330 | a column (`物品名称` here, `日期` at lines 374 and 384) holds one value per row, in row order |
| FrameAnalysis.Where | mini/app.py:348-349 | a `df[df[column] == v]` filter (by date here, by name at line 372) keeps exactly the rows whose column holds `v` |
| FrameAnalysis.AllLogs | mini/app.py:320-334 | either table empty gives "0分钟" and no items; otherwise the duration is the summed seconds formatted, and the item counts are non-empty and cover every item row |
| FrameAnalysis.SingleLogSpec | mini/app.py:337-357 | a day has counts exactly when both tables have a row for it; then the counts are that day's item names with multiplicity and the duration is that day's seconds formatted; otherwise the no-data answer |
| FrameAnalysis.ItemHistorySpec | mini/app.py:360-377 | "no data" exactly when the item table is empty; otherwise each date maps to how often the item was picked that day |
| FrameAnalysis.AllItemsSpec | mini/app.py:394-400 | "no data" exactly when the item table is empty; otherwise each date of the table maps to its number of item rows, and the counts sum to the row count |
| FrameAnalysis.DurationHistorySpec | mini/app.py:380-391 | "no data" exactly when the duration table is empty; otherwise the keys are the dates present and each holds the day's summed seconds floor-divided by 60 |
| FrameAnalysis.ReleaseAnalysis.constructor | release/analysis.py:5 | the release analysis binds the two tables as they stand when it is imported |
| FrameAnalysis.ReleaseSession | release/analysis.py:22-31 | whatever dates `get_log_list` then keeps, the release `analyse_all_logs` still reads the empty tables it bound and answers "0分钟" with no items |
| FrameAnalysis.MiniSession | mini/app.py:320-334 | after `get_log_list`, the mini `analyse_all_logs` sees the rows it recorded: with pickup rows it reports their total seconds and counts every row; without any it answers "0分钟" |
| ServerApp.Sights | server/app.py:94-98 | one reading per match, in match order: class name, branch, item name and time |
| ServerApp.HeadersOf | server/app.py:97 | the class names of the matches, one per match in order |
| ServerApp.ServerScanRaises | server/app.py:104-105 | a pickup whose text has no `：` anywhere among the matches makes `parse_log` raise |
| ServerApp.ServerScanCounts | server/app.py:94-107 | each match adds one to its class name's count; each pickup is appended to the pickup list and adds one to its item's count |
| ServerApp.ServerParseSpec | server/app.py:73-125 | the class-name counts sum to the number of matches; the pickup list is every pickup in order; `interaction_count` equals the sum of the item counts, whose keys are exactly the picked items |
| ServerApp.WindowRules | server/app.py:109-117 | a start marker opens (or reopens) the window at its time; an exit or shutdown marker with no window open changes nothing but the class count; with a window open it adds the whole seconds elapsed and closes it; a pickup leaves the window alone |
| ServerApp.OneWindow | server/app.py:110-116 | a start marker followed by an exit marker gives the window's length in whole seconds, never negative when time moves forward |
| ServerApp.Visit | server/app.py:95-117 | one iteration of the loop performs exactly the step the scan specification takes for that match, raising where it raises |
| ServerApp.ParseLog | server/app.py:73-125 | the loop over the matches computes the scan specification, whose counting and timing properties are proved above |
| ServerApp.FilterForbiddenSpec | server/app.py:181-201 | the two forbidden keys are absent afterwards and every other key keeps its count |
| ServerApp.ServerListLogs | server/app.py:148-178 | a date is listed exactly when its file parses and still has a pickup once the forbidden keys are removed; the list is no longer than the listing |
| ServerApp.GetLogList | server/app.py:148-178 | the loop keeps exactly the listable dates, in listing order |
| ServerApp.AccumulateNonNegative | server/app.py:305-330 | the summed hours and minutes are never negative |
| ServerApp.CarrySpec | server/app.py:332-337 | after the carry the minutes are below 60, no minute is lost, and the text is hours `小时` minutes `分钟` |
| ServerApp.AccumulateItems | server/app.py:305-325 | the merged counts keep one entry per item, never hold a forbidden item, and sum to the files' filtered pickup totals |
| ServerApp.ServerReadUnique | server/app.py:101-107 | a parsed file's item counts have one entry per item |
| ServerApp.MergeLoop | server/app.py:324-325 | the `defaultdict` loop adds each file count into the running totals as the merge specification does |
| ServerApp.ReadInto | server/app.py:305-330 | one listing entry: a non-`.log` or unparsable file leaves the totals alone; otherwise its duration text and filtered counts are added |
| ServerApp.AnalyseAllLogs | server/app.py:290-339 | the loop and carry compute the all-logs answer over the listing, in listing order |
| ServerApp.SingleLogSpec | server/app.py:342-366 | a day's answer is an error exactly when its file cannot be read or parsed; otherwise it is the day's duration formatted and its counts without the forbidden keys |
| ServerAnalyse.CountScanSpec | server/analyse.py:11-26 | the walk raises exactly when some pickup has no `：`; otherwise every match adds one to its class name's count and every pickup one to its item's count |
| ServerAnalyse.AnalyseSpec | server/analyse.py:4-33 | the class counts sum to the number of matches; the item counts give each item its number of pickups; `interaction_count` is the number of pickups and `item_list` the distinct items in first-pickup order |
| ServerAnalyse.ReadLog | server/analyse.py:36-45 | `None` exactly when the file is missing or unreadable or its walk raises |
| ServerAnalyse.Visit | server/analyse.py:12-26 | one iteration of the loop takes exactly the counting step of the specification (the timestamp is never read) |
| ServerAnalyse.CountAll | server/analyse.py:11-26 | the loop over all matches computes the counting walk |
| ServerAnalyse.ParseLog | server/analyse.py:4-33 | `parse_log` computes the analysis whose properties are proved above, raising where it raises |
| Upgrade.FindStamp | upgrade_logs.py:13 | the search returns the leftmost bracketed clock at or after the start, and `None` only when there is none |
| Upgrade.DetectVersion | upgrade_logs.py:17-18 | a text is "new" exactly when a bracketed clock `[HH:MM:SS.fff]` occurs somewhere in it |
| Upgrade.StampPrefix | upgrade_logs.py:13 | text appended after a leading stamp leaves the stamp in place |
| Upgrade.LegacyRoundTrip | upgrade_logs.py:14 | matching a legacy line written with single spaces gives back exactly its clock, level, type and details |
| Upgrade.MatchFields | upgrade_logs.py:14 | a matched line yields a 12-character clock, a level and a type of word characters, and details without a line break |
| Upgrade.SplitLinesNoBreak | upgrade_logs.py:23 | no line produced by `splitlines` holds a line break |
| Upgrade.SplitJoin | upgrade_logs.py:21-31 | lines without breaks, the last non-empty, joined with `\n` and split again give back the same lines |
| Upgrade.NonBlank | upgrade_logs.py:23-25 | the converted lines are taken from the input and are never blank |
| Upgrade.ConvertLinesNone | upgrade_logs.py:21-28 | conversion raises exactly when some non-blank line does not match the legacy pattern |
| Upgrade.ConvertLinesSome | upgrade_logs.py:21-31 | a successful conversion gives one bracketed line per non-blank input line, in order |
| Upgrade.UpgradedStamp | upgrade_logs.py:30 | every converted line starts with a bracketed clock |
| Upgrade.UpgradedNoBreak | upgrade_logs.py:30 | a converted line holds no line break |
| Upgrade.ConvertedLines | upgrade_logs.py:21-31 | splitting the converted text gives back exactly the converted lines, one per non-blank input line |
| Upgrade.ConvertedTextIsNew | upgrade_logs.py:17-31 | converted lines, at least one, joined are detected as the new format |
| Upgrade.ConvertedIsNew | upgrade_logs.py:17-31 | converting a text with a non-blank line yields text detected as new |
| Upgrade.BlankConvertsToEmpty | upgrade_logs.py:21-31 | a text of blank lines converts to the empty text, which is detected as old |
| Upgrade.ConvertOne | upgrade_logs.py:24-30 | one iteration: a blank line adds nothing, a matching line adds its conversion, any other raises |
| Upgrade.ConvertAll | upgrade_logs.py:21-31 | the loop over the lines computes the conversion specification |
| Upgrade.Convert | upgrade_logs.py:21-31 | `convert_legacy` on the text's lines, raising where it raises |
| Upgrade.Backup | upgrade_logs.py:44 | the backup name differs from the log's own name |
| Upgrade.UpgradeFileSpec | upgrade_logs.py:34-48 | raises exactly when the file cannot be read; a new-format or unconvertible file leaves the directory unchanged; otherwise the backup holds the original, the file its conversion, and no other file changes |
| Upgrade.UpgradeTwice | upgrade_logs.py:34-48 | a second upgrade of a file with a non-blank line changes nothing |
| Upgrade.BlankBackupLost | upgrade_logs.py:37-45 | a file of blank lines is rewritten empty, and a second run overwrites its backup with the empty text |
| Upgrade.UpgradeNamesOthers | upgrade_logs.py:59-61 | `main` changes only the `.log` files of the listing and their backups |
| Upgrade.LogDirectory.constructor | upgrade_logs.py:55-58 | the directory starts with the given files |
| Upgrade.LogDirectory.Upgrade | upgrade_logs.py:34-48 | the directory after `upgrade_file` is the specification's; when it raises, nothing is written |
| Upgrade.LogDirectory.UpgradeAll | upgrade_logs.py:51-61 | `main` upgrades the `.log` names of the listing in order and stops at the first one that raises |

## Left out

- Filesystem access (`os.listdir`, `open`, `seek`/`tell`, `shutil.copy2`) is not modelled. A directory is its listing in order plus a map from file name to content, and a file is either readable text or unreadable. Byte offsets are indices into the text.
- SQLite plumbing is not modelled: connections, schema creation, SQL text and transactions. Each table is a sequence of rows in row-id order. The store's `failing` field says whether the database is unusable; `DatabaseManager.Outage` turns it on or off, an event from outside the program. While it is on, every statement raises, and each method swallows the error, returns its fallback value and leaves the tables unchanged. A failure partway through one call, after some statements succeeded, is not modelled; neither is the constructor raising on an unusable file, so a new store starts usable.
- Wall-clock reads are not modelled. `date.today()` in the manager's constructor, the store's query-time "today" and `datetime.now()` in the webhook cleanup are all parameters.
- The screen-capture and streaming controllers are not part of this model: `StreamController`, `SystemInfoController`, capture.py, streamer.py and the system-info controller. They wrap Win32, OpenCV and psutil.
- `_process_name` in window_finder.py is an injected lookup. So are the window enumeration and rectangle calls behind it.
- Flask routing and application bootstrap are not part of this model. This covers the routes of server/app.py and mini/app.py, views.py, run.py and config.py.
- Environment setup is not part of this model: lite_runner.py, playwright_runner.py, `find_bettergi_install_path` and `open_browser_after_start`. These are registry lookups, subprocesses and browser launches.
- Concurrency is not modelled: reliable_writer.py, stress_test_runner.py, and the locks of `FrameBufferPool` and `SunshinePreviewEngine`. Every method runs to completion on its own.
- Floating point is not modelled. This covers the pie-chart arc paths and percentage strings, chart coordinates, page averages, and psutil sampling in `_collect_metrics`.
  - Manager timestamps are integer milliseconds and `strptime` times are integer microseconds, both exact.
  - Preview timestamps are exact reals.
  - JavaScript numbers are the integer values the helpers compute.
- Browser side effects in website/lib/functions.ts are not modelled (`saveAllData` and the `download*` functions). Neither are the API client, the React hooks or the notification code.
- website/utils/getCategory.ts and categoryRules.ts are not part of this model. As written, `getCategory` reads a `patterns` field that the rules never define.
- website/lib/inventory.ts repeats `getCategory`, `categorizeItems`, `getCategoryTotals`, `generatePieChart` and `getItemColor` from utils-inventory.ts word for word. The `Inventory` members model both files; the rows cite utils-inventory.ts.
- The format helpers of mini/app.py and release/analysis.py (`format_timedelta`) are the same function as server/app.py's. `Durations.FormatDuration` models all three, and the rows cite server/app.py.
- server/stats_service.py, server/events.py and generate_sample_stats.py are not part of this model: they only read or append files.
- Logging and `print` output are not modelled, and neither are the messages in error results. An error result is `None` or a `raised` flag.
- Regular expressions are not modelled by a general matcher. Each pattern is written out as the positions its match takes, and the proofs hold for that pattern only.
- pandas DataFrames are sequences of rows. `concat`, boolean filtering and `groupby` become the corresponding operations on sequences.
- Where a test disagrees with the code, the model follows the code:
  - the pause rule of mini/app.py gives 780 and 870 seconds where tests/test_duration.py expects 300 and 330;
  - `parse_duration` reads `1小时` and `30分钟` as `(0, 0)`;
  - db.py reads only detail lines;
  - server/analyse.py returns `interaction_count` and `item_list` and no other keys.
- FrameAnalysis.ValueCountsSpec: does not model the order of the keys. `value_counts()` sorts them by descending count, and the model keeps first-seen order.
- Recent: compares `create_time` and the cut-off on one clock. In the source `create_time` is SQLite's `CURRENT_TIMESTAMP`, in UTC, while the cut-off is the local `datetime.now()` less the days kept, and the two are compared as text, so with a non-zero local offset the source keeps or drops posts up to that offset away from the cut-off that the model uses.
- CleanupOldWebhookData: deletes the posts created before `now` less the days kept, with `now` on the posts' own clock; it does not model the UTC `create_time` against the local-time cut-off described for `Recent`.
- GetWebhookData: inherits the one-clock clean-up of `CleanupOldWebhookData`, not the source's UTC against local-time comparison.
- ByTimeDesc: posts created in the same second keep their row order. SQLite leaves the order of such ties under `ORDER BY create_time DESC` unspecified.
- GetLogFileInfo: returns the stored row without its `updated_at` column. The model keeps no time of writing for a log row.
- Serialize: a name or timestamp that is present but `None` is read as absent and stored as the empty text. In the source `getattr` and `dict.get` use the default only for a missing key, so the `None` goes on to the insert.
- Payload: values are text or `None` only. A JSON body can also carry numbers and booleans, which SQLite stores as they are, and lists or objects, which make the insert raise; neither is modelled.
- Summary: adds the run durations exactly. `write_summary` adds floats, so its total and average can differ from the model's by rounding, and `int()` can carry that across a whole second.
- Lower: folds the ASCII letters A to Z only. Python's `str.lower()` and JavaScript's `toLowerCase()` fold every cased Unicode letter, and can change the length of the text.
- KeepMatchingSpec: the search matches through the ASCII-only `Lower`, so a query or name with non-ASCII capitals that `toLowerCase()` would fold does not match in the model.
- FilterAndSortSpec: inherits the ASCII-only match of `KeepMatchingSpec`.
- BlacklistSpec: the blacklist test lower-cases through the ASCII-only `Lower`, where `str.lower()` is Unicode.
- Find: the query is lower-cased through the ASCII-only `Lower`, where `str.lower()` is Unicode.
- ListProgramsSpec: the allowlist test lower-cases through the ASCII-only `Lower`, where `str.lower()` is Unicode.
- ListProgramsMembers: membership is decided through the ASCII-only `Lower`, where `str.lower()` is Unicode.
- ParseUnsigned: accepts the ASCII digits 0 to 9 only. Python's `int()` also accepts every other Unicode decimal digit, such as full-width or Arabic-Indic digits, which the model rejects.
- Field: the `%H`, `%M` and `%S` fields take ASCII digits only. `strptime` matches them with `\d`, which also takes other Unicode decimal digits.
- DigitRun: a run of ASCII digits only, where the `\d` of the duration patterns also takes other Unicode decimal digits.
- IsDigit: in `Incremental` and in `Upgrade` a digit is an ASCII digit, where the `\d` of the source's patterns is any Unicode decimal digit.
- IsWord: ASCII letters, digits, `_` and the CJK block U+4E00 to U+9FFF. Python's `\w` takes every Unicode letter and digit.
- MatchFields: built on `IsWord` and `IsDigit`, so some lines with other Unicode word characters or digits, which the source converts, are left unmatched in the model.
- StampOf: the year of the date part must be four ASCII digits, and so must the second digit of a day from 10 to 29. `strptime` reads `\d` there as any Unicode decimal digit. Every other date part reads as in the source, one-digit months and days included.
- DateFields: the same ASCII-only `\d` as `StampOf`.
- JsParseIntUnsigned: reads text starting with `0x` or `0X` as 0. JavaScript's `parseInt` with no radix reads it as hexadecimal.
- JsParseInt: the same `0x` gap as `JsParseIntUnsigned`.
- JsParseIntDigits: does not hold in JavaScript for `ds == "0"` with `rest` starting with `x` or `X`. JavaScript reads `"0x1A"` as 26, and the model reads it as 0.
- StampFields: states the fields through the model's `JsParseInt`, so it carries the same `0x` gap. A field such as `0x1A` counts 26 in JavaScript and 0 in the model.
- CalculateTrendData: the dates are the keys of both trend series. JavaScript lists integer-like keys, such as `20250430`, in ascending numeric order, and the model keeps the order in which they were first set. The chart sorts the series before drawing it (website/components/inventory/TrendChart.tsx:11), so what is drawn is the same.
- CategorizeItems: the category tables keep their names in first-set order. In JavaScript an integer-like item name would come first, in numeric order. Only the order of equal counts in `getTopItems` can differ, because the sort there is stable (`TopItemsStable`).

=== FILE: src/clock.dfy ===
/**
 * `datetime.strptime(ts, '%H:%M:%S.%f')`, the timestamp conversion of
 * the single-file parsers (mini/app.py, release/log_parser.py,
 * server/app.py), as microseconds after midnight of the default day
 * 1900-01-01.  Only differences of such values are ever used.
 */
module Clock {
  import opened Wrappers
  import opened Strings
  import opened InfraUtils

  const Second: int := 1000000

  /** `int(delta.total_seconds())` for a difference of `us` microseconds: truncation toward zero. */
  function WholeSeconds(us: int): (r: int)
    ensures us >= 0 ==> 0 <= r * Second <= us < (r + 1) * Second
    ensures us < 0 ==> (r - 1) * Second < us <= r * Second <= 0
  {
    if us >= 0 then us / Second else -((-us) / Second)
  }

  /** `%H`, `%M`, `%S`: one or two digits, at most `max`. */
  predicate Field(s: string, max: nat)
  {
    1 <= |s| <= 2 && AllDigits(s) && DigitsValue(s) <= max
  }

  /** `%f`: one to six digits. */
  predicate Fraction(f: string)
  {
    1 <= |f| <= 6 && AllDigits(f)
  }

  function Pow10(n: nat): (r: nat)
    ensures r >= 1
  {
    if n == 0 then 1 else 10 * Pow10(n - 1)
  }

  /** `%f` pads its digits on the right to six: the digits are a decimal fraction of a second. */
  function Micros(f: string): nat
    requires Fraction(f)
  {
    DigitsValue(f) * Pow10(6 - |f|)
  }

  /**
   * The whole text must be `H:M:S.F` with the four fields above; hours
   * above 23 or minutes above 59 do not match, and seconds 60 and 61 match
   * but are refused by the `datetime` constructor.  `None` where Python
   * raises `ValueError`.
   */
  function ClockMicros(ts: string): (r: Option<int>)
  {
    var parts := Split(ts, ':');
    if |parts| != 3 then None
    else
      var sf := Split(parts[2], '.');
      if |sf| != 2 then None
      else
        var h, m, s, f := parts[0], parts[1], sf[0], sf[1];
        if Field(h, 23) && Field(m, 59) && Field(s, 59) && Fraction(f) then
          Some(((DigitsValue(h) * 60 + DigitsValue(m)) * 60 + DigitsValue(s)) * 1000000 + Micros(f))
        else None
  }

  /** Fields within range convert to `H*3600 + M*60 + S` seconds plus the decimal fraction. */
  lemma ClockFields(h: string, m: string, s: string, f: string)
    requires Field(h, 23) && Field(m, 59) && Field(s, 59) && Fraction(f)
    ensures ClockMicros(TimestampText(h, m, s, f))
      == Some(DigitsValue(h) * 3600000000 + DigitsValue(m) * 60000000 + DigitsValue(s) * 1000000 + Micros(f))
  {
    SplitTimestamp(h, m, s, f);
  }

  /** A value that is never out of range: a time of day, below 24 hours. */
  lemma {:induction false} ClockWithinDay(ts: string)
    requires ClockMicros(ts).Some?
    ensures 0 <= ClockMicros(ts).value < 86400000000
  {
    var parts := Split(ts, ':');
    var sf := Split(parts[2], '.');
    DigitsBelow(sf[1]);
    assert Micros(sf[1]) < 1000000 by {
      PowSplit(|sf[1]|, 6 - |sf[1]|);
    }
  }

  lemma {:induction false} DigitsBelow(s: string)
    requires AllDigits(s)
    ensures DigitsValue(s) < Pow10(|s|)
    decreases |s|
  {
    if |s| > 0 {
      DigitsBelow(s[..|s| - 1]);
    }
  }

  lemma {:induction false} PowSplit(a: nat, b: nat)
    ensures Pow10(a + b) == Pow10(a) * Pow10(b)
    decreases a
  {
    if a > 0 {
      PowSplit(a - 1, b);
    }
  }

  /**
   * On the `HH:MM:SS.fff` timestamps BetterGI writes, the conversion is a
   * thousand times the manager's millisecond count: the two parsers agree.
   */
  lemma ClockAgreesWithManager(h: string, m: string, s: string, f: string)
    requires Field(h, 23) && Field(m, 59) && Field(s, 59) && |f| == 3 && AllDigits(f)
    ensures ClockMicros(TimestampText(h, m, s, f)).Some? && ParseTimestampMs(TimestampText(h, m, s, f)).Some?
    ensures ClockMicros(TimestampText(h, m, s, f)).value == 1000 * ParseTimestampMs(TimestampText(h, m, s, f)).value
  {
    assert Pow10(6 - |f|) == 1000 by {
      assert Pow10(3) == 10 * Pow10(2);
    }
    ClockFields(h, m, s, f);
    ParseTimestampFields(h, m, s, f);
  }

  /**
   * Unlike the manager's conversion, which reads an hour past 23 as that
   * many hours, such an hour does not convert.
   */
  lemma HourOutOfRange(h: string, m: string, s: string, f: string)
    requires |h| > 0 && AllDigits(h) && DigitsValue(h) > 23
    requires |m| > 0 && AllDigits(m) && |s| > 0 && AllDigits(s) && |f| > 0 && AllDigits(f)
    ensures ClockMicros(TimestampText(h, m, s, f)).None?
    ensures var r := ParseTimestampMs(TimestampText(h, m, s, f));
      r.Some? && r.value == DigitsValue(h) * 3600000 + DigitsValue(m) * 60000 + DigitsValue(s) * 1000 + DigitsValue(f)
  {
    ClockRejectsHour(h, m, s, f);
    ParseTimestampFields(h, m, s, f);
  }

  /** `24:00:00.000` is no time of day here, and a whole day for the manager. */
  lemma HourTwentyFour()
    ensures ClockMicros(TimestampText("24", "00", "00", "000")).None?
    ensures var r := ParseTimestampMs(TimestampText("24", "00", "00", "000"));
      r.Some? && r.value == 86400000
  {
    DigitValues();
    HourOutOfRange("24", "00", "00", "000");
  }

  lemma ClockRejectsHour(h: string, m: string, s: string, f: string)
    requires AllDigits(h) && AllDigits(m) && AllDigits(s) && AllDigits(f) && !Field(h, 23)
    ensures ClockMicros(TimestampText(h, m, s, f)).None?
  {
    SplitTimestamp(h, m, s, f);
  }

  lemma DigitValues()
    ensures AllDigits("24") && DigitsValue("24") == 24
    ensures AllDigits("00") && DigitsValue("00") == 0
    ensures AllDigits("000") && DigitsValue("000") == 0
  {
    assert "24"[..1] == "2";
    assert "00"[..1] == "0";
    assert "000"[..2] == "00";
  }

  /** `.5` is half a second here, where the manager reads it as five milliseconds. */
  lemma FractionIsDecimal(h: string, m: string, s: string)
    requires Field(h, 23) && Field(m, 59) && Field(s, 59)
    ensures ClockMicros(TimestampText(h, m, s, "5")) == ClockMicros(TimestampText(h, m, s, "500"))
  {
    FiveAndFiveHundred();
    ClockFields(h, m, s, "5");
    ClockFields(h, m, s, "500");
  }
}

=== FILE: src/controllers.dfy ===
/**
 * The controller facade of app/controllers/logs.py.  It delegates to an
 * injected log manager and never changes it: what the manager's calls
 * give back (or the exception they raise) is a parameter here.
 */
module LogControllers {
  import opened Wrappers
  import opened Strings
  import Database

  /**
   * `get_log_list`: the manager's cached list when it is non-empty,
   * otherwise a fresh one from the manager; the answer is a new list
   * holding it back to front, and `[]` when the manager raised.
   */
  function GetLogList(cached: Option<seq<string>>, fetch: Answer<seq<string>>): seq<string>
  {
    if cached.Some? && |cached.value| > 0 then Reverse(cached.value)
    else if fetch.Threw? then []
    else Reverse(fetch.value)
  }

  /** The list `get_log_list` reads: the cache when non-empty, otherwise what the manager gave. */
  function Source(cached: Option<seq<string>>, fetch: Answer<seq<string>>): Option<seq<string>>
  {
    if cached.Some? && |cached.value| > 0 then cached
    else if fetch.Threw? then None
    else Some(fetch.value)
  }

  /**
   * The answer holds the list it read, back to front and with the same
   * elements; a non-empty cache means the manager is not consulted; when
   * there is nothing to read the answer is empty.
   */
  lemma GetLogListSpec(cached: Option<seq<string>>, fetch: Answer<seq<string>>)
    ensures var r := GetLogList(cached, fetch);
      match Source(cached, fetch)
      case None => r == []
      case Some(l) =>
        && |r| == |l| && multiset(r) == multiset(l)
        && forall k :: 0 <= k < |l| ==> r[k] == l[|l| - 1 - k]
    ensures cached.Some? && |cached.value| > 0 ==>
      forall other :: GetLogList(cached, other) == GetLogList(cached, fetch)
    ensures (cached.None? || cached.value == []) && fetch.Threw? ==> GetLogList(cached, fetch) == []
  {
    match Source(cached, fetch)
    case None =>
    case Some(l) => ReverseMultiset(l);
  }

  /**
   * The manager keeps the list it hands out as its cache, so asking twice
   * gives the same answer; the second time without consulting the manager
   * when the list was non-empty.
   */
  lemma RepeatedLogList(l: seq<string>, again: Answer<seq<string>>)
    requires |l| > 0
    ensures GetLogList(Some(l), again) == GetLogList(None, Ok(l))
    ensures Source(Some(l), again) == Some(l)
  {
  }

  /** Reading a descending list back to front gives an ascending one, and the other way round. */
  lemma ReversedOrder(l: seq<string>)
    ensures Descending(l) <==> Ascending(Reverse(l))
    ensures Ascending(l) <==> Descending(Reverse(l))
  {
    var r := Reverse(l);
    if Ascending(r) {
      forall i, j | 0 <= i < j < |l| ensures LessEq(l[j], l[i]) {
        assert l[j] == r[|l| - 1 - j] && l[i] == r[|l| - 1 - i];
      }
    }
    if Descending(r) {
      forall i, j | 0 <= i < j < |l| ensures LessEq(l[i], l[j]) {
        assert l[j] == r[|l| - 1 - j] && l[i] == r[|l| - 1 - i];
      }
    }
  }

  /**
   * The manager sorts its dates newest first, so the list `get_log_list`
   * answers with is oldest first.
   */
  lemma ManagerListOldestFirst(l: seq<string>, cached: Option<seq<string>>)
    requires Descending(l)
    requires cached.None? || cached == Some([]) || cached == Some(l)
    ensures Ascending(GetLogList(cached, Ok(l)))
  {
    ReversedOrder(l);
  }

  /** The `{日期, 持续时间}` dict: dates and their seconds, side by side. */
  datatype DurationDict = DurationDict(dates: seq<string>, durations: seq<int>)

  /** The answer of `get_log_data`. */
  datatype LogData = LogData(duration: DurationDict, item: Database.Flat)

  /** The answer when collecting either dict raised: every list empty. */
  const EmptyLogData := LogData(DurationDict([], []), Database.Flat([], [], [], []))

  /** The four item lists have one entry per pickup. */
  predicate Parallel(f: Database.Flat)
  {
    |f.times| == |f.names| && |f.dates| == |f.names| && |f.groups| == |f.names|
  }

  /** `get_log_data`: the two dicts of the manager, or the empty ones when either call raised. */
  function GetLogData(duration: Answer<DurationDict>, item: Answer<Database.Flat>): LogData
  {
    if duration.Threw? then EmptyLogData
    else if item.Threw? then EmptyLogData
    else LogData(duration.value, item.value)
  }

  /**
   * Either both dicts as the manager gave them, or the empty shape; the
   * item dict is not read once the duration call raised; the lists stay
   * side by side whenever the manager's were.
   */
  lemma GetLogDataSpec(duration: Answer<DurationDict>, item: Answer<Database.Flat>)
    ensures var r := GetLogData(duration, item);
      (duration.Ok? && item.Ok? ==> r.duration == duration.value && r.item == item.value)
      && (duration.Threw? || item.Threw? ==> r.duration.dates == [] && r.duration.durations == [] && r.item.names == [])
    ensures duration.Threw? ==> forall other :: GetLogData(duration, other) == GetLogData(duration, item)
    ensures var r := GetLogData(duration, item);
      (duration.Ok? ==> |duration.value.dates| == |duration.value.durations|) &&
      (item.Ok? ==> Parallel(item.value)) ==>
      |r.duration.dates| == |r.duration.durations| && Parallel(r.item)
  {
  }
}

/**
 * The webhook facade of app/controllers/webhooks.py: the check of the
 * `event` field and the answers built around one call into an injected
 * storage, whose outcome is a parameter here.
 */
module WebhookControllers {
  import opened Wrappers
  import opened Strings
  import Database

  const MissingEvent := "缺少必需的event字段"
  const SavedMessage := "数据保存成功"
  const NotSavedMessage := "数据保存失败"
  const InternalErrorPrefix := "服务器内部错误: "
  const FetchErrorPrefix := "获取数据失败: "
  const DatabaseFile := "CanLiangData.db"

  /** The `{success, message}` answer of `save_data`. */
  datatype SaveResponse = SaveResponse(success: bool, message: string)

  /** The answer of `get_webhook_data`; `message` only on failure. */
  datatype WebhookList = WebhookList(success: bool, data: seq<Database.PostRow>, count: int, message: Option<string>)

  /** `_validate_event_field`: the error text for a missing, `None` or empty event. */
  function ValidateEvent(payload: Database.Payload): Option<string>
  {
    if "event" !in payload || payload["event"] == None || payload["event"] == Some("") then Some(MissingEvent)
    else None
  }

  /**
   * A payload passes exactly when it carries a non-empty event text, and
   * every payload that passes is one the store can turn into a row.
   */
  lemma ValidateEventSpec(payload: Database.Payload)
    ensures ValidateEvent(payload).None? <==>
      exists e: string :: Database.Field(payload, "event") == Some(e) && |e| > 0
    ensures ValidateEvent(payload).Some? ==> ValidateEvent(payload).value == MissingEvent
    ensures ValidateEvent(payload).None? ==>
      forall id, now :: Database.PostOf(payload, id, now).Some? && Database.PostOf(payload, id, now).value.event != ""
  {
    if ValidateEvent(payload).None? {
      var e := payload["event"].value;
      assert Database.Field(payload, "event") == Some(e) && |e| > 0;
    }
  }

  /** `save_data`: the check first, then the storage's verdict or exception. */
  function SaveData(payload: Database.Payload, store: Answer<bool>): SaveResponse
  {
    var error := ValidateEvent(payload);
    if error.Some? then SaveResponse(false, error.value)
    else
      match store
      case Ok(true) => SaveResponse(true, SavedMessage)
      case Ok(false) => SaveResponse(false, NotSavedMessage)
      case Threw(e) => SaveResponse(false, InternalErrorPrefix + e)
  }

  /**
   * Success exactly when the payload passes and the storage said yes; a
   * rejected payload gets the same answer whatever the storage would do;
   * each outcome has its own message.
   */
  lemma SaveDataSpec(payload: Database.Payload, store: Answer<bool>)
    ensures SaveData(payload, store).success <==> ValidateEvent(payload).None? && store == Ok(true)
    ensures ValidateEvent(payload).Some? ==>
      forall other :: SaveData(payload, other) == SaveData(payload, store) == SaveResponse(false, MissingEvent)
    ensures ValidateEvent(payload).None? ==>
      SaveData(payload, store).message ==
        match store
        case Ok(b) => if b then SavedMessage else NotSavedMessage
        case Threw(e) => InternalErrorPrefix + e
    ensures store.Threw? && ValidateEvent(payload).None? ==>
      InternalErrorPrefix <= SaveData(payload, store).message
  {
  }

  /**
   * Behind the store of app/infrastructure/database.py, which says yes
   * exactly when it is healthy and the payload has an event text, a
   * payload that passes is saved exactly when the store is healthy.
   */
  lemma SaveThroughStore(payload: Database.Payload, failing: bool, id: int, now: int)
    ensures var ok := !failing && Database.PostOf(payload, id, now).Some?;
      SaveData(payload, Ok(ok)).success <==> ValidateEvent(payload).None? && !failing
  {
    ValidateEventSpec(payload);
  }

  /** `get_webhook_data`: the rows the storage gave and their number, or an empty failure. */
  function GetWebhookData(fetch: Answer<seq<Database.PostRow>>): WebhookList
  {
    match fetch
    case Ok(rows) => WebhookList(true, rows, |rows|, None)
    case Threw(e) => WebhookList(false, [], 0, Some(FetchErrorPrefix + e))
  }

  /** The count is the number of rows, and a failure carries no rows. */
  lemma GetWebhookDataSpec(fetch: Answer<seq<Database.PostRow>>)
    ensures var r := GetWebhookData(fetch);
      && r.count == |r.data|
      && (r.success <==> fetch.Ok?)
      && (fetch.Ok? ==> r.data == fetch.value && r.message.None?)
      && (fetch.Threw? ==> r.data == [] && r.count == 0 && r.message == Some(FetchErrorPrefix + fetch.error))
  {
  }

  /** POSIX `os.path.join(dir, name)` for a name without a leading separator. */
  function JoinPath(dir: string, name: string): string
  {
    if dir == [] then name
    else if dir[|dir| - 1] == '/' then dir + name
    else dir + "/" + name
  }

  /** Where the controller's storage comes from. */
  datatype Storage<S> = Given(store: S) | Opened(path: string)

  /** The constructor: an injected storage as it is, otherwise one opened on the database file in the log folder. */
  function ChooseStorage<S>(logDir: string, injected: Option<S>): Storage<S>
  {
    if injected.Some? then Given(injected.value) else Opened(JoinPath(logDir, DatabaseFile))
  }

  /** The injected storage is kept; otherwise the path is the log folder followed by the database file name. */
  lemma ChooseStorageSpec<S>(logDir: string, injected: Option<S>)
    ensures injected.Some? ==> ChooseStorage(logDir, injected) == Given(injected.value)
    ensures injected.None? ==>
      var p := ChooseStorage(logDir, injected).path;
      && logDir <= p
      && p[|p| - |DatabaseFile|..] == DatabaseFile
      && |p| - |logDir| - |DatabaseFile| <= 1
  {
  }
}

/**
 * The older controllers of app/api/controllers.py, over the real log
 * manager and store.  The log controller reverses the manager's cached
 * list in place, so the manager's cache and the answer are one list.
 */
module ApiControllers {
  import opened Wrappers
  import opened Strings
  import Database
  import Manager
  import LogControllers
  import opened WebhookControllers

  /**
   * One `get_log_list` call: the answer and the manager's cache after it.
   * A non-empty cache is reversed where it lies; otherwise the manager
   * fetches (and caches) a list, which is then reversed where it lies; a
   * fetch that raised leaves the cache and answers `[]`.
   */
  function ListCall(cache: Option<seq<string>>, fetch: Answer<seq<string>>): (seq<string>, Option<seq<string>>)
  {
    if cache.Some? && |cache.value| > 0 then (Reverse(cache.value), Some(Reverse(cache.value)))
    else if fetch.Threw? then ([], cache)
    else (Reverse(fetch.value), Some(Reverse(fetch.value)))
  }

  /**
   * The answer is the cache the call leaves behind, and it is the
   * reversed list of the facade in app/controllers/logs.py.
   */
  lemma ListCallSpec(cache: Option<seq<string>>, fetch: Answer<seq<string>>)
    ensures ListCall(cache, fetch).0 == LogControllers.GetLogList(cache, fetch)
    ensures fetch.Ok? || (cache.Some? && |cache.value| > 0) ==> ListCall(cache, fetch).1 == Some(ListCall(cache, fetch).0)
    ensures fetch.Threw? && (cache.None? || cache.value == []) ==> ListCall(cache, fetch) == ([], cache)
  {
  }

  /**
   * Since the cache and the answer are one list, the call after a
   * non-empty answer returns it back to front, and the call after that
   * the first order again.
   */
  lemma {:induction false} ConsecutiveCallsAlternate(cache: Option<seq<string>>, f1: Answer<seq<string>>, f2: Answer<seq<string>>, f3: Answer<seq<string>>)
    requires |ListCall(cache, f1).0| > 0
    ensures var (r1, c1) := ListCall(cache, f1);
      var (r2, c2) := ListCall(c1, f2);
      && r2 == Reverse(r1)
      && ListCall(c2, f3).0 == r1
  {
    var (r1, c1) := ListCall(cache, f1);
    assert c1 == Some(r1);
    ReverseInvolutive(r1);
    var (r2, c2) := ListCall(c1, f2);
    assert c2 == Some(r2) && |r2| > 0;
  }

  /**
   * On a manager whose list is sorted newest first, the first call
   * answers oldest first and the next one newest first.
   */
  lemma FreshManagerOrder(l: seq<string>, f2: Answer<seq<string>>)
    requires Descending(l) && |l| > 0
    ensures Ascending(ListCall(None, Ok(l)).0)
    ensures Descending(ListCall(ListCall(None, Ok(l)).1, f2).0)
  {
    var r1 := Reverse(l);
    assert ListCall(None, Ok(l)) == (r1, Some(r1));
    assert Ascending(r1) by { LogControllers.ReversedOrder(l); }
    assert ListCall(Some(r1), f2).0 == l by { ReverseInvolutive(l); }
  }

  /** The log controller over its own manager. */
  class LogController {
    const manager: Manager.LogDataManager

    /** A controller whose manager has the given date of today and stored tables. */
    constructor (today: string, t: Database.Tables)
      requires Database.UniqueDates(t.logFiles)
      ensures manager.Valid() && fresh(manager) && fresh(manager.db) && manager.logList.None?
      ensures manager.today == today && manager.db.Logs() == t
    {
      manager := new Manager.LogDataManager(today, t);
    }

    /** `get_log_list`, with the manager's list reversed where it lies. */
    method GetLogList(dir: Manager.Directory, storeToday: string) returns (r: seq<string>)
      requires manager.Valid()
      modifies manager, manager.db
      ensures manager.Valid()
      ensures (r, manager.logList) ==
        ListCall(old(manager.logList), Ok(Manager.LogList(Manager.Listing(manager.durationData, manager.itemData))))
      ensures old(manager.logList).Some? && |old(manager.logList).value| > 0 ==>
        manager.durationData == old(manager.durationData) && manager.itemData == old(manager.itemData)
        && manager.db.Logs() == old(manager.db.Logs())
    {
      var list;
      if manager.logList.Some? && |manager.logList.value| > 0 {
        list := manager.logList.value;
      } else {
        list := manager.GetLogList(dir, storeToday);
      }
      r := Reverse(list);
      manager.logList := Some(r);
    }

    /**
     * `get_log_data`: the durations and the item dict, each from a fresh
     * listing. The second listing stores nothing new, so both answers come
     * from the one listing a single refresh gives: its dates newest first,
     * each with its duration, and its four item lists.
     */
    method GetLogData(dir: Manager.Directory, storeToday: string) returns (r: LogControllers.LogData)
      requires manager.Valid()
      modifies manager, manager.db
      ensures manager.Valid() && manager.db.failing == old(manager.db.failing)
      ensures manager.db.Logs() == Manager.History(dir, old(manager.db.Logs()), old(manager.itemCachedList), manager.db.failing, manager.today).tables
      ensures var l := Manager.Refresh(dir, old(manager.db.Logs()), old(manager.itemCachedList), manager.db.failing, manager.today, storeToday);
        && Manager.Listing(manager.durationData, manager.itemData) == l
        && r.duration.dates == Manager.LogList(l) && Descending(r.duration.dates)
        && |r.duration.durations| == |r.duration.dates|
        && (forall k :: 0 <= k < |r.duration.dates| ==> r.duration.durations[k] == Database.DurationAt(l.durations, r.duration.dates[k]))
        && r.item == l.items && manager.logList == Some(r.duration.dates)
    {
      ghost var t0, c0 := manager.db.Logs(), manager.itemCachedList;
      var dates, durations := manager.GetDurationData(dir, storeToday);
      ghost var c1 := manager.itemCachedList;
      var items := manager.GetItemData(dir, storeToday);
      Manager.RefreshTwice(dir, t0, c0, c1, manager.db.failing, manager.today, storeToday);
      Manager.HistoryTwice(dir, t0, c0, c1, manager.db.failing, manager.today);
      r := LogControllers.LogData(LogControllers.DurationDict(dates, durations), items);
    }
  }

  /** `save_data` of this module: only a missing `event` key is refused. */
  function ApiSaveData(payload: Database.Payload, store: Answer<bool>): SaveResponse
  {
    if "event" !in payload then SaveResponse(false, MissingEvent)
    else
      match store
      case Ok(true) => SaveResponse(true, SavedMessage)
      case Ok(false) => SaveResponse(false, NotSavedMessage)
      case Threw(e) => SaveResponse(false, InternalErrorPrefix + e)
  }

  /**
   * The two `save_data`s agree except on an event that is `None` or empty:
   * the facade refuses it before the store, this one hands it to the store.
   */
  lemma ApiSaveDataAgrees(payload: Database.Payload, store: Answer<bool>)
    ensures ValidateEvent(payload).None? || "event" !in payload ==>
      ApiSaveData(payload, store) == SaveData(payload, store)
    ensures "event" in payload && ValidateEvent(payload).Some? ==>
      && SaveData(payload, store) == SaveResponse(false, MissingEvent)
      && ApiSaveData(payload, store).message != MissingEvent
      && (ApiSaveData(payload, store).success <==> store == Ok(true))
  {
    if "event" in payload && ValidateEvent(payload).Some? {
      match store
      case Ok(b) =>
        assert SavedMessage != MissingEvent && NotSavedMessage != MissingEvent;
      case Threw(e) =>
        assert (InternalErrorPrefix + e)[0] != MissingEvent[0];
    }
  }

  /** The webhook controller over its own store; the clock reading is a parameter. */
  class WebhookController {
    const db: Database.DatabaseManager

    /** A controller whose store holds the given log tables and no webhook rows. */
    constructor (t: Database.Tables)
      requires Database.UniqueDates(t.logFiles)
      ensures db.Valid() && fresh(db) && db.Logs() == t && db.posts == [] && !db.failing
    {
      db := new Database.DatabaseManager(t);
    }

    /**
     * `save_data`: a payload without `event` is refused before the store;
     * otherwise the store's verdict decides, and a row is added exactly
     * on success.
     */
    method SaveData(payload: Database.Payload, now: int) returns (resp: SaveResponse)
      requires db.Valid()
      modifies db
      ensures db.Valid() && db.Logs() == old(db.Logs())
      ensures "event" !in payload ==> resp == SaveResponse(false, MissingEvent) && db.posts == old(db.posts)
      ensures "event" in payload ==> resp == ApiSaveData(payload, Ok(resp.success))
      ensures resp.success <==> !old(db.failing) && Database.PostOf(payload, old(db.nextId), now).Some?
      ensures resp.success ==> db.posts == old(db.posts) + [Database.PostOf(payload, old(db.nextId), now).value]
      ensures !resp.success ==> db.posts == old(db.posts)
    {
      if "event" !in payload {
        return SaveResponse(false, MissingEvent);
      }
      var ok := db.SaveWebhookData(payload, now);
      resp := ApiSaveData(payload, Ok(ok));
    }

    /** `get_webhook_data`: the store's newest rows and their number. */
    method GetWebhookData(limit: int, now: int) returns (resp: WebhookList)
      requires db.Valid()
      modifies db
      ensures db.Valid() && db.Logs() == old(db.Logs())
      ensures resp.success && resp.count == |resp.data|
      ensures resp.data == if old(db.failing) then [] else Database.Limit(Database.ByTimeDesc(db.posts), limit)
    {
      var rows := db.GetWebhookData(limit, now);
      resp := WebhookControllers.GetWebhookData(Ok(rows));
    }
  }
}

=== FILE: src/database.dfy ===
/**
 * The SQLite store of release/app/infrastructure/database.py over abstract
 * tables.  `log_files` holds one row per date, `items` the pickups of
 * every stored date, `post_data` the webhook payloads; each table is a
 * sequence in row-id order, which is the order a query without
 * `ORDER BY` returns.
 */
module Database {
  import opened Wrappers
  import opened Strings

  datatype LogRow = LogRow(date: string, duration: int, itemCount: int)

  /** A row of `items`; the group is NULL when it was stored from `None`. */
  datatype ItemRow = ItemRow(name: string, timestamp: string, date: string, group: Option<string>)

  /** One element of the `items` argument of `insert_log_file_data`. */
  datatype StoredItem = StoredItem(name: string, timestamp: string, group: Option<string>)

  /** The two log tables together. */
  datatype Tables = Tables(logFiles: seq<LogRow>, items: seq<ItemRow>)

  function Dates(rows: seq<LogRow>): (r: seq<string>)
    ensures |r| == |rows| && forall i :: 0 <= i < |rows| ==> r[i] == rows[i].date
  {
    seq(|rows|, i requires 0 <= i < |rows| => rows[i].date)
  }

  /** `date_str TEXT UNIQUE`. */
  predicate UniqueDates(rows: seq<LogRow>)
  {
    Distinct(Dates(rows))
  }

  /** The `log_files` rows of every other date, in order. */
  function OtherDays(rows: seq<LogRow>, d: string): (r: seq<LogRow>)
    ensures forall row :: row in r <==> row in rows && row.date != d
    ensures |r| <= |rows|
    decreases |rows|
  {
    if |rows| == 0 then []
    else
      assert rows == rows[..|rows| - 1] + [rows[|rows| - 1]];
      OtherDays(rows[..|rows| - 1], d) + (if rows[|rows| - 1].date != d then [rows[|rows| - 1]] else [])
  }

  /** The `items` rows of every other date, in order. */
  function ItemsOff(items: seq<ItemRow>, d: string): (r: seq<ItemRow>)
    ensures forall x :: x in r <==> x in items && x.date != d
    decreases |items|
  {
    if |items| == 0 then []
    else
      assert items == items[..|items| - 1] + [items[|items| - 1]];
      ItemsOff(items[..|items| - 1], d) + (if items[|items| - 1].date != d then [items[|items| - 1]] else [])
  }

  /** `SELECT ... FROM items WHERE date_str = d`, in order. */
  function ItemsOn(items: seq<ItemRow>, d: string): (r: seq<ItemRow>)
    ensures forall x :: x in r <==> x in items && x.date == d
    decreases |items|
  {
    if |items| == 0 then []
    else
      assert items == items[..|items| - 1] + [items[|items| - 1]];
      ItemsOn(items[..|items| - 1], d) + (if items[|items| - 1].date == d then [items[|items| - 1]] else [])
  }

  /** The rows `executemany` inserts for date `d`. */
  function RowsFor(d: string, its: seq<StoredItem>): (r: seq<ItemRow>)
    ensures |r| == |its|
    ensures forall x :: x in r ==> x.date == d
  {
    seq(|its|, i requires 0 <= i < |its| => ItemRow(its[i].name, its[i].timestamp, d, its[i].group))
  }

  /**
   * `insert_log_file_data`: `INSERT OR REPLACE` deletes the row of `d`
   * and appends the new one; then every item of `d` is deleted and the
   * given ones appended.
   */
  function Insert(t: Tables, d: string, duration: int, its: seq<StoredItem>): Tables
  {
    Tables(OtherDays(t.logFiles, d) + [LogRow(d, duration, |its|)], ItemsOff(t.items, d) + RowsFor(d, its))
  }

  /** `delete_log_data`: the items, then the row, of date `d`. */
  function Delete(t: Tables, d: string): Tables
  {
    Tables(OtherDays(t.logFiles, d), ItemsOff(t.items, d))
  }

  lemma {:induction false} OtherDaysAbsent(rows: seq<LogRow>, d: string)
    requires forall row :: row in rows ==> row.date != d
    ensures OtherDays(rows, d) == rows
    decreases |rows|
  {
    if |rows| > 0 {
      OtherDaysAbsent(rows[..|rows| - 1], d);
      assert rows == rows[..|rows| - 1] + [rows[|rows| - 1]];
    }
  }

  lemma {:induction false} ItemsOffAbsent(items: seq<ItemRow>, d: string)
    requires forall x :: x in items ==> x.date != d
    ensures ItemsOff(items, d) == items
    decreases |items|
  {
    if |items| > 0 {
      ItemsOffAbsent(items[..|items| - 1], d);
      assert items == items[..|items| - 1] + [items[|items| - 1]];
    }
  }

  lemma {:induction false} ItemsOnAppend(a: seq<ItemRow>, b: seq<ItemRow>, d: string)
    ensures ItemsOn(a + b, d) == ItemsOn(a, d) + ItemsOn(b, d)
    decreases |b|
  {
    if |b| == 0 {
      assert a + b == a;
    } else {
      assert (a + b)[..|a + b| - 1] == a + b[..|b| - 1];
      ItemsOnAppend(a, b[..|b| - 1], d);
    }
  }

  lemma {:induction false} ItemsOnAll(items: seq<ItemRow>, d: string)
    requires forall x :: x in items ==> x.date == d
    ensures ItemsOn(items, d) == items
    decreases |items|
  {
    if |items| > 0 {
      ItemsOnAll(items[..|items| - 1], d);
      assert items == items[..|items| - 1] + [items[|items| - 1]];
    }
  }

  /** Keeping the items of `e` after dropping those of another date `d` keeps the items of `e`. */
  lemma {:induction false} ItemsOnOff(items: seq<ItemRow>, d: string, e: string)
    requires d != e
    ensures ItemsOn(ItemsOff(items, d), e) == ItemsOn(items, e)
    decreases |items|
  {
    if |items| > 0 {
      var init, last := items[..|items| - 1], items[|items| - 1];
      ItemsOnOff(init, d, e);
      ItemsOnAppend(ItemsOff(init, d), if last.date != d then [last] else [], e);
      assert [last][..0] == [];
      assert ItemsOn(if last.date != d then [last] else [], e) == ItemsOn([last], e);
    }
  }

  lemma {:induction false} ItemsOnNone(items: seq<ItemRow>, d: string)
    requires forall x :: x in items ==> x.date != d
    ensures ItemsOn(items, d) == []
    decreases |items|
  {
    if |items| > 0 {
      ItemsOnNone(items[..|items| - 1], d);
    }
  }

  /**
   * After an insert the date has exactly one row, the last one, carrying
   * the given duration and the number of items; the rows of other dates
   * are kept, and dates stay unique.
   */
  lemma InsertRow(t: Tables, d: string, duration: int, its: seq<StoredItem>)
    ensures var r := Insert(t, d, duration, its).logFiles;
      && |r| > 0 && r[|r| - 1] == LogRow(d, duration, |its|)
      && (forall i :: 0 <= i < |r| - 1 ==> r[i].date != d)
      && (forall row: LogRow :: row.date != d ==> (row in r <==> row in t.logFiles))
    ensures UniqueDates(t.logFiles) ==> UniqueDates(Insert(t, d, duration, its).logFiles)
  {
    var o := OtherDays(t.logFiles, d);
    var r := o + [LogRow(d, duration, |its|)];
    assert forall i :: 0 <= i < |o| ==> o[i] in o;
    if UniqueDates(t.logFiles) {
      UniqueOtherDays(t.logFiles, d);
      forall i, j | 0 <= i < j < |r| ensures Dates(r)[i] != Dates(r)[j] {
        if j < |o| { assert Dates(o)[i] != Dates(o)[j]; }
      }
    }
  }

  lemma {:induction false} UniqueOtherDays(rows: seq<LogRow>, d: string)
    requires UniqueDates(rows)
    ensures UniqueDates(OtherDays(rows, d))
    decreases |rows|
  {
    if |rows| > 0 {
      var init, last := rows[..|rows| - 1], rows[|rows| - 1];
      assert UniqueDates(init) by {
        forall i, j | 0 <= i < j < |init| ensures Dates(init)[i] != Dates(init)[j] {
          assert Dates(rows)[i] != Dates(rows)[j];
        }
      }
      UniqueOtherDays(init, d);
      var o := OtherDays(init, d);
      if last.date != d {
        var r := o + [last];
        forall i, j | 0 <= i < j < |r| ensures Dates(r)[i] != Dates(r)[j] {
          if j < |o| {
            assert Dates(o)[i] != Dates(o)[j];
          } else {
            assert o[i] in init;
            var k :| 0 <= k < |init| && init[k] == o[i];
            assert Dates(rows)[k] != Dates(rows)[|rows| - 1];
          }
        }
      }
    }
  }

  /** After an insert the items of the date are exactly the given ones, in order; other dates keep theirs. */
  lemma InsertItems(t: Tables, d: string, duration: int, its: seq<StoredItem>)
    ensures ItemsOn(Insert(t, d, duration, its).items, d) == RowsFor(d, its)
    ensures forall e :: e != d ==> ItemsOn(Insert(t, d, duration, its).items, e) == ItemsOn(t.items, e)
  {
    var off := ItemsOff(t.items, d);
    ItemsOnAppend(off, RowsFor(d, its), d);
    ItemsOnNone(off, d);
    ItemsOnAll(RowsFor(d, its), d);
    forall e | e != d ensures ItemsOn(off + RowsFor(d, its), e) == ItemsOn(t.items, e) {
      ItemsOnAppend(off, RowsFor(d, its), e);
      ItemsOnNone(RowsFor(d, its), e);
      ItemsOnOff(t.items, d, e);
    }
  }

  /** Repeating the same insert gives the same tables. */
  lemma InsertIdempotent(t: Tables, d: string, duration: int, its: seq<StoredItem>)
    ensures Insert(Insert(t, d, duration, its), d, duration, its) == Insert(t, d, duration, its)
  {
    var once := Insert(t, d, duration, its);
    RowReplaced(t.logFiles, LogRow(d, duration, |its|));
    ItemsReplaced(t.items, d, its);
    assert Insert(once, d, duration, its).logFiles == once.logFiles;
    assert Insert(once, d, duration, its).items == once.items;
  }

  lemma RowReplaced(rows: seq<LogRow>, row: LogRow)
    ensures OtherDays(OtherDays(rows, row.date) + [row], row.date) == OtherDays(rows, row.date)
  {
    var o := OtherDays(rows, row.date);
    assert (o + [row])[..|o|] == o;
    OtherDaysAbsent(o, row.date);
  }

  lemma ItemsReplaced(items: seq<ItemRow>, d: string, its: seq<StoredItem>)
    ensures ItemsOff(ItemsOff(items, d) + RowsFor(d, its), d) == ItemsOff(items, d)
  {
    var off := ItemsOff(items, d);
    ItemsOffAppend(off, RowsFor(d, its), d);
    ItemsOffNone(RowsFor(d, its), d);
    ItemsOffAbsent(off, d);
  }

  lemma {:induction false} ItemsOffAppend(a: seq<ItemRow>, b: seq<ItemRow>, d: string)
    ensures ItemsOff(a + b, d) == ItemsOff(a, d) + ItemsOff(b, d)
    decreases |b|
  {
    if |b| == 0 {
      assert a + b == a;
    } else {
      assert (a + b)[..|a + b| - 1] == a + b[..|b| - 1];
      ItemsOffAppend(a, b[..|b| - 1], d);
    }
  }

  lemma {:induction false} ItemsOffNone(items: seq<ItemRow>, d: string)
    requires forall x :: x in items ==> x.date == d
    ensures ItemsOff(items, d) == []
    decreases |items|
  {
    if |items| > 0 {
      ItemsOffNone(items[..|items| - 1], d);
    }
  }

  /** A delete leaves no row and no item of the date and keeps every other date's row and items. */
  lemma DeleteEffect(t: Tables, d: string)
    ensures var r := Delete(t, d);
      && (forall row: LogRow :: row in r.logFiles <==> row in t.logFiles && row.date != d)
      && ItemsOn(r.items, d) == []
      && (forall e :: e != d ==> ItemsOn(r.items, e) == ItemsOn(t.items, e))
    ensures UniqueDates(t.logFiles) ==> UniqueDates(Delete(t, d).logFiles)
  {
    ItemsOnNone(ItemsOff(t.items, d), d);
    forall e | e != d ensures ItemsOn(ItemsOff(t.items, d), e) == ItemsOn(t.items, e) {
      ItemsOnOff(t.items, d, e);
    }
    if UniqueDates(t.logFiles) { UniqueOtherDays(t.logFiles, d); }
  }

  /** One entry of `get_duration_data`'s `{date: duration}` dict. */
  datatype DayDuration = DayDuration(date: string, duration: int)

  /** The `log_files` rows a query keeps: all, or those whose date is not `today`. */
  function RowsShown(rows: seq<LogRow>, excludeToday: bool, today: string): seq<LogRow>
  {
    if excludeToday then OtherDays(rows, today) else rows
  }

  function ItemsShown(items: seq<ItemRow>, excludeToday: bool, today: string): seq<ItemRow>
  {
    if excludeToday then ItemsOff(items, today) else items
  }

  /** `{row[0]: row[1] for row in rows}` over the shown rows. */
  function DurationsOf(rows: seq<LogRow>, excludeToday: bool, today: string): (r: seq<DayDuration>)
  {
    var shown := RowsShown(rows, excludeToday, today);
    seq(|shown|, i requires 0 <= i < |shown| => DayDuration(shown[i].date, shown[i].duration))
  }

  /**
   * With `exclude_today` the durations leave out exactly the date `today`:
   * every stored row of another date is there, with its duration.
   */
  lemma DurationsOfSpec(rows: seq<LogRow>, excludeToday: bool, today: string)
    ensures forall x :: x in DurationsOf(rows, excludeToday, today) ==>
      (!excludeToday || x.date != today) && exists row :: row in rows && row.date == x.date && row.duration == x.duration
    ensures forall row :: row in rows && (!excludeToday || row.date != today) ==>
      DayDuration(row.date, row.duration) in DurationsOf(rows, excludeToday, today)
  {
    var shown := RowsShown(rows, excludeToday, today);
    var r := DurationsOf(rows, excludeToday, today);
    forall x | x in r
      ensures (!excludeToday || x.date != today) && exists row :: row in rows && row.date == x.date && row.duration == x.duration
    {
      var i :| 0 <= i < |r| && r[i] == x;
      assert shown[i] in shown;
    }
    forall row | row in rows && (!excludeToday || row.date != today)
      ensures DayDuration(row.date, row.duration) in r
    {
      assert row in shown;
      var i :| 0 <= i < |shown| && shown[i] == row;
      assert r[i] == DayDuration(row.date, row.duration);
    }
  }

  /** `result[date]` of `get_item_data`: names, times and groups, NULL shown as `''`. */
  datatype DayItems = DayItems(date: string, names: seq<string>, times: seq<string>, groups: seq<string>)

  /** `config_group or ''`. */
  function GroupText(g: Option<string>): string
  {
    if g.Some? then g.value else ""
  }

  function Extend(g: DayItems, row: ItemRow): DayItems
  {
    DayItems(g.date, g.names + [row.name], g.times + [row.timestamp], g.groups + [GroupText(row.group)])
  }

  /** The three lists of date `d` built from its rows, in order. */
  function Column(items: seq<ItemRow>, d: string): (c: DayItems)
    ensures c.date == d && |c.names| == |items| && |c.times| == |items| && |c.groups| == |items|
    decreases |items|
  {
    if |items| == 0 then DayItems(d, [], [], [])
    else Extend(Column(items[..|items| - 1], d), items[|items| - 1])
  }

  /** The index of date `d` among the groups, or their number. */
  function Find(gs: seq<DayItems>, d: string): (k: nat)
    ensures k <= |gs| && (k < |gs| ==> gs[k].date == d)
    ensures forall j :: 0 <= j < k ==> gs[j].date != d
    decreases |gs|
  {
    if |gs| == 0 then 0 else if gs[0].date == d then 0 else 1 + Find(gs[1..], d)
  }

  /** `result[d]`, or empty lists when `d` is not a key. */
  function Lookup(gs: seq<DayItems>, d: string): DayItems
  {
    var k := Find(gs, d);
    if k < |gs| then gs[k] else DayItems(d, [], [], [])
  }

  /** One turn of the grouping loop: a new date opens a group at the end. */
  function AddRow(gs: seq<DayItems>, row: ItemRow): seq<DayItems>
  {
    var k := Find(gs, row.date);
    if k < |gs| then gs[k := Extend(gs[k], row)] else gs + [Extend(DayItems(row.date, [], [], []), row)]
  }

  /** The grouping of `get_item_data`, row by row. */
  function Grouped(rows: seq<ItemRow>): seq<DayItems>
    decreases |rows|
  {
    if |rows| == 0 then [] else AddRow(Grouped(rows[..|rows| - 1]), rows[|rows| - 1])
  }

  predicate DistinctDates(gs: seq<DayItems>)
  {
    forall i, j :: 0 <= i < j < |gs| ==> gs[i].date != gs[j].date
  }

  lemma {:induction false} FindSameDates(gs: seq<DayItems>, hs: seq<DayItems>, d: string)
    requires |gs| == |hs| && forall j :: 0 <= j < |gs| ==> gs[j].date == hs[j].date
    ensures Find(gs, d) == Find(hs, d)
    decreases |gs|
  {
    if |gs| > 0 { FindSameDates(gs[1..], hs[1..], d); }
  }

  lemma {:induction false} FindAppend(gs: seq<DayItems>, g: DayItems, d: string)
    ensures Find(gs + [g], d) == (if Find(gs, d) < |gs| || g.date == d then Find(gs, d) else |gs| + 1)
    decreases |gs|
  {
    if |gs| > 0 {
      assert (gs + [g])[1..] == gs[1..] + [g];
      FindAppend(gs[1..], g, d);
    }
  }

  lemma ItemsOnLast(rows: seq<ItemRow>, e: string)
    requires |rows| > 0
    ensures ItemsOn(rows, e) == ItemsOn(rows[..|rows| - 1], e) + (if rows[|rows| - 1].date == e then [rows[|rows| - 1]] else [])
  {
  }

  /** What one turn of the grouping loop does to the group of date `e`. */
  lemma AddRowLookup(gs: seq<DayItems>, row: ItemRow, e: string)
    ensures Lookup(AddRow(gs, row), e) == if row.date == e then Extend(Lookup(gs, e), row) else Lookup(gs, e)
  {
    var k := Find(gs, row.date);
    var hs := AddRow(gs, row);
    if k < |gs| {
      FindSameDates(gs, hs, e);
    } else {
      FindAppend(gs, Extend(DayItems(row.date, [], [], []), row), e);
    }
  }

  lemma GroupedStep(rows: seq<ItemRow>, e: string)
    requires |rows| > 0
    requires Lookup(Grouped(rows[..|rows| - 1]), e) == Column(ItemsOn(rows[..|rows| - 1], e), e)
    ensures Lookup(Grouped(rows), e) == Column(ItemsOn(rows, e), e)
  {
    var init, row := rows[..|rows| - 1], rows[|rows| - 1];
    assert Grouped(rows) == AddRow(Grouped(init), row);
    AddRowLookup(Grouped(init), row, e);
    ItemsOnLast(rows, e);
    var x := ItemsOn(init, e);
    if row.date == e {
      assert ItemsOn(rows, e) == x + [row];
      assert (x + [row])[..|x|] == x;
      assert Column(x + [row], e) == Extend(Column(x, e), row);
    } else {
      assert ItemsOn(rows, e) == x;
    }
  }

  /**
   * The grouping loop gives one group per date, the dates distinct and in
   * first-seen order of the rows, and each group holds exactly that
   * date's rows in stored order.
   */
  lemma {:induction false} GroupedSpec(rows: seq<ItemRow>)
    ensures DistinctDates(Grouped(rows))
    ensures forall e :: Lookup(Grouped(rows), e) == Column(ItemsOn(rows, e), e)
    decreases |rows|
  {
    if |rows| > 0 {
      var init, row := rows[..|rows| - 1], rows[|rows| - 1];
      GroupedSpec(init);
      var gs := Grouped(init);
      forall e ensures Lookup(Grouped(rows), e) == Column(ItemsOn(rows, e), e) {
        GroupedStep(rows, e);
      }
      var k := Find(gs, row.date);
      if k == |gs| {
        assert DistinctDates(gs + [Extend(DayItems(row.date, [], [], []), row)]);
      }
    }
  }

  /** A `post_data` row; `create_time` in seconds on the store's clock. */
  datatype PostRow = PostRow(id: int, event: string, result: Option<string>, timestamp: Option<string>,
                             screenshot: Option<string>, createTime: int, message: Option<string>)

  /** A webhook payload: each key maps to a text or to Python's `None`. */
  type Payload = map<string, Option<string>>

  /** An optional column: NULL when the key is absent or `None`. */
  function Field(payload: Payload, key: string): Option<string>
  {
    if key in payload then payload[key] else None
  }

  /**
   * The row `save_webhook_data` inserts, or `None` where it raises: a
   * missing `event` key, or an `event` of `None` against `NOT NULL`.
   */
  function PostOf(payload: Payload, id: int, now: int): (r: Option<PostRow>)
    ensures r.Some? <==> "event" in payload && payload["event"].Some?
    ensures r.Some? ==> r.value.id == id && r.value.createTime == now && r.value.event == payload["event"].value
  {
    if "event" !in payload || payload["event"].None? then None
    else Some(PostRow(id, payload["event"].value, Field(payload, "result"), Field(payload, "timestamp"),
                      Field(payload, "screenshot"), now, Field(payload, "message")))
  }

  /** The rows `cleanup_old_webhook_data` keeps: those created at or after the cut-off. */
  function Recent(posts: seq<PostRow>, cutoff: int): (r: seq<PostRow>)
    ensures forall p :: p in r <==> p in posts && p.createTime >= cutoff
    decreases |posts|
  {
    if |posts| == 0 then []
    else
      assert posts == posts[..|posts| - 1] + [posts[|posts| - 1]];
      Recent(posts[..|posts| - 1], cutoff) + (if posts[|posts| - 1].createTime >= cutoff then [posts[|posts| - 1]] else [])
  }

  /** `ORDER BY create_time DESC`. */
  predicate NewestFirst(ps: seq<PostRow>)
  {
    forall i, j :: 0 <= i < j < |ps| ==> ps[i].createTime >= ps[j].createTime
  }

  lemma PrependNewest(x: PostRow, t: seq<PostRow>)
    requires NewestFirst(t) && forall q :: q in t ==> q.createTime <= x.createTime
    ensures NewestFirst([x] + t)
  {
    var r := [x] + t;
    forall i, j | 0 <= i < j < |r| ensures r[i].createTime >= r[j].createTime {
      if i > 0 { assert r[i] == t[i - 1] && r[j] == t[j - 1]; } else { assert r[j] in t; }
    }
  }

  lemma HeadNewest(ps: seq<PostRow>)
    requires NewestFirst(ps)
    ensures |ps| > 0 ==> forall q :: q in ps ==> q.createTime <= ps[0].createTime
  {
  }

  function InsertByTime(p: PostRow, ps: seq<PostRow>): (r: seq<PostRow>)
    requires NewestFirst(ps)
    ensures NewestFirst(r) && multiset(r) == multiset(ps) + multiset{p}
    decreases |ps|
  {
    if |ps| == 0 || ps[0].createTime <= p.createTime then
      HeadNewest(ps);
      PrependNewest(p, ps);
      [p] + ps
    else
      assert ps == [ps[0]] + ps[1..];
      var t := InsertByTime(p, ps[1..]);
      HeadNewest(ps);
      assert forall q :: q in t ==> q.createTime <= ps[0].createTime by {
        forall q | q in t ensures q.createTime <= ps[0].createTime {
          if q != p { assert q in multiset(t); assert q in multiset(ps[1..]); }
        }
      }
      PrependNewest(ps[0], t);
      [ps[0]] + t
  }

  /** The rows newest first; rows created at the same second keep their row order. */
  function ByTimeDesc(ps: seq<PostRow>): (r: seq<PostRow>)
    ensures NewestFirst(r) && multiset(r) == multiset(ps)
    decreases |ps|
  {
    if |ps| == 0 then []
    else
      assert ps == ps[..|ps| - 1] + [ps[|ps| - 1]];
      InsertByTime(ps[|ps| - 1], ByTimeDesc(ps[..|ps| - 1]))
  }

  /** `LIMIT n`: SQLite reads a negative limit as no limit. */
  function Limit(ps: seq<PostRow>, limit: int): (r: seq<PostRow>)
    ensures |r| == if limit < 0 || limit >= |ps| then |ps| else limit
    ensures r <= ps
  {
    if limit < 0 || limit >= |ps| then ps else ps[..limit]
  }

  /** Three days, the default retention of `cleanup_old_webhook_data`, in seconds. */
  const DaysToKeep: int := 3
  const Day: int := 86400

  /**
   * `get_webhook_data`: at most `limit` rows (all of them for a negative
   * limit), newest first, each a row stored and not older than the cut-off.
   */
  lemma WebhookQuery(posts: seq<PostRow>, cutoff: int, limit: int)
    ensures var r := Limit(ByTimeDesc(Recent(posts, cutoff)), limit);
      && NewestFirst(r)
      && |r| == (if limit < 0 || limit >= |Recent(posts, cutoff)| then |Recent(posts, cutoff)| else limit)
      && forall p :: p in r ==> p in posts && p.createTime >= cutoff
  {
    var all := ByTimeDesc(Recent(posts, cutoff));
    var r := Limit(all, limit);
    forall p | p in r ensures p in posts && p.createTime >= cutoff {
      assert p in all;
      assert p in multiset(all);
    }
  }

  /**
   * The store: the two log tables, the webhook table with its next row
   * id, and whether the database is unusable right now (every statement
   * raising), in which case each method swallows the error and returns
   * its default.
   */
  class DatabaseManager {
    var logFiles: seq<LogRow>
    var items: seq<ItemRow>
    var posts: seq<PostRow>
    var nextId: int
    var failing: bool

    predicate Valid()
      reads this
    {
      UniqueDates(logFiles) && forall p :: p in posts ==> p.id < nextId
    }

    function Logs(): Tables
      reads this
    {
      Tables(logFiles, items)
    }

    /** A store opened over existing log tables and an empty webhook table. */
    constructor (t: Tables)
      requires UniqueDates(t.logFiles)
      ensures Valid() && Logs() == t && posts == [] && !failing
    {
      logFiles, items := t.logFiles, t.items;
      posts, nextId := [], 1;
      failing := false;
    }

    /**
     * The database file turning unusable (`down`) or usable again, an event
     * from outside the program: from then on every connection `get_connection`
     * opens raises, or none does. The tables themselves stay as they were.
     */
    method Outage(down: bool)
      requires Valid()
      modifies this
      ensures Valid() && failing == down
      ensures Logs() == old(Logs()) && posts == old(posts) && nextId == old(nextId)
    {
      failing := down;
    }

    method InsertLogFileData(d: string, duration: int, its: seq<StoredItem>) returns (ok: bool)
      requires Valid()
      modifies this
      ensures Valid() && ok == !failing && failing == old(failing)
      ensures Logs() == if failing then old(Logs()) else Insert(old(Logs()), d, duration, its)
      ensures posts == old(posts) && nextId == old(nextId)
    {
      if failing { return false; }
      InsertRow(Logs(), d, duration, its);
      logFiles := OtherDays(logFiles, d) + [LogRow(d, duration, |its|)];
      items := ItemsOff(items, d) + RowsFor(d, its);
      ok := true;
    }

    /** `get_stored_dates`: every stored date once, newest first; nothing when the store fails. */
    method GetStoredDates() returns (r: seq<string>)
      requires Valid()
      ensures failing ==> r == []
      ensures !failing ==> Descending(r) && multiset(r) == multiset(Dates(logFiles)) && Distinct(r)
    {
      if failing { return []; }
      r := SortDesc(Dates(logFiles));
      SortDescDistinct(Dates(logFiles));
    }

    method GetDurationData(excludeToday: bool, today: string) returns (r: seq<DayDuration>)
      ensures r == if failing then [] else DurationsOf(logFiles, excludeToday, today)
    {
      if failing { return []; }
      r := DurationsOf(logFiles, excludeToday, today);
    }

    /** `get_item_data`: the grouping loop over the shown rows. */
    method GetItemData(excludeToday: bool, today: string) returns (r: seq<DayItems>)
      ensures r == if failing then [] else Grouped(ItemsShown(items, excludeToday, today))
    {
      if failing { return []; }
      var rows := ItemsShown(items, excludeToday, today);
      r := [];
      var i := 0;
      while i < |rows|
        invariant 0 <= i <= |rows|
        invariant r == Grouped(rows[..i])
      {
        var row := rows[i];
        var k := Find(r, row.date);
        if k == |r| {
          r := r + [DayItems(row.date, [], [], [])];
        }
        r := r[k := Extend(r[k], row)];
        assert rows[..i + 1][..i] == rows[..i];
        i := i + 1;
      }
      assert rows[..i] == rows;
    }

    /** `get_log_file_info`: the row of the date, if any. */
    method GetLogFileInfo(d: string) returns (r: Option<LogRow>)
      ensures failing ==> r.None?
      ensures !failing ==> (r.Some? <==> d in Dates(logFiles))
      ensures r.Some? ==> r.value in logFiles && r.value.date == d
    {
      if failing { return None; }
      r := None;
      var i := 0;
      while i < |logFiles|
        invariant 0 <= i <= |logFiles|
        invariant r.None? ==> d !in Dates(logFiles)[..i]
        invariant r.Some? ==> r.value in logFiles && r.value.date == d
      {
        if r.None? && logFiles[i].date == d {
          r := Some(logFiles[i]);
        }
        i := i + 1;
      }
      assert Dates(logFiles)[..i] == Dates(logFiles);
    }

    method GetDatabaseStats() returns (logCount: int, itemCount: int)
      ensures failing ==> logCount == 0 && itemCount == 0
      ensures !failing ==> logCount == |logFiles| && itemCount == |items|
    {
      if failing { return 0, 0; }
      logCount, itemCount := |logFiles|, |items|;
    }

    method DeleteLogData(d: string) returns (ok: bool)
      requires Valid()
      modifies this
      ensures Valid() && ok == !failing && failing == old(failing)
      ensures Logs() == if failing then old(Logs()) else Delete(old(Logs()), d)
      ensures posts == old(posts) && nextId == old(nextId)
    {
      if failing { return false; }
      DeleteEffect(Logs(), d);
      items := ItemsOff(items, d);
      logFiles := OtherDays(logFiles, d);
      ok := true;
    }

    /** `save_webhook_data` at time `now`: stores the payload unless it lacks an event. */
    method SaveWebhookData(payload: Payload, now: int) returns (ok: bool)
      requires Valid()
      modifies this
      ensures Valid() && Logs() == old(Logs()) && failing == old(failing)
      ensures ok <==> !failing && PostOf(payload, old(nextId), now).Some?
      ensures ok ==> posts == old(posts) + [PostOf(payload, old(nextId), now).value] && nextId == old(nextId) + 1
      ensures !ok ==> posts == old(posts) && nextId == old(nextId)
    {
      if failing { return false; }
      var row := PostOf(payload, nextId, now);
      if row.None? { return false; }
      posts := posts + [row.value];
      nextId := nextId + 1;
      ok := true;
    }

    /** `cleanup_old_webhook_data`: drops the rows created before `now` minus the given days. */
    method CleanupOldWebhookData(daysToKeep: int, now: int) returns (ok: bool)
      requires Valid()
      modifies this
      ensures Valid() && Logs() == old(Logs()) && failing == old(failing) && nextId == old(nextId)
      ensures ok == !failing
      ensures posts == if failing then old(posts) else Recent(old(posts), now - daysToKeep * Day)
    {
      if failing { return false; }
      posts := Recent(posts, now - daysToKeep * Day);
      ok := true;
    }

    /** `get_webhook_data`: a cleanup with the default retention, then the newest `limit` rows. */
    method GetWebhookData(limit: int, now: int) returns (r: seq<PostRow>)
      requires Valid()
      modifies this
      ensures Valid() && Logs() == old(Logs()) && failing == old(failing) && nextId == old(nextId)
      ensures posts == if failing then old(posts) else Recent(old(posts), now - DaysToKeep * Day)
      ensures r == if failing then [] else Limit(ByTimeDesc(posts), limit)
    {
      var _ := CleanupOldWebhookData(DaysToKeep, now);
      if failing { return []; }
      r := Limit(ByTimeDesc(posts), limit);
    }
  }

  /** An element handed to `LogDatabase.store_log_data`. */
  datatype Given =
    | NoneValue                                                                      // `None`
    | WithName(name: string, timestamp: Option<string>, group: Option<string>)         // an object with a `name` attribute
    | Dict(key: Option<string>, time: Option<string>, configGroup: Option<string>)     // a dict: `name`, `timestamp`, `config_group`
    | Unsupported                                                                    // anything else

  /** The dict `store_log_data` makes of one element, or nothing for a dropped one. */
  function Serialize(g: Given): (r: Option<StoredItem>)
    ensures r.None? <==> g.NoneValue? || g.Unsupported?
  {
    match g
    case NoneValue => None
    case Unsupported => None
    case WithName(name, timestamp, group) => Some(StoredItem(name, GetOr(timestamp, ""), group))
    case Dict(name, timestamp, group) => Some(StoredItem(GetOr(name, ""), GetOr(timestamp, ""), group))
  }

  /** `getattr(x, k, default)` / `d.get(k, default)`. */
  function GetOr(v: Option<string>, default: string): string
  {
    if v.Some? then v.value else default
  }

  /** The serialised list, element by element. */
  function Serialized(gs: seq<Given>): seq<StoredItem>
    decreases |gs|
  {
    if |gs| == 0 then []
    else Serialized(gs[..|gs| - 1]) + (match Serialize(gs[|gs| - 1]) case None => [] case Some(x) => [x])
  }

  /** The store keeps exactly the serialised form of each element that is an object with a name or a dict. */
  lemma {:induction false} SerializedSpec(gs: seq<Given>)
    ensures forall x :: x in Serialized(gs) <==> exists k :: 0 <= k < |gs| && Serialize(gs[k]) == Some(x)
    ensures |Serialized(gs)| <= |gs|
    decreases |gs|
  {
    if |gs| > 0 {
      var init := gs[..|gs| - 1];
      SerializedSpec(init);
      forall x ensures x in Serialized(gs) <==> exists k :: 0 <= k < |gs| && Serialize(gs[k]) == Some(x) {
        if exists k :: 0 <= k < |init| && Serialize(init[k]) == Some(x) {
          var k :| 0 <= k < |init| && Serialize(init[k]) == Some(x);
          assert gs[k] == init[k];
        }
        if exists k :: 0 <= k < |gs| && Serialize(gs[k]) == Some(x) {
          var k :| 0 <= k < |gs| && Serialize(gs[k]) == Some(x);
          if k < |init| { assert init[k] == gs[k]; }
        }
      }
    }
  }

  /** The value of a date in the durations dict. */
  function DurationAt(data: seq<DayDuration>, d: string): int
    decreases |data|
  {
    if |data| == 0 then 0 else if data[0].date == d then data[0].duration else DurationAt(data[1..], d)
  }

  function DayDates(data: seq<DayDuration>): (r: seq<string>)
    ensures |r| == |data| && forall i :: 0 <= i < |data| ==> r[i] == data[i].date
  {
    seq(|data|, i requires 0 <= i < |data| => data[i].date)
  }

  function GroupDates(gs: seq<DayItems>): (r: seq<string>)
    ensures |r| == |gs| && forall i :: 0 <= i < |gs| ==> r[i] == gs[i].date
  {
    seq(|gs|, i requires 0 <= i < |gs| => gs[i].date)
  }

  /** `[x] * n`. */
  function Repeat(x: string, n: nat): (r: seq<string>)
    ensures |r| == n && forall i :: 0 <= i < n ==> r[i] == x
  {
    seq(n, i => x)
  }

  /** The four flat lists `LogDatabase.get_item_data` builds. */
  datatype Flat = Flat(names: seq<string>, times: seq<string>, dates: seq<string>, groups: seq<string>)

  /** The flat lists after the dates `keys`, one date at a time. */
  function Flatten(gs: seq<DayItems>, keys: seq<string>): Flat
    decreases |keys|
  {
    if |keys| == 0 then Flat([], [], [], [])
    else
      var f := Flatten(gs, keys[..|keys| - 1]);
      var k := keys[|keys| - 1];
      var g := Lookup(gs, k);
      Flat(f.names + g.names, f.times + g.times, f.dates + Repeat(k, |g.names|), f.groups + g.groups)
  }

  /** The groups as the grouping loop leaves them: each group's lists are parallel. */
  ghost predicate Parallel(gs: seq<DayItems>)
  {
    forall e :: |Lookup(gs, e).times| == |Lookup(gs, e).names| && |Lookup(gs, e).groups| == |Lookup(gs, e).names|
  }

  lemma GroupedParallel(rows: seq<ItemRow>)
    ensures Parallel(Grouped(rows))
  {
    GroupedSpec(rows);
  }

  /**
   * Flattening parallel groups along ascending dates gives four lists of
   * one length whose dates are ascending, each date repeated once per item.
   */
  lemma {:induction false} FlattenSpec(gs: seq<DayItems>, keys: seq<string>)
    requires Parallel(gs) && Ascending(keys)
    ensures var f := Flatten(gs, keys);
      && |f.times| == |f.names| && |f.dates| == |f.names| && |f.groups| == |f.names|
      && Ascending(f.dates) && (forall i :: 0 <= i < |f.dates| ==> f.dates[i] in keys)
    decreases |keys|
  {
    if |keys| > 0 {
      var init := keys[..|keys| - 1];
      var k := keys[|keys| - 1];
      assert Ascending(init);
      FlattenSpec(gs, init);
      var f := Flatten(gs, init);
      var more := Repeat(k, |Lookup(gs, k).names|);
      var ds := f.dates + more;
      forall i, j | 0 <= i < j < |ds| ensures LessEq(ds[i], ds[j]) {
        if j >= |f.dates| {
          if i < |f.dates| {
            assert f.dates[i] in init;
            var m :| 0 <= m < |init| && init[m] == f.dates[i];
            assert keys[m] == f.dates[i];
          }
        }
      }
    }
  }

  /** The flattening loop of `LogDatabase.get_item_data`. */
  method FlattenDates(grouped: seq<DayItems>, keys: seq<string>) returns (f: Flat)
    ensures f == Flatten(grouped, keys)
  {
    f := Flat([], [], [], []);
    var i := 0;
    while i < |keys|
      invariant 0 <= i <= |keys|
      invariant f == Flatten(grouped, keys[..i])
    {
      var info := Lookup(grouped, keys[i]);
      f := Flat(f.names + info.names, f.times + info.times, f.dates + Repeat(keys[i], |info.names|), f.groups + info.groups);
      assert keys[..i + 1][..i] == keys[..i];
      i := i + 1;
    }
    assert keys[..i] == keys;
  }

  /** The wrapper the test scripts use, over one store. */
  class LogDatabase {
    const manager: DatabaseManager

    constructor (t: Tables)
      requires UniqueDates(t.logFiles)
      ensures fresh(manager) && manager.Valid() && manager.Logs() == t && manager.posts == [] && !manager.failing
    {
      manager := new DatabaseManager(t);
    }

    /** `store_log_data`: serialises the usable elements, then inserts them. */
    method StoreLogData(d: string, duration: int, given: seq<Given>) returns (ok: bool)
      requires manager.Valid()
      modifies manager
      ensures manager.Valid() && ok == !manager.failing && manager.failing == old(manager.failing)
      ensures manager.Logs() == if manager.failing then old(manager.Logs()) else Insert(old(manager.Logs()), d, duration, Serialized(given))
      ensures manager.posts == old(manager.posts)
    {
      var serialized: seq<StoredItem> := [];
      var i := 0;
      while i < |given|
        invariant 0 <= i <= |given|
        invariant serialized == Serialized(given[..i])
      {
        match Serialize(given[i]) {
          case None =>
          case Some(x) => serialized := serialized + [x];
        }
        assert given[..i + 1][..i] == given[..i];
        i := i + 1;
      }
      assert given[..i] == given;
      ok := manager.InsertLogFileData(d, duration, serialized);
    }

    method IsDateStored(d: string) returns (b: bool)
      requires manager.Valid()
      ensures b <==> !manager.failing && d in Dates(manager.logFiles)
    {
      var dates := manager.GetStoredDates();
      b := d in dates;
      if !manager.failing {
        assert d in dates <==> d in multiset(dates);
      }
    }

    /** `get_duration_data`: the dates ascending, each with its duration. */
    method GetDurationData(excludeToday: bool, today: string) returns (dates: seq<string>, durations: seq<int>)
      ensures Ascending(dates) && |durations| == |dates|
      ensures var data := if manager.failing then [] else DurationsOf(manager.logFiles, excludeToday, today);
        multiset(dates) == multiset(DayDates(data)) && forall i :: 0 <= i < |dates| ==> durations[i] == DurationAt(data, dates[i])
    {
      var data := manager.GetDurationData(excludeToday, today);
      dates := SortAsc(DayDates(data));
      durations := seq(|dates|, i requires 0 <= i < |dates| => DurationAt(data, dates[i]));
    }

    /** `get_item_data`: four parallel lists along the dates in ascending order. */
    method GetItemData(excludeToday: bool, today: string) returns (f: Flat)
      ensures var gs := if manager.failing then [] else Grouped(ItemsShown(manager.items, excludeToday, today));
        f == Flatten(gs, SortAsc(GroupDates(gs)))
      ensures |f.times| == |f.names| && |f.dates| == |f.names| && |f.groups| == |f.names| && Ascending(f.dates)
    {
      var grouped := manager.GetItemData(excludeToday, today);
      if !manager.failing { GroupedParallel(ItemsShown(manager.items, excludeToday, today)); }
      var keys := SortAsc(GroupDates(grouped));
      f := FlattenDates(grouped, keys);
      FlattenSpec(grouped, keys);
    }

    method GetDatabaseStats() returns (logCount: int, itemCount: int)
      ensures manager.failing ==> logCount == 0 && itemCount == 0
      ensures !manager.failing ==> logCount == |manager.logFiles| && itemCount == |manager.items|
    {
      logCount, itemCount := manager.GetDatabaseStats();
    }

    method DeleteLogData(d: string) returns (ok: bool)
      requires manager.Valid()
      modifies manager
      ensures manager.Valid() && ok == !manager.failing && manager.failing == old(manager.failing)
      ensures manager.Logs() == if manager.failing then old(manager.Logs()) else Delete(old(manager.Logs()), d)
    {
      ok := manager.DeleteLogData(d);
    }
  }
}

=== FILE: src/db.dfy ===
/**
 * The older `LogDataManager` of release/app/infrastructure/db.py: no
 * store.  Every listed log is parsed, on the detail line alone, under one
 * dedup list that is never cleared, and the days with pickups give the log
 * list, the parallel date and duration lists and the four item lists.
 * The lists are built once and kept while the log list is non-empty.
 */
module LegacyManager {
  import opened Wrappers
  import opened Strings
  import opened FramedPattern
  import opened EntryScan
  import opened Entities
  import opened Database
  import opened Manager

  /** The lists `get_log_list` builds and the dedup list it leaves. */
  datatype Listed = Listed(logs: seq<string>, durations: seq<int>, items: Flat, cache: seq<string>)

  /** The four lists with the items' columns appended. */
  function AppendItems(f: Flat, items: seq<ItemInfo>): Flat
  {
    var c := Columns(items);
    Flat(f.names + c.names, f.times + c.times, f.dates + c.dates, f.groups + c.groups)
  }

  /** The loop of `get_log_list` over the dates `files`, in order. */
  function ListLogs(dir: Directory, files: seq<string>, cache: seq<string>): Listed
    decreases |files|
  {
    if |files| == 0 then Listed([], [], Flat([], [], [], []), cache)
    else
      var s := ListLogs(dir, files[..|files| - 1], cache);
      var f := files[|files| - 1];
      var o := ReadLog(ExtraOnly, dir, FileName(f), f, s.cache);
      if o.result.Some? && Worth(o.result.value) then
        Listed(s.logs + [f], s.durations + [o.result.value.duration], AppendItems(s.items, o.result.value.items), o.cache)
      else s.(cache := o.cache)
  }

  /** A day the older manager lists, judged on a fresh dedup list. */
  predicate Listable(dir: Directory, d: string)
  {
    var o := ReadLog(ExtraOnly, dir, FileName(d), d, []);
    o.result.Some? && Worth(o.result.value)
  }

  /**
   * The listed days are exactly the given dates whose log is worth it,
   * whatever the dedup list; there is one duration per listed day and the
   * four item lists run in parallel; every recorded item carries a listed
   * day; the dedup list only grows.
   */
  lemma {:induction false} ListLogsSpec(dir: Directory, files: seq<string>, cache: seq<string>)
    requires Distinct(cache)
    ensures var s := ListLogs(dir, files, cache);
      && (forall x :: x in s.logs <==> x in files && Listable(dir, x))
      && |s.durations| == |s.logs|
      && |s.items.times| == |s.items.names| && |s.items.dates| == |s.items.names| && |s.items.groups| == |s.items.names|
      && (forall k :: 0 <= k < |s.items.dates| ==> s.items.dates[k] in s.logs)
      && cache <= s.cache && Distinct(s.cache)
    decreases |files|
  {
    if |files| > 0 {
      var init, f := files[..|files| - 1], files[|files| - 1];
      assert files == init + [f];
      ListLogsSpec(dir, init, cache);
      var s := ListLogs(dir, init, cache);
      ReadLogFacts(dir, f, s.cache);
      var o := ReadLog(ExtraOnly, dir, FileName(f), f, s.cache);
      if o.result.Some? && Worth(o.result.value) {
        AppendedDates(s.items, o.result.value.items, s.logs, f);
      }
    }
  }

  /** The given dates whose log is worth it, in the given order. */
  function Kept(dir: Directory, files: seq<string>): (r: seq<string>)
    ensures |r| <= |files|
    decreases |files|
  {
    if |files| == 0 then []
    else
      var f := files[|files| - 1];
      Kept(dir, files[..|files| - 1]) + (if Listable(dir, f) then [f] else [])
  }

  /** The log list is the listable dates in listing order, whatever the dedup list. */
  lemma {:induction false} ListLogsOrder(dir: Directory, files: seq<string>, cache: seq<string>)
    ensures ListLogs(dir, files, cache).logs == Kept(dir, files)
    decreases |files|
  {
    if |files| > 0 {
      var init, f := files[..|files| - 1], files[|files| - 1];
      ListLogsOrder(dir, init, cache);
      ReadLogCacheFree(ExtraOnly, dir, FileName(f), f, ListLogs(dir, init, cache).cache);
    }
  }

  /**
   * The loop run again under a dedup list holding every key the first run
   * left: the same days with the same durations, no item recorded, and the
   * dedup list unchanged.
   */
  lemma {:induction false} ListLogsRepeat(dir: Directory, files: seq<string>, c1: seq<string>, c2: seq<string>)
    requires forall x :: x in ListLogs(dir, files, c1).cache ==> x in c2
    ensures var s1, s2 := ListLogs(dir, files, c1), ListLogs(dir, files, c2);
      s2.logs == s1.logs && s2.durations == s1.durations && s2.items == Flat([], [], [], []) && s2.cache == c2
    decreases |files|
  {
    if |files| > 0 {
      var init, f := files[..|files| - 1], files[|files| - 1];
      var s1 := ListLogs(dir, init, c1);
      ReadLogGrows(ExtraOnly, dir, FileName(f), f, s1.cache);
      ListLogsRepeat(dir, init, c1, c2);
      ReadLogRepeat(ExtraOnly, dir, FileName(f), f, s1.cache, c2);
      assert AppendItems(Flat([], [], [], []), []) == Flat([], [], [], []);
    }
  }

  /**
   * A second `get_log_list` over the same dates lists the same days in the
   * same order with the same durations, but every pickup is already in the
   * dedup list, so the item lists come back empty and the list stays as it was.
   */
  lemma ListLogsTwice(dir: Directory, files: seq<string>, cache: seq<string>)
    ensures var s1 := ListLogs(dir, files, cache);
      var s2 := ListLogs(dir, files, s1.cache);
      s2.logs == s1.logs && s2.durations == s1.durations && s2.items == Flat([], [], [], []) && s2.cache == s1.cache
  {
    ListLogsRepeat(dir, files, cache, ListLogs(dir, files, cache).cache);
  }

  /** One day's read: the dedup list grows, the day is kept exactly when it is listable, and its items carry the day. */
  lemma ReadLogFacts(dir: Directory, f: string, cache: seq<string>)
    requires Distinct(cache)
    ensures var o := ReadLog(ExtraOnly, dir, FileName(f), f, cache);
      && cache <= o.cache && Distinct(o.cache)
      && (o.result.Some? && Worth(o.result.value) <==> Listable(dir, f))
      && (o.result.Some? ==> forall k :: 0 <= k < |o.result.value.items| ==> o.result.value.items[k].date == f)
  {
    var name := FileName(f);
    ReadLogCacheFree(ExtraOnly, dir, name, f, cache);
    if name in dir.files && dir.files[name].Readable? {
      ParseSpec(ExtraOnly, dir.files[name].text, f, cache);
    }
  }

  /** Items of day `d` appended to lists whose dates are all in `logs` leave every date in `logs + [d]`. */
  lemma AppendedDates(f: Flat, items: seq<ItemInfo>, logs: seq<string>, d: string)
    requires forall k :: 0 <= k < |f.dates| ==> f.dates[k] in logs
    requires forall k :: 0 <= k < |items| ==> items[k].date == d
    ensures forall k :: 0 <= k < |AppendItems(f, items).dates| ==> AppendItems(f, items).dates[k] in logs + [d]
  {
    var ds := AppendItems(f, items).dates;
    forall k | 0 <= k < |ds| ensures ds[k] in logs + [d] {
      if k >= |f.dates| {
        assert ds[k] == items[k - |f.dates|].date;
      } else {
        assert ds[k] == f.dates[k];
      }
    }
  }

  /** The inner loop of `get_log_list`: each item's four fields appended in turn. */
  method AppendLoop(f: Flat, items: seq<ItemInfo>) returns (g: Flat)
    ensures g == AppendItems(f, items)
  {
    g := f;
    var j := 0;
    while j < |items|
      invariant 0 <= j <= |items|
      invariant g == AppendItems(f, items[..j])
    {
      var item := items[j];
      ghost var c, c' := Columns(items[..j]), Columns(items[..j + 1]);
      assert c'.names == c.names + [item.name] && c'.times == c.times + [item.timestamp];
      assert c'.dates == c.dates + [item.date] && c'.groups == c.groups + [GroupText(item.configGroup)];
      g := Flat(g.names + [item.name], g.times + [item.timestamp], g.dates + [item.date], g.groups + [GroupText(item.configGroup)]);
      j := j + 1;
    }
    assert items[..j] == items;
  }

  /**
   * The older manager: its dedup list, the lists `get_log_list` keeps
   * (the date list of the durations dict is the log list itself) and the
   * log list, `None` until the first call.
   */
  class LegacyLogDataManager {
    var itemCachedList: seq<string>
    var itemData: Flat
    var durations: seq<int>
    var logList: Option<seq<string>>

    constructor ()
      ensures itemCachedList == [] && itemData == Flat([], [], [], []) && durations == [] && logList.None?
    {
      itemCachedList := [];
      itemData := Flat([], [], [], []);
      durations := [];
      logList := None;
    }

    /** `parse_log` on the detail lines; `None` stands for the `IndexError` it lets escape. */
    method ParseLog(content: string, date: string) returns (r: Option<LogAnalysisResult>)
      modifies this
      ensures ReadOut(r, itemCachedList) == Parse(ExtraOnly, content, date, old(itemCachedList))
      ensures itemData == old(itemData) && durations == old(durations) && logList == old(logList)
    {
      var o := ScanEntries(ExtraOnly, date, Tokens(content), itemCachedList);
      match o
      case Raised(c) =>
        itemCachedList := c;
        r := None;
      case Done(st) =>
        itemCachedList := st.cache;
        r := Some(Analysis(st));
    }

    method ReadLogFile(dir: Directory, name: string, date: string) returns (r: Option<LogAnalysisResult>)
      modifies this
      ensures ReadOut(r, itemCachedList) == ReadLog(ExtraOnly, dir, name, date, old(itemCachedList))
      ensures itemData == old(itemData) && durations == old(durations) && logList == old(logList)
    {
      if name !in dir.files || dir.files[name].Unreadable? {
        return None;
      }
      r := ParseLog(dir.files[name].text, date);
    }

    /** `get_log_list`: every listed log parsed in listing order, the days with pickups kept. */
    method GetLogList(dir: Directory) returns (r: seq<string>)
      modifies this
      ensures var s := ListLogs(dir, FileDates(dir.listing), old(itemCachedList));
        && r == s.logs && logList == Some(r) && durations == s.durations && itemData == s.items
        && itemCachedList == s.cache
    {
      var files := FileDates(dir.listing);
      ghost var c0 := itemCachedList;
      var logs: seq<string> := [];
      var ds: seq<int> := [];
      var cached := Flat([], [], [], []);
      var i := 0;
      while i < |files|
        invariant 0 <= i <= |files|
        invariant ListLogs(dir, files[..i], c0) == Listed(logs, ds, cached, itemCachedList)
      {
        var f := files[i];
        var result := ReadLogFile(dir, FileName(f), f);
        if result.Some? && |DropForbidden(result.value.itemCount)| > 0 {
          logs := logs + [f];
          ds := ds + [result.value.duration];
          cached := AppendLoop(cached, result.value.items);
        }
        assert files[..i + 1][..i] == files[..i];
        i := i + 1;
      }
      assert files[..i] == files;
      durations := ds;
      itemData := cached;
      logList := Some(logs);
      r := logs;
    }

    /** `get_duration_data`: the dates and durations, rebuilt only while the log list is `None` or empty. */
    method GetDurationData(dir: Directory) returns (dates: seq<string>, ds: seq<int>)
      modifies this
      ensures old(logList).Some? && old(logList).value != [] ==>
        itemCachedList == old(itemCachedList) && itemData == old(itemData) && durations == old(durations) && logList == old(logList)
      ensures old(logList).None? || old(logList).value == [] ==>
        var s := ListLogs(dir, FileDates(dir.listing), old(itemCachedList));
        logList == Some(s.logs) && durations == s.durations && itemData == s.items && itemCachedList == s.cache
      ensures logList.Some? && dates == logList.value && ds == durations
    {
      if logList.None? || logList.value == [] {
        var _ := GetLogList(dir);
      }
      dates, ds := logList.value, durations;
    }

    /** `get_item_data`: the four item lists, rebuilt only while the log list is `None` or empty. */
    method GetItemData(dir: Directory) returns (f: Flat)
      modifies this
      ensures old(logList).Some? && old(logList).value != [] ==>
        itemCachedList == old(itemCachedList) && itemData == old(itemData) && durations == old(durations) && logList == old(logList)
      ensures old(logList).None? || old(logList).value == [] ==>
        var s := ListLogs(dir, FileDates(dir.listing), old(itemCachedList));
        logList == Some(s.logs) && durations == s.durations && itemData == s.items && itemCachedList == s.cache
      ensures f == itemData
    {
      if logList.None? || logList.value == [] {
        var _ := GetLogList(dir);
      }
      f := itemData;
    }
  }
}

=== FILE: src/durations.dfy ===
/**
 * The Chinese "x小时y分钟" duration text shared by the Python back ends
 * (`format_duration` / `format_timedelta`) and its reader
 * `parse_duration` in the statistics server.
 */
module Durations {
  import opened Wrappers
  import opened Strings

  const Hour: string := "小时"
  const Minute: string := "分钟"
  const ZeroMinutes: string := "0分钟"

  /**
   * `format_timedelta(seconds)`: `None` reads as "0分钟"; otherwise
   * `divmod(seconds, 3600)` then `divmod(remainder, 60)` (floor division,
   * which is Dafny's `/` and `%` for a positive divisor), each part
   * written only when positive, and "0分钟" when neither is.
   */
  function FormatDuration(seconds: Option<int>): (r: string)
    ensures |r| > 0
  {
    match seconds
    case None => ZeroMinutes
    case Some(d) =>
      var h, m := d / 3600, (d % 3600) / 60;
      var parts := (if h > 0 then NatToString(h) + Hour else "") + (if m > 0 then NatToString(m) + Minute else "");
      if parts == "" then ZeroMinutes else parts
  }

  /** The hour and minute parts of a duration in seconds, as `divmod` computes them. */
  function Hours(d: int): int { d / 3600 }
  function Minutes(d: int): int { (d % 3600) / 60 }

  /** The three shapes of the text: both parts, one part, or "0分钟". */
  lemma FormatShape(d: int)
    ensures Minutes(d) >= 0 && Minutes(d) < 60
    ensures Hours(d) > 0 && Minutes(d) > 0 ==> FormatDuration(Some(d)) == NatToString(Hours(d)) + Hour + NatToString(Minutes(d)) + Minute
    ensures Hours(d) > 0 && Minutes(d) == 0 ==> FormatDuration(Some(d)) == NatToString(Hours(d)) + Hour
    ensures Hours(d) <= 0 && Minutes(d) > 0 ==> FormatDuration(Some(d)) == NatToString(Minutes(d)) + Minute
    ensures Hours(d) <= 0 && Minutes(d) == 0 ==> FormatDuration(Some(d)) == ZeroMinutes
  {
    if Hours(d) > 0 {
      assert NatToString(Hours(d)) + Hour + "" == NatToString(Hours(d)) + Hour;
    }
    if Minutes(d) > 0 {
      assert "" + (NatToString(Minutes(d)) + Minute) == NatToString(Minutes(d)) + Minute;
    }
  }

  /** Under a minute, and in particular zero, formats as "0分钟". */
  lemma {:induction false} FormatBelowMinute(d: int)
    requires 0 <= d < 60
    ensures FormatDuration(Some(d)) == ZeroMinutes
  {
    assert Hours(d) == 0 && Minutes(d) == 0;
    FormatShape(d);
  }

  /** The end of the run of ASCII digits starting at `i`. */
  function DigitRun(s: string, i: nat): (r: nat)
    requires i <= |s|
    ensures i <= r <= |s|
    ensures forall k :: i <= k < r ==> '0' <= s[k] <= '9'
    ensures r < |s| ==> !('0' <= s[r] <= '9')
    decreases |s| - i
  {
    if i < |s| && '0' <= s[i] <= '9' then DigitRun(s, i + 1) else i
  }

  /**
   * `parse_duration`: `re.match(r"(\d+)小时(\d+)分钟", s)`.  `\d+` is
   * followed by a non-digit, so its greedy run is the only candidate;
   * anything else gives `(0, 0)`.
   */
  function ParseDuration(s: string): (r: (int, int))
    ensures r.0 >= 0 && r.1 >= 0
  {
    var a := DigitRun(s, 0);
    if a == 0 || a + 2 > |s| || s[a] != Hour[0] || s[a + 1] != Hour[1] then (0, 0)
    else
      var b := DigitRun(s, a + 2);
      if b == a + 2 || b + 2 > |s| || s[b] != Minute[0] || s[b + 1] != Minute[1] then (0, 0)
      else (DigitsValue(s[..a]), DigitsValue(s[a + 2..b]))
  }

  lemma DigitRunOf(x: string, rest: string)
    requires |x| > 0 && AllDigits(x) && |rest| > 0 && !('0' <= rest[0] <= '9')
    ensures DigitRun(x + rest, 0) == |x|
  {
    var s := x + rest;
    assert s[|x|] == rest[0];
    DigitRunIs(s, 0, |x|);
  }

  lemma {:induction false} DigitRunIs(s: string, i: nat, j: nat)
    requires i <= j < |s| && !('0' <= s[j] <= '9')
    requires forall k :: i <= k < j ==> '0' <= s[k] <= '9'
    ensures DigitRun(s, i) == j
    decreases j - i
  {
    if i < j { DigitRunIs(s, i + 1, j); }
  }

  /** `parse_duration` reads back a two-part text. */
  lemma ParseBothParts(h: nat, m: nat)
    ensures ParseDuration(NatToString(h) + Hour + NatToString(m) + Minute) == (h, m)
  {
    ParseDigitParts(NatToString(h), NatToString(m));
    NatToStringValue(h);
    NatToStringValue(m);
  }

  lemma ParseDigitParts(hs: string, ms: string)
    requires |hs| > 0 && AllDigits(hs) && |ms| > 0 && AllDigits(ms)
    ensures var r := ParseDuration(hs + Hour + ms + Minute); r.0 == DigitsValue(hs) && r.1 == DigitsValue(ms)
  {
    var s := hs + Hour + ms + Minute;
    var a, b := |hs|, |hs| + 2 + |ms|;
    PartsLaidOut(hs, ms);
    DigitRunIs(s, 0, a);
    DigitRunIs(s, a + 2, b);
    assert s[..a] == hs;
    assert s[a + 2..b] == ms;
  }

  /** Where the characters of `hs + "小时" + ms + "分钟"` sit. */
  lemma PartsLaidOut(hs: string, ms: string)
    ensures var s, a := hs + Hour + ms + Minute, |hs|;
      |s| == a + 2 + |ms| + 2
      && (forall k :: 0 <= k < a ==> s[k] == hs[k])
      && s[a] == Hour[0] && s[a + 1] == Hour[1]
      && (forall k :: 0 <= k < |ms| ==> s[a + 2 + k] == ms[k])
      && s[a + 2 + |ms|] == Minute[0] && s[a + 2 + |ms| + 1] == Minute[1]
  {
  }

  /** A text with no hour part (no digits before "小时") reads as `(0, 0)`. */
  lemma ParseMinutesOnly(m: nat)
    ensures ParseDuration(NatToString(m) + Minute) == (0, 0)
  {
    var s := NatToString(m) + Minute;
    DigitRunOf(NatToString(m), Minute);
    var a := |NatToString(m)|;
    assert s[a] == Minute[0];
  }

  /** A text with an hour part and no minute part reads as `(0, 0)`. */
  lemma ParseHoursOnly(h: nat)
    ensures ParseDuration(NatToString(h) + Hour) == (0, 0)
  {
    var s := NatToString(h) + Hour;
    DigitRunOf(NatToString(h), Hour);
    var a := |NatToString(h)|;
    assert s[a] == Hour[0] && s[a + 1] == Hour[1];
    assert a + 2 == |s|;
  }

  /**
   * Formatting then parsing recovers the hours and minutes exactly when
   * both are present; the one-part texts "30分钟" and "2小时", and
   * "0分钟", read back as `(0, 0)`.
   */
  lemma FormatThenParse(d: int)
    ensures ParseDuration(FormatDuration(Some(d)))
      == if Hours(d) > 0 && Minutes(d) > 0 then (Hours(d), Minutes(d)) else (0, 0)
  {
    FormatShape(d);
    if Hours(d) > 0 && Minutes(d) > 0 {
      ParseBothParts(Hours(d), Minutes(d));
    } else if Hours(d) > 0 {
      ParseHoursOnly(Hours(d));
    } else if Minutes(d) > 0 {
      ParseMinutesOnly(Minutes(d));
    } else {
      ParseMinutesOnly(0);
      assert NatToString(0) + Minute == ZeroMinutes;
    }
  }

  /** The documented one-part examples: 1800 s, 7200 s and 65 s. */
  lemma FormatOnePartExamples()
    ensures FormatDuration(Some(1800)) == "30分钟"
    ensures FormatDuration(Some(7200)) == "2小时"
    ensures FormatDuration(Some(65)) == "1分钟"
  {
    FormatShape(1800);
    FormatShape(7200);
    FormatShape(65);
  }

  /** The documented two-part examples: 5430 s and 3780 s. */
  lemma FormatTwoPartExamples()
    ensures FormatDuration(Some(5430)) == "1小时30分钟"
    ensures FormatDuration(Some(3780)) == "1小时3分钟"
  {
    FormatShape(5430);
    FormatShape(3780);
  }
}

=== FILE: src/entities.dfy ===
/**
 * The value objects of release/app/domain/entities.py: a picked-up item,
 * a day's duration with its Chinese rendering, a parse result and a
 * config group.
 */
module Entities {
  import opened Wrappers
  import opened Durations
  import opened Tallies

  /** One pickup: item name, `HH:MM:SS.fff` time, `YYYYMMDD` date and the config group it ran under. */
  datatype ItemInfo = ItemInfo(name: string, timestamp: string, date: string, configGroup: Option<string>)

  /** `ItemInfo(name, timestamp, date)` with the default group. */
  function NewItemInfo(name: string, timestamp: string, date: string): (r: ItemInfo)
    ensures r.configGroup.None?
    ensures r.name == name && r.timestamp == timestamp && r.date == date
  {
    ItemInfo(name, timestamp, date, None)
  }

  datatype DurationInfo = DurationInfo(date: string, duration: Option<int>)

  /**
   * `DurationInfo.format_duration`: "0分钟" for `None` and for 0, then the
   * same hour/minute rendering as `format_timedelta`; the explicit zero
   * test changes nothing.
   */
  function FormatDurationInfo(d: DurationInfo): (r: string)
    ensures r == FormatDuration(d.duration)
    ensures d.duration == Some(0) ==> r == ZeroMinutes
  {
    if d.duration.None? || d.duration == Some(0) then
      FormatBelowMinute(0);
      ZeroMinutes
    else FormatDuration(d.duration)
  }

  /** What one parse of a day's log yields: per-item counts, active seconds and the newly seen pickups. */
  datatype LogAnalysisResult = LogAnalysisResult(itemCount: seq<Count>, duration: int, items: seq<ItemInfo>)

  datatype ConfigGroup = ConfigGroup(name: string, scriptCount: int, startTime: Option<string>, endTime: Option<string>)

  /** `ConfigGroup(name)`: no scripts, no start or end time. */
  function NewConfigGroup(name: string): (r: ConfigGroup)
    ensures r.name == name && r.scriptCount == 0 && r.startTime.None? && r.endTime.None?
  {
    ConfigGroup(name, 0, None, None)
  }
}

=== FILE: src/entry_scan.dfy ===
/**
 * The entry walk of `LogDataManager.parse_log`, shared by the current
 * manager (release/app/infrastructure/manager.py) and its older copy
 * (release/app/infrastructure/db.py).  The two differ only in where an
 * entry's details come from.  Per entry the walk filters forbidden
 * keywords, tracks the running config group, parses the timestamp,
 * counts pickups and records the not-yet-cached ones, then feeds the
 * time to the five-minute segment tracker.
 */
module EntryScan {
  import opened Wrappers
  import opened Strings
  import opened LogLines
  import opened InfraUtils
  import opened Segments
  import opened Tallies
  import opened Entities
  import opened Durations

  /** `FORBIDDEN_ITEMS`. */
  const Investigate: string := "调查"
  const DirectPickup: string := "直接拾取"
  /** The marker of a pickup entry; the item name follows a full-width colon. */
  const Pickup: string := "交互或拾取"
  const NameSep: char := '：'
  /** The pieces of `TASK_BEGIN_PATTERN` and of the end marker. */
  const TaskPrefix: string := "配置组 \""
  const TaskMid: string := "\" 加载完成，共"
  const TaskTail: string := "个脚本，开始执行"
  const TaskEnd: string := "\" 执行结束"

  /** Where the details of an entry are read from. */
  datatype Reader =
    | HeaderAndExtra  // manager.py: header text after an optional `[...] ` tag, then the detail line
    | ExtraOnly       // db.py: the detail line alone

  /** The header text with a leading `[...] ` tag removed (`raw.split('] ', 1)[1]`). */
  function HeaderDetails(header: string): (r: string)
    ensures |r| <= |Strip(header)| && r == Strip(header)[|Strip(header)| - |r|..]
  {
    var raw := Strip(header);
    if |raw| > 0 && raw[0] == '[' && Contains(raw, "] ") then raw[IndexOf(raw, "] ").value + 2..] else raw
  }

  /** The text the entry's tests run on. */
  function Details(reader: Reader, g: Groups): string
  {
    match reader
    case ExtraOnly => Strip(g.extra)
    case HeaderAndExtra =>
      var d := HeaderDetails(g.header);
      if g.extra == "" then d
      else if d != "" then d + "\n" + Strip(g.extra)
      else Strip(g.extra)
  }

  predicate HasForbidden(d: string)
  {
    Contains(d, Investigate) || Contains(d, DirectPickup)
  }

  /**
   * `TASK_BEGIN_PATTERN.match(d)`: `配置组 "NAME" 加载完成，共N个脚本，开始执行`
   * with `$` also accepting one final newline; the group name runs to the
   * first `"`.
   */
  function TaskBegin(d: string): (r: Option<string>)
    ensures r.Some? ==> '"' !in r.value && TaskPrefix + r.value + TaskMid <= d
  {
    if !(TaskPrefix <= d) then None
    else
      var q := NextIndex(d, |TaskPrefix|, '"');
      if q + |TaskMid| > |d| || d[q..q + |TaskMid|] != TaskMid then None
      else
        var a := q + |TaskMid|;
        var b := DigitRun(d, a);
        if b == a || (d[b..] != TaskTail && d[b..] != TaskTail + "\n") then None
        else
          var name := d[|TaskPrefix|..q];
          assert '"' !in name by {
            forall k | |TaskPrefix| <= k < q ensures d[k] != '"' {
              NextIndexFirst(d, |TaskPrefix|, '"', k);
            }
          }
          assert d[..q + |TaskMid|] == TaskPrefix + name + TaskMid by {
            assert d[..|TaskPrefix|] == TaskPrefix;
          }
          Some(name)
  }

  /** The marker that ends group `t`. */
  function EndMarker(t: string): string
  {
    TaskPrefix + t + TaskEnd
  }

  /** The group after an entry: a begin marker sets it; the end marker of a non-empty group clears it. */
  function NextTask(task: Option<string>, d: string): (r: Option<string>)
    ensures TaskBegin(d).None? && task.None? ==> r.None?
  {
    var t := if TaskBegin(d).Some? then TaskBegin(d) else task;
    if t.Some? && t.value != "" && Contains(d, EndMarker(t.value)) then None else t
  }

  /** `f'{current_task}'`: Python renders `None` as the text "None". */
  function TaskText(task: Option<string>): string
  {
    if task.None? then "None" else task.value
  }

  /** `str(current_task) if current_task else None`: the empty group name counts as no group. */
  function GroupOf(task: Option<string>): (r: Option<string>)
    ensures r.Some? ==> r.value != ""
  {
    if task.Some? && task.value != "" then task else None
  }

  function CacheKey(name: string, time: string, date: string, task: Option<string>): string
  {
    name + time + date + TaskText(task)
  }

  /** `details.split('：')[1].strip('"')`, or `None` where indexing raises. */
  function ItemName(d: string): (r: Option<string>)
    ensures r.None? <==> |Split(d, NameSep)| < 2
  {
    var parts := Split(d, NameSep);
    if |parts| < 2 then None else Some(StripChar(parts[1], '"'))
  }

  /** The loop variables of `parse_log`, with the manager's dedup list. */
  datatype Run = Run(counts: seq<Count>, items: seq<ItemInfo>, seg: Tracker, task: Option<string>, cache: seq<string>)

  /** The walk either finishes or raises, leaving the dedup list as far as it got. */
  datatype Outcome = Done(run: Run) | Raised(cache: seq<string>)

  function Start(cache: seq<string>): Run
  {
    Run([], [], Fresh, None, cache)
  }

  /** A pickup of `name`: counted always, recorded and cached only under a key not seen before. */
  function Collect(st: Run, name: string, time: string, date: string): (r: Run)
    ensures r.seg == st.seg && r.task == st.task && r.counts == Inc(st.counts, name)
  {
    var key := CacheKey(name, time, date, st.task);
    if key in st.cache then st.(counts := Inc(st.counts, name))
    else st.(counts := Inc(st.counts, name),
             items := st.items + [ItemInfo(name, time, date, GroupOf(st.task))],
             cache := st.cache + [key])
  }

  /** What the walk reads of one entry: its details, its raw time and that time parsed. */
  datatype Entry = Entry(text: string, time: string, ms: Option<int>)

  function View(reader: Reader, g: Groups): (e: Entry)
    ensures e.text == Details(reader, g) && e.time == g.time && e.ms == ParseTimestampMs(g.time)
  {
    Entry(Details(reader, g), g.time, ParseTimestampMs(g.time))
  }

  function Views(reader: Reader, gs: seq<Groups>): (es: seq<Entry>)
    ensures |es| == |gs| && forall k :: 0 <= k < |gs| ==> es[k] == View(reader, gs[k])
  {
    seq(|gs|, k requires 0 <= k < |gs| => View(reader, gs[k]))
  }

  /** One entry of the walk. */
  function Step(date: string, e: Entry, st: Run): Outcome
  {
    if HasForbidden(e.text) then Done(st)
    else
      var task := NextTask(st.task, e.text);
      if e.ms.None? then Done(st.(task := task))
      else if Contains(e.text, Pickup) && ItemName(e.text).None? then Raised(st.cache)
      else
        var st' := if Contains(e.text, Pickup) then Collect(st.(task := task), ItemName(e.text).value, e.time, date) else st.(task := task);
        Done(st'.(seg := Tick(st.seg, e.ms.value)))
  }

  /** The walk over the entries, in order, stopping at the first raise. */
  function Scan(date: string, es: seq<Entry>, st: Run): Outcome
    decreases |es|
  {
    if |es| == 0 then Done(st)
    else
      match Step(date, es[0], st)
      case Raised(c) => Raised(c)
      case Done(st') => Scan(date, es[1..], st')
  }

  /** The result `parse_log` builds from the finished walk. */
  function Analysis(st: Run): LogAnalysisResult
  {
    LogAnalysisResult(st.counts, SumSeconds(Close(st.seg)), st.items)
  }

  /** The pickup bookkeeping of the parse loop, on the loop's own variables. */
  method CollectPickup(itemCount: seq<Count>, items: seq<ItemInfo>, cache: seq<string>,
                       name: string, time: string, date: string, task: Option<string>)
    returns (itemCount': seq<Count>, items': seq<ItemInfo>, cache': seq<string>)
    ensures forall seg ::
      Run(itemCount', items', seg, task, cache') == Collect(Run(itemCount, items, seg, task, cache), name, time, date)
  {
    itemCount', items', cache' := Inc(itemCount, name), items, cache;
    var key := CacheKey(name, time, date, task);
    if key !in cache {
      items' := items + [ItemInfo(name, time, date, GroupOf(task))];
      cache' := cache + [key];
    }
  }

  /** The walk from entry `i` on, after a step that finishes. */
  lemma ScanDone(date: string, es: seq<Entry>, i: nat, st: Run, st': Run)
    requires i < |es| && Step(date, es[i], st) == Done(st')
    ensures Scan(date, es[i..], st) == Scan(date, es[i + 1..], st')
  {
    assert es[i..][0] == es[i] && es[i..][1..] == es[i + 1..];
  }

  /** The walk from entry `i` on, after a step that raises. */
  lemma ScanRaised(date: string, es: seq<Entry>, i: nat, st: Run, c: seq<string>)
    requires i < |es| && Step(date, es[i], st) == Raised(c)
    ensures Scan(date, es[i..], st) == Raised(c)
  {
    assert es[i..][0] == es[i];
  }

  /**
   * The body of the `parse_log` loop for one entry, on the loop's
   * variables; a `continue` returns them as they stand and an
   * `IndexError` at the name split is reported as `Raised`.
   */
  method Visit(reader: Reader, date: string, g: Groups, st: Run) returns (o: Outcome)
    ensures o == Step(date, View(reader, g), st)
  {
    var itemCount, items, cache, currentTask := st.counts, st.items, st.cache, st.task;
    var segments, currentStart, lastTime := st.seg.closed, st.seg.start, st.seg.last;
    var details := Details(reader, g);
    if Contains(details, Investigate) || Contains(details, DirectPickup) {
      return Done(st);
    }
    var begin := TaskBegin(details);
    if begin.Some? {
      currentTask := begin;
    }
    if currentTask.Some? && currentTask.value != "" && Contains(details, EndMarker(currentTask.value)) {
      currentTask := None;
    }
    assert currentTask == NextTask(st.task, details);
    var time := ParseTimestampMs(g.time);
    if time.None? {
      return Done(st.(task := currentTask));
    }
    ghost var kept := st.(task := currentTask);
    if Contains(details, Pickup) {
      var parts := Split(details, NameSep);
      if |parts| < 2 {
        return Raised(cache);
      }
      var name := StripChar(parts[1], '"');
      assert ItemName(details) == Some(name);
      kept := Collect(kept, name, g.time, date);
      itemCount, items, cache := CollectPickup(itemCount, items, cache, name, g.time, date, currentTask);
    }
    assert Run(itemCount, items, st.seg, currentTask, cache) == kept;
    segments, currentStart, lastTime := Advance(segments, currentStart, lastTime, time.value);
    return Done(Run(itemCount, items, Tracker(segments, currentStart, lastTime), currentTask, cache));
  }

  /** The loop of `parse_log`, over the entries the patterns produced. */
  method ScanEntries(reader: Reader, date: string, gs: seq<Groups>, cache0: seq<string>) returns (o: Outcome)
    ensures o == Scan(date, Views(reader, gs), Start(cache0))
  {
    ghost var es := Views(reader, gs);
    var st := Start(cache0);
    var i := 0;
    while i < |gs|
      invariant 0 <= i <= |gs|
      invariant Scan(date, es, Start(cache0)) == Scan(date, es[i..], st)
    {
      var step := Visit(reader, date, gs[i], st);
      match step
      case Raised(c) =>
        ScanRaised(date, es, i, st, c);
        return step;
      case Done(st') =>
        ScanDone(date, es, i, st, st');
        st := st';
      i := i + 1;
    }
    o := Done(st);
  }

  /** An entry that reaches the timestamp test and has one. */
  predicate Kept(e: Entry)
  {
    !HasForbidden(e.text) && e.ms.Some?
  }

  /** A kept entry that is a pickup. */
  predicate Picked(e: Entry)
  {
    Kept(e) && Contains(e.text, Pickup)
  }

  /** A kept pickup whose text has no full-width colon: `split('：')[1]` raises. */
  predicate BadPickup(e: Entry)
  {
    Picked(e) && |Split(e.text, NameSep)| < 2
  }

  /** The times the segment tracker sees, in order. */
  function KeptTimes(es: seq<Entry>): seq<int>
    decreases |es|
  {
    if |es| == 0 then []
    else (if Kept(es[0]) then [es[0].ms.value] else []) + KeptTimes(es[1..])
  }

  /** How many kept pickups there are. */
  function Pickups(es: seq<Entry>): nat
    decreases |es|
  {
    if |es| == 0 then 0 else (if Picked(es[0]) then 1 else 0) + Pickups(es[1..])
  }

  /** The group after the entries: every entry that passes the keyword filter moves it, timestamp or not. */
  function TaskAfter(task: Option<string>, es: seq<Entry>): Option<string>
    decreases |es|
  {
    if |es| == 0 then task
    else TaskAfter(if HasForbidden(es[0].text) then task else NextTask(task, es[0].text), es[1..])
  }

  /** One step raises exactly on a kept pickup without the colon, and then keeps the dedup list as it was. */
  lemma StepRaises(date: string, e: Entry, st: Run)
    ensures Step(date, e, st).Raised? <==> BadPickup(e)
    ensures Step(date, e, st).Raised? ==> Step(date, e, st).cache == st.cache
  {
  }

  /** What a finished step does to the tracker, the group and the counts. */
  lemma StepEffect(date: string, e: Entry, st: Run)
    requires Step(date, e, st).Done?
    ensures var st' := Step(date, e, st).run;
      && st'.seg == (if Kept(e) then Tick(st.seg, e.ms.value) else st.seg)
      && st'.task == (if HasForbidden(e.text) then st.task else NextTask(st.task, e.text))
      && Total(st'.counts) == Total(st.counts) + (if Picked(e) then 1 else 0)
  {
    if Picked(e) {
      IncTotal(st.counts, ItemName(e.text).value);
    }
  }

  /** A raise happens exactly when some kept pickup lacks the colon, whatever the state. */
  lemma ScanRaisesIff(date: string, es: seq<Entry>, st: Run)
    ensures Scan(date, es, st).Raised? <==> exists k :: 0 <= k < |es| && BadPickup(es[k])
  {
    ScanRaisesAny(date, es, st);
    AnyOfIff(BadPickup, es);
  }

  lemma {:induction false} ScanRaisesAny(date: string, es: seq<Entry>, st: Run)
    ensures Scan(date, es, st).Raised? <==> AnyOf(BadPickup, es)
    decreases |es|
  {
    if |es| > 0 {
      StepRaises(date, es[0], st);
      if !BadPickup(es[0]) {
        ScanRaisesAny(date, es[1..], Step(date, es[0], st).run);
      }
    }
  }

  /** A finished walk has fed exactly the kept times, in order, to the segment tracker. */
  lemma {:induction false} ScanTimes(date: string, es: seq<Entry>, st: Run)
    ensures Scan(date, es, st).Done? ==> Scan(date, es, st).run.seg == Ticks(st.seg, KeptTimes(es))
    decreases |es|
  {
    if |es| > 0 && Step(date, es[0], st).Done? {
      StepEffect(date, es[0], st);
      ScanTimes(date, es[1..], Step(date, es[0], st).run);
      if Kept(es[0]) {
        assert ([es[0].ms.value] + KeptTimes(es[1..]))[1..] == KeptTimes(es[1..]);
      } else {
        assert KeptTimes(es) == KeptTimes(es[1..]);
      }
    }
  }

  /** A finished walk has counted every kept pickup once. */
  lemma {:induction false} ScanTotal(date: string, es: seq<Entry>, st: Run)
    ensures Scan(date, es, st).Done? ==> Total(Scan(date, es, st).run.counts) == Total(st.counts) + Pickups(es)
    decreases |es|
  {
    if |es| > 0 && Step(date, es[0], st).Done? {
      StepEffect(date, es[0], st);
      ScanTotal(date, es[1..], Step(date, es[0], st).run);
    }
  }

  /** A finished walk ends in the group the filtered entries' texts lead to; timestamps play no part. */
  lemma {:induction false} ScanTask(date: string, es: seq<Entry>, st: Run)
    ensures Scan(date, es, st).Done? ==> Scan(date, es, st).run.task == TaskAfter(st.task, es)
    decreases |es|
  {
    if |es| > 0 && Step(date, es[0], st).Done? {
      StepEffect(date, es[0], st);
      ScanTask(date, es[1..], Step(date, es[0], st).run);
    }
  }

  /** The counter's part of `Sound`: unique, positive, and no forbidden word among its keys. */
  predicate CountsSound(counts: seq<Count>)
  {
    UniqueKeys(counts) && Positive(counts) && forall x :: x in Keys(counts) ==> !HasForbidden(x)
  }

  /**
   * What the walk keeps true of its variables, relative to the dedup list
   * `c0` it started from: a sound counter, the dedup list duplicate-free
   * and grown by exactly one key per recorded item, no more items recorded
   * than pickups counted, and every item of this date and counted.
   */
  predicate Sound(date: string, c0: seq<string>, st: Run)
  {
    && CountsSound(st.counts)
    && Distinct(st.cache) && c0 <= st.cache && |st.cache| == |c0| + |st.items|
    && |st.items| <= Total(st.counts)
    && (forall k :: 0 <= k < |st.items| ==> st.items[k].date == date && st.items[k].name in Keys(st.counts))
  }

  lemma StartSound(date: string, cache: seq<string>)
    requires Distinct(cache)
    ensures Sound(date, cache, Start(cache))
  {
  }

  /** The item name is a piece of the entry's text. */
  lemma ItemNameWithin(d: string, t: string)
    requires ItemName(d).Some? && Contains(ItemName(d).value, t)
    ensures Contains(d, t)
  {
    StripCharContains(Split(d, NameSep)[1], '"', t);
    SplitPartContains(d, NameSep, 1, t);
  }

  /** Counting an allowed name keeps the counter sound, adds one to its total and keeps every key. */
  lemma IncSound(counts: seq<Count>, name: string)
    requires CountsSound(counts) && !HasForbidden(name)
    ensures CountsSound(Inc(counts, name))
    ensures Total(Inc(counts, name)) == Total(counts) + 1
    ensures name in Keys(Inc(counts, name))
    ensures forall x :: x in Keys(counts) ==> x in Keys(Inc(counts, name))
  {
    IncSpec(counts, name);
    IncPositive(counts, name);
  }

  lemma CollectSound(date: string, c0: seq<string>, st: Run, name: string, time: string)
    requires Sound(date, c0, st) && !HasForbidden(name)
    ensures Sound(date, c0, Collect(st, name, time, date))
  {
    IncSound(st.counts, name);
    TotalNonNegative(st.counts);
    var key := CacheKey(name, time, date, st.task);
    if key !in st.cache {
      var r := Collect(st, name, time, date);
      assert r.cache == st.cache + [key];
      assert c0 <= r.cache;
    }
  }

  /** A name cut from an entry free of forbidden words is free of them too. */
  lemma ItemNameAllowed(d: string)
    requires !HasForbidden(d) && ItemName(d).Some?
    ensures !HasForbidden(ItemName(d).value)
  {
    var name := ItemName(d).value;
    if Contains(name, Investigate) { ItemNameWithin(d, Investigate); }
    if Contains(name, DirectPickup) { ItemNameWithin(d, DirectPickup); }
  }

  lemma {:induction false} StepSound(date: string, e: Entry, st: Run, c0: seq<string>)
    requires Sound(date, c0, st)
    ensures Step(date, e, st).Done? ==> Sound(date, c0, Step(date, e, st).run)
    ensures Step(date, e, st).Raised? ==> Step(date, e, st).cache == st.cache
  {
    if Picked(e) && ItemName(e.text).Some? {
      ItemNameAllowed(e.text);
      CollectSound(date, c0, st.(task := NextTask(st.task, e.text)), ItemName(e.text).value, e.time);
    }
  }

  /** The counts and the group of a step do not depend on the dedup list or the tracker. */
  lemma StepCounts(date: string, e: Entry, st1: Run, st2: Run)
    requires st1.counts == st2.counts && st1.task == st2.task
    ensures Step(date, e, st1).Done? <==> Step(date, e, st2).Done?
    ensures Step(date, e, st1).Done? ==>
      Step(date, e, st1).run.counts == Step(date, e, st2).run.counts
      && Step(date, e, st1).run.task == Step(date, e, st2).run.task
  {
  }

  /** Whether the walk finishes, and the counts it ends with, do not depend on the dedup list it starts from. */
  lemma {:induction false} ScanCounts(date: string, es: seq<Entry>, st1: Run, st2: Run)
    requires st1.counts == st2.counts && st1.task == st2.task
    ensures Scan(date, es, st1).Done? <==> Scan(date, es, st2).Done?
    ensures Scan(date, es, st1).Done? ==> Scan(date, es, st1).run.counts == Scan(date, es, st2).run.counts
    decreases |es|
  {
    if |es| > 0 {
      StepCounts(date, es[0], st1, st2);
      if Step(date, es[0], st1).Done? {
        ScanCounts(date, es[1..], Step(date, es[0], st1).run, Step(date, es[0], st2).run);
      }
    }
  }

  /** The walk keeps `Sound`; a raise leaves a duplicate-free extension of the starting dedup list. */
  lemma {:induction false} ScanSound(date: string, es: seq<Entry>, st: Run, c0: seq<string>)
    requires Sound(date, c0, st)
    ensures Scan(date, es, st).Done? ==> Sound(date, c0, Scan(date, es, st).run)
    ensures Scan(date, es, st).Raised? ==> c0 <= Scan(date, es, st).cache && Distinct(Scan(date, es, st).cache)
    decreases |es|
  {
    if |es| > 0 {
      StepSound(date, es[0], st, c0);
      if Step(date, es[0], st).Done? {
        ScanSound(date, es[1..], Step(date, es[0], st).run, c0);
      }
    }
  }

  /** The dedup list a walk leaves, whether it finishes or raises. */
  function EndCache(o: Outcome): seq<string>
  {
    match o
    case Raised(c) => c
    case Done(st) => st.cache
  }

  /** The walk only ever appends to the dedup list. */
  lemma {:induction false} ScanGrows(date: string, es: seq<Entry>, st: Run)
    ensures st.cache <= EndCache(Scan(date, es, st))
    decreases |es|
  {
    if |es| > 0 && Step(date, es[0], st).Done? {
      ScanGrows(date, es[1..], Step(date, es[0], st).run);
    }
  }

  /**
   * One step against a dedup list that already holds every key the step
   * would add: it raises or finishes as before, with the same counts, group
   * and tracker, but records nothing and leaves that list alone.
   */
  lemma StepRepeat(date: string, e: Entry, st1: Run, st2: Run)
    requires st1.counts == st2.counts && st1.task == st2.task && st1.seg == st2.seg
    requires forall x :: x in EndCache(Step(date, e, st1)) ==> x in st2.cache
    ensures Step(date, e, st1).Done? <==> Step(date, e, st2).Done?
    ensures EndCache(Step(date, e, st2)) == st2.cache
    ensures Step(date, e, st1).Done? ==> Step(date, e, st2).run == Step(date, e, st1).run.(items := st2.items, cache := st2.cache)
  {
    if !HasForbidden(e.text) && e.ms.Some? && Contains(e.text, Pickup) && ItemName(e.text).Some? {
      var task := NextTask(st1.task, e.text);
      var key := CacheKey(ItemName(e.text).value, e.time, date, task);
      assert key in Collect(st1.(task := task), ItemName(e.text).value, e.time, date).cache;
    }
  }

  /**
   * The walk repeated against a dedup list holding every key the first
   * walk left: same finish or raise, same counts, group and tracker, no
   * item recorded and the dedup list unchanged.
   */
  lemma {:induction false} ScanRepeat(date: string, es: seq<Entry>, st1: Run, st2: Run)
    requires st1.counts == st2.counts && st1.task == st2.task && st1.seg == st2.seg
    requires forall x :: x in EndCache(Scan(date, es, st1)) ==> x in st2.cache
    ensures Scan(date, es, st1).Done? <==> Scan(date, es, st2).Done?
    ensures EndCache(Scan(date, es, st2)) == st2.cache
    ensures Scan(date, es, st1).Done? ==> Scan(date, es, st2).run == Scan(date, es, st1).run.(items := st2.items, cache := st2.cache)
    decreases |es|
  {
    if |es| > 0 {
      var o1 := Step(date, es[0], st1);
      if o1.Done? {
        ScanGrows(date, es[1..], o1.run);
      }
      StepRepeat(date, es[0], st1, st2);
      if o1.Done? {
        ScanRepeat(date, es[1..], o1.run, Step(date, es[0], st2).run);
      }
    }
  }


  /** `FORBIDDEN_ITEMS` removal from the counts (`del items[k]` for each keyword present). */
  function DropForbidden(counts: seq<Count>): seq<Count>
  {
    Remove(Remove(counts, Investigate), DirectPickup)
  }

  /**
   * The keyword filter already kept every forbidden text out, so removing
   * the forbidden keys afterwards never changes the counts.
   */
  lemma DropForbiddenKeeps(date: string, c0: seq<string>, st: Run)
    requires Sound(date, c0, st)
    ensures DropForbidden(st.counts) == st.counts
  {
    assert HasForbidden(Investigate) by { assert Investigate <= Investigate; }
    assert HasForbidden(DirectPickup) by { assert DirectPickup <= DirectPickup; }
    RemoveAbsent(st.counts, Investigate);
    RemoveAbsent(st.counts, DirectPickup);
  }

  /** The begin marker as BetterGI writes it, optionally followed by the newline `$` tolerates. */
  function BeginLine(name: string, count: string, newline: bool): string
  {
    TaskPrefix + name + TaskMid + count + TaskTail + (if newline then "\n" else "")
  }

  /** The begin pattern reads back the group name of a begin marker. */
  lemma TaskBeginOf(name: string, count: string, newline: bool)
    requires '"' !in name && |count| > 0 && AllDigits(count)
    ensures TaskBegin(BeginLine(name, count, newline)).Some?
    ensures TaskBegin(BeginLine(name, count, newline)).value == name
  {
    var d := BeginLine(name, count, newline);
    var tail := TaskTail + (if newline then "\n" else "");
    var p, q := |TaskPrefix|, |TaskPrefix| + |name|;
    var a := q + |TaskMid|;
    var b := a + |count|;
    assert d == TaskPrefix + name + TaskMid + count + tail;
    assert TaskPrefix <= d;
    assert d[p..q] == name;
    assert d[q..a] == TaskMid;
    assert d[a..b] == count;
    assert d[b..] == tail;
    NextIndexIs(d, p, '"', q);
    assert d[b] == tail[0];
    DigitRunIs(d, a, b);
  }

  /** In a begin marker the only `"` characters are the two around the name. */
  lemma BeginLineQuotes(name: string, count: string, newline: bool)
    requires '"' !in name && AllDigits(count)
    ensures var d := BeginLine(name, count, newline);
      forall k :: 0 <= k < |d| && d[k] == '"' ==> k == |TaskPrefix| - 1 || k == |TaskPrefix| + |name|
  {
    var tail := TaskTail + (if newline then "\n" else "");
    var d := BeginLine(name, count, newline);
    var q := |TaskPrefix| + |name|;
    assert d == TaskPrefix + name + TaskMid + count + tail;
    assert '"' !in TaskPrefix[..|TaskPrefix| - 1] && '"' !in TaskMid[1..] && '"' !in tail;
    forall k | 0 <= k < |d| && k != |TaskPrefix| - 1 && k != q
      ensures d[k] != '"'
    {
      if k < |TaskPrefix| {
        assert d[k] == TaskPrefix[..|TaskPrefix| - 1][k];
      } else if k < q {
        assert d[k] == name[k - |TaskPrefix|];
      } else if k < q + |TaskMid| {
        assert d[k] == TaskMid[1..][k - q - 1];
      } else if k < q + |TaskMid| + |count| {
        assert d[k] == count[k - q - |TaskMid|];
      } else {
        assert d[k] == tail[k - q - |TaskMid| - |count|];
      }
    }
  }

  /** A begin marker never contains the end marker of the group it begins. */
  lemma BeginLineNoEnd(name: string, count: string, newline: bool)
    requires '"' !in name && AllDigits(count)
    ensures !Contains(BeginLine(name, count, newline), EndMarker(name))
  {
    var d := BeginLine(name, count, newline);
    var e := EndMarker(name);
    var q := |TaskPrefix| + |name|;
    BeginLineQuotes(name, count, newline);
    assert d[q + 2] == TaskMid[2] by {
      assert d == TaskPrefix + name + TaskMid + count + TaskTail + (if newline then "\n" else "");
    }
    assert e[|TaskPrefix| - 1] == '"' && e[q] == '"' && e[q + 2] == TaskEnd[2] by {
      assert e == TaskPrefix + name + TaskEnd;
    }
    if Contains(d, e) {
      var r := IndexOf(d, e);
      assert false;
    }
  }

  /**
   * A begin marker sets the group to its name, whatever group was running
   * before; the end test cannot undo it on the same entry.
   */
  lemma BeginSetsTask(task: Option<string>, name: string, count: string, newline: bool)
    requires '"' !in name && |count| > 0 && AllDigits(count)
    ensures NextTask(task, BeginLine(name, count, newline)) == Some(name)
  {
    TaskBeginOf(name, count, newline);
    BeginLineNoEnd(name, count, newline);
  }

  /**
   * Group tracking runs before the timestamp is parsed: a begin marker
   * with an unreadable timestamp still sets the group, and that entry
   * counts nothing and feeds no time to the tracker.
   */
  lemma BadTimestampSetsTask(date: string, e: Entry, st: Run, name: string, count: string, newline: bool)
    requires '"' !in name && |count| > 0 && AllDigits(count)
    requires e.text == BeginLine(name, count, newline) && !HasForbidden(e.text) && e.ms.None?
    ensures Step(date, e, st) == Done(st.(task := Some(name)))
  {
    BeginSetsTask(st.task, name, count, newline);
  }
}

=== FILE: src/frame_analysis.dfy ===
/**
 * The `analyse_*` aggregations of mini/app.py and release/analysis.py
 * over the item table (name, time, date) and the duration table (date,
 * seconds).  mini/app.py reads its module globals as they stand;
 * release/analysis.py imports the two tables once, so it keeps reading
 * the empty tables `log_parser` started with.
 */
module FrameAnalysis {
  import opened Wrappers
  import opened Tallies
  import opened Durations
  import opened GapParser
  import Manager

  /** The answer of `analyse_all_logs` and `analyse_single_log`: formatted duration and item counts. */
  datatype Report = Report(duration: string, itemCount: seq<Count>)

  /** The answer for no data: "0分钟" and no items. */
  const NoActivity: Report := Report(ZeroMinutes, [])

  /** `value_counts()`: how often each value occurs, each value once (its order is left out). */
  function ValueCounts(xs: seq<string>): seq<Count>
  {
    IncAll([], xs)
  }

  /** Each value maps to its number of occurrences; the counts sum to the number of values; the keys are the values. */
  lemma ValueCountsSpec(xs: seq<string>)
    ensures UniqueKeys(ValueCounts(xs)) && Total(ValueCounts(xs)) == |xs|
    ensures forall k :: Get(ValueCounts(xs), k) == multiset(xs)[k]
    ensures forall k :: k in Keys(ValueCounts(xs)) <==> k in xs
  {
    IncAllSpec([], xs);
    forall k ensures Get(ValueCounts(xs), k) == multiset(xs)[k] {
      IncAllGet([], xs, k);
    }
  }

  /** `df[column]`: the value of one column in every row, in row order. */
  function ColumnOf<T>(rows: seq<T>, column: T -> string): (r: seq<string>)
    ensures |r| == |rows| && forall k :: 0 <= k < |rows| ==> r[k] == column(rows[k])
  {
    seq(|rows|, k requires 0 <= k < |rows| => column(rows[k]))
  }

  /** `df[df[column] == v]`: the rows whose column holds `v`, in row order. */
  function Where<T(==, !new)>(rows: seq<T>, column: T -> string, v: string): (r: seq<T>)
    ensures forall x :: x in r <==> x in rows && column(x) == v
    decreases |rows|
  {
    if |rows| == 0 then []
    else (if column(rows[0]) == v then [rows[0]] else []) + Where(rows[1..], column, v)
  }

  /** The columns the analyses read: `物品名称` and `日期` of the item table, `日期` of the duration table. */
  function NameOf(x: Row): string { x.name }
  function DateOf(x: Row): string { x.date }
  function DurationDate(x: DurationRow): string { x.date }

  /** `df['持续时间（秒）'].sum()`. */
  function Seconds(ds: seq<DurationRow>): int
    decreases |ds|
  {
    if |ds| == 0 then 0 else ds[0].seconds + Seconds(ds[1..])
  }

  /** `analyse_all_logs`: "0分钟" and no items when either table is empty; otherwise the formatted total and the name counts. */
  function AllLogs(items: seq<Row>, ds: seq<DurationRow>): (r: Report)
    ensures |ds| == 0 || |items| == 0 ==> r == NoActivity
    ensures |ds| > 0 && |items| > 0 ==> r.duration == FormatDuration(Some(Seconds(ds)))
    ensures |ds| > 0 && |items| > 0 ==> Total(r.itemCount) == |items| && r.itemCount != []
  {
    if |ds| == 0 || |items| == 0 then NoActivity
    else
      ValueCountsSpec(ColumnOf(items, NameOf));
      assert ColumnOf(items, NameOf)[0] in Keys(ValueCounts(ColumnOf(items, NameOf)));
      Report(FormatDuration(Some(Seconds(ds))), ValueCounts(ColumnOf(items, NameOf)))
  }

  /** `analyse_single_log(date)`: the same aggregation over the rows of that date. */
  function SingleLog(items: seq<Row>, ds: seq<DurationRow>, date: string): Report
  {
    var its, dds := Where(items, DateOf, date), Where(ds, DurationDate, date);
    if |dds| == 0 || |its| == 0 then NoActivity
    else Report(FormatDuration(Some(Seconds(dds))), ValueCounts(ColumnOf(its, NameOf)))
  }

  /**
   * A date gets item counts exactly when both tables hold a row for it;
   * then every name of that date is counted as often as it occurs, the
   * counts sum to that date's rows and the duration is that date's total.
   */
  lemma SingleLogSpec(items: seq<Row>, ds: seq<DurationRow>, date: string)
    ensures var r, its := SingleLog(items, ds, date), Where(items, DateOf, date);
      && (r.itemCount != [] <==> (exists x :: x in items && x.date == date) && (exists y :: y in ds && y.date == date))
      && (r.itemCount == [] ==> r == NoActivity)
      && (r.itemCount != [] ==>
            && Total(r.itemCount) == |its|
            && (forall k :: Get(r.itemCount, k) == multiset(ColumnOf(its, NameOf))[k])
            && r.duration == FormatDuration(Some(Seconds(Where(ds, DurationDate, date)))))
  {
    var its, dds := Where(items, DateOf, date), Where(ds, DurationDate, date);
    ValueCountsSpec(ColumnOf(its, NameOf));
    if |its| > 0 {
      assert its[0] in its;
      assert ColumnOf(its, NameOf)[0] in Keys(ValueCounts(ColumnOf(its, NameOf)));
    }
    if |dds| > 0 {
      assert dds[0] in dds;
    }
    if exists x :: x in items && x.date == date {
      var x :| x in items && x.date == date;
      assert x in its;
    }
    if exists y :: y in ds && y.date == date {
      var y :| y in ds && y.date == date;
      assert y in dds;
    }
  }

  /** `analyse_item_history(name)`: `None` ("no data.") on an empty item table; otherwise the dates of that item's rows, counted. */
  function ItemHistory(items: seq<Row>, name: string): Option<seq<Count>>
  {
    if |items| == 0 then None else Some(ValueCounts(ColumnOf(Where(items, NameOf, name), DateOf)))
  }

  /** Each date maps to the number of rows of that item on that date; the counts sum to that item's rows. */
  lemma ItemHistorySpec(items: seq<Row>, name: string)
    ensures ItemHistory(items, name).None? <==> |items| == 0
    ensures ItemHistory(items, name).Some? ==>
      var h, rs := ItemHistory(items, name).value, Where(items, NameOf, name);
      Total(h) == |rs| && forall d :: Get(h, d) == multiset(ColumnOf(rs, DateOf))[d]
  {
    ValueCountsSpec(ColumnOf(Where(items, NameOf, name), DateOf));
  }

  /** `analyse_all_items`: `None` on an empty item table; otherwise the rows per date. */
  function AllItems(items: seq<Row>): Option<seq<Count>>
  {
    if |items| == 0 then None else Some(ValueCounts(ColumnOf(items, DateOf)))
  }

  /** The per-date counts sum to the number of rows, and every date of the table is a key. */
  lemma AllItemsSpec(items: seq<Row>)
    ensures AllItems(items).None? <==> |items| == 0
    ensures AllItems(items).Some? ==>
      var h := AllItems(items).value;
      Total(h) == |items| && (forall d :: Get(h, d) == multiset(ColumnOf(items, DateOf))[d])
      && (forall d :: d in Keys(h) <==> d in ColumnOf(items, DateOf))
  {
    ValueCountsSpec(ColumnOf(items, DateOf));
  }

  /**
   * `analyse_duration_history`: `None` on an empty duration table;
   * otherwise each date maps to its total seconds floor-divided by 60
   * (`//` floors, as Dafny's `/` does for a positive divisor).
   */
  function DurationHistory(ds: seq<DurationRow>): Option<map<string, int>>
  {
    if |ds| == 0 then None
    else Some(map d | d in ColumnOf(ds, DurationDate) :: Seconds(Where(ds, DurationDate, d)) / 60)
  }

  /** The keys are the dates of the table, and each value is the whole minutes of that date's total. */
  lemma DurationHistorySpec(ds: seq<DurationRow>)
    ensures DurationHistory(ds).None? <==> |ds| == 0
    ensures DurationHistory(ds).Some? ==>
      var m := DurationHistory(ds).value;
      (forall d :: d in m <==> exists k :: 0 <= k < |ds| && ds[k].date == d)
      && forall d :: d in m ==> m[d] * 60 <= Seconds(Where(ds, DurationDate, d)) < m[d] * 60 + 60
  {
    if |ds| > 0 {
      var m := DurationHistory(ds).value;
      forall d ensures d in m <==> exists k :: 0 <= k < |ds| && ds[k].date == d {
        if d in ColumnOf(ds, DurationDate) {
          var k :| 0 <= k < |ds| && ColumnOf(ds, DurationDate)[k] == d;
        }
      }
    }
  }

  /**
   * release/analysis.py: the two tables as they were when the module was
   * imported.  Later rebinding of `log_parser`'s globals does not reach
   * these names.
   */
  class ReleaseAnalysis {
    const items: seq<Row>
    const durations: seq<DurationRow>

    constructor (items: seq<Row>, durations: seq<DurationRow>)
      ensures this.items == items && this.durations == durations
    {
      this.items := items;
      this.durations := durations;
    }

    /** `analyse_all_logs` over the bound tables. */
    function AnalyseAllLogs(): Report
    {
      AllLogs(items, durations)
    }
  }

  /**
   * The release back end: the analysis module binds the tables when it is
   * imported, before any `get_log_list` has run, so however many dates
   * `get_log_list` finds, `analyse_all_logs` answers "0分钟" and no items.
   */
  method ReleaseSession(dir: Manager.Directory) returns (listed: seq<string>, report: Report)
    ensures listed == GapListLogs(dir, [], Manager.FileDates(dir.listing)).logs
    ensures report == NoActivity
  {
    var parser := new GapLogParser();
    var analysis := new ReleaseAnalysis(parser.itemFrame, parser.durationFrame);
    listed := parser.GetLogList(dir);
    report := analysis.AnalyseAllLogs();
  }

  /**
   * mini/app.py reads its globals when asked: after `get_log_list` has kept
   * a date, `analyse_all_logs` reports that date's duration and counts
   * every recorded pickup row.
   */
  method MiniSession(dir: Manager.Directory) returns (listed: seq<string>, report: Report)
    ensures var s := GapListLogs(dir, [], Manager.FileDates(dir.listing));
      listed == s.logs
      && (|s.rows| > 0 ==> report.duration == FormatDuration(Some(Seconds(s.durations))) && Total(report.itemCount) == |s.rows|)
      && (|s.rows| == 0 ==> report == NoActivity)
  {
    var parser := new GapLogParser();
    listed := parser.GetLogList(dir);
    ghost var s := GapListLogs(dir, [], Manager.FileDates(dir.listing));
    GapListLogsSpec(dir, [], Manager.FileDates(dir.listing));
    if |s.rows| > 0 {
      assert s.rows[0] in s.rows;
      assert |s.logs| > 0;
    }
    report := AllLogs(parser.itemFrame, parser.durationFrame);
  }
}

=== FILE: src/framed_pattern.dfy ===
/**
 * The entry patterns of the log-data manager (release/app/infrastructure/manager.py
 * and its older copy db.py):
 *
 *   first line:  `^\[([^]]+)\] \[([^]]+)\] ([^\n]+)\n?([^\n[]*)\n`
 *   later lines: `\n\[([^]]+)\] \[([^]]+)\] ([^\n]+)\n?([^\n[]*)\n`
 *
 * Both are written out here as the single result Python's backtracking
 * matcher settles on.  The later-line pattern begins AND ends with a
 * newline, and `findall` never lets two matches overlap, so the newline
 * that ends one match cannot begin the next one.
 */
module FramedPattern {
  import opened Wrappers
  import opened LogLines
  import opened Layouts

  /** The pattern body (everything after its leading anchor) tried at index `p`. */
  function EntryAt(s: string, p: nat): (r: Option<Span>)
    ensures r.Some? ==> r.value.open == p && p < r.value.end <= |s| && s[r.value.end - 1] == '\n'
    ensures r.Some? ==> p < |s| && s[p] == '['
  {
    if p >= |s| || s[p] != '[' then None
    else AfterTime(s, p, NextIndex(s, p + 1, ']'))
  }

  /** `([^]]+)` took the maximal run up to index `j1`; `] [` must follow. */
  function AfterTime(s: string, p: nat, j1: nat): (r: Option<Span>)
    requires p < j1 <= |s|
    ensures r.Some? ==> r.value.open == p && p < r.value.end <= |s| && s[r.value.end - 1] == '\n'
  {
    if j1 == p + 1 || j1 + 3 > |s| || s[j1] != ']' || s[j1 + 1] != ' ' || s[j1 + 2] != '[' then None
    else AfterLevel(s, p, j1, NextIndex(s, j1 + 3, ']'))
  }

  /** The level group ends at `j2`; `] ` must follow. */
  function AfterLevel(s: string, p: nat, j1: nat, j2: nat): (r: Option<Span>)
    requires p < j1 && j1 + 3 <= j2 <= |s|
    ensures r.Some? ==> r.value.open == p && p < r.value.end <= |s| && s[r.value.end - 1] == '\n'
  {
    if j2 == j1 + 3 || j2 + 2 > |s| || s[j2] != ']' || s[j2 + 1] != ' ' then None
    else AfterHeader(s, p, j1, j2, NextIndex(s, j2 + 2, '\n'))
  }

  /**
   * The header text runs to the newline at `j3`, which must exist.  The
   * next line is taken as the detail group when it holds no `[` and ends
   * with a newline; otherwise the detail group is empty and the match
   * ends right after the header's newline.
   */
  function AfterHeader(s: string, p: nat, j1: nat, j2: nat, j3: nat): (r: Option<Span>)
    requires p < j1 && j1 + 3 < j2 && j2 + 2 <= j3 <= |s|
    ensures r.Some? ==> r.value.open == p && p < r.value.end <= |s| && s[r.value.end - 1] == '\n'
  {
    if j3 == j2 + 2 || j3 == |s| || s[j3] != '\n' then None
    else
      var r := NextBreak(s, j3 + 1);
      if r < |s| && s[r] == '\n' then Some(Span(p, j1, j2, j3, r, r + 1))
      else Some(Span(p, j1, j2, j3, j3 + 1, j3 + 1))
  }

  /** `FIRST_LINE_PATTERN.match(s)`: the groups of an entry that starts the file. */
  function FirstLine(s: string): (r: Option<Groups>)
    ensures r.Some? <==> EntryAt(s, 0).Some?
  {
    match EntryAt(s, 0)
    case None => None
    case Some(m) => Some(GroupsAt(s, m))
  }

  /** `LOG_PATTERN` tried at index `q`: a newline, then an entry. */
  function LogAt(s: string, q: nat): (r: Option<Span>)
    ensures r.Some? ==> r.value.open == q + 1 && q + 1 < r.value.end <= |s| && Boundary(s, q)
  {
    if q + 1 < |s| && s[q] == '\n' then EntryAt(s, q + 1) else None
  }

  /** `LOG_PATTERN.findall(s)` from index `pos`: leftmost matches, each search resuming where the last match ended. */
  function FindAll(s: string, pos: nat): seq<Span>
    decreases |s| - pos
  {
    if pos >= |s| then []
    else
      match LogAt(s, pos)
      case Some(m) => [m] + FindAll(s, m.end)
      case None => FindAll(s, pos + 1)
  }

  function GroupsOfSpans(s: string, ms: seq<Span>): (gs: seq<Groups>)
    ensures |gs| == |ms|
    decreases |ms|
  {
    if |ms| == 0 then [] else [GroupsAt(s, ms[0])] + GroupsOfSpans(s, ms[1..])
  }

  /** Match by match, the groups are those of the match's span. */
  lemma {:induction false} GroupsOfSpansAt(s: string, ms: seq<Span>)
    ensures forall i :: 0 <= i < |ms| ==> GroupsOfSpans(s, ms)[i] == GroupsAt(s, ms[i])
    decreases |ms|
  {
    if |ms| > 0 {
      GroupsOfSpansAt(s, ms[1..]);
      assert forall i :: 0 < i < |ms| ==> ms[1..][i - 1] == ms[i];
    }
  }

  /** The entries the manager walks: the first-line match (if any) followed by every `findall` match. */
  function Tokens(s: string): (gs: seq<Groups>)
    ensures |gs| == |FindAll(s, 0)| + (if FirstLine(s).Some? then 1 else 0)
  {
    (if FirstLine(s).Some? then [FirstLine(s).value] else []) + GroupsOfSpans(s, FindAll(s, 0))
  }

  /** Every match `findall` reports is a match of the pattern just after a newline, in order and without overlap. */
  lemma {:induction false} FindAllSound(s: string, pos: nat)
    ensures SoundFrom(LogMatcher(s), pos, FindAll(s, pos))
    decreases |s| - pos
  {
    if pos < |s| {
      match LogAt(s, pos)
      case Some(m) =>
        FindAllSound(s, m.end);
        FindAllMatched(s, pos, m);
      case None =>
        FindAllSound(s, pos + 1);
        assert FindAll(s, pos) == FindAll(s, pos + 1);
        SoundLater(LogMatcher(s), pos, FindAll(s, pos));
    }
  }

  /** A match at `pos` heads the matches from `pos`. */
  lemma FindAllMatched(s: string, pos: nat, m: Span)
    requires pos < |s| && LogAt(s, pos) == Some(m)
    requires SoundFrom(LogMatcher(s), m.end, FindAll(s, m.end))
    ensures SoundFrom(LogMatcher(s), pos, FindAll(s, pos))
  {
    assert FindAll(s, pos) == [m] + FindAll(s, m.end);
    assert LogMatcher(s)(pos) == Some(m);
    SoundCons(LogMatcher(s), pos, m, FindAll(s, m.end));
  }

  /** `LOG_PATTERN` as a matcher over the positions of `s`. */
  function LogMatcher(s: string): nat -> Option<Span>
  {
    (q: nat) => LogAt(s, q)
  }

  /**
   * Matches past `pos`, each one what `at` reports at the index just
   * before it opens, in order and without overlap.
   */
  predicate SoundFrom(at: nat -> Option<Span>, pos: nat, ms: seq<Span>)
  {
    && (forall i :: 0 <= i < |ms| ==> pos < ms[i].open && at(ms[i].open - 1) == Some(ms[i]))
    && (forall i :: 0 <= i < |ms| - 1 ==> ms[i].end < ms[i + 1].open)
  }

  lemma SoundCons(at: nat -> Option<Span>, pos: nat, m: Span, rest: seq<Span>)
    requires at(pos) == Some(m) && m.open == pos + 1 && m.open < m.end && SoundFrom(at, m.end, rest)
    ensures SoundFrom(at, pos, [m] + rest)
  {
    var ms := [m] + rest;
    forall i | 0 <= i < |ms|
      ensures pos < ms[i].open && at(ms[i].open - 1) == Some(ms[i])
    {
      if i > 0 { assert ms[i] == rest[i - 1]; }
    }
    forall i | 0 <= i < |ms| - 1
      ensures ms[i].end < ms[i + 1].open
    {
      assert ms[i + 1] == rest[i];
      if i > 0 { assert ms[i] == rest[i - 1]; }
    }
  }

  /** Matches sound past `pos + 1` are sound past `pos`. */
  lemma SoundLater(at: nat -> Option<Span>, pos: nat, ms: seq<Span>)
    requires SoundFrom(at, pos + 1, ms)
    ensures SoundFrom(at, pos, ms)
  {
  }

  /** Positions where no match starts can be skipped without changing the result. */
  lemma {:induction false} SkipNoMatch(s: string, pos: nat, q: nat)
    requires pos <= q <= |s|
    requires forall k :: pos <= k < q ==> LogAt(s, k).None?
    ensures FindAll(s, pos) == FindAll(s, q)
    decreases q - pos
  {
    if pos < q {
      SkipNoMatch(s, pos + 1, q);
    }
  }

  lemma EntryAtIndices(s: string, p: nat, j1: nat, j2: nat, j3: nat)
    requires p + 1 < j1 && j1 + 3 < j2 && j2 + 2 < j3 < |s|
    requires NextIndex(s, p + 1, ']') == j1 && NextIndex(s, j1 + 3, ']') == j2 && NextIndex(s, j2 + 2, '\n') == j3
    requires s[p] == '[' && s[j1] == ']' && s[j1 + 1] == ' ' && s[j1 + 2] == '[' && s[j2] == ']' && s[j2 + 1] == ' '
    requires s[j3] == '\n'
    ensures EntryAt(s, p) == AfterHeader(s, p, j1, j2, j3)
  {
    assert EntryAt(s, p) == AfterTime(s, p, j1);
    assert AfterTime(s, p, j1) == AfterLevel(s, p, j1, j2);
  }

  /** The span of an entry rendered at `p`. */
  function SpanOf(p: nat, l: Line): Span
  {
    var j3 := HeaderEnd(p, l);
    match l.detail
    case None => Span(p, TimeEnd(p, l), LevelEnd(p, l), j3, j3 + 1, j3 + 1)
    case Some(d) => Span(p, TimeEnd(p, l), LevelEnd(p, l), j3, j3 + 1 + |d|, j3 + 2 + |d|)
  }

  /** The three field searches of the pattern stop at the ends of a rendered entry's fields. */
  lemma HeaderMatched(s: string, p: nat, l: Line)
    requires WellFormed(l) && HeaderLaidOut(s, p, l)
    ensures var j1, j2, j3 := TimeEnd(p, l), LevelEnd(p, l), HeaderEnd(p, l);
      NextIndex(s, p + 1, ']') == j1 && NextIndex(s, j1 + 3, ']') == j2 && NextIndex(s, j2 + 2, '\n') == j3
  {
    var j1, j2 := TimeEnd(p, l), LevelEnd(p, l);
    FieldEnd(s, p + 1, l.time, ']');
    FieldEnd(s, j1 + 3, l.level, ']');
    FieldEnd(s, j2 + 2, l.header, '\n');
  }

  /** A rendered entry followed by another entry (or by the end of the file) is matched whole. */
  lemma EntryAtLine(s: string, p: nat, l: Line)
    requires WellFormed(l) && IsAt(s, p, RenderLine(l))
    requires var e := p + |RenderLine(l)|; e == |s| || s[e] == '['
    ensures EntryAt(s, p) == Some(SpanOf(p, l)) && SpanOf(p, l).end == p + |RenderLine(l)|
  {
    RenderedLine(s, p, l);
    HeaderMatched(s, p, l);
    var j3 := HeaderEnd(p, l);
    EntryAtIndices(s, p, TimeEnd(p, l), LevelEnd(p, l), j3);
    match l.detail
    case None =>
      NextBreakIs(s, j3 + 1, j3 + 1);
    case Some(d) =>
      RenderedDetail(s, p, l);
      DetailEnd(s, j3 + 1, d);
  }

  /** The groups of that span are the entry's fields. */
  lemma GroupsOfLine(s: string, p: nat, l: Line)
    requires IsAt(s, p, RenderLine(l))
    ensures GroupsAt(s, SpanOf(p, l)) == GroupsOf(l)
  {
    RenderedLine(s, p, l);
    HeaderSubs(s, p, l);
    if l.detail.Some? {
      RenderedDetail(s, p, l);
    }
    GroupsOfFields(s, p, l);
  }

  /** The same, from the fields laid out one after another. */
  lemma GroupsOfFields(s: string, p: nat, l: Line)
    requires Sub(s, p + 1, TimeEnd(p, l)) == l.time
    requires Sub(s, TimeEnd(p, l) + 3, LevelEnd(p, l)) == l.level
    requires Sub(s, LevelEnd(p, l) + 2, HeaderEnd(p, l)) == l.header
    requires l.detail.Some? ==> IsAt(s, HeaderEnd(p, l) + 1, l.detail.value)
    ensures GroupsAt(s, SpanOf(p, l)) == GroupsOf(l)
  {
    var q := HeaderEnd(p, l) + 1;
    if l.detail.Some? {
      SubAt(s, q, q + |l.detail.value|, l.detail.value);
    } else {
      assert Sub(s, q, q) == "";
    }
    GroupsOfSubs(s, SpanOf(p, l), GroupsOf(l));
  }

  /** The three header fields are the slices between the header's brackets. */
  lemma HeaderSubs(s: string, p: nat, l: Line)
    requires HeaderLaidOut(s, p, l)
    ensures Sub(s, p + 1, TimeEnd(p, l)) == l.time
    ensures Sub(s, TimeEnd(p, l) + 3, LevelEnd(p, l)) == l.level
    ensures Sub(s, LevelEnd(p, l) + 2, HeaderEnd(p, l)) == l.header
  {
    var j1, j2, j3 := TimeEnd(p, l), LevelEnd(p, l), HeaderEnd(p, l);
    assert Sub(s, p + 1, j1) == l.time by { SubAt(s, p + 1, j1, l.time); }
    assert Sub(s, j1 + 3, j2) == l.level by { SubAt(s, j1 + 3, j2, l.level); }
    assert Sub(s, j2 + 2, j3) == l.header by { SubAt(s, j2 + 2, j3, l.header); }
  }

  /** A field laid out at `i` and ending at `j` is the slice between them. */
  lemma SubAt(s: string, i: nat, j: nat, x: string)
    requires IsAt(s, i, x) && j == i + |x|
    ensures Sub(s, i, j) == x
  {
    SliceAt(s, i, x);
  }

  /** Four slices equal to four fields make the groups those fields. */
  lemma GroupsOfSubs(s: string, m: Span, g: Groups)
    requires Sub(s, m.open + 1, m.timeEnd) == g.time && Sub(s, m.timeEnd + 3, m.levelEnd) == g.level
    requires Sub(s, m.levelEnd + 2, m.headerEnd) == g.header && Sub(s, m.headerEnd + 1, m.extraEnd) == g.extra
    ensures GroupsAt(s, m) == g
  {
  }


  /** Where no newline is followed by `[`, no match starts, and the scan moves on. */
  lemma SkipNoBoundary(s: string, b: nat, q: nat)
    requires b <= q <= |s|
    requires forall i :: b <= i < q ==> !Boundary(s, i)
    ensures FindAll(s, b) == FindAll(s, q)
  {
    SkipNoMatch(s, b, q);
  }

  /** From the start of entry `k`, `findall` stops only at the newline that ends entry `k`. */
  lemma FindAllStep(s: string, ls: seq<Line>, offs: seq<nat>, k: nat)
    requires Layout(s, ls, offs) && k < |ls|
    ensures offs[k + 1] > 0 && FindAll(s, offs[k]) == FindAll(s, offs[k + 1] - 1)
  {
    NoBoundaryInEntry(s, ls, offs, k);
    SkipNoBoundary(s, offs[k], offs[k + 1] - 1);
  }

  /** Entry `k` of a layout is matched whole where it starts. */
  lemma EntryOfLayout(s: string, ls: seq<Line>, offs: seq<nat>, k: nat)
    requires Layout(s, ls, offs) && k < |ls|
    ensures EntryAt(s, offs[k]) == Some(SpanOf(offs[k], ls[k])) && SpanOf(offs[k], ls[k]).end == offs[k + 1]
  {
    LayoutLine(s, ls, offs, k);
    LayoutAt(s, ls, offs, k);
    EntryAtLine(s, offs[k], ls[k]);
  }

  /** At the newline ending entry `k`, the match is entry `k + 1`, and the scan resumes at entry `k + 2`. */
  lemma FindAllAtBoundary(s: string, ls: seq<Line>, offs: seq<nat>, k: nat)
    requires Layout(s, ls, offs) && k + 1 < |ls|
    ensures offs[k + 1] > 0
    ensures FindAll(s, offs[k + 1] - 1) == [SpanOf(offs[k + 1], ls[k + 1])] + FindAll(s, offs[k + 2])
  {
    LayoutLine(s, ls, offs, k);
    EntryOfLayout(s, ls, offs, k + 1);
  }

  /** At the newline ending the last entry the scan finds nothing more. */
  lemma FindAllAtEnd(s: string, ls: seq<Line>, offs: seq<nat>)
    requires Layout(s, ls, offs) && 0 < |ls|
    ensures |s| > 0 && FindAll(s, |s| - 1) == []
  {
    LayoutLine(s, ls, offs, |ls| - 1);
    var q: nat := |s| - 1;
    assert LogAt(s, q).None?;
    assert FindAll(s, q) == FindAll(s, q + 1);
  }

  /** Every other entry from `k + 1` on: the ones `findall` reaches from the start of entry `k`. */
  function AlternateFrom(ls: seq<Line>, k: nat): seq<Groups>
    decreases |ls| - k
  {
    if k + 1 < |ls| then [GroupsOf(ls[k + 1])] + AlternateFrom(ls, k + 2) else []
  }

  /** The spans of those entries. */
  function AlternateSpans(ls: seq<Line>, offs: seq<nat>, k: nat): seq<Span>
    requires |offs| == |ls| + 1
    decreases |ls| - k
  {
    if k + 1 < |ls| then [SpanOf(offs[k + 1], ls[k + 1])] + AlternateSpans(ls, offs, k + 2) else []
  }

  /**
   * From the start of entry `k`, `findall` skips entry `k` (its first
   * newline is not followed by `[`, and the newline before it was used
   * up by the previous match), matches entry `k + 1` through the newline
   * that ends it, and so resumes at the start of entry `k + 2`.
   */
  lemma FindAllLaidOut(s: string, ls: seq<Line>, offs: seq<nat>, k: nat)
    requires Layout(s, ls, offs) && k <= |ls|
    ensures FindAll(s, offs[k]) == AlternateSpans(ls, offs, k)
  {
    var find := FindFrom(s);
    forall j | k <= j < |ls|
      ensures PairStep(find, ls, offs, j)
    {
      FindAllPair(s, ls, offs, j);
    }
    AlternateChain(find, ls, offs, k);
  }

  /** `findall` as a function of the index it starts from. */
  function FindFrom(s: string): nat -> seq<Span>
  {
    (q: nat) => FindAll(s, q)
  }

  /** From entry `j`, a scan finds entry `j + 1` and resumes at entry `j + 2`, or finds nothing past the last entry. */
  predicate PairStep(find: nat -> seq<Span>, ls: seq<Line>, offs: seq<nat>, j: nat)
    requires |offs| == |ls| + 1 && j < |ls|
  {
    && (j + 1 == |ls| ==> find(offs[j]) == [])
    && (j + 1 < |ls| ==> find(offs[j]) == [SpanOf(offs[j + 1], ls[j + 1])] + find(offs[j + 2]))
  }

  /** Chaining those steps from entry `k` finds every other entry. */
  lemma {:induction false} AlternateChain(find: nat -> seq<Span>, ls: seq<Line>, offs: seq<nat>, k: nat)
    requires |offs| == |ls| + 1 && k <= |ls| && find(offs[|ls|]) == []
    requires forall j :: k <= j < |ls| ==> PairStep(find, ls, offs, j)
    ensures find(offs[k]) == AlternateSpans(ls, offs, k)
    decreases |ls| - k
  {
    if k < |ls| {
      assert PairStep(find, ls, offs, k);
      if k + 1 < |ls| {
        AlternateChain(find, ls, offs, k + 2);
        AlternateUnfold(ls, offs, k);
      }
    }
  }

  /** From the start of entry `k`, the scan's first match is entry `k + 1`, and it resumes at entry `k + 2`. */
  lemma FindAllPair(s: string, ls: seq<Line>, offs: seq<nat>, k: nat)
    requires Layout(s, ls, offs) && k < |ls|
    ensures k + 1 == |ls| ==> FindAll(s, offs[k]) == []
    ensures k + 1 < |ls| ==> FindAll(s, offs[k]) == [SpanOf(offs[k + 1], ls[k + 1])] + FindAll(s, offs[k + 2])
  {
    FindAllStep(s, ls, offs, k);
    if k + 1 == |ls| {
      FindAllAtEnd(s, ls, offs);
    } else {
      FindAllAtBoundary(s, ls, offs, k);
    }
  }

  /** Every entry's span in `s` has that entry's fields as its groups. */
  predicate EntriesGrouped(s: string, ls: seq<Line>, offs: seq<nat>)
  {
    |offs| == |ls| + 1 && forall j :: 0 <= j < |ls| ==> EntryGrouped(s, ls, offs, j)
  }

  predicate EntryGrouped(s: string, ls: seq<Line>, offs: seq<nat>, j: nat)
    requires j < |ls| && j < |offs|
  {
    GroupsAt(s, SpanOf(offs[j], ls[j])) == GroupsOf(ls[j])
  }

  lemma LayoutGrouped(s: string, ls: seq<Line>, offs: seq<nat>)
    requires Layout(s, ls, offs)
    ensures EntriesGrouped(s, ls, offs)
  {
    forall j | 0 <= j < |ls| ensures EntryGrouped(s, ls, offs, j) {
      LayoutGroups(s, ls, offs, j);
    }
  }

  lemma {:induction false} AlternateGroups(s: string, ls: seq<Line>, offs: seq<nat>, k: nat)
    requires EntriesGrouped(s, ls, offs)
    ensures GroupsOfSpans(s, AlternateSpans(ls, offs, k)) == AlternateFrom(ls, k)
    decreases |ls| - k
  {
    if k + 1 < |ls| {
      AlternateGroups(s, ls, offs, k + 2);
      AlternateStep(s, ls, offs, k);
    }
  }

  /** Entry `k + 1` in front of the entries after it. */
  lemma AlternateStep(s: string, ls: seq<Line>, offs: seq<nat>, k: nat)
    requires |offs| == |ls| + 1 && k + 1 < |ls| && EntryGrouped(s, ls, offs, k + 1)
    requires GroupsOfSpans(s, AlternateSpans(ls, offs, k + 2)) == AlternateFrom(ls, k + 2)
    ensures GroupsOfSpans(s, AlternateSpans(ls, offs, k)) == AlternateFrom(ls, k)
  {
    var m, rest := SpanOf(offs[k + 1], ls[k + 1]), AlternateSpans(ls, offs, k + 2);
    GroupsOfCons(s, m, rest, GroupsOf(ls[k + 1]), AlternateFrom(ls, k + 2));
    AlternateUnfold(ls, offs, k);
  }

  /** The groups of entry `j` of a layout are its fields. */
  lemma LayoutGroups(s: string, ls: seq<Line>, offs: seq<nat>, j: nat)
    requires Layout(s, ls, offs) && j < |ls|
    ensures GroupsAt(s, SpanOf(offs[j], ls[j])) == GroupsOf(ls[j])
  {
    LayoutAt(s, ls, offs, j);
    GroupsOfLine(s, offs[j], ls[j]);
  }

  lemma GroupsOfCons(s: string, m: Span, rest: seq<Span>, g: Groups, gs: seq<Groups>)
    requires GroupsAt(s, m) == g && GroupsOfSpans(s, rest) == gs
    ensures GroupsOfSpans(s, [m] + rest) == [g] + gs
  {
    assert ([m] + rest)[1..] == rest;
  }

  lemma AlternateUnfold(ls: seq<Line>, offs: seq<nat>, k: nat)
    requires |offs| == |ls| + 1 && k + 1 < |ls|
    ensures AlternateSpans(ls, offs, k) == [SpanOf(offs[k + 1], ls[k + 1])] + AlternateSpans(ls, offs, k + 2)
    ensures AlternateFrom(ls, k) == [GroupsOf(ls[k + 1])] + AlternateFrom(ls, k + 2)
  {
  }

  /**
   * The manager sees the first entry of a file, then the second, fourth,
   * sixth, ... entries: the third, fifth, ... entries are lost whenever
   * entries follow one another directly.
   */
  lemma TokensOfRendered(ls: seq<Line>)
    requires AllWellFormed(ls)
    ensures Tokens(Render(ls)) == if |ls| == 0 then [] else [GroupsOf(ls[0])] + AlternateFrom(ls, 0)
  {
    var s, offs := Render(ls), Offsets(ls);
    RenderLayout(ls);
    FindAllLaidOut(s, ls, offs, 0);
    LayoutGrouped(s, ls, offs);
    AlternateGroups(s, ls, offs, 0);
    if |ls| > 0 {
      EntryOfLayout(s, ls, offs, 0);
      GroupsOfLine(s, 0, ls[0]);
    }
  }

  /** Three entries in a row: the third one is not seen at all. */
  lemma ThirdEntryLost(a: Line, b: Line, c: Line)
    requires WellFormed(a) && WellFormed(b) && WellFormed(c)
    ensures Tokens(Render([a, b, c])) == [GroupsOf(a), GroupsOf(b)]
  {
    var ls := [a, b, c];
    TokensOfRendered(ls);
    assert AlternateFrom(ls, 2) == [];
    assert AlternateFrom(ls, 0) == [GroupsOf(b)] + AlternateFrom(ls, 2);
  }
}

=== FILE: src/gap_parser.dfy ===
/**
 * `parse_log`, `read_log_file` and `get_log_list` of mini/app.py, carried
 * over unchanged into release/log_parser.py.  Each match of the open
 * entry pattern is read from its detail line alone; the walk skips
 * forbidden keywords, converts the time with `strptime` (which raises on
 * a bad time), counts pickups, records the pickups the global item table
 * does not already hold, and feeds the time to a pause rule that adds
 * every pause of more than five minutes to the duration.
 */
module GapParser {
  import opened Wrappers
  import opened Strings
  import opened LogLines
  import opened OpenPattern
  import opened Clock
  import opened Tallies
  import EntryScan
  import Segments
  import Manager

  /** Five minutes, in microseconds: the longest pause that keeps a stretch going. */
  const Pause: int := 300 * Second

  /** `current_start` and `current_end` of an open stretch. */
  datatype Stretch = Stretch(start: int, end: int)

  /** The timing variables of `parse_log`: the open stretch, if any, and the duration so far. */
  datatype Timer = Timer(open: Option<Stretch>, total: int)

  const Idle: Timer := Timer(None, 0)

  /**
   * One kept entry at time `t`.  A pause of at most five minutes (a
   * backward step too) extends the stretch; a longer pause is itself
   * added to the total, in whole seconds, and a new stretch starts at `t`.
   * The source's `delta <= 0` logging branch sits inside `delta > 300`
   * and can never run.
   */
  function Tick(g: Timer, t: int): (r: Timer)
    ensures r.open.Some? && r.open.value.end == t
    ensures r.total >= g.total
  {
    match g.open
    case None => Timer(Some(Stretch(t, t)), g.total)
    case Some(s) =>
      var delta := t - s.end;
      if delta <= Pause then Timer(Some(Stretch(s.start, t)), g.total)
      else Timer(Some(Stretch(t, t)), g.total + WholeSeconds(delta))
  }

  function Ticks(g: Timer, ts: seq<int>): Timer
    decreases |ts|
  {
    if |ts| == 0 then g else Ticks(Tick(g, ts[0]), ts[1..])
  }

  lemma TicksCons(g: Timer, ts: seq<int>)
    requires |ts| > 0
    ensures Ticks(g, ts) == Ticks(Tick(g, ts[0]), ts[1..])
  {
  }

  /** After the loop: the last stretch is added when it is more than a single instant. */
  function Finish(g: Timer): int
  {
    match g.open
    case Some(s) => if s.start != s.end then g.total + WholeSeconds(s.end - s.start) else g.total
    case None => g.total
  }

  /** The duration `parse_log` reports for kept entries at times `ts`. */
  function GapDuration(ts: seq<int>): int
  {
    Finish(Ticks(Idle, ts))
  }

  /** While times do not go backwards: an open stretch after `first`, and a total no longer than the time before it. */
  predicate Bounded(g: Timer, first: int)
  {
    g.open.Some? && first <= g.open.value.start <= g.open.value.end
    && 0 <= g.total && g.total * Second <= g.open.value.start - first
  }

  lemma {:induction false} TicksBounded(g: Timer, first: int, ts: seq<int>)
    requires Bounded(g, first) && Segments.NonDecreasing(ts) && (|ts| > 0 ==> g.open.value.end <= ts[0])
    ensures Bounded(Ticks(g, ts), first)
    ensures |ts| > 0 ==> Ticks(g, ts).open.value.end == ts[|ts| - 1]
    ensures |ts| == 0 ==> Ticks(g, ts) == g
    decreases |ts|
  {
    if |ts| > 0 {
      var h := Tick(g, ts[0]);
      assert Bounded(h, first);
      TicksBounded(h, first, ts[1..]);
    }
  }

  /**
   * For times that never go backwards the duration lies between zero and
   * the span from the first to the last kept entry: the pauses added and
   * the last stretch do not overlap.
   */
  lemma GapDurationBounds(ts: seq<int>)
    requires |ts| > 0 && Segments.NonDecreasing(ts)
    ensures 0 <= GapDuration(ts) && GapDuration(ts) * Second <= ts[|ts| - 1] - ts[0]
  {
    var g := Tick(Idle, ts[0]);
    assert Ticks(Idle, ts) == Ticks(g, ts[1..]);
    TicksBounded(g, ts[0], ts[1..]);
  }

  /**
   * The pause rule on the runs of tests/test_duration.py: four entries at
   * 0, 2, 12 and 15 minutes give 780 s (a 600 s pause plus a 180 s
   * stretch), where the segment rule of the manager gives the 300 s the
   * test expects.
   */
  lemma TwoRunsExample()
    ensures GapDuration([0, 120 * Second, 720 * Second, 900 * Second]) == 780
    ensures Segments.Duration([0, 120000, 720000, 900000]) == 300
  {
    var ts := [0, 120 * Second, 720 * Second, 900 * Second];
    TicksCons(Idle, ts);
    TicksCons(Tick(Idle, 0), ts[1..]);
    TicksCons(Tick(Tick(Idle, 0), 120 * Second), ts[2..]);
    TicksCons(Tick(Tick(Tick(Idle, 0), 120 * Second), 720 * Second), ts[3..]);
    assert ts[2..][1..] == ts[3..] && ts[1..][1..] == ts[2..] && ts[3..][1..] == [];
    SegmentsTwoRuns();
  }

  lemma SegmentsTwoRuns()
    ensures Segments.Duration([0, 120000, 720000, 900000]) == 300
  {
    var ts := [0, 120000, 720000, 900000];
    var t := Segments.Ticks(Segments.Fresh, ts);
    assert ts[1..][1..][1..][1..] == [];
    assert t == Segments.Tracker([Segments.Segment(0, 120000)], Some(720000), Some(900000));
    var segs := [Segments.Segment(0, 120000), Segments.Segment(720000, 900000)];
    assert Segments.Close(t) == segs;
    assert segs[..1] == [segs[0]] && [segs[0]][..0] == [];
  }

  /** The test's three runs (1, 2 and 2.5 minutes, five-minute-plus pauses between them) give 870 s, not 330 s. */
  lemma ThreeRunsExample()
    ensures GapDuration([0, 60 * Second, 420 * Second, 540 * Second, 900 * Second, 1050 * Second]) == 870
  {
    var ts := [0, 60 * Second, 420 * Second, 540 * Second, 900 * Second, 1050 * Second];
    var g1 := Tick(Tick(Tick(Idle, 0), 60 * Second), 420 * Second);
    assert g1 == Timer(Some(Stretch(420 * Second, 420 * Second)), 360);
    var g2 := Tick(Tick(Tick(g1, 540 * Second), 900 * Second), 1050 * Second);
    assert g2 == Timer(Some(Stretch(900 * Second, 1050 * Second)), 720);
    TicksCons(Idle, ts);
    TicksCons(Tick(Idle, 0), ts[1..]);
    TicksCons(Tick(Tick(Idle, 0), 60 * Second), ts[2..]);
    TicksCons(g1, ts[3..]);
    TicksCons(Tick(g1, 540 * Second), ts[4..]);
    TicksCons(Tick(Tick(g1, 540 * Second), 900 * Second), ts[5..]);
    assert ts[1..][1..] == ts[2..] && ts[2..][1..] == ts[3..] && ts[3..][1..] == ts[4..] && ts[4..][1..] == ts[5..] && ts[5..][1..] == [];
  }

  /** tests/test_log_parser.py: kept entries at 0, 5, 20 and 20.5 minutes give 930 s (a 900 s pause and a 30 s stretch). */
  lemma PauseAddedExample()
    ensures GapDuration([0, 300 * Second, 1200 * Second, 1230 * Second]) == 930
  {
    var ts := [0, 300 * Second, 1200 * Second, 1230 * Second];
    TicksCons(Idle, ts);
    TicksCons(Tick(Idle, 0), ts[1..]);
    TicksCons(Tick(Tick(Idle, 0), 300 * Second), ts[2..]);
    TicksCons(Tick(Tick(Tick(Idle, 0), 300 * Second), 1200 * Second), ts[3..]);
    assert ts[1..][1..] == ts[2..] && ts[2..][1..] == ts[3..] && ts[3..][1..] == [];
  }

  /** A clock that steps back inside a stretch makes the last stretch negative: 10 s then 5 s give -5. */
  lemma BackwardStretch()
    ensures GapDuration([10 * Second, 5 * Second]) == -5
  {
    var ts := [10 * Second, 5 * Second];
    TicksCons(Idle, ts);
    TicksCons(Tick(Idle, 10 * Second), ts[1..]);
    assert ts[1..][1..] == [];
  }

  /** What the walk reads of one match: the stripped detail line, the raw time and that time converted. */
  datatype Entry = Entry(text: string, time: string, us: Option<int>)

  function View(g: Groups): (e: Entry)
    ensures e.text == Strip(g.extra) && e.time == g.time && e.us == ClockMicros(g.time)
  {
    Entry(Strip(g.extra), g.time, ClockMicros(g.time))
  }

  function Views(gs: seq<Groups>): (es: seq<Entry>)
    ensures |es| == |gs| && forall k :: 0 <= k < |gs| ==> es[k] == View(gs[k])
  {
    seq(|gs|, k requires 0 <= k < |gs| => View(gs[k]))
  }

  /** The entries of a log text, in order. */
  function Entries(text: string): seq<Entry>
  {
    Views(OpenTokens(text))
  }

  /** One row of the global item table, or of a `cache_dict`: item name, raw time, date. */
  datatype Row = Row(name: string, time: string, date: string)

  /** The loop variables of `parse_log`: `item_count`, `cache_dict` and the timer. */
  datatype GapRun = GapRun(counts: seq<Count>, rows: seq<Row>, timer: Timer)

  const Begin: GapRun := GapRun([], [], Idle)

  predicate Skipped(e: Entry)
  {
    EntryScan.HasForbidden(e.text)
  }

  predicate IsPickup(e: Entry)
  {
    Contains(e.text, EntryScan.Pickup)
  }

  /** A kept entry on which `parse_log` raises: its time does not convert, or it is a pickup without `：`. */
  predicate Raises(e: Entry)
  {
    !Skipped(e) && (e.us.None? || (IsPickup(e) && EntryScan.ItemName(e.text).None?))
  }

  /**
   * One entry against the global table `frame`.  A pickup is counted, and
   * its row is recorded unless `frame` holds it; rows recorded earlier in
   * the same walk are not consulted.  `None` where the source raises.
   */
  function Step(frame: seq<Row>, date: string, e: Entry, st: GapRun): Option<GapRun>
  {
    if Skipped(e) then Some(st)
    else if e.us.None? then None
    else if IsPickup(e) then
      match EntryScan.ItemName(e.text)
      case None => None
      case Some(name) =>
        var row := Row(name, e.time, date);
        Some(GapRun(Inc(st.counts, name), if row in frame then st.rows else st.rows + [row], Tick(st.timer, e.us.value)))
    else Some(st.(timer := Tick(st.timer, e.us.value)))
  }

  function Scan(frame: seq<Row>, date: string, es: seq<Entry>, st: GapRun): Option<GapRun>
    decreases |es|
  {
    if |es| == 0 then Some(st)
    else
      match Step(frame, date, es[0], st)
      case None => None
      case Some(st') => Scan(frame, date, es[1..], st')
  }

  /** The names of the kept pickups, in order. */
  function Names(es: seq<Entry>): seq<string>
    decreases |es|
  {
    if |es| == 0 then []
    else
      var e := es[0];
      (if !Skipped(e) && IsPickup(e) && EntryScan.ItemName(e.text).Some? then [EntryScan.ItemName(e.text).value] else []) + Names(es[1..])
  }

  /** The rows of the kept pickups that `frame` does not hold, in order, repeats included. */
  function NewRows(frame: seq<Row>, date: string, es: seq<Entry>): seq<Row>
    decreases |es|
  {
    if |es| == 0 then []
    else
      var e := es[0];
      (if !Skipped(e) && IsPickup(e) && EntryScan.ItemName(e.text).Some? && Row(EntryScan.ItemName(e.text).value, e.time, date) !in frame
       then [Row(EntryScan.ItemName(e.text).value, e.time, date)] else []) + NewRows(frame, date, es[1..])
  }

  /** The converted times of the kept entries, in order. */
  function Times(es: seq<Entry>): seq<int>
    decreases |es|
  {
    if |es| == 0 then []
    else (if !Skipped(es[0]) && es[0].us.Some? then [es[0].us.value] else []) + Times(es[1..])
  }

  /** What the walk leaves in closed form: `None` when some kept entry raises. */
  function Closed(frame: seq<Row>, date: string, es: seq<Entry>, st: GapRun): Option<GapRun>
  {
    if AnyOf(Raises, es) then None
    else Some(GapRun(IncAll(st.counts, Names(es)), st.rows + NewRows(frame, date, es), Ticks(st.timer, Times(es))))
  }

  /** A single step fails exactly on an entry that raises. */
  lemma StepRaises(frame: seq<Row>, date: string, e: Entry, st: GapRun)
    ensures Step(frame, date, e, st).None? <==> Raises(e)
  {
  }

  /** The closed form of a walk is the closed form of its rest after a step that does not raise. */
  lemma ClosedStep(frame: seq<Row>, date: string, es: seq<Entry>, st: GapRun)
    requires |es| > 0 && !Raises(es[0])
    ensures Closed(frame, date, es, st) == Closed(frame, date, es[1..], Step(frame, date, es[0], st).value)
  {
    var e, rest := es[0], es[1..];
    StepRaises(frame, date, e, st);
    var st' := Step(frame, date, e, st).value;
    if Skipped(e) {
      assert Names(es) == Names(rest) && Times(es) == Times(rest) && NewRows(frame, date, es) == NewRows(frame, date, rest);
    } else if IsPickup(e) {
      var name := EntryScan.ItemName(e.text).value;
      var row := Row(name, e.time, date);
      assert Names(es) == [name] + Names(rest);
      assert Times(es) == [e.us.value] + Times(rest);
      assert ([name] + Names(rest))[1..] == Names(rest);
      assert ([e.us.value] + Times(rest))[1..] == Times(rest);
      if row in frame {
        assert NewRows(frame, date, es) == NewRows(frame, date, rest);
      } else {
        assert NewRows(frame, date, es) == [row] + NewRows(frame, date, rest);
        assert st.rows + [row] + NewRows(frame, date, rest) == st.rows + ([row] + NewRows(frame, date, rest));
      }
    } else {
      assert Names(es) == Names(rest) && NewRows(frame, date, es) == NewRows(frame, date, rest);
      assert Times(es) == [e.us.value] + Times(rest);
      assert ([e.us.value] + Times(rest))[1..] == Times(rest);
    }
  }

  /**
   * The walk in closed form: it raises exactly when some kept entry
   * raises; otherwise it has counted every kept pickup, recorded the
   * pickups missing from `frame`, and timed every kept entry.
   */
  lemma {:induction false} ScanSpec(frame: seq<Row>, date: string, es: seq<Entry>, st: GapRun)
    ensures Scan(frame, date, es, st) == Closed(frame, date, es, st)
    decreases |es|
  {
    if |es| == 0 {
      assert st.rows + [] == st.rows;
    } else {
      StepRaises(frame, date, es[0], st);
      if !Raises(es[0]) {
        ClosedStep(frame, date, es, st);
        ScanSpec(frame, date, es[1..], Step(frame, date, es[0], st).value);
      }
    }
  }

  /** The walk from entry `i` on: one step, then the rest. */
  lemma ScanAt(frame: seq<Row>, date: string, es: seq<Entry>, i: nat, st: GapRun)
    requires i < |es|
    ensures Scan(frame, date, es[i..], st) ==
      match Step(frame, date, es[i], st)
      case None => None
      case Some(st') => Scan(frame, date, es[i + 1..], st')
  {
    assert es[i..][0] == es[i] && es[i..][1..] == es[i + 1..];
  }

  /** The result of `parse_log`: `item_count`, `duration` and the rows of `cache_dict`. */
  datatype Parsed = Parsed(itemCount: seq<Count>, duration: int, rows: seq<Row>)

  /** `parse_log(text, date)` against the global item table `frame`; `None` where it raises. */
  function GapParse(frame: seq<Row>, text: string, date: string): Option<Parsed>
  {
    match Scan(frame, date, Entries(text), Begin)
    case None => None
    case Some(r) => Some(Parsed(r.counts, Finish(r.timer), r.rows))
  }

  lemma GapParseOf(frame: seq<Row>, text: string, date: string)
    ensures GapParse(frame, text, date) ==
      match Scan(frame, date, Views(OpenTokens(text)), Begin)
      case None => None
      case Some(r) => Some(Parsed(r.counts, Finish(r.timer), r.rows))
  {
  }

  lemma {:induction false} NewRowsBound(frame: seq<Row>, date: string, es: seq<Entry>)
    ensures |NewRows(frame, date, es)| <= |Names(es)|
    ensures forall r :: r in NewRows(frame, date, es) ==> r.date == date && r !in frame && r.name in Names(es)
    decreases |es|
  {
    if |es| > 0 {
      NewRowsBound(frame, date, es[1..]);
    }
  }

  /**
   * `parse_log` raises exactly when a kept entry has a bad time or is a
   * pickup without `：`.  Otherwise the counter holds every kept pickup
   * (its values sum to their number, each name once), the duration is the
   * pause rule over the kept entries' times, and the recorded rows are
   * the pickups missing from the global table, so there are at most as
   * many rows as pickups, all dated `date`.
   */
  lemma GapParseSpec(frame: seq<Row>, text: string, date: string)
    ensures var es := Entries(text); var r := GapParse(frame, text, date);
      && (r.None? <==> exists k :: 0 <= k < |es| && Raises(es[k]))
      && (r.Some? ==>
            && r.value.itemCount == IncAll([], Names(es)) && UniqueKeys(r.value.itemCount)
            && Total(r.value.itemCount) == |Names(es)|
            && (forall k :: k in Keys(r.value.itemCount) <==> k in Names(es))
            && r.value.duration == GapDuration(Times(es))
            && r.value.rows == NewRows(frame, date, es)
            && |r.value.rows| <= Total(r.value.itemCount)
            && (forall row :: row in r.value.rows ==> row.date == date && row !in frame))
  {
    var es := Entries(text);
    ScanSpec(frame, date, es, Begin);
    AnyOfIff(Raises, es);
    IncAllSpec([], Names(es));
    NewRowsBound(frame, date, es);
    assert [] + NewRows(frame, date, es) == NewRows(frame, date, es);
  }

  /** Whether `parse_log` raises, what it counts and the duration it reports do not depend on the global table. */
  lemma GapParseFrameFree(frame: seq<Row>, other: seq<Row>, text: string, date: string)
    ensures GapParse(frame, text, date).Some? <==> GapParse(other, text, date).Some?
    ensures GapParse(frame, text, date).Some? ==>
      GapParse(frame, text, date).value.itemCount == GapParse(other, text, date).value.itemCount
      && GapParse(frame, text, date).value.duration == GapParse(other, text, date).value.duration
  {
    GapParseSpec(frame, text, date);
    GapParseSpec(other, text, date);
  }

  /** Against an empty table every kept pickup is recorded. */
  lemma {:induction false} NewRowsEmptyFrame(date: string, es: seq<Entry>)
    ensures |NewRows([], date, es)| == |Names(es)|
    ensures forall k :: 0 <= k < |Names(es)| ==> NewRows([], date, es)[k].name == Names(es)[k]
    decreases |es|
  {
    if |es| > 0 {
      NewRowsEmptyFrame(date, es[1..]);
    }
  }

  /** A table that already holds every pickup row of the walk makes it record nothing. */
  lemma {:induction false} NewRowsCovered(frame: seq<Row>, date: string, es: seq<Entry>)
    requires forall r :: r in NewRows([], date, es) ==> r in frame
    ensures NewRows(frame, date, es) == []
    decreases |es|
  {
    if |es| > 0 {
      var e := es[0];
      if !Skipped(e) && IsPickup(e) && EntryScan.ItemName(e.text).Some? {
        var row := Row(EntryScan.ItemName(e.text).value, e.time, date);
        assert NewRows([], date, es) == [row] + NewRows([], date, es[1..]);
        assert row in NewRows([], date, es);
      }
      NewRowsCovered(frame, date, es[1..]);
    }
  }

  /**
   * The same pickup twice in one walk is recorded twice: the check reads
   * only the global table, never the rows recorded so far.
   */
  lemma DuplicateRecordedTwice(date: string, e: Entry)
    requires !Skipped(e) && IsPickup(e) && EntryScan.ItemName(e.text).Some?
    ensures var row := Row(EntryScan.ItemName(e.text).value, e.time, date);
      NewRows([], date, [e, e]) == [row, row]
  {
    var row := Row(EntryScan.ItemName(e.text).value, e.time, date);
    assert [e, e][1..] == [e] && [e][1..] == [];
    assert NewRows([], date, [e]) == [row] + NewRows([], date, []);
    assert NewRows([], date, [e, e]) == [row] + NewRows([], date, [e]);
  }

  /** `read_log_file`: a missing or unreadable file gives the error result, `None`. */
  function GapReadLog(dir: Manager.Directory, name: string, date: string, frame: seq<Row>): Option<Parsed>
  {
    if name !in dir.files || dir.files[name].Unreadable? then None
    else GapParse(frame, dir.files[name].text, date)
  }

  /** `items` of `get_log_list` is non-empty: the counter without the forbidden names. */
  predicate HasItems(p: Parsed)
  {
    |EntryScan.DropForbidden(p.itemCount)| > 0
  }

  /** One row of the duration table: date and seconds. */
  datatype DurationRow = DurationRow(date: string, seconds: int)

  /** What `get_log_list` builds: the kept dates, the duration table and the item table. */
  datatype Listing = Listing(logs: seq<string>, durations: seq<DurationRow>, rows: seq<Row>)

  /** The loop of `get_log_list` over `files`, every file parsed against the same global table `frame`. */
  function GapListLogs(dir: Manager.Directory, frame: seq<Row>, files: seq<string>): Listing
    decreases |files|
  {
    if |files| == 0 then Listing([], [], [])
    else
      var s := GapListLogs(dir, frame, files[..|files| - 1]);
      var f := files[|files| - 1];
      var o := GapReadLog(dir, Manager.FileName(f), f, frame);
      if o.Some? && HasItems(o.value) then
        Listing(s.logs + [f], s.durations + [DurationRow(f, o.value.duration)], s.rows + o.value.rows)
      else s
  }

  /** A date `get_log_list` keeps, whatever the global table holds. */
  predicate GapListable(dir: Manager.Directory, d: string)
  {
    var o := GapReadLog(dir, Manager.FileName(d), d, []);
    o.Some? && HasItems(o.value)
  }

  lemma ReadLogFrameFree(dir: Manager.Directory, d: string, frame: seq<Row>)
    ensures var o, p := GapReadLog(dir, Manager.FileName(d), d, frame), GapReadLog(dir, Manager.FileName(d), d, []);
      o.Some? == p.Some? && (o.Some? ==> o.value.itemCount == p.value.itemCount && o.value.duration == p.value.duration)
  {
    var name := Manager.FileName(d);
    if name in dir.files && dir.files[name].Readable? {
      GapParseFrameFree(frame, [], dir.files[name].text, d);
    }
  }

  /**
   * The kept dates are exactly the listed dates whose file parses and has
   * a pickup, in listing order, whatever the global table; the duration
   * table has one row per kept date, in the same order; every recorded
   * row belongs to a kept date and is missing from the global table.
   */
  lemma {:induction false} GapListLogsSpec(dir: Manager.Directory, frame: seq<Row>, files: seq<string>)
    ensures var s := GapListLogs(dir, frame, files);
      && (forall x :: x in s.logs <==> x in files && GapListable(dir, x))
      && |s.durations| == |s.logs| && (forall k :: 0 <= k < |s.logs| ==> s.durations[k].date == s.logs[k])
      && (forall r :: r in s.rows ==> r.date in s.logs && r !in frame)
    decreases |files|
  {
    if |files| > 0 {
      var init, f := files[..|files| - 1], files[|files| - 1];
      assert files == init + [f];
      GapListLogsSpec(dir, frame, init);
      ReadLogFrameFree(dir, f, frame);
      var name := Manager.FileName(f);
      if name in dir.files && dir.files[name].Readable? {
        GapParseSpec(frame, dir.files[name].text, f);
      }
    }
  }

  /** The rows a file would record against an empty table: all its kept pickups. */
  function PickupRows(dir: Manager.Directory, d: string): seq<Row>
  {
    var o := GapReadLog(dir, Manager.FileName(d), d, []);
    if o.Some? then o.value.rows else []
  }

  /** A call against the empty table records every pickup row of every kept date. */
  lemma {:induction false} FirstCallRecordsAll(dir: Manager.Directory, files: seq<string>)
    ensures forall d, r :: d in files && GapListable(dir, d) && r in PickupRows(dir, d) ==> r in GapListLogs(dir, [], files).rows
    decreases |files|
  {
    if |files| > 0 {
      var init, f := files[..|files| - 1], files[|files| - 1];
      assert files == init + [f];
      FirstCallRecordsAll(dir, init);
    }
  }

  /** One file read against a table that holds its pickup rows: kept as before, with the same duration and no row. */
  lemma CoveredFile(dir: Manager.Directory, frame: seq<Row>, d: string)
    requires GapListable(dir, d) ==> forall r :: r in PickupRows(dir, d) ==> r in frame
    ensures var o, p := GapReadLog(dir, Manager.FileName(d), d, frame), GapReadLog(dir, Manager.FileName(d), d, []);
      (o.Some? && HasItems(o.value)) == (p.Some? && HasItems(p.value))
      && (o.Some? && HasItems(o.value) ==> o.value.duration == p.value.duration && o.value.rows == [])
  {
    var name := Manager.FileName(d);
    if name in dir.files && dir.files[name].Readable? {
      var text := dir.files[name].text;
      GapParseSpec(frame, text, d);
      GapParseSpec([], text, d);
      if GapListable(dir, d) {
        NewRowsCovered(frame, d, Entries(text));
      }
    }
  }

  /**
   * A table that already holds every pickup row of every kept date leaves
   * the kept dates and durations as they are and records no row at all.
   */
  lemma {:induction false} CoveredCall(dir: Manager.Directory, frame: seq<Row>, files: seq<string>)
    requires forall d, r :: d in files && GapListable(dir, d) && r in PickupRows(dir, d) ==> r in frame
    ensures var s, t := GapListLogs(dir, frame, files), GapListLogs(dir, [], files);
      s.logs == t.logs && s.durations == t.durations && s.rows == []
    decreases |files|
  {
    if |files| > 0 {
      var init, f := files[..|files| - 1], files[|files| - 1];
      assert files == init + [f];
      CoveredCall(dir, frame, init);
      CoveredFile(dir, frame, f);
    }
  }

  /**
   * Repeated calls over unchanged files: the second call, made against the
   * item table the first one built, keeps the same dates and durations but
   * builds an empty item table; the third call is the first one again.
   */
  lemma Alternation(dir: Manager.Directory, files: seq<string>)
    ensures var first := GapListLogs(dir, [], files);
      var second := GapListLogs(dir, first.rows, files);
      second.logs == first.logs && second.durations == first.durations && second.rows == []
      && GapListLogs(dir, second.rows, files) == first
  {
    FirstCallRecordsAll(dir, files);
    CoveredCall(dir, GapListLogs(dir, [], files).rows, files);
  }

  /** The timing branch of the loop body: start a stretch, extend it, or add the pause and restart. */
  method Advance(g: Timer, t: int) returns (r: Timer)
    ensures r == Tick(g, t)
  {
    if g.open.None? {
      r := Timer(Some(Stretch(t, t)), g.total);
    } else {
      var delta := t - g.open.value.end;
      if delta <= Pause {
        r := Timer(Some(Stretch(g.open.value.start, t)), g.total);
      } else {
        r := Timer(Some(Stretch(t, t)), g.total + WholeSeconds(delta));
      }
    }
  }

  /**
   * The loop body of `parse_log` for one match: skip a forbidden entry,
   * convert the time (`None` where `strptime` raises), count a pickup and
   * record it unless the global table `frame` holds it, then time the entry.
   */
  method Visit(frame: seq<Row>, date: string, timestamp: string, details: string, st: GapRun) returns (o: Option<GapRun>)
    ensures o == Step(frame, date, Entry(details, timestamp, ClockMicros(timestamp)), st)
  {
    if EntryScan.HasForbidden(details) {
      return Some(st);
    }
    var current := ClockMicros(timestamp);
    if current.None? {
      return None;
    }
    var counts, rows := st.counts, st.rows;
    if Contains(details, EntryScan.Pickup) {
      var name := EntryScan.ItemName(details);
      if name.None? {
        return None;
      }
      counts := Inc(counts, name.value);
      var row := Row(name.value, timestamp, date);
      if row !in frame {
        rows := rows + [row];
      }
    }
    var timer := Advance(st.timer, current.value);
    o := Some(GapRun(counts, rows, timer));
  }

  /**
   * The module globals of mini/app.py (and of release/log_parser.py): the
   * item table and the duration table `get_log_list` rebinds, and the
   * cached log list of the LogList route, `None` until its first call.
   */
  class GapLogParser {
    var itemFrame: seq<Row>
    var durationFrame: seq<DurationRow>
    var logList: Option<seq<string>>

    /** Both tables start empty; the log list starts as `None`. */
    constructor ()
      ensures itemFrame == [] && durationFrame == [] && logList.None?
    {
      itemFrame := [];
      durationFrame := [];
      logList := None;
    }

    /** `parse_log`: one pass over the matches, reading the global item table but never writing it. */
    method ParseLog(content: string, date: string) returns (r: Option<Parsed>)
      ensures r == GapParse(itemFrame, content, date)
    {
      var matches := OpenTokens(content);
      ghost var es := Views(matches);
      var st := Begin;
      var i := 0;
      while i < |matches|
        invariant 0 <= i <= |matches|
        invariant Scan(itemFrame, date, es[i..], st) == Scan(itemFrame, date, es, Begin)
      {
        ScanAt(itemFrame, date, es, i, st);
        assert es[i] == View(matches[i]);
        var o := Visit(itemFrame, date, matches[i].time, Strip(matches[i].extra), st);
        if o.None? {
          assert Scan(itemFrame, date, es, Begin) == None;
          GapParseOf(itemFrame, content, date);
          return None;
        }
        st := o.value;
        i := i + 1;
      }
      assert es[i..] == [];
      assert Scan(itemFrame, date, es, Begin) == Some(st);
      var duration := st.timer.total;
      if st.timer.open.Some? && st.timer.open.value.start != st.timer.open.value.end {
        duration := duration + WholeSeconds(st.timer.open.value.end - st.timer.open.value.start);
      }
      assert duration == Finish(st.timer);
      GapParseOf(itemFrame, content, date);
      r := Some(Parsed(st.counts, duration, st.rows));
    }

    /** `read_log_file`: the error result for a missing or unreadable file, or for a walk that raises. */
    method ReadLogFile(dir: Manager.Directory, name: string, date: string) returns (r: Option<Parsed>)
      ensures r == GapReadLog(dir, name, date, itemFrame)
    {
      if name !in dir.files || dir.files[name].Unreadable? {
        return None;
      }
      r := ParseLog(dir.files[name].text, date);
    }

    /**
     * `get_log_list`: every listed date parsed against the item table as it
     * stood before the call; the dates with pickups are returned in listing
     * order, and both tables are rebound to what this call built.
     */
    method GetLogList(dir: Manager.Directory) returns (logs: seq<string>)
      modifies this
      ensures var s := GapListLogs(dir, old(itemFrame), Manager.FileDates(dir.listing));
        logs == s.logs && durationFrame == s.durations && itemFrame == s.rows && logList == old(logList)
    {
      var files := Manager.FileDates(dir.listing);
      logs := [];
      var durations: seq<DurationRow> := [];
      var cached: seq<Row> := [];
      var i := 0;
      while i < |files|
        invariant 0 <= i <= |files|
        invariant itemFrame == old(itemFrame) && durationFrame == old(durationFrame) && logList == old(logList)
        invariant GapListLogs(dir, itemFrame, files[..i]) == Listing(logs, durations, cached)
      {
        var file := files[i];
        var result := ReadLogFile(dir, Manager.FileName(file), file);
        assert files[..i + 1][..i] == files[..i];
        if result.Some? {
          var items := EntryScan.DropForbidden(result.value.itemCount);
          if |items| > 0 {
            logs := logs + [file];
            durations := durations + [DurationRow(file, result.value.duration)];
            cached := cached + result.value.rows;
          }
        }
        i := i + 1;
      }
      assert files[..i] == files;
      durationFrame := durations;
      itemFrame := cached;
    }

    /**
     * The LogList route of mini/app.py: while the cached list is `None` or
     * empty it runs `get_log_list` and caches its dates sorted newest
     * first; otherwise it answers from the cache and changes nothing.
     */
    method LogList(dir: Manager.Directory) returns (list: seq<string>)
      modifies this
      ensures logList == Some(list)
      ensures old(logList).Some? && old(logList).value != [] ==>
        list == old(logList).value && itemFrame == old(itemFrame) && durationFrame == old(durationFrame)
      ensures old(logList).None? || old(logList).value == [] ==>
        var s := GapListLogs(dir, old(itemFrame), Manager.FileDates(dir.listing));
        list == SortDesc(s.logs) && Descending(list) && multiset(list) == multiset(s.logs)
        && itemFrame == s.rows && durationFrame == s.durations
    {
      if logList.None? || logList.value == [] {
        var logs := GetLogList(dir);
        logList := Some(SortDesc(logs));
      }
      list := logList.value;
    }
  }
}

=== FILE: src/incremental.dfy ===
/**
 * The resumable run tracker of server/incremental_parser.py.  Each pass
 * reads, in every `better-genshin-impact*.log` file of the log directory
 * (in sorted order), only the text past the offset stored for that file,
 * line by line.  A `ConfigGroupStart` line opens a run, a
 * `ProductEmitted` line adds to an open run's products, and a
 * `ConfigGroupEnd` line closes an open run and appends its record (start,
 * end, duration, products) to the runs file.  The offsets and the runs
 * still open are saved for the next pass, and a per-group summary is
 * computed from the whole runs file.
 */
module Incremental {
  import opened Wrappers
  import opened Strings
  import opened Tallies
  import opened Clock
  import opened LogLines
  import Manager

  // ---------------------------------------------------------------------
  // The three event patterns and the timestamp pattern, as `search`es
  // ---------------------------------------------------------------------

  const StartTag: string := "ConfigGroupStart group="
  const EndTag: string := "ConfigGroupEnd group="
  const ProductTag: string := "ProductEmitted name="
  const RunTag: string := " run="
  const CountTag: string := " count="

  predicate IsDigit(c: char)
  {
    '0' <= c <= '9'
  }

  /** The end of the run of non-whitespace (`\S`) characters starting at `i`. */
  function NonSpaceEnd(s: string, i: nat): (r: nat)
    requires i <= |s|
    ensures i <= r <= |s|
    ensures forall k :: i <= k < r ==> !IsSpace(s[k])
    ensures r < |s| ==> IsSpace(s[r])
    decreases |s| - i
  {
    if i == |s| || IsSpace(s[i]) then i else NonSpaceEnd(s, i + 1)
  }

  /** The end of the run of digits (`\d`) starting at `i`. */
  function DigitEnd(s: string, i: nat): (r: nat)
    requires i <= |s|
    ensures i <= r <= |s|
    ensures forall k :: i <= k < r ==> IsDigit(s[k])
    ensures r < |s| ==> !IsDigit(s[r])
    decreases |s| - i
  {
    if i == |s| || !IsDigit(s[i]) then i else DigitEnd(s, i + 1)
  }

  /**
   * `(\S+) run=(\S+)` at index `i`: both groups are greedy runs of
   * non-whitespace, so the first must end right before ` run=`.
   */
  function GroupRunAt(s: string, i: nat): Option<(string, string)>
    requires i <= |s|
  {
    var j := NonSpaceEnd(s, i);
    if j == i || !(RunTag <= s[j..]) then None
    else
      var k := j + |RunTag|;
      var l := NonSpaceEnd(s, k);
      if l == k then None else Some((s[i..j], s[k..l]))
  }

  /** `ConfigGroupStart group=(\S+) run=(\S+)` tried at index `p`. */
  function StartAt(s: string, p: nat): Option<(string, string)>
  {
    if p <= |s| && StartTag <= s[p..] then GroupRunAt(s, p + |StartTag|) else None
  }

  /** `ConfigGroupEnd group=(\S+) run=(\S+)` tried at index `p`. */
  function EndAt(s: string, p: nat): Option<(string, string)>
  {
    if p <= |s| && EndTag <= s[p..] then GroupRunAt(s, p + |EndTag|) else None
  }

  /** `ProductEmitted name=(\S+) run=(\S+) count=(\d+)` tried at index `p`. */
  function ProductAt(s: string, p: nat): Option<(string, string, nat)>
  {
    if !(p <= |s| && ProductTag <= s[p..]) then None
    else
      match GroupRunAt(s, p + |ProductTag|)
      case None => None
      case Some(nr) =>
        var l := p + |ProductTag| + |nr.0| + |RunTag| + |nr.1|;
        if !(l <= |s| && CountTag <= s[l..]) then None
        else
          var m := l + |CountTag|;
          var n := DigitEnd(s, m);
          if n == m then None else Some((nr.0, nr.1, DigitsValue(s[m..n])))
  }

  /** `\[(\d{2}:\d{2}:\d{2}\.\d+)\]` tried at index `p`: the bracketed text. */
  function TimestampAt(s: string, p: nat): Option<string>
  {
    if p + 11 > |s| || s[p] != '[' then None
    else if !(IsDigit(s[p + 1]) && IsDigit(s[p + 2]) && s[p + 3] == ':' && IsDigit(s[p + 4]) && IsDigit(s[p + 5])
              && s[p + 6] == ':' && IsDigit(s[p + 7]) && IsDigit(s[p + 8]) && s[p + 9] == '.') then None
    else
      var j := DigitEnd(s, p + 10);
      if j == p + 10 || j == |s| || s[j] != ']' then None else Some(s[p + 1..j])
  }

  /** `pattern.search(s)`: the match at the lowest index where the pattern matches. */
  function Search<T>(s: string, at: (string, nat) -> Option<T>, p: nat): (r: Option<T>)
    ensures r.Some? ==> exists q :: p <= q <= |s| && at(s, q) == r
    ensures r.None? ==> forall q :: p <= q <= |s| ==> at(s, q).None?
    decreases if p <= |s| then |s| - p + 1 else 0
  {
    if p > |s| then None
    else if at(s, p).Some? then at(s, p)
    else Search(s, at, p + 1)
  }

  /** What one line is, the first pattern that matches deciding: start, then product, then end. */
  datatype LineKind = StartLine(group: string, run: string) | ProductLine(name: string, run: string, count: nat)
                    | EndLine(group: string, run: string) | Plain

  function Classify(line: string): (k: LineKind)
    ensures k.StartLine? <==> Search(line, StartAt, 0).Some?
    ensures k.ProductLine? ==> Search(line, ProductAt, 0) == Some((k.name, k.run, k.count))
    ensures k.EndLine? ==> Search(line, StartAt, 0).None? && Search(line, ProductAt, 0).None?
  {
    match Search(line, StartAt, 0)
    case Some(gr) => StartLine(gr.0, gr.1)
    case None =>
      match Search(line, ProductAt, 0)
      case Some(p) => ProductLine(p.0, p.1, p.2)
      case None =>
        match Search(line, EndAt, 0)
        case Some(gr) => EndLine(gr.0, gr.1)
        case None => Plain
  }

  // ---------------------------------------------------------------------
  // Dates: `strptime(f"{date} {time}", "%Y%m%d %H:%M:%S.%f")`
  // ---------------------------------------------------------------------

  predicate IsLeap(y: int)
  {
    y % 4 == 0 && (y % 100 != 0 || y % 400 == 0)
  }

  function DaysIn(y: int, m: int): int
  {
    if m == 2 then (if IsLeap(y) then 29 else 28)
    else if m == 4 || m == 6 || m == 9 || m == 11 then 30
    else 31
  }

  function DaysBeforeMonth(y: int, m: int): int
    requires 1 <= m <= 12
  {
    if m == 1 then 0 else DaysBeforeMonth(y, m - 1) + DaysIn(y, m - 1)
  }

  function DaysBeforeYear(y: int): int
  {
    var z := y - 1;
    365 * z + z / 4 - z / 100 + z / 400
  }

  /** The proleptic Gregorian day number, 1 for 0001-01-01. */
  function Ordinal(y: int, m: int, d: int): int
    requires 1 <= m <= 12
  {
    DaysBeforeYear(y) + DaysBeforeMonth(y, m) + d
  }

  predicate ValidDate(y: int, m: int, d: int)
  {
    1 <= y && 1 <= m <= 12 && 1 <= d <= DaysIn(y, m)
  }

  function DigitValue(c: char): int
  {
    c as int - '0' as int
  }

  predicate AllSpace(s: string)
  {
    forall k :: 0 <= k < |s| ==> IsSpace(s[k])
  }

  /**
   * The day `%d` reads when it must take all of `r` up to the white space
   * the format's `\s+` absorbs: one of `3[01]`, `[12]\d`, `0[1-9]`,
   * `[1-9]` and ` [1-9]`. At most one of them can be followed by white
   * space alone, so the order the pattern tries them in does not matter.
   */
  function DayText(r: string): (d: Option<int>)
    ensures d.Some? ==> 1 <= d.value <= 31
  {
    if |r| >= 2 && IsDigit(r[0]) && IsDigit(r[1]) && AllSpace(r[2..])
       && ((r[0] == '3' && r[1] <= '1') || r[0] == '1' || r[0] == '2' || (r[0] == '0' && r[1] != '0'))
    then Some(DigitValue(r[0]) * 10 + DigitValue(r[1]))
    else if |r| >= 1 && '1' <= r[0] <= '9' && AllSpace(r[1..]) then Some(DigitValue(r[0]))
    else if |r| >= 2 && r[0] == ' ' && '1' <= r[1] <= '9' && AllSpace(r[2..]) then Some(DigitValue(r[1]))
    else None
  }

  /**
   * The year, month and day `strptime` reads from the date part with
   * `%Y%m%d`: four digits, then the month alternatives `1[0-2]`, `0[1-9]`
   * and `[1-9]` tried in that order, each kept only when the day can take
   * the rest; `None` where the pattern does not match.
   */
  function DateFields(date: string): (r: Option<(int, int, int)>)
    ensures r.Some? ==> 1 <= r.value.1 <= 12 && 1 <= r.value.2 <= 31
  {
    if |date| < 5 || !AllDigits(date[..4]) then None
    else
      var y, t := DigitsValue(date[..4]), date[4..];
      if |t| >= 2 && t[0] == '1' && '0' <= t[1] <= '2' && DayText(t[2..]).Some? then
        Some((y, 10 + DigitValue(t[1]), DayText(t[2..]).value))
      else if |t| >= 2 && t[0] == '0' && '1' <= t[1] <= '9' && DayText(t[2..]).Some? then
        Some((y, DigitValue(t[1]), DayText(t[2..]).value))
      else if '1' <= t[0] <= '9' && DayText(t[1..]).Some? then
        Some((y, DigitValue(t[0]), DayText(t[1..]).value))
      else None
  }

  /**
   * The day number of the date part; `None` where `strptime` raises, for
   * a date part the pattern does not match or a day the month lacks.
   */
  function DayNumber(date: string): Option<int>
  {
    match DateFields(date)
    case None => None
    case Some((y, m, d)) => if ValidDate(y, m, d) then Some(Ordinal(y, m, d)) else None
  }

  /** An eight-digit date part with a two-digit month and day in range reads as `YYYY`, `MM`, `DD`. */
  lemma EightDigitDate(date: string)
    requires |date| == 8 && AllDigits(date)
    requires 1 <= DigitsValue(date[4..6]) <= 12 && 1 <= DigitsValue(date[6..]) <= 31
    ensures DateFields(date) == Some((DigitsValue(date[..4]), DigitsValue(date[4..6]), DigitsValue(date[6..])))
  {
    var t := date[4..];
    assert DigitsValue(date[4..6]) == DigitValue(t[0]) * 10 + DigitValue(t[1]) by {
      assert date[4..6][..1] == date[4..5];
    }
    assert DigitsValue(date[6..]) == DigitValue(t[2]) * 10 + DigitValue(t[3]) by {
      assert date[6..][..1] == date[6..7];
    }
    assert t[2..] == date[6..];
    assert AllSpace(t[4..]);
  }

  /** A one-digit month, as in `2025430`, reads as April the 30th. */
  lemma OneDigitMonth()
    ensures DateFields("2025430") == Some((2025, 4, 30))
    ensures DayNumber("2025430").Some?
  {
    assert "2025430"[..4] == "2025" && "2025430"[4..] == "430";
    assert "430"[1..] == "30" && "30"[2..] == [];
    assert DigitsValue("2025") == 2025 by {
      assert "2025"[..3] == "202" && "202"[..2] == "20" && "20"[..1] == "2";
    }
  }

  /** Where both readings fit, the pattern takes the two-digit month: `2025111` is the first of November. */
  lemma TwoDigitMonthFirst()
    ensures DateFields("2025111") == Some((2025, 11, 1))
  {
    assert "2025111"[..4] == "2025" && "2025111"[4..] == "111";
    assert "111"[2..] == "1" && "1"[1..] == [];
    assert DigitsValue("2025") == 2025 by {
      assert "2025"[..3] == "202" && "202"[..2] == "20" && "20"[..1] == "2";
    }
  }

  /** The day after a valid date, rolling over the month and the year. */
  function NextDate(y: int, m: int, d: int): (int, int, int)
    requires ValidDate(y, m, d)
  {
    if d < DaysIn(y, m) then (y, m, d + 1)
    else if m < 12 then (y, m + 1, 1)
    else (y + 1, 1, 1)
  }

  lemma {:induction false} DaysInYear(y: int)
    ensures DaysBeforeMonth(y, 12) + 31 == if IsLeap(y) then 366 else 365
  {
    assert DaysBeforeMonth(y, 1) == 0;
    assert DaysBeforeMonth(y, 2) == 31;
    assert DaysBeforeMonth(y, 3) == 31 + DaysIn(y, 2);
    assert DaysBeforeMonth(y, 4) == 62 + DaysIn(y, 2);
    assert DaysBeforeMonth(y, 5) == 92 + DaysIn(y, 2);
    assert DaysBeforeMonth(y, 6) == 123 + DaysIn(y, 2);
    assert DaysBeforeMonth(y, 7) == 153 + DaysIn(y, 2);
    assert DaysBeforeMonth(y, 8) == 184 + DaysIn(y, 2);
    assert DaysBeforeMonth(y, 9) == 215 + DaysIn(y, 2);
    assert DaysBeforeMonth(y, 10) == 245 + DaysIn(y, 2);
    assert DaysBeforeMonth(y, 11) == 276 + DaysIn(y, 2);
    assert DaysBeforeMonth(y, 12) == 306 + DaysIn(y, 2);
  }

  lemma YearLength(y: int)
    requires y >= 1
    ensures DaysBeforeYear(y + 1) - DaysBeforeYear(y) == if IsLeap(y) then 366 else 365
  {
    var z := y - 1;
    assert (z + 1) / 4 - z / 4 == (if y % 4 == 0 then 1 else 0);
    assert (z + 1) / 100 - z / 100 == (if y % 100 == 0 then 1 else 0);
    assert (z + 1) / 400 - z / 400 == (if y % 400 == 0 then 1 else 0);
  }

  /** Day numbers count days: the next date is the next number, across month and year ends. */
  lemma NextDateOrdinal(y: int, m: int, d: int)
    requires ValidDate(y, m, d)
    ensures var n := NextDate(y, m, d);
      ValidDate(n.0, n.1, n.2) && Ordinal(n.0, n.1, n.2) == Ordinal(y, m, d) + 1
  {
    if d == DaysIn(y, m) && m == 12 {
      DaysInYear(y);
      YearLength(y);
    }
  }

  const DayMicros: int := 86400 * Second

  /** What `parse_timestamp` gives for a line: no bracketed time, a moment, or a raise. */
  datatype Stamp = NoTime | At(us: int) | BadTime

  /** `parse_timestamp(date, line)`: microseconds since day zero, from the first bracketed time of the line. */
  function StampOf(date: string, line: string): (r: Stamp)
    ensures r.NoTime? <==> Search(line, TimestampAt, 0).None?
  {
    match Search(line, TimestampAt, 0)
    case None => NoTime
    case Some(t) =>
      match (DayNumber(date), ClockMicros(t))
      case (Some(day), Some(us)) => At(day * DayMicros + us)
      case _ => BadTime
  }

  /** A time on the day after another is a whole day later, less the earlier time of day. */
  lemma AcrossMidnight(y: int, m: int, d: int, t0: int, t1: int)
    requires ValidDate(y, m, d)
    ensures var n := NextDate(y, m, d);
      (Ordinal(n.0, n.1, n.2) * DayMicros + t1) - (Ordinal(y, m, d) * DayMicros + t0) == DayMicros + t1 - t0
  {
    NextDateOrdinal(y, m, d);
  }

  // ---------------------------------------------------------------------
  // Runs and the line-by-line state machine
  // ---------------------------------------------------------------------

  /** An open run: its id, its config group, its start (`None` when its line had no time) and its products. */
  datatype ActiveRun = ActiveRun(runId: string, group: string, start: Option<int>, products: seq<Count>)

  /** A line of the runs file; `duration` is `end - start` in microseconds. */
  datatype Record = Record(runId: string, group: string, start: int, end: int, duration: int, products: seq<Count>)

  /** `flush_run`: the record of a run closed at `end`. */
  function Flush(run: ActiveRun, end: int): (r: Record)
    requires run.start.Some?
    ensures r.duration == r.end - r.start && r.end == end && r.start == run.start.value
    ensures r.runId == run.runId && r.group == run.group && r.products == run.products
  {
    Record(run.runId, run.group, run.start.value, end, end - run.start.value, run.products)
  }

  /** The open runs after a line, and the records it appended. */
  datatype Step = Step(active: map<string, ActiveRun>, flushed: seq<Record>)

  /**
   * One line; `None` where the loop raises: a start or end line whose
   * bracketed time does not convert, and an end line that closes a run
   * without a start time or carries no time itself.
   */
  function LineStep(date: string, line: string, active: map<string, ActiveRun>): Option<Step>
  {
    match Classify(line)
    case StartLine(group, run) =>
      (match StampOf(date, line)
       case BadTime => None
       case NoTime => Some(Step(active[run := ActiveRun(run, group, None, [])], []))
       case At(t) => Some(Step(active[run := ActiveRun(run, group, Some(t), [])], [])))
    case ProductLine(name, run, count) =>
      if run !in active then Some(Step(active, []))
      else Some(Step(AddToRun(active, run, name, count), []))
    case EndLine(group, run) =>
      if run !in active then Some(Step(active, []))
      else
        (match StampOf(date, line)
         case At(t) => if active[run].start.None? then None else Some(Step(active - {run}, [Flush(active[run], t)]))
         case _ => None)
    case Plain => Some(Step(active, []))
  }

  /** A start line opens the run it names, or reopens it with no products, at the line's time if it has one. */
  lemma StartRule(date: string, line: string, active: map<string, ActiveRun>)
    requires Classify(line).StartLine? && !StampOf(date, line).BadTime?
    ensures var k, ts, o := Classify(line), StampOf(date, line), LineStep(date, line, active);
      && o.Some? && o.value.flushed == [] && o.value.active.Keys == active.Keys + {k.run}
      && o.value.active[k.run] == ActiveRun(k.run, k.group, if ts.At? then Some(ts.us) else None, [])
      && (forall r :: r in active && r != k.run ==> o.value.active[r] == active[r])
  {
  }

  /** A product line adds its count to that product of an open run, and to nothing else. */
  lemma ProductRule(date: string, line: string, active: map<string, ActiveRun>)
    requires Classify(line).ProductLine? && Classify(line).run in active
    requires UniqueKeys(active[Classify(line).run].products)
    ensures var k, o := Classify(line), LineStep(date, line, active);
      && o.Some? && o.value.flushed == [] && o.value.active.Keys == active.Keys
      && UniqueKeys(o.value.active[k.run].products)
      && (forall n :: Get(o.value.active[k.run].products, n) == Get(active[k.run].products, n) + (if n == k.name then k.count else 0))
      && (forall r :: r in active && r != k.run ==> o.value.active[r] == active[r])
  {
    var k := Classify(line);
    assert LineStep(date, line, active) == Some(Step(AddToRun(active, k.run, k.name, k.count), []));
    AddToRunSpec(active, k.run, k.name, k.count);
  }

  /** The open runs once `count` of product `name` is added to run `run`. */
  function AddToRun(active: map<string, ActiveRun>, run: string, name: string, count: nat): map<string, ActiveRun>
    requires run in active
  {
    active[run := active[run].(products := AddTo(active[run].products, name, count))]
  }

  lemma AddToRunSpec(active: map<string, ActiveRun>, run: string, name: string, count: nat)
    requires run in active && UniqueKeys(active[run].products)
    ensures var o := AddToRun(active, run, name, count);
      && o.Keys == active.Keys && UniqueKeys(o[run].products)
      && (forall n :: Get(o[run].products, n) == Get(active[run].products, n) + (if n == name then count else 0))
      && (forall r :: r in active && r != run ==> o[r] == active[r])
  {
    AddToSpec(active[run].products, name, count);
  }

  /** A product or end line naming a run that is not open changes nothing; so does a line matching no pattern. */
  lemma IgnoredRule(date: string, line: string, active: map<string, ActiveRun>)
    requires Classify(line).Plain? || ((Classify(line).ProductLine? || Classify(line).EndLine?) && Classify(line).run !in active)
    ensures LineStep(date, line, active) == Some(Step(active, []))
  {
  }

  /**
   * An end line for an open run closes it into one record whose duration
   * is the end time less the start time; with no time on either line the
   * pass raises.
   */
  lemma EndRule(date: string, line: string, active: map<string, ActiveRun>)
    requires Classify(line).EndLine? && Classify(line).run in active
    ensures var k, ts, o := Classify(line), StampOf(date, line), LineStep(date, line, active);
      && (o.Some? <==> ts.At? && active[k.run].start.Some?)
      && (o.Some? ==>
            && o.value.active == active - {k.run}
            && o.value.flushed == [Flush(active[k.run], ts.us)]
            && o.value.flushed[0].duration == ts.us - active[k.run].start.value)
  {
  }

  /** The file iterator's lines: each ends at its newline, the last may have none. */
  function Lines(s: string): (r: seq<string>)
    ensures forall k :: 0 <= k < |r| ==> |r[k]| > 0
    decreases |s|
  {
    if |s| == 0 then []
    else
      var j := NextIndex(s, 0, '\n');
      if j == |s| then [s] else [s[..j + 1]] + Lines(s[j + 1..])
  }

  function Concat(ls: seq<string>): string
    decreases |ls|
  {
    if |ls| == 0 then "" else ls[0] + Concat(ls[1..])
  }

  /** The lines put back together are the text, and no line holds a newline before its end. */
  lemma {:induction false} LinesConcat(s: string)
    ensures Concat(Lines(s)) == s
    ensures forall k, i :: 0 <= k < |Lines(s)| && 0 <= i < |Lines(s)[k]| - 1 ==> Lines(s)[k][i] != '\n'
    decreases |s|
  {
    if |s| > 0 {
      var j := NextIndex(s, 0, '\n');
      forall i | 0 <= i < j ensures s[i] != '\n' {
        NextIndexFirst(s, 0, '\n', i);
      }
      if j < |s| {
        LinesConcat(s[j + 1..]);
        assert s == s[..j + 1] + s[j + 1..];
        var ls := Lines(s);
        assert ls[1..] == Lines(s[j + 1..]);
      }
    }
  }

  /** The walk over some lines: the open runs at the end, the records appended, and whether it raised. */
  datatype Effect = Effect(active: map<string, ActiveRun>, flushed: seq<Record>, raised: bool)

  function Prepend(flushed: seq<Record>, e: Effect): Effect
  {
    e.(flushed := flushed + e.flushed)
  }

  function WalkLines(date: string, lines: seq<string>, active: map<string, ActiveRun>): Effect
    decreases |lines|
  {
    if |lines| == 0 then Effect(active, [], false)
    else
      match LineStep(date, lines[0], active)
      case None => Effect(active, [], true)
      case Some(st) => Prepend(st.flushed, WalkLines(date, lines[1..], st.active))
  }

  /** The text past a stored offset, and the offset `tell()` reports once it has been read. */
  function Unread(text: string, offset: nat): string
  {
    if offset <= |text| then text[offset..] else ""
  }

  function EndOffset(text: string, offset: nat): (r: nat)
    ensures r >= |text| && r >= offset
  {
    if offset <= |text| then |text| else offset
  }

  /** The names `parse_logs` reads: the prefix and the `.log` suffix. */
  predicate IsLogFile(f: string)
  {
    Manager.LogPrefix <= f && |f| >= |Manager.LogSuffix| && f[|f| - |Manager.LogSuffix|..] == Manager.LogSuffix
  }

  /** A whole pass: the offsets and open runs it saves with the records it appended, or the records appended before it raised. */
  datatype Outcome = Saved(offsets: map<string, nat>, active: map<string, ActiveRun>, flushed: seq<Record>)
                   | Crashed(flushed: seq<Record>)

  function Then(flushed: seq<Record>, o: Outcome): Outcome
  {
    match o
    case Saved(offs, act, fl) => Saved(offs, act, flushed + fl)
    case Crashed(fl) => Crashed(flushed + fl)
  }

  function OffsetOf(offsets: map<string, nat>, f: string): nat
  {
    if f in offsets then offsets[f] else 0
  }

  /** One name of the listing: skipped, read to its end, or raising (with the records appended before it raised). */
  datatype FileEffect = Done(offsets: map<string, nat>, active: map<string, ActiveRun>, flushed: seq<Record>)
                      | Failed(flushed: seq<Record>)

  /** A name that is not a log file is skipped; a log file that cannot be opened raises. */
  function FileStep(dir: Manager.Directory, f: string, offsets: map<string, nat>, active: map<string, ActiveRun>): FileEffect
  {
    if !IsLogFile(f) then Done(offsets, active, [])
    else if f !in dir.files || dir.files[f].Unreadable? then Failed([])
    else
      var text, off := dir.files[f].text, OffsetOf(offsets, f);
      var e := WalkLines(Manager.DateOfName(f), Lines(Unread(text, off)), active);
      if e.raised then Failed(e.flushed)
      else Done(offsets[f := EndOffset(text, off)], e.active, e.flushed)
  }

  /** The log files among `names`, one after another. */
  function WalkFiles(dir: Manager.Directory, names: seq<string>, offsets: map<string, nat>, active: map<string, ActiveRun>): Outcome
    decreases |names|
  {
    if |names| == 0 then Saved(offsets, active, [])
    else
      match FileStep(dir, names[0], offsets, active)
      case Failed(fl) => Crashed(fl)
      case Done(offs, act, fl) => Then(fl, WalkFiles(dir, names[1..], offs, act))
  }

  /** `parse_logs` over the sorted listing, from the saved offsets and open runs. */
  function ParseAll(offsets: map<string, nat>, active: map<string, ActiveRun>, dir: Manager.Directory): Outcome
  {
    WalkFiles(dir, SortAsc(dir.listing), offsets, active)
  }

  /** A file whose whole text has been read. */
  predicate Consumed(dir: Manager.Directory, offsets: map<string, nat>, f: string)
  {
    f in dir.files && dir.files[f].Readable? && f in offsets && offsets[f] >= |dir.files[f].text|
  }

  /**
   * A pass that saves has read every log file it met to its end, and
   * leaves the offsets of all other names as they were.
   */
  lemma WalkFilesOffsets(dir: Manager.Directory, names: seq<string>, offsets: map<string, nat>, active: map<string, ActiveRun>)
    requires WalkFiles(dir, names, offsets, active).Saved?
    ensures var o := WalkFiles(dir, names, offsets, active).offsets;
      && (forall f :: f in names && IsLogFile(f) ==>
            Consumed(dir, o, f) && o[f] == EndOffset(dir.files[f].text, OffsetOf(offsets, f)))
      && (forall g :: g !in names || !IsLogFile(g) ==> (g in o <==> g in offsets) && (g in o ==> o[g] == offsets[g]))
  {
    WalkFilesRead(dir, names, offsets, active);
    WalkFilesKeep(dir, names, offsets, active);
  }

  /** A pass that saves has read every log file it met to its end. */
  lemma {:induction false} WalkFilesRead(dir: Manager.Directory, names: seq<string>, offsets: map<string, nat>, active: map<string, ActiveRun>)
    requires WalkFiles(dir, names, offsets, active).Saved?
    ensures var o := WalkFiles(dir, names, offsets, active).offsets;
      forall f :: f in names && IsLogFile(f) ==>
        Consumed(dir, o, f) && o[f] == EndOffset(dir.files[f].text, OffsetOf(offsets, f))
    decreases |names|
  {
    if |names| > 0 {
      var f := names[0];
      var fe := FileStep(dir, f, offsets, active);
      assert WalkFiles(dir, names, offsets, active).offsets == WalkFiles(dir, names[1..], fe.offsets, fe.active).offsets;
      WalkFilesRead(dir, names[1..], fe.offsets, fe.active);
      WalkFilesKeep(dir, names[1..], fe.offsets, fe.active);
      assert forall x :: x in names ==> x == f || x in names[1..];
      if IsLogFile(f) {
        var text, off := dir.files[f].text, OffsetOf(offsets, f);
        assert fe.offsets == offsets[f := EndOffset(text, off)];
        assert EndOffset(text, EndOffset(text, off)) == EndOffset(text, off);
      }
    }
  }

  /** A pass that saves leaves the offsets of every other name as they were. */
  lemma {:induction false} WalkFilesKeep(dir: Manager.Directory, names: seq<string>, offsets: map<string, nat>, active: map<string, ActiveRun>)
    requires WalkFiles(dir, names, offsets, active).Saved?
    ensures var o := WalkFiles(dir, names, offsets, active).offsets;
      forall g :: g !in names || !IsLogFile(g) ==> (g in o <==> g in offsets) && (g in o ==> o[g] == offsets[g])
    decreases |names|
  {
    if |names| > 0 {
      var f := names[0];
      var fe := FileStep(dir, f, offsets, active);
      assert WalkFiles(dir, names, offsets, active).offsets == WalkFiles(dir, names[1..], fe.offsets, fe.active).offsets;
      WalkFilesKeep(dir, names[1..], fe.offsets, fe.active);
      assert forall x :: x in names[1..] ==> x in names;
      if IsLogFile(f) {
        var text, off := dir.files[f].text, OffsetOf(offsets, f);
        assert fe.offsets == offsets[f := EndOffset(text, off)];
      }
    }
  }

  /** With every log file read to its end, a pass reads nothing, appends nothing and changes nothing. */
  lemma {:induction false} QuietWalk(dir: Manager.Directory, names: seq<string>, offsets: map<string, nat>, active: map<string, ActiveRun>)
    requires forall f :: f in names && IsLogFile(f) ==> Consumed(dir, offsets, f)
    ensures WalkFiles(dir, names, offsets, active) == Saved(offsets, active, [])
    decreases |names|
  {
    if |names| > 0 {
      var f := names[0];
      assert forall x :: x in names[1..] ==> x in names;
      if IsLogFile(f) {
        var text := dir.files[f].text;
        assert Unread(text, offsets[f]) == "";
        assert offsets[f := EndOffset(text, offsets[f])] == offsets;
      }
      QuietWalk(dir, names[1..], offsets, active);
    }
  }

  /** Running `parse_logs` again over unchanged files emits no record and saves the same state. */
  lemma RerunQuiet(offsets: map<string, nat>, active: map<string, ActiveRun>, dir: Manager.Directory)
    requires ParseAll(offsets, active, dir).Saved?
    ensures var o := ParseAll(offsets, active, dir);
      ParseAll(o.offsets, o.active, dir) == Saved(o.offsets, o.active, [])
  {
    var o := ParseAll(offsets, active, dir);
    WalkFilesOffsets(dir, SortAsc(dir.listing), offsets, active);
    QuietWalk(dir, SortAsc(dir.listing), o.offsets, o.active);
  }

  // ---------------------------------------------------------------------
  // `write_summary`
  // ---------------------------------------------------------------------

  /** The running totals of one config group. */
  datatype GroupTotals = GroupTotals(group: string, runCount: nat, duration: int, products: int)

  /** `s = summary[group]` and its three increments; a new group goes last. */
  function AddRun(ts: seq<GroupTotals>, r: Record): (u: seq<GroupTotals>)
    ensures |u| == |ts| || |u| == |ts| + 1
    decreases |ts|
  {
    if |ts| == 0 then [GroupTotals(r.group, 1, r.duration, Total(r.products))]
    else if ts[0].group == r.group then
      [ts[0].(runCount := ts[0].runCount + 1, duration := ts[0].duration + r.duration, products := ts[0].products + Total(r.products))] + ts[1..]
    else [ts[0]] + AddRun(ts[1..], r)
  }

  /** The totals after reading the runs file line by line. */
  function Tally(records: seq<Record>): seq<GroupTotals>
    decreases |records|
  {
    if |records| == 0 then [] else AddRun(Tally(records[..|records| - 1]), records[|records| - 1])
  }

  /** The totals of a group, if it has any. */
  function Find(ts: seq<GroupTotals>, g: string): Option<GroupTotals>
    decreases |ts|
  {
    if |ts| == 0 then None else if ts[0].group == g then Some(ts[0]) else Find(ts[1..], g)
  }

  /** The records of one group, and their sums. */
  function Of(records: seq<Record>, g: string): seq<Record>
    decreases |records|
  {
    if |records| == 0 then []
    else Of(records[..|records| - 1], g) + (if records[|records| - 1].group == g then [records[|records| - 1]] else [])
  }

  function DurationSum(records: seq<Record>): int
    decreases |records|
  {
    if |records| == 0 then 0 else DurationSum(records[..|records| - 1]) + records[|records| - 1].duration
  }

  function ProductSum(records: seq<Record>): int
    decreases |records|
  {
    if |records| == 0 then 0 else ProductSum(records[..|records| - 1]) + Total(records[|records| - 1].products)
  }

  function GroupsOf(ts: seq<GroupTotals>): (r: seq<string>)
    ensures |r| == |ts| && forall i :: 0 <= i < |ts| ==> r[i] == ts[i].group
  {
    seq(|ts|, i requires 0 <= i < |ts| => ts[i].group)
  }

  function Runs(ts: seq<GroupTotals>): int
    decreases |ts|
  {
    if |ts| == 0 then 0 else ts[0].runCount + Runs(ts[1..])
  }

  lemma {:induction false} FindIn(ts: seq<GroupTotals>, g: string)
    ensures Find(ts, g).None? <==> g !in GroupsOf(ts)
    decreases |ts|
  {
    if |ts| > 0 {
      FindIn(ts[1..], g);
      assert GroupsOf(ts) == [ts[0].group] + GroupsOf(ts[1..]);
    }
  }

  /** A run of a known group updates that group in place; one of a new group appends it. */
  lemma AddRunGroups(ts: seq<GroupTotals>, r: Record)
    ensures GroupsOf(AddRun(ts, r)) == if r.group in GroupsOf(ts) then GroupsOf(ts) else GroupsOf(ts) + [r.group]
    ensures Runs(AddRun(ts, r)) == Runs(ts) + 1
  {
    AddRunShape(ts, r);
    AddRunRuns(ts, r);
  }

  /** A group is listed if it is the first one or listed in the rest. */
  lemma InGroupsCons(ts: seq<GroupTotals>, g: string)
    requires |ts| > 0
    ensures g in GroupsOf(ts) <==> ts[0].group == g || g in GroupsOf(ts[1..])
  {
    var all, rest := GroupsOf(ts), GroupsOf(ts[1..]);
    assert forall i :: 0 <= i < |rest| ==> rest[i] == all[i + 1];
    assert all == [all[0]] + rest;
  }

  /** Position by position, the groups after a run: the same ones, and a new group at the end. */
  lemma {:induction false} AddRunShape(ts: seq<GroupTotals>, r: Record)
    ensures |AddRun(ts, r)| == if r.group in GroupsOf(ts) then |ts| else |ts| + 1
    ensures forall i :: 0 <= i < |ts| ==> AddRun(ts, r)[i].group == ts[i].group
    ensures r.group !in GroupsOf(ts) ==> AddRun(ts, r)[|ts|].group == r.group
    decreases |ts|
  {
    if |ts| > 0 {
      InGroupsCons(ts, r.group);
      if ts[0].group != r.group {
        AddRunShape(ts[1..], r);
        var u, v := AddRun(ts, r), AddRun(ts[1..], r);
        assert u == [ts[0]] + v;
        assert forall i :: 0 < i < |u| ==> u[i] == v[i - 1];
      }
    }
  }

  /** A run adds one to the run counts. */
  lemma {:induction false} AddRunRuns(ts: seq<GroupTotals>, r: Record)
    ensures Runs(AddRun(ts, r)) == Runs(ts) + 1
    decreases |ts|
  {
    if |ts| > 0 {
      if ts[0].group == r.group {
        assert AddRun(ts, r)[1..] == ts[1..];
      } else {
        AddRunRuns(ts[1..], r);
        assert AddRun(ts, r)[1..] == AddRun(ts[1..], r);
      }
    }
  }

  /** Adding a run changes only its group's totals: one more run, its duration and its products added. */
  lemma {:induction false} AddRunFind(ts: seq<GroupTotals>, r: Record, g: string)
    ensures Find(AddRun(ts, r), g) ==
      if g != r.group then Find(ts, g)
      else Some(match Find(ts, g)
                case None => GroupTotals(g, 1, r.duration, Total(r.products))
                case Some(t) => t.(runCount := t.runCount + 1, duration := t.duration + r.duration, products := t.products + Total(r.products)))
    decreases |ts|
  {
    if |ts| > 0 && ts[0].group != r.group {
      AddRunFind(ts[1..], r, g);
      assert AddRun(ts, r)[1..] == AddRun(ts[1..], r);
    } else if |ts| > 0 {
      assert AddRun(ts, r)[1..] == ts[1..];
    }
  }

  /**
   * Each group of the runs file has exactly one entry, holding the
   * number of its runs, the sum of their durations and the sum of their
   * product counts; groups without runs have none; the run counts add up
   * to the number of records.
   */
  lemma TallySpec(records: seq<Record>, g: string)
    ensures Distinct(GroupsOf(Tally(records)))
    ensures Runs(Tally(records)) == |records|
    ensures Find(Tally(records), g) ==
      if |Of(records, g)| == 0 then None
      else Some(GroupTotals(g, |Of(records, g)|, DurationSum(Of(records, g)), ProductSum(Of(records, g))))
  {
    TallyGroups(records);
    TallyFind(records, g);
  }

  /** The group list of the tally has no repeats, and its run counts add up to the records. */
  lemma {:induction false} TallyGroups(records: seq<Record>)
    ensures Distinct(GroupsOf(Tally(records)))
    ensures Runs(Tally(records)) == |records|
    decreases |records|
  {
    if |records| > 0 {
      var init, last := records[..|records| - 1], records[|records| - 1];
      TallyGroups(init);
      AddRunGroups(Tally(init), last);
    }
  }

  /** The tally's entry for a group sums that group's records. */
  lemma {:induction false} TallyFind(records: seq<Record>, g: string)
    ensures Find(Tally(records), g) ==
      if |Of(records, g)| == 0 then None
      else Some(GroupTotals(g, |Of(records, g)|, DurationSum(Of(records, g)), ProductSum(Of(records, g))))
    decreases |records|
  {
    if |records| > 0 {
      var init, last := records[..|records| - 1], records[|records| - 1];
      TallyFind(init, g);
      AddRunFind(Tally(init), last, g);
      var o := Of(init, g);
      if last.group == g {
        assert Of(records, g) == o + [last];
        assert (o + [last])[..|o|] == o;
        assert DurationSum(o + [last]) == DurationSum(o) + last.duration;
        assert ProductSum(o + [last]) == ProductSum(o) + Total(last.products);
      } else {
        assert Of(records, g) == o;
      }
    }
  }

  /** One row of the summary CSV: group, run count, whole seconds, whole average seconds, products. */
  datatype SummaryRow = SummaryRow(group: string, runCount: int, totalSeconds: int, averageSeconds: int, productCount: int)

  /** `int(x / n)` on a float quotient: truncation toward zero. */
  function TruncDiv(a: int, b: int): (q: int)
    requires b > 0
    ensures a >= 0 ==> 0 <= q * b <= a < (q + 1) * b
    ensures a < 0 ==> (q - 1) * b < a <= q * b <= 0
  {
    if a >= 0 then DivBounds(a, b); a / b
    else DivBounds(-a, b); -((-a) / b)
  }

  lemma DivBounds(a: int, b: int)
    requires a >= 0 && b > 0
    ensures 0 <= (a / b) * b <= a < (a / b + 1) * b
    ensures (-(a / b)) * b == -((a / b) * b) && (-(a / b) - 1) * b == -((a / b + 1) * b)
  {
    var q, r := a / b, a % b;
    assert a == q * b + r;
    assert (q + 1) * b == q * b + b;
    assert q >= 0;
    MulNonNegative(q, b);
  }

  lemma MulNonNegative(x: int, y: int)
    requires x >= 0 && y >= 0
    ensures x * y >= 0
  {
  }

  function RowOf(t: GroupTotals): (r: SummaryRow)
    ensures r.group == t.group && r.runCount == t.runCount && r.productCount == t.products
    ensures r.totalSeconds == WholeSeconds(t.duration)
    ensures t.runCount > 0 && t.duration >= 0 ==>
      r.averageSeconds * (t.runCount * Second) <= t.duration < (r.averageSeconds + 1) * (t.runCount * Second)
  {
    SummaryRow(t.group, t.runCount, WholeSeconds(t.duration),
               if t.runCount > 0 then TruncDiv(t.duration, t.runCount * Second) else 0, t.products)
  }

  function Summary(records: seq<Record>): (rows: seq<SummaryRow>)
    ensures |rows| == |Tally(records)|
  {
    var ts := Tally(records);
    seq(|ts|, i requires 0 <= i < |ts| => RowOf(ts[i]))
  }

  // ---------------------------------------------------------------------
  // The imperative parser
  // ---------------------------------------------------------------------

  /** The per-line body of `parse_logs`. */
  method ApplyLine(date: string, line: string, active: map<string, ActiveRun>) returns (r: Option<Step>)
    ensures r == LineStep(date, line, active)
  {
    var kind := Classify(line);
    match kind
    case StartLine(group, run) =>
      var ts := StampOf(date, line);
      if ts.BadTime? {
        return None;
      }
      var start := if ts.At? then Some(ts.us) else None;
      r := Some(Step(active[run := ActiveRun(run, group, start, [])], []));
    case ProductLine(name, run, count) =>
      if run in active {
        var products := AddTo(active[run].products, name, count);
        r := Some(Step(active[run := active[run].(products := products)], []));
      } else {
        r := Some(Step(active, []));
      }
    case EndLine(group, run) =>
      if run in active {
        var ts := StampOf(date, line);
        if !ts.At? || active[run].start.None? {
          return None;
        }
        var record := Flush(active[run], ts.us);
        r := Some(Step(active - {run}, [record]));
      } else {
        r := Some(Step(active, []));
      }
    case Plain =>
      r := Some(Step(active, []));
  }

  /** One file's share of `parse_logs`: seek to `offset`, read the lines, remember `tell()`. */
  method ScanFile(date: string, text: string, offset: nat, active: map<string, ActiveRun>) returns (e: Effect, tell: nat)
    ensures e == WalkLines(date, Lines(Unread(text, offset)), active)
    ensures tell == EndOffset(text, offset)
  {
    e := ScanLines(date, Lines(Unread(text, offset)), active);
    tell := EndOffset(text, offset);
  }

  /** The line loop over one file; `raised` where the loop raises. */
  method ScanLines(date: string, lines: seq<string>, active: map<string, ActiveRun>) returns (e: Effect)
    ensures e == WalkLines(date, lines, active)
  {
    var runs := active;
    var flushed: seq<Record> := [];
    var i := 0;
    while i < |lines|
      invariant 0 <= i <= |lines|
      invariant Prepend(flushed, WalkLines(date, lines[i..], runs)) == WalkLines(date, lines, active)
    {
      var o := ApplyLine(date, lines[i], runs);
      WalkLinesAt(date, lines, i, runs, flushed);
      if o.None? {
        return Effect(runs, flushed, true);
      }
      flushed := flushed + o.value.flushed;
      runs := o.value.active;
      i := i + 1;
    }
    assert lines[i..] == [];
    e := Effect(runs, flushed, false);
  }

  /** One line of the walk: the line's step, then the walk over the rest. */
  lemma WalkLinesAt(date: string, lines: seq<string>, i: nat, runs: map<string, ActiveRun>, flushed: seq<Record>)
    requires i < |lines|
    ensures LineStep(date, lines[i], runs).None? ==>
      Prepend(flushed, WalkLines(date, lines[i..], runs)) == Effect(runs, flushed, true)
    ensures LineStep(date, lines[i], runs).Some? ==>
      var st := LineStep(date, lines[i], runs).value;
      Prepend(flushed, WalkLines(date, lines[i..], runs)) == Prepend(flushed + st.flushed, WalkLines(date, lines[i + 1..], st.active))
  {
    assert lines[i..][0] == lines[i] && lines[i..][1..] == lines[i + 1..];
    if LineStep(date, lines[i], runs).Some? {
      var st := LineStep(date, lines[i], runs).value;
      AppendTwice(flushed, st.flushed, WalkLines(date, lines[i + 1..], st.active).flushed);
    }
  }

  lemma AppendTwice(a: seq<Record>, b: seq<Record>, c: seq<Record>)
    ensures (a + b) + c == a + (b + c)
  {
  }

  lemma ThenTwice(a: seq<Record>, b: seq<Record>, o: Outcome)
    ensures Then(a, Then(b, o)) == Then(a + b, o)
  {
    AppendTwice(a, b, o.flushed);
  }

  /** One pass of the file loop of `parse_logs`: open, seek, read the lines, remember `tell()`. */
  method ReadFile(dir: Manager.Directory, f: string, offsets: map<string, nat>, active: map<string, ActiveRun>) returns (fe: FileEffect)
    ensures fe == FileStep(dir, f, offsets, active)
  {
    if !IsLogFile(f) {
      return Done(offsets, active, []);
    }
    if f !in dir.files || dir.files[f].Unreadable? {
      return Failed([]);
    }
    var offset := if f in offsets then offsets[f] else 0;
    var e, tell := ScanFile(Manager.DateOfName(f), dir.files[f].text, offset, active);
    if e.raised {
      return Failed(e.flushed);
    }
    fe := Done(offsets[f := tell], e.active, e.flushed);
  }

  /**
   * The file loop of `parse_logs`.  The records it appends to the runs
   * file as runs close are those of the outcome, also when it raises.
   */
  method PassFiles(dir: Manager.Directory, names: seq<string>, offsets0: map<string, nat>, active0: map<string, ActiveRun>) returns (o: Outcome)
    ensures o == WalkFiles(dir, names, offsets0, active0)
  {
    var offsets, active := offsets0, active0;
    var flushed: seq<Record> := [];
    var i := 0;
    while i < |names|
      invariant 0 <= i <= |names|
      invariant Then(flushed, WalkFiles(dir, names[i..], offsets, active)) == WalkFiles(dir, names, offsets0, active0)
    {
      assert names[i..][0] == names[i] && names[i..][1..] == names[i + 1..];
      var fe := ReadFile(dir, names[i], offsets, active);
      if fe.Failed? {
        return Crashed(flushed + fe.flushed);
      }
      ThenTwice(flushed, fe.flushed, WalkFiles(dir, names[i + 1..], fe.offsets, fe.active));
      flushed := flushed + fe.flushed;
      offsets := fe.offsets;
      active := fe.active;
      i := i + 1;
    }
    assert names[i..] == [];
    o := Saved(offsets, active, flushed);
  }

  /**
   * The saved parser state (the per-file offsets and the runs left open)
   * and the runs file.  A pass updates the saved state only when it
   * finishes; records are appended as runs close, so a pass that raises
   * keeps those it appended before.
   */
  class RunTracker {
    var files: map<string, nat>
    var activeRuns: map<string, ActiveRun>
    var runs: seq<Record>

    /** No state file and no runs file yet. */
    constructor ()
      ensures files == map[] && activeRuns == map[] && runs == []
    {
      files := map[];
      activeRuns := map[];
      runs := [];
    }

    /** `parse_logs`: the summary it writes, or `None` where it raises. */
    method ParseLogs(dir: Manager.Directory) returns (summary: Option<seq<SummaryRow>>)
      modifies this
      ensures var o := ParseAll(old(files), old(activeRuns), dir);
        && runs == old(runs) + o.flushed
        && (o.Saved? ==> files == o.offsets && activeRuns == o.active && summary == Some(Summary(runs)))
        && (o.Crashed? ==> files == old(files) && activeRuns == old(activeRuns) && summary.None?)
    {
      var o := PassFiles(dir, SortAsc(dir.listing), files, activeRuns);
      runs := runs + o.flushed;
      if o.Crashed? {
        return None;
      }
      files := o.offsets;
      activeRuns := o.active;
      var rows := WriteSummary();
      summary := Some(rows);
    }

    /** `write_summary`: the runs file tallied by config group, one row per group in first-seen order. */
    method WriteSummary() returns (rows: seq<SummaryRow>)
      ensures rows == Summary(runs)
    {
      var totals: seq<GroupTotals> := [];
      var i := 0;
      while i < |runs|
        invariant 0 <= i <= |runs|
        invariant totals == Tally(runs[..i])
      {
        assert runs[..i + 1][..i] == runs[..i];
        totals := AddRun(totals, runs[i]);
        i := i + 1;
      }
      assert runs[..i] == runs;
      rows := [];
      var j := 0;
      while j < |totals|
        invariant 0 <= j <= |totals|
        invariant |rows| == j && forall k :: 0 <= k < j ==> rows[k] == RowOf(totals[k])
      {
        rows := rows + [RowOf(totals[j])];
        j := j + 1;
      }
    }
  }
}

=== FILE: src/infra_utils.dfy ===
/**
 * The helpers of release/app/infrastructure/utils.py that the log-data
 * manager relies on: timestamp conversion and the emptiness check of its
 * dict-of-lists tables.
 */
module InfraUtils {
  import opened Wrappers
  import opened Strings
  import opened PyInt

  /**
   * `parse_timestamp_to_seconds`, in integer milliseconds: the fields of
   * `H:M:S[.F]` are read with `int()` and combined as
   * `H*3600 + M*60 + S + F/1000` seconds, so the fraction's digits count
   * milliseconds whatever their number.  `None` where Python raises (too
   * few `:` parts, or a field `int()` rejects).
   */
  function ParseTimestampMs(ts: string): (r: Option<int>)
  {
    var parts := Split(ts, ':');
    if |parts| < 3 then None
    else
      var secondParts := Split(parts[2], '.');
      var h, m, s := ParseInt(parts[0]), ParseInt(parts[1]), ParseInt(secondParts[0]);
      var f := if |secondParts| > 1 then ParseInt(secondParts[1]) else Some(0);
      if h.None? || m.None? || s.None? || f.None? then None
      else Some(h.value * 3600000 + m.value * 60000 + s.value * 1000 + f.value)
  }

  /** The text `H:M:S.F` built from four digit strings. */
  function TimestampText(h: string, m: string, s: string, f: string): string
  {
    h + ":" + m + ":" + s + "." + f
  }

  /** Digit-string fields convert to `H*3600 + M*60 + S` seconds plus `F` milliseconds. */
  lemma ParseTimestampFields(h: string, m: string, s: string, f: string)
    requires |h| > 0 && AllDigits(h) && |m| > 0 && AllDigits(m)
    requires |s| > 0 && AllDigits(s) && |f| > 0 && AllDigits(f)
    ensures var r := ParseTimestampMs(TimestampText(h, m, s, f));
      r.Some? && r.value == DigitsValue(h) * 3600000 + DigitsValue(m) * 60000 + DigitsValue(s) * 1000 + DigitsValue(f)
  {
    SplitTimestamp(h, m, s, f);
    ParseDigits(h);
    ParseDigits(m);
    ParseDigits(s);
    ParseDigits(f);
    FromParts(TimestampText(h, m, s, f), [h, m, s + "." + f], [s, f], DigitsValue(h), DigitsValue(m), DigitsValue(s), DigitsValue(f));
  }

  lemma FromParts(ts: string, parts: seq<string>, secondParts: seq<string>, h: int, m: int, sec: int, f: int)
    requires Split(ts, ':') == parts && |parts| == 3 && Split(parts[2], '.') == secondParts && |secondParts| == 2
    requires ParseInt(parts[0]) == Some(h) && ParseInt(parts[1]) == Some(m)
    requires ParseInt(secondParts[0]) == Some(sec) && ParseInt(secondParts[1]) == Some(f)
    ensures ParseTimestampMs(ts).Some? && ParseTimestampMs(ts).value == h * 3600000 + m * 60000 + sec * 1000 + f
  {
  }

  lemma NoCharInDigits(s: string, c: char)
    requires AllDigits(s) && !('0' <= c <= '9')
    ensures c !in s
  {
  }

  lemma SplitTimestamp(h: string, m: string, s: string, f: string)
    requires AllDigits(h) && AllDigits(m) && AllDigits(s) && AllDigits(f)
    ensures Split(TimestampText(h, m, s, f), ':') == [h, m, s + "." + f]
    ensures Split(s + "." + f, '.') == [s, f]
  {
    var sf := s + "." + f;
    NoCharInDigits(h, ':');
    NoCharInDigits(m, ':');
    NoCharInDigits(s, ':');
    NoCharInDigits(f, ':');
    NoCharInDigits(s, '.');
    NoCharInDigits(f, '.');
    assert ':' !in sf by {
      assert forall k :: 0 <= k < |sf| ==> sf[k] in s || sf[k] == '.' || sf[k] in f by {
        forall k | 0 <= k < |sf| ensures sf[k] in s || sf[k] == '.' || sf[k] in f {
          if k < |s| { assert sf[k] == s[k]; } else if k > |s| { assert sf[k] == f[k - |s| - 1]; }
        }
      }
    }
    assert TimestampText(h, m, s, f) == h + [':'] + (m + [':'] + sf);
    SplitConcat(h, m + [':'] + sf, ':');
    SplitConcat(m, sf, ':');
    assert sf == s + ['.'] + f;
    SplitConcat(s, f, '.');
  }

  /**
   * A fraction is read as a count of milliseconds, not as a decimal
   * fraction: `S.5` is 495 ms earlier than `S.500`.
   */
  lemma FractionCountsMilliseconds(h: string, m: string, s: string)
    requires |h| > 0 && AllDigits(h) && |m| > 0 && AllDigits(m) && |s| > 0 && AllDigits(s)
    ensures var short, long := ParseTimestampMs(TimestampText(h, m, s, "5")), ParseTimestampMs(TimestampText(h, m, s, "500"));
      short.Some? && long.Some? && long.value - short.value == 495
  {
    FiveAndFiveHundred();
    FractionDifference(h, m, s, "5", "500");
  }

  lemma FiveAndFiveHundred()
    ensures |"5"| > 0 && AllDigits("5") && DigitsValue("5") == 5
    ensures |"500"| > 0 && AllDigits("500") && DigitsValue("500") == 500
  {
    assert "500"[..2] == "50" && "50"[..1] == "5";
  }

  lemma FractionDifference(h: string, m: string, s: string, f: string, g: string)
    requires |h| > 0 && AllDigits(h) && |m| > 0 && AllDigits(m) && |s| > 0 && AllDigits(s)
    requires |f| > 0 && AllDigits(f) && |g| > 0 && AllDigits(g)
    ensures var a, b := ParseTimestampMs(TimestampText(h, m, s, f)), ParseTimestampMs(TimestampText(h, m, s, g));
      a.Some? && b.Some? && b.value - a.value == DigitsValue(g) - DigitsValue(f)
  {
    ParseTimestampFields(h, m, s, f);
    ParseTimestampFields(h, m, s, g);
  }

  /** Fewer than three `:`-separated parts raise. */
  lemma ParseTimestampTooFewParts(ts: string)
    requires |Split(ts, ':')| < 3
    ensures ParseTimestampMs(ts).None?
  {
  }

  /**
   * `check_dict_empty`: `None` (an exception) when the value lists differ
   * in length; otherwise whether the set of lengths is exactly `{0}`.
   */
  function CheckDictEmpty<K, V>(d: map<K, seq<V>>): (r: Option<bool>)
  {
    var lengths := set k | k in d :: |d[k]|;
    if |lengths| > 1 then None else Some(lengths == {0})
  }

  lemma SetMoreThanOne(s: set<int>)
    ensures |s| > 1 <==> exists a, b :: a in s && b in s && a != b
  {
    if |s| > 1 {
      TwoMembers(s);
    }
    if exists a, b :: a in s && b in s && a != b {
      var a, b :| a in s && b in s && a != b;
      assert {a, b} <= s;
      assert |{a, b}| == 2;
      SubsetCard({a, b}, s);
    }
  }

  lemma TwoMembers(s: set<int>)
    requires |s| > 1
    ensures exists a, b :: a in s && b in s && a != b
  {
    var a := Pick(s);
    var rest := s - {a};
    assert |rest| == |s| - 1;
    var b := Pick(rest);
    assert a in s && b in s && a != b;
  }

  /** Some member of a non-empty set. */
  lemma Pick<T>(s: set<T>) returns (x: T)
    requires |s| > 0
    ensures x in s
  {
    if forall y :: y !in s {
      assert false;
    }
    x :| x in s;
  }

  lemma SubsetCard<T>(a: set<T>, b: set<T>)
    requires a <= b
    ensures |a| <= |b|
  {
    assert b == a + (b - a);
  }

  /** It raises exactly when two value lists differ in length. */
  lemma CheckDictEmptyRaises<K, V>(d: map<K, seq<V>>)
    ensures CheckDictEmpty(d).None? <==> exists k1, k2 :: k1 in d && k2 in d && |d[k1]| != |d[k2]|
  {
    var lengths := set k | k in d :: |d[k]|;
    SetMoreThanOne(lengths);
    if exists k1, k2 :: k1 in d && k2 in d && |d[k1]| != |d[k2]| {
      var k1, k2 :| k1 in d && k2 in d && |d[k1]| != |d[k2]|;
      assert |d[k1]| in lengths && |d[k2]| in lengths;
    }
  }

  /** It answers `True` exactly for a non-empty dict whose lists are all empty; `{}` gives `False`. */
  lemma CheckDictEmptyTrue<K, V>(d: map<K, seq<V>>)
    ensures CheckDictEmpty(d) == Some(true) <==> |d| > 0 && forall k :: k in d ==> |d[k]| == 0
  {
    var lengths := set k | k in d :: |d[k]|;
    if |d| > 0 && forall k :: k in d ==> |d[k]| == 0 {
      var k0 :| k0 in d;
      assert 0 in lengths;
      assert lengths == {0};
    }
    if CheckDictEmpty(d) == Some(true) {
      assert lengths == {0};
      assert 0 in lengths;
      var k0 :| k0 in d && |d[k0]| == 0;
      assert |d| > 0 by { assert k0 in d.Keys; }
      forall k | k in d ensures |d[k]| == 0 {
        assert |d[k]| in lengths;
      }
    }
  }
}

=== FILE: src/inventory.dfy ===
/**
 * The inventory helpers of the web front end (website/lib/utils-inventory.ts,
 * with website/lib/inventory.ts repeating `getCategory`, `categorizeItems`,
 * `getCategoryTotals`, `generatePieChart` and `getItemColor` word for word):
 * sorting item names into four categories, totalling the categories,
 * ranking and searching items, and the pie chart of the category totals.
 *
 * An item table (`Record<string, number>`) is its entries in the order
 * they were first set, one `Count` per name. That is JavaScript's key
 * order for names that are not integer-like; an integer-like name would
 * be enumerated first, in numeric order, which the model does not follow.
 */
module Inventory {
  import opened Wrappers
  import opened Strings
  import opened Tallies

  /** The four categories; `Label` gives the string `getCategory` returns. */
  datatype Category = Relic | Mineral | Food | Other

  function Label(c: Category): string
  {
    match c
    case Relic => "圣遗物"
    case Mineral => "矿物"
    case Food => "食材"
    case Other => "其他"
  }

  /** The keys of `categoryColors`, in declaration order. */
  const CategoryOrder: seq<Category> := [Relic, Mineral, Food, Other]

  /** Any name containing one of these is a relic. */
  const RelicWords: seq<string> := ["冒险家", "游医", "幸运儿", "险家", "医的", "运儿", "家"]

  /** A name containing '的' and one of these is a relic. */
  const RelicParts: seq<string> := [
    "方巾", "枭羽", "怀钟", "药壶", "银莲", "怀表", "尾羽", "头带",
    "金杯", "之花", "之杯", "沙漏", "绿花", "银冠", "鹰羽"]

  const Minerals: seq<string> := ["铁块", "白铁块", "水晶块", "魔晶块", "星银矿石", "紫晶块", "萃凝晶"]

  const Foods: seq<string> := [
    "苹果", "蘑菇", "甜甜花", "胡萝卜", "白萝卜", "金鱼草", "薄荷",
    "松果", "树莓", "松茸", "鸟蛋", "海草", "堇瓜", "墩墩桃",
    "须弥蔷薇", "枣椰", "茉洁草", "沉玉仙茗", "颗粒果", "澄晶实",
    "红果果菇", "小灯草", "嘟嘟莲", "莲蓬", "绝云椒椒", "清心",
    "马尾", "琉璃袋", "竹笋", "绯樱绣球", "树王圣体菇", "帕蒂沙兰",
    "青蜜莓"]

  /** `categoryColors[category]`. */
  function ColorOf(c: Category): string
  {
    match c
    case Relic => "#34495e"
    case Mineral => "#4CAF50"
    case Food => "#f39c12"
    case Other => "#bdc3c7"
  }

  /** `categoryColors[name]` for any name: `undefined` unless it is a category's label. */
  function ColorOfName(name: string): (r: Option<string>)
    ensures forall c: Category :: name == Label(c) ==> r == Some(ColorOf(c))
  {
    if name == Label(Relic) then Some(ColorOf(Relic))
    else if name == Label(Mineral) then Some(ColorOf(Mineral))
    else if name == Label(Food) then Some(ColorOf(Food))
    else if name == Label(Other) then Some(ColorOf(Other))
    else None
  }

  /** `name.includes(w1) || name.includes(w2) || ...`, left to right. */
  predicate ContainsAny(name: string, words: seq<string>)
    decreases |words|
  {
    |words| > 0 && (Contains(name, words[0]) || ContainsAny(name, words[1..]))
  }

  lemma {:induction false} ContainsAnyIff(name: string, words: seq<string>)
    ensures ContainsAny(name, words) <==> exists k :: 0 <= k < |words| && Contains(name, words[k])
    decreases |words|
  {
    if |words| > 0 {
      ContainsAnyIff(name, words[1..]);
      if exists k :: 0 <= k < |words| && Contains(name, words[k]) {
        var k :| 0 <= k < |words| && Contains(name, words[k]);
        if k > 0 {
          assert words[1..][k - 1] == words[k];
        }
      }
      if ContainsAny(name, words[1..]) {
        var k :| 0 <= k < |words[1..]| && Contains(name, words[1..][k]);
        assert words[k + 1] == words[1..][k];
      }
    }
  }

  /** `list.includes(name)`, front to back. */
  predicate Listed(name: string, list: seq<string>)
    decreases |list|
  {
    |list| > 0 && (list[0] == name || Listed(name, list[1..]))
  }

  lemma {:induction false} ListedIff(name: string, list: seq<string>)
    ensures Listed(name, list) <==> name in list
    decreases |list|
  {
    if |list| > 0 {
      ListedIff(name, list[1..]);
      assert list == [list[0]] + list[1..];
    }
  }

  /** The first test of `getCategory`. */
  predicate IsRelic(name: string)
  {
    ContainsAny(name, RelicWords) || (Contains(name, "的") && ContainsAny(name, RelicParts))
  }

  /** `getCategory`: the relic keywords win, then the two fixed lists, then 其他. */
  function GetCategory(name: string): Category
  {
    if IsRelic(name) then Relic
    else if Listed(name, Minerals) then Mineral
    else if Listed(name, Foods) then Food
    else Other
  }

  /**
   * The relic keywords reduce to four: every name with '冒险家' or '险家'
   * already has '家', and every name with '幸运儿' has '运儿'.
   */
  lemma RelicKeywords(name: string)
    ensures IsRelic(name) <==>
      || Contains(name, "家") || Contains(name, "游医") || Contains(name, "医的") || Contains(name, "运儿")
      || (Contains(name, "的") && ContainsAny(name, RelicParts))
  {
    ContainsAnyIff(name, RelicWords);
    if Contains(name, "冒险家") {
      assert "冒险家"[2..] == "家";
      ContainsTail(name, "冒险家", 2);
    }
    if Contains(name, "险家") {
      assert "险家"[1..] == "家";
      ContainsTail(name, "险家", 1);
    }
    if Contains(name, "幸运儿") {
      assert "幸运儿"[1..] == "运儿";
      ContainsTail(name, "幸运儿", 1);
    }
    assert RelicWords[6] == "家" && RelicWords[1] == "游医" && RelicWords[4] == "医的" && RelicWords[5] == "运儿";
  }

  /** A name holding a text holds every tail of that text. */
  lemma ContainsTail(s: string, t: string, k: nat)
    requires Contains(s, t) && k <= |t|
    ensures Contains(s, t[k..])
  {
    var i := IndexOf(s, t).value;
    assert t[k..] <= s[i + k..];
    ContainsAt(s, t[k..], i + k);
  }

  /** Without any of the characters 家, 医, 运 and 的. */
  predicate RelicFree(name: string)
  {
    '家' !in name && '医' !in name && '运' !in name && '的' !in name
  }

  /** A name without any of the characters 家, 医, 运 and 的 is not a relic. */
  lemma NotRelic(name: string)
    requires RelicFree(name)
    ensures !IsRelic(name)
  {
    ContainsAnyIff(name, RelicWords);
    forall k | 0 <= k < |RelicWords|
      ensures !Contains(name, RelicWords[k])
    {
      var w := RelicWords[k];
      var c := if '家' in w then '家' else if '医' in w then '医' else '运';
      assert c in w;
      if Contains(name, w) {
        ContainsCharOf(name, w, c);
      }
    }
    if Contains(name, "的") {
      ContainsCharOf(name, "的", '的');
    }
  }

  /** The relic test does not shadow the minerals: every listed mineral is a 矿物. */
  lemma MineralsReachable()
    ensures forall m :: m in Minerals ==> GetCategory(m) == Mineral
  {
    assert forall i :: 0 <= i < |Minerals| ==> RelicFree(Minerals[i]);
    forall m | m in Minerals
      ensures GetCategory(m) == Mineral
    {
      NotRelic(m);
      ListedIff(m, Minerals);
    }
  }

  /**
   * Neither the relic test nor the mineral list shadows the foods: every
   * listed food is a 食材.
   */
  lemma FoodsReachable()
    ensures forall f :: f in Foods ==> GetCategory(f) == Food
  {
    FoodsRelicFree();
    FoodsNotMinerals();
    forall f | f in Foods
      ensures GetCategory(f) == Food
    {
      NotRelic(f);
      ListedIff(f, Minerals);
      ListedIff(f, Foods);
    }
  }

  lemma FoodsRelicFree()
    ensures forall i :: 0 <= i < |Foods| ==> RelicFree(Foods[i])
  {
    FoodsRelicFreeLow();
    FoodsRelicFreeHigh();
  }

  lemma FoodsRelicFreeLow()
    ensures forall i :: 0 <= i < 17 ==> RelicFree(Foods[i])
  {
  }

  lemma FoodsRelicFreeHigh()
    ensures forall i :: 17 <= i < |Foods| ==> RelicFree(Foods[i])
  {
  }

  lemma FoodsNotMinerals()
    ensures forall i :: 0 <= i < |Foods| ==> Foods[i] !in Minerals
  {
  }

  /** The four names the category test checks. */
  lemma CategoryExamples()
    ensures GetCategory("冒险家之花") == Relic
    ensures GetCategory("铁块") == Mineral
    ensures GetCategory("苹果") == Food
    ensures GetCategory("未知物品") == Other
  {
    RelicExample();
    MineralsReachable();
    assert Minerals[0] == "铁块";
    FoodsReachable();
    assert Foods[0] == "苹果";
    OtherExample();
  }

  lemma RelicExample()
    ensures IsRelic("冒险家之花")
  {
    assert "冒险家" <= "冒险家之花";
    assert RelicWords[0] == "冒险家";
  }

  lemma OtherExample()
    ensures GetCategory("未知物品") == Other
  {
    UnknownUnlisted();
    NotRelic("未知物品");
    ListedIff("未知物品", Minerals);
    ListedIff("未知物品", Foods);
  }

  lemma UnknownUnlisted()
    ensures "未知物品" !in Minerals && "未知物品" !in Foods
  {
  }

  /** `getItemColor`: the colour of the item's category, which every name has. */
  function GetItemColor(name: string): Option<string>
  {
    ColorOfName(Label(GetCategory(name)))
  }

  /** Every name has a colour, and the relic colour belongs to relic names alone. */
  lemma ItemColorSpec(name: string)
    ensures GetItemColor(name) == Some(ColorOf(GetCategory(name)))
    ensures IsRelic(name) <==> GetItemColor(name) == Some("#34495e")
  {
  }

  /** One category of `categorizeItems`' result: its name and its items. */
  datatype Group = Group(name: string, items: seq<Count>)

  /**
   * The entries of `items` whose name `cat` puts into category `c`, in
   * order. The grouping is stated for any classifier `cat`; `categorizeItems`
   * uses `GetCategory`.
   */
  function ItemsOf(items: seq<Count>, cat: string -> Category, c: Category): (r: seq<Count>)
    ensures |r| <= |items|
    decreases |items|
  {
    if |items| == 0 then []
    else
      var init, last := items[..|items| - 1], items[|items| - 1];
      ItemsOf(init, cat, c) + if cat(last.key) == c then [last] else []
  }

  /** What `categorizeItems` builds: the four categories in order, each with its items. */
  function Categorized(items: seq<Count>, cat: string -> Category): (r: seq<Group>)
    ensures |r| == 4
  {
    [Group(Label(Relic), ItemsOf(items, cat, Relic)), Group(Label(Mineral), ItemsOf(items, cat, Mineral)),
     Group(Label(Food), ItemsOf(items, cat, Food)), Group(Label(Other), ItemsOf(items, cat, Other))]
  }

  /** `record[k] = v`: a present key keeps its place and takes the value, a new one goes last. */
  function Put(ts: seq<Count>, k: string, v: int): (r: seq<Count>)
    ensures k !in Keys(ts) ==> r == ts + [Count(k, v)]
    decreases |ts|
  {
    if |ts| == 0 then [Count(k, v)]
    else if ts[0].key == k then [Count(k, v)] + ts[1..]
    else
      assert Keys(ts) == [ts[0].key] + Keys(ts[1..]);
      [ts[0]] + Put(ts[1..], k, v)
  }

  /** The place of a category in `categoryColors`. */
  function CategoryIndex(c: Category): (i: nat)
    ensures i < 4 && CategoryOrder[i] == c
  {
    match c
    case Relic => 0
    case Mineral => 1
    case Food => 2
    case Other => 3
  }

  /** Writing a new entry into its category's table extends that table and leaves the others alone. */
  lemma CategorizedStep(items: seq<Count>, cat: string -> Category, x: Count)
    requires x.key !in Keys(items)
    ensures var c := cat(x.key); var gs := Categorized(items, cat);
      Categorized(items + [x], cat) == gs[CategoryIndex(c) := Group(Label(c), Put(gs[CategoryIndex(c)].items, x.key, x.n))]
  {
    var c := cat(x.key);
    ItemsOfKeys(items, cat, c, x.key);
    assert (items + [x])[..|items|] == items;
    assert Put(ItemsOf(items, cat, c), x.key, x.n) == ItemsOf(items, cat, c) + [x];
    forall d: Category | d != c ensures ItemsOf(items + [x], cat, d) == ItemsOf(items, cat, d) {
      assert ItemsOf(items + [x], cat, d) == ItemsOf(items, cat, d) + [];
    }
  }

  /**
   * The loop of `categorizeItems` for any classifier `cat`: every entry is
   * written into its category's table.
   */
  method CategorizeBy(items: seq<Count>, cat: string -> Category) returns (cats: seq<Group>)
    requires UniqueKeys(items)
    ensures cats == Categorized(items, cat)
  {
    cats := [Group(Label(Relic), []), Group(Label(Mineral), []), Group(Label(Food), []), Group(Label(Other), [])];
    var i := 0;
    while i < |items|
      invariant 0 <= i <= |items|
      invariant cats == Categorized(items[..i], cat)
    {
      var name, count := items[i].key, items[i].n;
      var c := cat(name);
      var j := CategoryIndex(c);
      assert items[..i + 1] == items[..i] + [items[i]];
      CategorizedStep(items[..i], cat, items[i]);
      cats := cats[j := Group(Label(c), Put(cats[j].items, name, count))];
      i := i + 1;
    }
    assert items[..|items|] == items;
  }

  /** `categorizeItems`: the loop above with `getCategory` as the classifier. */
  method CategorizeItems(items: seq<Count>) returns (cats: seq<Group>)
    requires UniqueKeys(items)
    ensures cats == Categorized(items, GetCategory)
  {
    cats := CategorizeBy(items, GetCategory);
  }

  /** An entry is kept exactly when it is in the table and its name is in the category. */
  lemma {:induction false} ItemsOfMembers(items: seq<Count>, cat: string -> Category, c: Category)
    ensures forall x :: x in ItemsOf(items, cat, c) <==> x in items && cat(x.key) == c
    decreases |items|
  {
    if |items| > 0 {
      var init, last := items[..|items| - 1], items[|items| - 1];
      ItemsOfMembers(init, cat, c);
      assert items == init + [last];
    }
  }

  /** A name is in the category's table exactly when it is in the item table and in the category. */
  lemma ItemsOfKeys(items: seq<Count>, cat: string -> Category, c: Category, k: string)
    ensures k in Keys(ItemsOf(items, cat, c)) <==> k in Keys(items) && cat(k) == c
  {
    var r := ItemsOf(items, cat, c);
    ItemsOfMembers(items, cat, c);
    if k in Keys(r) {
      var j :| 0 <= j < |r| && Keys(r)[j] == k;
      assert r[j] in r;
      var i :| 0 <= i < |items| && items[i] == r[j];
      assert Keys(items)[i] == k;
    }
    if k in Keys(items) && cat(k) == c {
      var i :| 0 <= i < |items| && Keys(items)[i] == k;
      assert items[i] in items;
      var j :| 0 <= j < |r| && r[j] == items[i];
      assert Keys(r)[j] == k;
    }
  }

  /** Every entry lands in the table of its name's category, with its count. */
  lemma {:induction false} ItemsOfGet(items: seq<Count>, cat: string -> Category, c: Category, k: string)
    ensures Get(ItemsOf(items, cat, c), k) == if cat(k) == c then Get(items, k) else 0
    decreases |items|
  {
    if |items| > 0 {
      var init, last := items[..|items| - 1], items[|items| - 1];
      ItemsOfGet(init, cat, c, k);
      assert items == init + [last];
      GetSnoc(init, last, k);
      if cat(last.key) == c {
        GetSnoc(ItemsOf(init, cat, c), last, k);
        ItemsOfKeys(init, cat, c, k);
      } else {
        assert ItemsOf(items, cat, c) == ItemsOf(init, cat, c) + [];
        assert ItemsOf(init, cat, c) + [] == ItemsOf(init, cat, c);
        if k !in Keys(init) {
          GetAbsent(init, k);
        }
      }
    }
  }

  /** Looking a key up after appending an entry: the earlier entries come first. */
  lemma {:induction false} GetSnoc(ts: seq<Count>, x: Count, k: string)
    ensures Get(ts + [x], k) == if k in Keys(ts) then Get(ts, k) else if x.key == k then x.n else 0
    decreases |ts|
  {
    if |ts| > 0 {
      assert (ts + [x])[1..] == ts[1..] + [x];
      assert Keys(ts) == [ts[0].key] + Keys(ts[1..]);
      GetSnoc(ts[1..], x, k);
    }
  }

  /** The four categories' totals add up to `getTotalItemCount`. */
  lemma {:induction false} CategoriesTotal(items: seq<Count>, cat: string -> Category)
    ensures Total(ItemsOf(items, cat, Relic)) + Total(ItemsOf(items, cat, Mineral))
      + Total(ItemsOf(items, cat, Food)) + Total(ItemsOf(items, cat, Other)) == Total(items)
    decreases |items|
  {
    if |items| > 0 {
      var init, last := items[..|items| - 1], items[|items| - 1];
      CategoriesTotal(init, cat);
      TotalLast(items);
      ItemsOfLastTotal(items, cat, Relic);
      ItemsOfLastTotal(items, cat, Mineral);
      ItemsOfLastTotal(items, cat, Food);
      ItemsOfLastTotal(items, cat, Other);
    }
  }

  lemma TotalLast(items: seq<Count>)
    requires |items| > 0
    ensures Total(items) == Total(items[..|items| - 1]) + items[|items| - 1].n
  {
    assert items == items[..|items| - 1] + [items[|items| - 1]];
    TotalSnoc(items[..|items| - 1], items[|items| - 1]);
  }

  /** The last entry adds its count to its own category's total only. */
  lemma ItemsOfLastTotal(items: seq<Count>, cat: string -> Category, d: Category)
    requires |items| > 0
    ensures var last := items[|items| - 1];
      Total(ItemsOf(items, cat, d)) == Total(ItemsOf(items[..|items| - 1], cat, d)) + if cat(last.key) == d then last.n else 0
  {
    var init, last := items[..|items| - 1], items[|items| - 1];
    if cat(last.key) == d {
      TotalSnoc(ItemsOf(init, cat, d), last);
    } else {
      assert ItemsOf(items, cat, d) == ItemsOf(init, cat, d) + [];
      assert ItemsOf(init, cat, d) + [] == ItemsOf(init, cat, d);
    }
  }

  /** One entry of `getCategoryTotals`' result. */
  datatype CategoryTotal = CategoryTotal(name: string, count: int, color: Option<string>)

  /** What `getCategoryTotals` pushes: per category, in order, its summed counts and its colour. */
  function CategoryTotals(gs: seq<Group>): (r: seq<CategoryTotal>)
    ensures |r| == |gs|
    ensures forall i :: 0 <= i < |gs| ==> r[i] == CategoryTotal(gs[i].name, Total(gs[i].items), ColorOfName(gs[i].name))
  {
    seq(|gs|, i requires 0 <= i < |gs| => CategoryTotal(gs[i].name, Total(gs[i].items), ColorOfName(gs[i].name)))
  }

  /** `Object.values(items).reduce((sum, c) => sum + c, 0)`. */
  method SumCounts(items: seq<Count>) returns (sum: int)
    ensures sum == Total(items)
  {
    sum := 0;
    var i := 0;
    while i < |items|
      invariant 0 <= i <= |items|
      invariant sum == Total(items[..i])
    {
      assert items[..i + 1] == items[..i] + [items[i]];
      TotalSnoc(items[..i], items[i]);
      sum := sum + items[i].n;
      i := i + 1;
    }
    assert items[..|items|] == items;
  }

  /** `getCategoryTotals`: one entry per category, in the order of the categories. */
  method GetCategoryTotals(gs: seq<Group>) returns (totals: seq<CategoryTotal>)
    ensures totals == CategoryTotals(gs)
  {
    totals := [];
    var i := 0;
    while i < |gs|
      invariant 0 <= i <= |gs|
      invariant totals == CategoryTotals(gs[..i])
    {
      var count := SumCounts(gs[i].items);
      totals := totals + [CategoryTotal(gs[i].name, count, ColorOfName(gs[i].name))];
      i := i + 1;
    }
    assert gs[..|gs|] == gs;
  }

  /** `data.reduce((sum, item) => sum + item.count, 0)`. */
  function SumTotals(data: seq<CategoryTotal>): int
    decreases |data|
  {
    if |data| == 0 then 0 else SumTotals(data[..|data| - 1]) + data[|data| - 1].count
  }

  /**
   * The totals of categorised items come in category order, each with its
   * colour, and add up to all the items.
   */
  lemma CategorizedTotals(items: seq<Count>, cat: string -> Category)
    ensures var ts := CategoryTotals(Categorized(items, cat));
      && |ts| == 4
      && (forall i :: 0 <= i < 4 ==> ts[i].name == Label(CategoryOrder[i]) && ts[i].color == Some(ColorOf(CategoryOrder[i])))
      && SumTotals(ts) == Total(items)
  {
    CategorizedColors(items, cat);
    CategoriesTotal(items, cat);
    SumTotalsFour(CategoryTotals(Categorized(items, cat)));
  }

  lemma CategorizedColors(items: seq<Count>, cat: string -> Category)
    ensures var ts := CategoryTotals(Categorized(items, cat));
      forall i :: 0 <= i < 4 ==> ts[i].name == Label(CategoryOrder[i]) && ts[i].color == Some(ColorOf(CategoryOrder[i]))
  {
    var gs := Categorized(items, cat);
    var ts := CategoryTotals(gs);
    forall i | 0 <= i < 4
      ensures ts[i].name == Label(CategoryOrder[i]) && ts[i].color == Some(ColorOf(CategoryOrder[i]))
    {
      var c := CategoryOrder[i];
      assert gs[i].name == Label(c);
      assert ts[i].color == ColorOfName(Label(c));
    }
  }

  lemma SumTotalsFour(ts: seq<CategoryTotal>)
    requires |ts| == 4
    ensures SumTotals(ts) == ts[0].count + ts[1].count + ts[2].count + ts[3].count
  {
    assert ts[..3][..2] == ts[..2] && ts[..2][..1] == ts[..1] && ts[..1][..0] == [];
    assert SumTotals(ts[..1]) == ts[0].count;
    assert SumTotals(ts[..2]) == SumTotals(ts[..1]) + ts[1].count;
    assert SumTotals(ts[..3]) == SumTotals(ts[..2]) + ts[2].count;
  }

  /** The totals test: categories in any order give their totals in that order, 0 for an empty one. */
  lemma CategoryTotalsExample()
    ensures CategoryTotals([Group("食材", [Count("苹果", 2)]), Group("矿物", [Count("铁块", 1)]),
                            Group("圣遗物", []), Group("其他", [Count("未知物品", 3)])])
      == [CategoryTotal("食材", 2, Some("#f39c12")), CategoryTotal("矿物", 1, Some("#4CAF50")),
          CategoryTotal("圣遗物", 0, Some("#34495e")), CategoryTotal("其他", 3, Some("#bdc3c7"))]
  {
  }

  /** The grouping test: each item lands in its category with its count. */
  lemma CategorizeExample()
    ensures var cats := Categorized([Count("苹果", 2), Count("铁块", 1), Count("未知物品", 3)], GetCategory);
      Get(cats[2].items, "苹果") == 2 && Get(cats[1].items, "铁块") == 1 && Get(cats[3].items, "未知物品") == 3
  {
    var items := [Count("苹果", 2), Count("铁块", 1), Count("未知物品", 3)];
    CategoryExamples();
    ItemsOfGet(items, GetCategory, Food, "苹果");
    ItemsOfGet(items, GetCategory, Mineral, "铁块");
    ItemsOfGet(items, GetCategory, Other, "未知物品");
  }

  /** Counts in non-increasing order. */
  predicate NonIncreasing(s: seq<Count>)
  {
    forall i, j :: 0 <= i < j < |s| ==> s[j].n <= s[i].n
  }

  /** One insertion step of a stable sort by count, largest first: `x` goes after every entry not smaller. */
  function InsertByCount(s: seq<Count>, x: Count): (r: seq<Count>)
    requires NonIncreasing(s)
    ensures NonIncreasing(r)
    ensures multiset(r) == multiset(s) + multiset{x}
    decreases |s|
  {
    if |s| == 0 then [x]
    else if s[0].n < x.n then [x] + s
    else
      var t := InsertByCount(s[1..], x);
      InsertTailBounded(s, x, t);
      ConsSplit(s);
      [s[0]] + t
  }

  /** What is inserted behind the head of a non-increasing sequence stays no larger than the head. */
  lemma InsertTailBounded(s: seq<Count>, x: Count, t: seq<Count>)
    requires NonIncreasing(s) && |s| > 0 && x.n <= s[0].n
    requires multiset(t) == multiset(s[1..]) + multiset{x}
    ensures forall y :: y in t ==> y.n <= s[0].n
  {
    forall y | y in t ensures y.n <= s[0].n {
      if y != x {
        assert y in multiset(t);
        assert y in multiset(s[1..]);
        var k :| 0 <= k < |s[1..]| && s[1..][k] == y;
        assert s[k + 1] == y;
      }
    }
  }

  /** `.sort((a, b) => b[1] - a[1])`: a stable sort, largest count first. */
  function SortByCount(xs: seq<Count>): (r: seq<Count>)
    ensures NonIncreasing(r)
    ensures multiset(r) == multiset(xs)
    decreases |xs|
  {
    if |xs| == 0 then []
    else
      assert xs == xs[..|xs| - 1] + [xs[|xs| - 1]];
      InsertByCount(SortByCount(xs[..|xs| - 1]), xs[|xs| - 1])
  }

  /** The entries of count `c`, in their order in `s`. */
  function WithCount(s: seq<Count>, c: int): seq<Count>
    decreases |s|
  {
    if |s| == 0 then [] else (if s[0].n == c then [s[0]] else []) + WithCount(s[1..], c)
  }

  lemma WithCountCons(x: Count, t: seq<Count>, c: int)
    ensures WithCount([x] + t, c) == (if x.n == c then [x] else []) + WithCount(t, c)
  {
    assert ([x] + t)[1..] == t;
  }

  lemma {:induction false} WithCountAppend(a: seq<Count>, b: seq<Count>, c: int)
    ensures WithCount(a + b, c) == WithCount(a, c) + WithCount(b, c)
    decreases |a|
  {
    if |a| == 0 {
      assert a + b == b;
    } else {
      assert a + b == [a[0]] + (a[1..] + b);
      assert a == [a[0]] + a[1..];
      WithCountCons(a[0], a[1..] + b, c);
      WithCountCons(a[0], a[1..], c);
      WithCountAppend(a[1..], b, c);
    }
  }

  /** A non-increasing sequence headed by a count below `c` has no entry of count `c`. */
  lemma {:induction false} WithCountBelow(s: seq<Count>, c: int)
    requires NonIncreasing(s) && |s| > 0 && s[0].n < c
    ensures WithCount(s, c) == []
    decreases |s|
  {
    if |s| > 1 {
      WithCountBelow(s[1..], c);
    }
  }

  lemma ConcatAssoc(a: seq<Count>, b: seq<Count>, c: seq<Count>)
    ensures a + (b + c) == (a + b) + c
  {
  }

  lemma ConsSplit(xs: seq<Count>)
    requires |xs| > 0
    ensures [xs[0]] + xs[1..] == xs
  {
  }

  lemma SnocSplit(xs: seq<Count>)
    requires |xs| > 0
    ensures xs == xs[..|xs| - 1] + [xs[|xs| - 1]]
  {
  }

  /** The three cases of one insertion step. */
  lemma InsertByCountCases(s: seq<Count>, x: Count)
    requires NonIncreasing(s)
    ensures |s| == 0 ==> InsertByCount(s, x) == [x]
    ensures |s| > 0 && s[0].n < x.n ==> InsertByCount(s, x) == [x] + s
    ensures |s| > 0 && s[0].n >= x.n ==> NonIncreasing(s[1..]) && InsertByCount(s, x) == [s[0]] + InsertByCount(s[1..], x)
  {
  }

  /** An entry placed in front of a non-increasing sequence of smaller counts comes after every entry of its count. */
  lemma InsertFrontStable(s: seq<Count>, x: Count, c: int)
    requires NonIncreasing(s) && |s| > 0 && s[0].n < x.n
    ensures WithCount([x] + s, c) == WithCount(s, c) + (if x.n == c then [x] else [])
  {
    WithCountCons(x, s, c);
    if x.n == c {
      WithCountBelow(s, c);
    }
  }

  /** Keeping the head in front keeps the stability of the tail's insertion. */
  lemma ConsStable(y: Count, t: seq<Count>, rest: seq<Count>, xs: seq<Count>, c: int)
    requires WithCount(t, c) == WithCount(rest, c) + xs
    ensures WithCount([y] + t, c) == WithCount([y] + rest, c) + xs
  {
    var hs := if y.n == c then [y] else [];
    WithCountCons(y, t, c);
    WithCountCons(y, rest, c);
    ConcatAssoc(hs, WithCount(rest, c), xs);
  }

  /** Inserting `x` puts it after every entry of its own count, and leaves every other count's entries alone. */
  lemma {:induction false} InsertByCountStable(s: seq<Count>, x: Count, c: int)
    requires NonIncreasing(s)
    ensures WithCount(InsertByCount(s, x), c) == WithCount(s, c) + (if x.n == c then [x] else [])
    decreases |s|
  {
    InsertByCountCases(s, x);
    if |s| == 0 {
      WithCountCons(x, [], c);
    } else if s[0].n < x.n {
      InsertFrontStable(s, x, c);
    } else {
      InsertByCountStable(s[1..], x, c);
      ConsStable(s[0], InsertByCount(s[1..], x), s[1..], if x.n == c then [x] else [], c);
      ConsSplit(s);
    }
  }

  lemma SortByCountSnoc(xs: seq<Count>)
    requires |xs| > 0
    ensures SortByCount(xs) == InsertByCount(SortByCount(xs[..|xs| - 1]), xs[|xs| - 1])
  {
  }

  /** The sort is stable: the entries of each count keep their input order. */
  lemma {:induction false} SortByCountStable(xs: seq<Count>, c: int)
    ensures WithCount(SortByCount(xs), c) == WithCount(xs, c)
    decreases |xs|
  {
    if |xs| > 0 {
      var init, last := xs[..|xs| - 1], xs[|xs| - 1];
      var l := if last.n == c then [last] else [];
      SortByCountSnoc(xs);
      SortByCountStable(init, c);
      InsertByCountStable(SortByCount(init), last, c);
      SnocSplit(xs);
      WithCountAppend(init, [last], c);
      WithCountCons(last, [], c);
      assert WithCount([last], c) == l by {
        assert [last] + [] == [last];
        assert l + [] == l;
      }
      calc {
        WithCount(SortByCount(xs), c);
        WithCount(InsertByCount(SortByCount(init), last), c);
        WithCount(SortByCount(init), c) + l;
        WithCount(init, c) + l;
        WithCount(init, c) + WithCount([last], c);
        WithCount(xs, c);
      }
    }
  }

  const DefaultLimit := 15

  /** `slice(0, limit)`'s end: a negative limit counts from the end, and the end is clamped to the length. */
  function SliceEnd(len: nat, limit: int): (e: nat)
    ensures e <= len
  {
    if limit < 0 then (if len + limit < 0 then 0 else len + limit)
    else if limit > len then len
    else limit
  }

  /** `getTopItems`. */
  function GetTopItems(items: seq<Count>, limit: int): seq<Count>
  {
    var s := SortByCount(items);
    s[..SliceEnd(|s|, limit)]
  }

  /**
   * The top items are `min(limit, n)` entries of the table (for a
   * non-negative limit), in non-increasing order, and no entry left out
   * has a larger count than one kept.
   */
  lemma TopItemsSpec(items: seq<Count>, limit: int)
    ensures var r := GetTopItems(items, limit);
      && (limit >= 0 ==> |r| == if limit < |items| then limit else |items|)
      && (limit < 0 ==> |r| == if |items| + limit < 0 then 0 else |items| + limit)
      && NonIncreasing(r)
      && (forall x :: x in r ==> x in items)
      && multiset(r) <= multiset(items)
      && (forall x, y :: x in r && y in multiset(items) - multiset(r) ==> y.n <= x.n)
  {
    var s := SortByCount(items);
    assert |s| == |multiset(s)| == |multiset(items)| == |items|;
    TopSlice(s, SliceEnd(|s|, limit));
    forall x | x in s[..SliceEnd(|s|, limit)] ensures x in items {
      assert x in multiset(s);
    }
  }

  /**
   * Ties keep the table's order: for every count, the top items of that
   * count are the first entries of that count in the table.
   */
  lemma TopItemsStable(items: seq<Count>, limit: int, c: int)
    ensures var r, w := WithCount(GetTopItems(items, limit), c), WithCount(items, c);
      |r| <= |w| && r == w[..|r|]
  {
    var s := SortByCount(items);
    var e := SliceEnd(|s|, limit);
    assert s == s[..e] + s[e..];
    WithCountAppend(s[..e], s[e..], c);
    SortByCountStable(items, c);
  }

  /** A prefix of a non-increasing sequence is non-increasing and no smaller than what it leaves out. */
  lemma TopSlice(s: seq<Count>, e: nat)
    requires NonIncreasing(s) && e <= |s|
    ensures NonIncreasing(s[..e])
    ensures multiset(s[..e]) <= multiset(s)
    ensures forall x, y :: x in s[..e] && y in multiset(s) - multiset(s[..e]) ==> y.n <= x.n
  {
    var r := s[..e];
    assert s == r + s[e..];
    assert multiset(s) == multiset(r) + multiset(s[e..]);
    forall x, y | x in r && y in multiset(s) - multiset(r)
      ensures y.n <= x.n
    {
      assert y in multiset(s[e..]);
      var i :| 0 <= i < |r| && r[i] == x;
      var j :| 0 <= j < |s[e..]| && s[e..][j] == y;
      assert s[e + j] == y;
    }
  }

  /** The search test of `filterAndSortItems`: the name contains the term, ignoring ASCII case. */
  predicate Matches(name: string, term: string)
  {
    Contains(Lower(name), Lower(term))
  }

  /** `.filter(([name]) => name.toLowerCase().includes(searchTerm.toLowerCase()))`. */
  function KeepMatching(items: seq<Count>, term: string): seq<Count>
    decreases |items|
  {
    if |items| == 0 then []
    else (if Matches(items[0].key, term) then [items[0]] else []) + KeepMatching(items[1..], term)
  }

  /** `filterAndSortItems`. */
  function FilterAndSortItems(items: seq<Count>, term: string): seq<Count>
  {
    SortByCount(KeepMatching(items, term))
  }

  lemma {:induction false} KeepMatchingSpec(items: seq<Count>, term: string)
    ensures forall x :: multiset(KeepMatching(items, term))[x] == if Matches(x.key, term) then multiset(items)[x] else 0
    decreases |items|
  {
    if |items| > 0 {
      KeepMatchingSpec(items[1..], term);
      assert items == [items[0]] + items[1..];
    }
  }

  /**
   * The search keeps exactly the entries whose name contains the term
   * (ignoring ASCII case), each once, largest count first; an empty term
   * keeps every entry.
   */
  lemma FilterAndSortSpec(items: seq<Count>, term: string)
    ensures var r := FilterAndSortItems(items, term);
      && NonIncreasing(r)
      && (forall x :: multiset(r)[x] == if Matches(x.key, term) then multiset(items)[x] else 0)
      && (forall x :: x in r <==> x in items && Matches(x.key, term))
      && (term == "" ==> multiset(r) == multiset(items))
  {
    var r := FilterAndSortItems(items, term);
    KeepMatchingSpec(items, term);
    forall x ensures x in r <==> x in items && Matches(x.key, term) {
      assert x in r <==> x in multiset(r);
      assert x in items <==> x in multiset(items);
    }
    if term == "" {
      forall x ensures multiset(r)[x] == multiset(items)[x] {
        assert Lower(term) == "";
        assert "" <= Lower(x.key);
      }
    }
  }

  /** `getUniqueItemCount`: `Object.keys(items).length`. */
  function UniqueItemCount(items: seq<Count>): nat
  {
    |items|
  }

  /** The number of entries is the number of distinct names. */
  lemma {:induction false} UniqueItemCountSpec(items: seq<Count>)
    requires UniqueKeys(items)
    ensures UniqueItemCount(items) == |set x | x in Keys(items)|
    decreases |items|
  {
    if |items| > 0 {
      var tail := items[1..];
      assert UniqueKeys(tail);
      UniqueItemCountSpec(tail);
      var ks, kt := Keys(items), Keys(tail);
      forall x ensures x in ks <==> x in kt || x == items[0].key {
        if x in ks {
          var i :| 0 <= i < |ks| && ks[i] == x;
          if i > 0 { assert kt[i - 1] == x; }
        }
        if x in kt {
          var i :| 0 <= i < |kt| && kt[i] == x;
          assert ks[i + 1] == x;
        }
        assert ks[0] == items[0].key;
      }
      assert (set x | x in ks) == {items[0].key} + (set x | x in kt);
    }
  }

  /** One slice of `generatePieChart`'s result. */
  datatype Segment =
    | FullCircle(name: string, count: int, color: Option<string>, percentage: string, path: string)
    | Arc(name: string, count: int, color: Option<string>)

  /** `data.filter(item => item.count > 0)`. */
  function NonZero(data: seq<CategoryTotal>): seq<CategoryTotal>
    decreases |data|
  {
    if |data| == 0 then [] else (if data[0].count > 0 then [data[0]] else []) + NonZero(data[1..])
  }

  /** `generatePieChart`: a full circle for a single non-zero category, otherwise one arc per entry. */
  function PieChart(data: seq<CategoryTotal>): (r: seq<Segment>)
  {
    var nonZero := NonZero(data);
    if |nonZero| == 1 then [FullCircle(nonZero[0].name, nonZero[0].count, nonZero[0].color, "100.0", "")]
    else seq(|data|, i requires 0 <= i < |data| => Arc(data[i].name, data[i].count, data[i].color))
  }

  /** With only entry `i` above zero, the filter keeps only that entry. */
  lemma {:induction false} NonZeroSingle(data: seq<CategoryTotal>, i: nat)
    requires i < |data| && data[i].count > 0
    requires forall j :: 0 <= j < |data| && j != i ==> data[j].count <= 0
    ensures NonZero(data) == [data[i]]
    decreases |data|
  {
    if i > 0 {
      NonZeroSingle(data[1..], i - 1);
    } else {
      NonZeroNone(data[1..]);
    }
  }

  lemma {:induction false} NonZeroNone(data: seq<CategoryTotal>)
    requires forall j :: 0 <= j < |data| ==> data[j].count <= 0
    ensures NonZero(data) == []
    decreases |data|
  {
    if |data| > 0 {
      NonZeroNone(data[1..]);
    }
  }

  lemma {:induction false} NonZeroTwo(data: seq<CategoryTotal>, i: nat, j: nat)
    requires i < j < |data| && data[i].count > 0 && data[j].count > 0
    ensures |NonZero(data)| >= 2
    decreases |data|
  {
    if i > 0 {
      NonZeroTwo(data[1..], i - 1, j - 1);
    } else {
      NonZeroSome(data[1..], j - 1);
    }
  }

  lemma {:induction false} NonZeroSome(data: seq<CategoryTotal>, j: nat)
    requires j < |data| && data[j].count > 0
    ensures |NonZero(data)| >= 1
    decreases |data|
  {
    if j > 0 {
      NonZeroSome(data[1..], j - 1);
    }
  }

  /** A single category above zero fills the whole circle, labelled '100.0' with an empty path. */
  lemma PieChartSingle(data: seq<CategoryTotal>, i: nat)
    requires i < |data| && data[i].count > 0
    requires forall j :: 0 <= j < |data| && j != i ==> data[j].count <= 0
    ensures PieChart(data) == [FullCircle(data[i].name, data[i].count, data[i].color, "100.0", "")]
  {
    NonZeroSingle(data, i);
  }

  /** With no category above zero, or with two, every entry gets its own arc, in order. */
  lemma PieChartArcs(data: seq<CategoryTotal>)
    requires (forall j :: 0 <= j < |data| ==> data[j].count <= 0)
      || (exists i, j :: 0 <= i < j < |data| && data[i].count > 0 && data[j].count > 0)
    ensures |PieChart(data)| == |data|
    ensures forall k :: 0 <= k < |data| ==> PieChart(data)[k] == Arc(data[k].name, data[k].count, data[k].color)
  {
    if forall j :: 0 <= j < |data| ==> data[j].count <= 0 {
      NonZeroNone(data);
    } else {
      var i, j :| 0 <= i < j < |data| && data[i].count > 0 && data[j].count > 0;
      NonZeroTwo(data, i, j);
    }
  }

  /** The pie chart test: two equal categories give two arcs. */
  lemma PieChartExample()
    ensures var r := PieChart([CategoryTotal("食材", 2, Some("#f39c12")), CategoryTotal("矿物", 2, Some("#4CAF50"))]);
      |r| == 2 && r[0] == Arc("食材", 2, Some("#f39c12"))
  {
    var data := [CategoryTotal("食材", 2, Some("#f39c12")), CategoryTotal("矿物", 2, Some("#4CAF50"))];
    assert data[0].count > 0 && data[1].count > 0;
    PieChartArcs(data);
  }
}

=== FILE: src/layouts.dfy ===
/**
 * Where the pieces of rendered log entries sit inside a text: the facts
 * the entry patterns are proved against.  Everything here is stated
 * character by character so that the pattern proofs never have to reason
 * about concatenations.
 */
module Layouts {
  import opened LogLines

  /** `x` occurs in `s` at index `p`. */
  predicate IsAt(s: string, p: nat, x: string)
  {
    p + |x| <= |s| && forall k {:trigger x[k]} :: 0 <= k < |x| ==> s[p + k] == x[k]
  }

  lemma IsAtSplit(s: string, p: nat, x: string, y: string)
    requires IsAt(s, p, x + y)
    ensures IsAt(s, p, x) && IsAt(s, p + |x|, y)
  {
    forall k | 0 <= k < |x| ensures s[p + k] == x[k] {
      assert (x + y)[k] == x[k];
    }
    forall k | 0 <= k < |y| ensures s[p + |x| + k] == y[k] {
      assert (x + y)[|x| + k] == y[k];
    }
  }

  lemma SliceAt(s: string, p: nat, x: string)
    requires IsAt(s, p, x)
    ensures s[p..p + |x|] == x
  {
  }

  lemma NoCharAt(s: string, p: nat, x: string, c: char)
    requires IsAt(s, p, x) && NoChar(x, c)
    ensures forall k :: p <= k < p + |x| ==> s[k] != c
  {
    forall k | p <= k < p + |x| ensures s[k] != c {
      assert s[p + (k - p)] == x[k - p];
    }
  }

  /** The indices where the fields of an entry rendered at `p` end. */
  function TimeEnd(p: nat, l: Line): nat { p + 1 + |l.time| }
  function LevelEnd(p: nat, l: Line): nat { TimeEnd(p, l) + 3 + |l.level| }
  function HeaderEnd(p: nat, l: Line): nat { LevelEnd(p, l) + 2 + |l.header| }

  /** The header line of an entry rendered at `p`, field by field. */
  predicate HeaderLaidOut(s: string, p: nat, l: Line)
  {
    var j1, j2, j3 := TimeEnd(p, l), LevelEnd(p, l), HeaderEnd(p, l);
    j3 < |s| && s[p] == '[' && s[j1] == ']' && s[j1 + 1] == ' ' && s[j1 + 2] == '['
    && s[j2] == ']' && s[j2 + 1] == ' ' && s[j3] == '\n'
    && IsAt(s, p + 1, l.time) && IsAt(s, j1 + 3, l.level) && IsAt(s, j2 + 2, l.header)
  }

  lemma RenderedHeader(s: string, p: nat, l: Line)
    requires IsAt(s, p, HeaderText(l) + "\n")
    ensures HeaderLaidOut(s, p, l)
  {
    var t, v, h := l.time, l.level, l.header;
    var x := HeaderText(l) + "\n";
    assert x == "[" + t + "] [" + v + "] " + h + "\n";
    var j1, j2, j3 := TimeEnd(p, l), LevelEnd(p, l), HeaderEnd(p, l);
    assert s[p] == x[0];
    assert s[j1] == x[1 + |t|] && s[j1 + 1] == x[2 + |t|] && s[j1 + 2] == x[3 + |t|];
    assert s[j2] == x[j2 - p] && s[j2 + 1] == x[j2 + 1 - p];
    assert s[j3] == x[j3 - p];
    forall k | 0 <= k < |t| ensures s[p + 1 + k] == t[k] {
      assert s[p + (1 + k)] == x[1 + k];
    }
    forall k | 0 <= k < |v| ensures s[j1 + 3 + k] == v[k] {
      assert s[p + (j1 + 3 - p + k)] == x[j1 + 3 - p + k];
    }
    forall k | 0 <= k < |h| ensures s[j2 + 2 + k] == h[k] {
      assert s[p + (j2 + 2 - p + k)] == x[j2 + 2 - p + k];
    }
  }

  /** The detail line of an entry rendered at `p`: it follows the header's newline and ends with its own. */
  lemma RenderedDetail(s: string, p: nat, l: Line)
    requires IsAt(s, p, RenderLine(l)) && l.detail.Some?
    ensures var q, d := HeaderEnd(p, l) + 1, l.detail.value;
      IsAt(s, q, d) && q + |d| < |s| && s[q + |d|] == '\n' && p + |RenderLine(l)| == q + |d| + 1
  {
    IsAtSplit(s, p, HeaderText(l) + "\n", DetailText(l));
    var q, d := HeaderEnd(p, l) + 1, l.detail.value;
    assert |HeaderText(l) + "\n"| == q - p;
    IsAtSplit(s, q, d, "\n");
    assert s[q + |d| + 0] == "\n"[0];
  }

  /** The layout of a whole rendered entry at `p`. */
  lemma RenderedLine(s: string, p: nat, l: Line)
    requires IsAt(s, p, RenderLine(l))
    ensures HeaderLaidOut(s, p, l)
    ensures p + |RenderLine(l)| == HeaderEnd(p, l) + 1 + |DetailText(l)|
  {
    IsAtSplit(s, p, HeaderText(l) + "\n", DetailText(l));
    RenderedHeader(s, p, l);
  }

  /** A field without `c`, followed by `c`: a search for `c` from the field's start stops right after it. */
  lemma FieldEnd(s: string, i: nat, x: string, c: char)
    requires IsAt(s, i, x) && NoChar(x, c) && i + |x| < |s| && s[i + |x|] == c
    ensures NextIndex(s, i, c) == i + |x| && s[i..i + |x|] == x
  {
    NoCharAt(s, i, x, c);
    NextIndexIs(s, i, c, i + |x|);
    SliceAt(s, i, x);
  }

  /** A detail line ends at its newline, which is where a `[^\n[]*` run stops. */
  lemma DetailEnd(s: string, q: nat, d: string)
    requires NoChar(d, '\n') && NoChar(d, '[') && IsAt(s, q, d) && q + |d| < |s| && s[q + |d|] == '\n'
    ensures NextBreak(s, q) == q + |d| && s[q..q + |d|] == d
  {
    NoCharAt(s, q, d, '\n');
    NoCharAt(s, q, d, '[');
    NextBreakIs(s, q, q + |d|);
    SliceAt(s, q, d);
  }

  /** A newline followed by `[` at index `q`: the only place an entry pattern after the first line can start. */
  predicate Boundary(s: string, q: nat)
  {
    q + 1 < |s| && s[q] == '\n' && s[q + 1] == '['
  }

  /** Inside a rendered entry no newline is followed by `[`. */
  lemma NoBoundaryInside(s: string, b: nat, l: Line)
    requires WellFormed(l) && IsAt(s, b, RenderLine(l))
    ensures forall q :: b <= q < b + |RenderLine(l)| - 1 ==> !Boundary(s, q)
  {
    var rl := RenderLine(l);
    forall q | b <= q < b + |rl| - 1
      ensures !Boundary(s, q)
    {
      assert s[b + (q - b)] == rl[q - b] && s[b + (q - b + 1)] == rl[q - b + 1];
      RenderLineNoInnerBoundary(l, q - b);
    }
  }

  /** Between the start of entry `k` and its last character no newline is followed by `[`. */
  lemma NoBoundaryInEntry(s: string, ls: seq<Line>, offs: seq<nat>, k: nat)
    requires Layout(s, ls, offs) && k < |ls|
    ensures offs[k] < offs[k + 1] <= |s|
    ensures forall q :: offs[k] <= q < offs[k + 1] - 1 ==> !Boundary(s, q)
  {
    LayoutAt(s, ls, offs, k);
    NoBoundaryInside(s, offs[k], ls[k]);
  }

  /** Entry `k` of `ls` is laid out in `s` from `offs[k]` up to `offs[k + 1]`, and the entries fill `s`. */
  predicate Layout(s: string, ls: seq<Line>, offs: seq<nat>)
  {
    |offs| == |ls| + 1 && offs[0] == 0 && offs[|ls|] == |s| && AllWellFormed(ls)
    && forall k :: 0 <= k < |ls| ==> LaidOut(s, ls, offs, k)
  }

  /** Entry `k` is rendered at `offs[k]` and the next one starts right after it. */
  predicate LaidOut(s: string, ls: seq<Line>, offs: seq<nat>, k: nat)
    requires |offs| == |ls| + 1 && k < |ls|
  {
    offs[k + 1] == offs[k] + |RenderLine(ls[k])| && IsAt(s, offs[k], RenderLine(ls[k]))
  }

  lemma LayoutAt(s: string, ls: seq<Line>, offs: seq<nat>, k: nat)
    requires Layout(s, ls, offs) && k < |ls|
    ensures WellFormed(ls[k]) && offs[k + 1] == offs[k] + |RenderLine(ls[k])| && IsAt(s, offs[k], RenderLine(ls[k]))
  {
    assert LaidOut(s, ls, offs, k);
  }

  function Shift(offs: seq<nat>, d: nat): (r: seq<nat>)
    ensures |r| == |offs| && forall i :: 0 <= i < |offs| ==> r[i] == offs[i] + d
  {
    seq(|offs|, i requires 0 <= i < |offs| => offs[i] + d)
  }

  /** Where each entry of a rendered file starts, and, last, the length of the file. */
  function Offsets(ls: seq<Line>): (offs: seq<nat>)
    ensures |offs| == |ls| + 1
  {
    if |ls| == 0 then [0] else [0] + Shift(Offsets(ls[1..]), |RenderLine(ls[0])|)
  }

  lemma IsAtShift(s: string, a: string, p: nat, x: string)
    requires IsAt(s, p, x)
    ensures IsAt(a + s, |a| + p, x)
  {
    forall k | 0 <= k < |x| ensures (a + s)[|a| + p + k] == x[k] {
      assert s[p + k] == x[k];
    }
  }

  lemma IsAtFront(a: string, s: string)
    ensures IsAt(a + s, 0, a)
  {
    forall k | 0 <= k < |a| ensures (a + s)[0 + k] == a[k] {
    }
  }

  /** An entry in front of a laid-out text: every later entry moves by the entry's length. */
  lemma LayoutCons(s: string, l: Line, ls: seq<Line>, offs: seq<nat>)
    requires WellFormed(l) && Layout(s, ls, offs)
    ensures Layout(RenderLine(l) + s, [l] + ls, [0] + Shift(offs, |RenderLine(l)|))
  {
    var rl := RenderLine(l);
    var ls', offs' := [l] + ls, [0] + Shift(offs, |rl|);
    forall k | 0 <= k < |ls'|
      ensures LaidOut(rl + s, ls', offs', k)
    {
      LayoutConsAt(s, l, ls, offs, k);
    }
    assert AllWellFormed(ls') by {
      forall k | 0 <= k < |ls'| ensures WellFormed(ls'[k]) {
        if k > 0 { assert ls'[k] == ls[k - 1]; }
      }
    }
  }

  lemma LayoutConsAt(s: string, l: Line, ls: seq<Line>, offs: seq<nat>, k: nat)
    requires Layout(s, ls, offs) && k <= |ls|
    ensures var rl, ls', offs' := RenderLine(l), [l] + ls, [0] + Shift(offs, |RenderLine(l)|);
      offs'[k + 1] == offs'[k] + |RenderLine(ls'[k])| && IsAt(rl + s, offs'[k], RenderLine(ls'[k]))
  {
    var rl := RenderLine(l);
    if k == 0 {
      IsAtFront(rl, s);
    } else {
      assert ([l] + ls)[k] == ls[k - 1];
      LayoutAt(s, ls, offs, k - 1);
      IsAtShift(s, rl, offs[k - 1], RenderLine(ls[k - 1]));
    }
  }

  /** A rendered file is laid out entry by entry at `Offsets`. */
  lemma {:induction false} RenderLayout(ls: seq<Line>)
    requires AllWellFormed(ls)
    ensures Layout(Render(ls), ls, Offsets(ls))
  {
    if |ls| > 0 {
      assert AllWellFormed(ls[1..]) by {
        forall k | 0 <= k < |ls[1..]| ensures WellFormed(ls[1..][k]) {
          assert ls[1..][k] == ls[k + 1];
        }
      }
      RenderLayout(ls[1..]);
      LayoutCons(Render(ls[1..]), ls[0], ls[1..], Offsets(ls[1..]));
      assert [ls[0]] + ls[1..] == ls;
    }
  }

  /** Entry `k` of a layout starts with `[` and ends with a newline, and what follows it is `[` or the end. */
  lemma LayoutLine(s: string, ls: seq<Line>, offs: seq<nat>, k: nat)
    requires Layout(s, ls, offs) && k < |ls|
    ensures offs[k] + 2 <= offs[k + 1] <= |s| && s[offs[k]] == '[' && s[offs[k + 1] - 1] == '\n'
    ensures offs[k + 1] == |s| || s[offs[k + 1]] == '['
  {
    var rl := RenderLine(ls[k]);
    LayoutAt(s, ls, offs, k);
    RenderLineShape(ls[k]);
    assert s[offs[k] + 0] == rl[0];
    assert s[offs[k] + (|rl| - 1)] == rl[|rl| - 1];
    if k + 1 < |ls| {
      var rn := RenderLine(ls[k + 1]);
      LayoutAt(s, ls, offs, k + 1);
      RenderLineShape(ls[k + 1]);
      assert s[offs[k + 1] + 0] == rn[0];
    }
  }
}

=== FILE: src/log_lines.dfy ===
/**
 * The shape of a BetterGI log file and the capture groups its entry
 * patterns produce.  A log entry is a header line
 * `[time] [level] text` optionally followed by one detail line that
 * contains no `[`.
 */
module LogLines {
  import opened Wrappers

  /** The four capture groups of one entry match: time, level, header text, detail line. */
  datatype Groups = Groups(time: string, level: string, header: string, extra: string)

  /**
   * One match of an entry pattern, as indices into the text: the `[` that
   * opens the time group, the ends of the four groups, and the index where
   * the scan resumes.
   */
  datatype Span = Span(open: nat, timeEnd: nat, levelEnd: nat, headerEnd: nat, extraEnd: nat, end: nat)

  /** `s[i..j]`, or "" when the indices do not delimit a slice. */
  function Sub(s: string, i: nat, j: nat): (r: string)
    ensures i <= j <= |s| ==> r == s[i..j]
  {
    if i <= j <= |s| then s[i..j] else ""
  }

  /** The four capture groups a span delimits. */
  function GroupsAt(s: string, m: Span): Groups
  {
    Groups(Sub(s, m.open + 1, m.timeEnd), Sub(s, m.timeEnd + 3, m.levelEnd), Sub(s, m.levelEnd + 2, m.headerEnd), Sub(s, m.headerEnd + 1, m.extraEnd))
  }

  /** The first index at or after `i` holding `c`, or `|s|`. */
  function NextIndex(s: string, i: nat, c: char): (r: nat)
    requires i <= |s|
    ensures i <= r <= |s|
    ensures r < |s| ==> s[r] == c
    decreases |s| - i
  {
    if i == |s| || s[i] == c then i else NextIndex(s, i + 1, c)
  }

  /** `NextIndex` is characterised by: `c` at the index (or the end), and no `c` before it. */
  lemma {:induction false} NextIndexIs(s: string, i: nat, c: char, j: nat)
    requires i <= j <= |s| && (j == |s| || s[j] == c)
    requires forall k :: i <= k < j ==> s[k] != c
    ensures NextIndex(s, i, c) == j
    decreases j - i
  {
    if i < j { NextIndexIs(s, i + 1, c, j); }
  }

  lemma {:induction false} NextIndexFirst(s: string, i: nat, c: char, k: nat)
    requires i <= |s| && i <= k < NextIndex(s, i, c)
    ensures s[k] != c
    decreases k - i
  {
    if i < k { NextIndexFirst(s, i + 1, c, k); }
  }

  /** The first index at or after `i` holding a newline or a `[`, or `|s|`. */
  function NextBreak(s: string, i: nat): (r: nat)
    requires i <= |s|
    ensures i <= r <= |s|
    ensures r < |s| ==> s[r] == '\n' || s[r] == '['
    decreases |s| - i
  {
    if i == |s| || s[i] == '\n' || s[i] == '[' then i else NextBreak(s, i + 1)
  }

  lemma {:induction false} NextBreakIs(s: string, i: nat, j: nat)
    requires i <= j <= |s| && (j == |s| || s[j] == '\n' || s[j] == '[')
    requires forall k :: i <= k < j ==> s[k] != '\n' && s[k] != '['
    ensures NextBreak(s, i) == j
    decreases j - i
  {
    if i < j { NextBreakIs(s, i + 1, j); }
  }

  /** One entry as written to the log file. */
  datatype Line = Line(time: string, level: string, header: string, detail: Option<string>)

  predicate NoChar(s: string, c: char)
  {
    forall k :: 0 <= k < |s| ==> s[k] != c
  }

  /** An entry that the writer can produce: single-line fields, non-empty where a pattern needs them. */
  predicate WellFormed(l: Line)
  {
    |l.time| > 0 && NoChar(l.time, ']') && NoChar(l.time, '\n')
    && |l.level| > 0 && NoChar(l.level, ']') && NoChar(l.level, '\n')
    && |l.header| > 0 && NoChar(l.header, '\n')
    && (l.detail.Some? ==> NoChar(l.detail.value, '\n') && NoChar(l.detail.value, '['))
  }

  predicate AllWellFormed(ls: seq<Line>)
  {
    forall k :: 0 <= k < |ls| ==> WellFormed(ls[k])
  }

  /** The header line without its newline. */
  function HeaderText(l: Line): string
  {
    "[" + l.time + "] [" + l.level + "] " + l.header
  }

  function DetailText(l: Line): string
  {
    match l.detail
    case None => ""
    case Some(d) => d + "\n"
  }

  function RenderLine(l: Line): string
  {
    HeaderText(l) + "\n" + DetailText(l)
  }

  /** A whole file: the entries one after another. */
  function Render(ls: seq<Line>): string
    decreases |ls|
  {
    if |ls| == 0 then "" else RenderLine(ls[0]) + Render(ls[1..])
  }

  /** The groups a pattern reports for a rendered entry (an absent detail line reads as ""). */
  function GroupsOf(l: Line): Groups
  {
    Groups(l.time, l.level, l.header, if l.detail.Some? then l.detail.value else "")
  }

  lemma {:induction false} RenderAppend(a: seq<Line>, b: seq<Line>)
    ensures Render(a + b) == Render(a) + Render(b)
    decreases |a|
  {
    if |a| > 0 {
      assert (a + b)[1..] == a[1..] + b;
      RenderAppend(a[1..], b);
    } else {
      assert a + b == b;
    }
  }

  /** The file is the entries before `k` followed by the entries from `k` on. */
  lemma {:induction false} RenderSplit(ls: seq<Line>, k: nat)
    requires k <= |ls|
    ensures Render(ls) == Render(ls[..k]) + Render(ls[k..])
  {
    var a, b := ls[..k], ls[k..];
    assert a + b == ls;
    RenderAppend(a, b);
  }

  lemma RenderCons(ls: seq<Line>, k: nat)
    requires k < |ls|
    ensures Render(ls[k..]) == RenderLine(ls[k]) + Render(ls[k + 1..])
  {
    assert ls[k..][1..] == ls[k + 1..];
  }

  /** A rendered entry starts with `[`, ends with a newline, and has only those newlines. */
  lemma RenderLineShape(l: Line)
    requires WellFormed(l)
    ensures var r := RenderLine(l); |r| >= 2 && r[0] == '[' && r[|r| - 1] == '\n'
    ensures var h := HeaderText(l); NoChar(h, '\n') && RenderLine(l)[|h|] == '\n'
    ensures var h := HeaderText(l); forall k :: |h| < k < |RenderLine(l)| - 1 ==> RenderLine(l)[k] != '\n' && RenderLine(l)[k] != '['
  {
    var h := HeaderText(l);
    assert h == "[" + l.time + "] [" + l.level + "] " + l.header;
    var r := RenderLine(l);
    assert forall k :: |h| < k < |r| - 1 ==> r[k] == l.detail.value[k - |h| - 1];
  }

  /** In a rendered file no newline is followed by `[` except at the end of an entry. */
  lemma RenderLineNoInnerBoundary(l: Line, i: nat)
    requires WellFormed(l) && i + 1 < |RenderLine(l)|
    ensures !(RenderLine(l)[i] == '\n' && RenderLine(l)[i + 1] == '[')
  {
    RenderLineShape(l);
  }
}

=== FILE: src/manager.dfy ===
/**
 * `LogDataManager` of release/app/infrastructure/manager.py: it finds the
 * BetterGI logs in the log directory, parses every past day the store
 * does not hold yet and stores those with pickups, then reads the store
 * back (today left out) and merges in today's log, which is parsed afresh
 * on every request and never stored.
 *
 * The directory is a parameter of each call (its listing and the contents
 * of its files as they are at that moment); the store is the
 * `DatabaseManager` the manager opened.
 */
module Manager {
  import opened Wrappers
  import opened Strings
  import opened FramedPattern
  import opened EntryScan
  import opened Tallies
  import opened Entities
  import opened Database

  const LogPrefix: string := "better-genshin-impact"
  const LogSuffix: string := ".log"

  /** A directory entry: a file whose text decodes, or one whose read raises. */
  datatype FileEntry = Readable(text: string) | Unreadable

  /** The log directory: the names `os.listdir` returns, in its order, and the files by name. */
  datatype Directory = Directory(listing: seq<string>, files: map<string, FileEntry>)

  /** The log file of a date. */
  function FileName(d: string): string
  {
    LogPrefix + d + LogSuffix
  }

  /** `f.replace('better-genshin-impact', '').replace('.log', '')`. */
  function DateOfName(f: string): string
  {
    RemoveAll(RemoveAll(f, LogPrefix), LogSuffix)
  }

  /** The dates of the listed names that start with the prefix, in listing order. */
  function FileDates(listing: seq<string>): (r: seq<string>)
    ensures |r| <= |listing|
    decreases |listing|
  {
    if |listing| == 0 then []
    else
      var init, f := listing[..|listing| - 1], listing[|listing| - 1];
      FileDates(init) + (if LogPrefix <= f then [DateOfName(f)] else [])
  }

  /** Removing a text whose first character does not occur changes nothing. */
  lemma {:induction false} RemoveAbsentStart(s: string, pat: string)
    requires |pat| > 0 && pat[0] !in s
    ensures RemoveAll(s, pat) == s
    decreases |s|
  {
    if |s| > 0 {
      assert s[0] != pat[0];
      RemoveAbsentStart(s[1..], pat);
      assert s == [s[0]] + s[1..];
    }
  }

  /** Removing `.log` from digits followed by `.log` leaves the digits. */
  lemma {:induction false} RemoveSuffixOfDigits(d: string)
    requires AllDigits(d)
    ensures RemoveAll(d + LogSuffix, LogSuffix) == d
    decreases |d|
  {
    var s := d + LogSuffix;
    if |d| == 0 {
      assert s[|LogSuffix|..] == [];
    } else {
      assert s[0] == d[0] && !(LogSuffix <= s);
      assert s[1..] == d[1..] + LogSuffix;
      RemoveSuffixOfDigits(d[1..]);
      assert d == [d[0]] + d[1..];
    }
  }

  /** A date made of digits is read back from its file name. */
  lemma DateOfFileName(d: string)
    requires AllDigits(d)
    ensures DateOfName(FileName(d)) == d
  {
    var rest := d + LogSuffix;
    assert FileName(d) == LogPrefix + rest;
    assert LogPrefix <= FileName(d) && FileName(d)[|LogPrefix|..] == rest;
    assert LogPrefix[0] !in rest by {
      assert forall k :: 0 <= k < |d| ==> rest[k] == d[k];
    }
    RemoveAbsentStart(rest, LogPrefix);
    RemoveSuffixOfDigits(d);
  }

  /** Every listed log file of a digit date contributes that date. */
  lemma {:induction false} FileDatesListed(listing: seq<string>, d: string)
    requires AllDigits(d) && FileName(d) in listing
    ensures d in FileDates(listing)
    decreases |listing|
  {
    var init, f := listing[..|listing| - 1], listing[|listing| - 1];
    assert listing == init + [f];
    if f == FileName(d) {
      DateOfFileName(d);
      assert LogPrefix <= f;
    } else {
      FileDatesListed(init, d);
    }
  }

  /** Every date found comes from a listed name that starts with the prefix. */
  lemma {:induction false} FileDatesFrom(listing: seq<string>, d: string)
    requires d in FileDates(listing)
    ensures exists f :: f in listing && LogPrefix <= f && DateOfName(f) == d
    decreases |listing|
  {
    var init, f := listing[..|listing| - 1], listing[|listing| - 1];
    if d in FileDates(init) {
      FileDatesFrom(init, d);
      var g :| g in init && LogPrefix <= g && DateOfName(g) == d;
      assert g in listing;
    } else {
      assert f in listing;
    }
  }

  /** `files_to_process`: the dates neither stored nor today, in order. */
  function Pending(dates: seq<string>, stored: seq<string>, today: string): (r: seq<string>)
    ensures forall x :: x in r <==> x in dates && x !in stored && x != today
    decreases |dates|
  {
    if |dates| == 0 then []
    else
      var init, d := dates[..|dates| - 1], dates[|dates| - 1];
      assert dates == init + [d];
      Pending(init, stored, today) + (if d !in stored && d != today then [d] else [])
  }

  /** Only the members of the stored list matter, not its order. */
  lemma {:induction false} PendingMembers(dates: seq<string>, s1: seq<string>, s2: seq<string>, today: string)
    requires forall x :: x in s1 <==> x in s2
    ensures Pending(dates, s1, today) == Pending(dates, s2, today)
    decreases |dates|
  {
    if |dates| > 0 {
      PendingMembers(dates[..|dates| - 1], s1, s2, today);
    }
  }

  /** The loop that builds `files_to_process`. */
  method FilesToProcess(dates: seq<string>, stored: seq<string>, today: string) returns (r: seq<string>)
    ensures r == Pending(dates, stored, today)
  {
    r := [];
    var i := 0;
    while i < |dates|
      invariant 0 <= i <= |dates|
      invariant r == Pending(dates[..i], stored, today)
    {
      var d := dates[i];
      if d !in stored && d != today {
        r := r + [d];
      }
      assert dates[..i + 1][..i] == dates[..i];
      i := i + 1;
    }
    assert dates[..i] == dates;
  }

  /** What a parse yields, and the dedup list it leaves behind. */
  datatype ReadOut = ReadOut(result: Option<LogAnalysisResult>, cache: seq<string>)

  /** The entries a log's text yields, as the walk sees them. */
  function Entries(reader: Reader, text: string): seq<Entry>
  {
    Views(reader, Tokens(text))
  }

  /** `parse_log`: the walk over the entries; an `IndexError` becomes no result. */
  function Parse(reader: Reader, text: string, date: string, cache: seq<string>): ReadOut
  {
    match Scan(date, Entries(reader, text), Start(cache))
    case Raised(c) => ReadOut(None, c)
    case Done(st) => ReadOut(Some(Analysis(st)), st.cache)
  }

  /** `read_log_file`: a missing or unreadable file gives no result and leaves the dedup list alone. */
  function ReadLog(reader: Reader, dir: Directory, name: string, date: string, cache: seq<string>): ReadOut
  {
    if name in dir.files && dir.files[name].Readable? then Parse(reader, dir.files[name].text, date, cache)
    else ReadOut(None, cache)
  }

  /**
   * What a parse promises: it fails exactly when some kept pickup lacks the
   * colon, the dedup list only grows and stays duplicate-free; a result
   * counts every kept pickup once under keys free of the forbidden words
   * (so the later removal changes nothing), lasts the active time of the
   * kept timestamps, and records one item, of this date and counted, per
   * new dedup key.
   */
  lemma ParseSpec(reader: Reader, text: string, date: string, cache: seq<string>)
    requires Distinct(cache)
    ensures var es := Entries(reader, text);
      var o := Parse(reader, text, date, cache);
      && (o.result.None? <==> exists k :: 0 <= k < |es| && BadPickup(es[k]))
      && cache <= o.cache && Distinct(o.cache)
      && (o.result.Some? ==>
            var r := o.result.value;
            && CountsSound(r.itemCount) && DropForbidden(r.itemCount) == r.itemCount
            && Total(r.itemCount) == Pickups(es)
            && r.duration == Segments.Duration(KeptTimes(es))
            && |o.cache| == |cache| + |r.items|
            && forall k :: 0 <= k < |r.items| ==> r.items[k].date == date && r.items[k].name in Keys(r.itemCount))
  {
    var es := Entries(reader, text);
    StartSound(date, cache);
    ScanRaisesIff(date, es, Start(cache));
    ScanSound(date, es, Start(cache), cache);
    ScanTotal(date, es, Start(cache));
    ScanTimes(date, es, Start(cache));
    var o := Scan(date, es, Start(cache));
    if o.Done? {
      DropForbiddenKeeps(date, cache, o.run);
    }
  }

  /** Whether a parse succeeds, and the counts it yields, do not depend on the dedup list. */
  lemma ReadLogCacheFree(reader: Reader, dir: Directory, name: string, date: string, cache: seq<string>)
    ensures ReadLog(reader, dir, name, date, cache).result.Some? <==> ReadLog(reader, dir, name, date, []).result.Some?
    ensures ReadLog(reader, dir, name, date, cache).result.Some? ==>
      ReadLog(reader, dir, name, date, cache).result.value.itemCount == ReadLog(reader, dir, name, date, []).result.value.itemCount
  {
    if name in dir.files && dir.files[name].Readable? {
      ScanCounts(date, Entries(reader, dir.files[name].text), Start(cache), Start([]));
    }
  }

  /** A read only appends to the dedup list. */
  lemma ReadLogGrows(reader: Reader, dir: Directory, name: string, date: string, cache: seq<string>)
    ensures cache <= ReadLog(reader, dir, name, date, cache).cache
  {
    if name in dir.files && dir.files[name].Readable? {
      ScanGrows(date, Entries(reader, dir.files[name].text), Start(cache));
    }
  }

  /**
   * The same log read again under a dedup list that holds every key the
   * first read left: the same outcome, counts and duration, no item
   * recorded, and the dedup list unchanged.
   */
  lemma ReadLogRepeat(reader: Reader, dir: Directory, name: string, date: string, c1: seq<string>, c2: seq<string>)
    requires forall x :: x in ReadLog(reader, dir, name, date, c1).cache ==> x in c2
    ensures var o1, o2 := ReadLog(reader, dir, name, date, c1), ReadLog(reader, dir, name, date, c2);
      && o2.cache == c2 && (o1.result.Some? <==> o2.result.Some?)
      && (o1.result.Some? ==> o2.result.value == o1.result.value.(items := []))
  {
    if name in dir.files && dir.files[name].Readable? {
      ScanRepeat(date, Entries(reader, dir.files[name].text), Start(c1), Start(c2));
    }
  }

  /** A result worth storing: some count is left after the forbidden keys are removed. */
  predicate Worth(r: LogAnalysisResult)
  {
    |DropForbidden(r.itemCount)| > 0
  }

  /** The `item_list` handed to `insert_log_file_data`. */
  function ToStored(items: seq<ItemInfo>): (r: seq<StoredItem>)
    ensures |r| == |items|
    ensures forall k :: 0 <= k < |items| ==> r[k] == StoredItem(items[k].name, items[k].timestamp, items[k].configGroup)
  {
    seq(|items|, k requires 0 <= k < |items| => StoredItem(items[k].name, items[k].timestamp, items[k].configGroup))
  }

  /** The store's log tables and the dedup list during the historical pass. */
  datatype Pass = Pass(tables: Tables, cache: seq<string>)

  /**
   * The historical pass over the dates `ds`, in order: each day's log is
   * read under the dedup list so far and stored when worth it, unless the
   * store fails.
   */
  function Ingest(dir: Directory, ds: seq<string>, p: Pass, failing: bool): Pass
    decreases |ds|
  {
    if |ds| == 0 then p
    else IngestDay(dir, ds[|ds| - 1], Ingest(dir, ds[..|ds| - 1], p, failing), failing)
  }

  /** One day of the pass: parsed on the running dedup list, and stored when the store works and the day is worth it. */
  function IngestDay(dir: Directory, d: string, q: Pass, failing: bool): Pass
  {
    var o := ReadLog(HeaderAndExtra, dir, FileName(d), d, q.cache);
    if !failing && o.result.Some? && Worth(o.result.value) then
      Pass(Insert(q.tables, d, o.result.value.duration, ToStored(o.result.value.items)), o.cache)
    else Pass(q.tables, o.cache)
  }

  lemma IngestPrefix(dir: Directory, ds: seq<string>, i: nat, p: Pass, failing: bool)
    requires i < |ds|
    ensures Ingest(dir, ds[..i + 1], p, failing) == IngestDay(dir, ds[i], Ingest(dir, ds[..i], p, failing), failing)
  {
    assert ds[..i + 1][..i] == ds[..i];
  }

  /** A day the pass stores, judged on a fresh dedup list. */
  predicate Committable(dir: Directory, d: string)
  {
    var o := ReadLog(HeaderAndExtra, dir, FileName(d), d, []);
    o.result.Some? && Worth(o.result.value)
  }

  /** An insert adds its date and keeps every other date. */
  lemma InsertDates(t: Tables, d: string, duration: int, its: seq<StoredItem>, e: string)
    ensures e in Dates(Insert(t, d, duration, its).logFiles) <==> e == d || e in Dates(t.logFiles)
  {
    InsertRow(t, d, duration, its);
    var r := Insert(t, d, duration, its).logFiles;
    if e == d {
      assert Dates(r)[|r| - 1] == d;
    } else {
      if e in Dates(r) {
        var i :| 0 <= i < |r| && Dates(r)[i] == e;
        assert r[i] in r;
        var j :| 0 <= j < |t.logFiles| && t.logFiles[j] == r[i];
        assert Dates(t.logFiles)[j] == e;
      }
      if e in Dates(t.logFiles) {
        var j :| 0 <= j < |t.logFiles| && Dates(t.logFiles)[j] == e;
        assert t.logFiles[j] in t.logFiles;
        var i :| 0 <= i < |r| && r[i] == t.logFiles[j];
        assert Dates(r)[i] == e;
      }
    }
  }

  /**
   * After the pass the store holds a date exactly when it held it before
   * or the date was in the pass and its log is worth storing (whatever
   * dedup list it was read under); dates stay unique.
   */
  lemma {:induction false} IngestDates(dir: Directory, ds: seq<string>, p: Pass, failing: bool, e: string)
    ensures e in Dates(Ingest(dir, ds, p, failing).tables.logFiles) <==>
      e in Dates(p.tables.logFiles) || (!failing && e in ds && Committable(dir, e))
    ensures UniqueDates(p.tables.logFiles) ==> UniqueDates(Ingest(dir, ds, p, failing).tables.logFiles)
    decreases |ds|
  {
    if |ds| > 0 {
      var init, d := ds[..|ds| - 1], ds[|ds| - 1];
      assert ds == init + [d];
      IngestDates(dir, init, p, failing, e);
      var q := Ingest(dir, init, p, failing);
      ReadLogCacheFree(HeaderAndExtra, dir, FileName(d), d, q.cache);
      var o := ReadLog(HeaderAndExtra, dir, FileName(d), d, q.cache);
      if !failing && o.result.Some? && Worth(o.result.value) {
        InsertDates(q.tables, d, o.result.value.duration, ToStored(o.result.value.items), e);
        InsertRow(q.tables, d, o.result.value.duration, ToStored(o.result.value.items));
      }
    }
  }

  /** The pass `_get_historical_data` makes: over the listed dates neither stored nor today. */
  function History(dir: Directory, t: Tables, cache: seq<string>, failing: bool, today: string): Pass
  {
    var stored := if failing then [] else Dates(t.logFiles);
    Ingest(dir, Pending(FileDates(dir.listing), stored, today), Pass(t, cache), failing)
  }

  /**
   * After the pass a listed date is stored exactly when it was already, or
   * it is not today and its log is worth storing; today's stored state
   * never changes; so the next pass has exactly the unworthy days left.
   */
  lemma HistoryDates(dir: Directory, t: Tables, cache: seq<string>, failing: bool, today: string, e: string)
    ensures e in Dates(History(dir, t, cache, failing, today).tables.logFiles) <==>
      e in Dates(t.logFiles) || (!failing && e in FileDates(dir.listing) && e != today && Committable(dir, e))
    ensures e == today ==> (e in Dates(History(dir, t, cache, failing, today).tables.logFiles) <==> e in Dates(t.logFiles))
    ensures !failing ==> (e in Pending(FileDates(dir.listing), Dates(History(dir, t, cache, failing, today).tables.logFiles), today) <==>
      e in Pending(FileDates(dir.listing), Dates(t.logFiles), today) && !Committable(dir, e))
  {
    var stored := if failing then [] else Dates(t.logFiles);
    IngestDates(dir, Pending(FileDates(dir.listing), stored, today), Pass(t, cache), failing, e);
  }

  /** A pass over days none of which the store would take leaves the tables alone. */
  lemma {:induction false} IngestNoInsert(dir: Directory, ds: seq<string>, p: Pass, failing: bool)
    requires forall d :: d in ds ==> failing || !Committable(dir, d)
    ensures Ingest(dir, ds, p, failing).tables == p.tables
    decreases |ds|
  {
    if |ds| > 0 {
      var init, d := ds[..|ds| - 1], ds[|ds| - 1];
      assert forall x :: x in init ==> x in ds;
      IngestNoInsert(dir, init, p, failing);
      var q := Ingest(dir, init, p, failing);
      assert failing || !Committable(dir, d) by { assert d in ds; }
      ReadLogCacheFree(HeaderAndExtra, dir, FileName(d), d, q.cache);
      assert IngestDay(dir, d, q, failing).tables == q.tables;
    }
  }

  /**
   * A second pass, under any dedup list, changes nothing: every day the
   * first pass left out is one the store does not take.
   */
  lemma HistoryTwice(dir: Directory, t: Tables, c1: seq<string>, c2: seq<string>, failing: bool, today: string)
    ensures var h := History(dir, t, c1, failing, today).tables;
      History(dir, h, c2, failing, today).tables == h
  {
    var h := History(dir, t, c1, failing, today).tables;
    var pending := Pending(FileDates(dir.listing), if failing then [] else Dates(h.logFiles), today);
    forall d | d in pending ensures failing || !Committable(dir, d) {
      HistoryDates(dir, t, c1, failing, today, d);
    }
    IngestNoInsert(dir, pending, Pass(h, c2), failing);
  }

  /** What `_get_today_data` returns. */
  datatype Today = Today(duration: int, items: seq<ItemInfo>)

  /** Today's log parsed on an empty dedup list: its duration and items when worth it, else nothing. */
  function TodayData(dir: Directory, today: string): Today
  {
    var o := ReadLog(HeaderAndExtra, dir, FileName(today), today, []);
    if FileName(today) in dir.files && o.result.Some? && Worth(o.result.value) then
      Today(o.result.value.duration, o.result.value.items)
    else Today(0, [])
  }

  /**
   * Today's data is either nothing or a worthy parse of today's log: each
   * item dated today and counted, and, the dedup list starting empty, one
   * item per distinct dedup key.
   */
  lemma TodayDataSpec(dir: Directory, today: string)
    ensures var td := TodayData(dir, today);
      var o := ReadLog(HeaderAndExtra, dir, FileName(today), today, []);
      && (td != Today(0, []) ==> o.result.Some? && Worth(o.result.value) && td.items == o.result.value.items)
      && (forall k :: 0 <= k < |td.items| ==> td.items[k].date == today)
      && |td.items| <= |o.cache|
  {
    var name := FileName(today);
    if name in dir.files && dir.files[name].Readable? {
      ParseSpec(HeaderAndExtra, dir.files[name].text, today, []);
    }
  }

  /** `d[k] = v` on the `{date: duration}` dict: an existing key keeps its place, a new one goes last. */
  function SetDuration(data: seq<DayDuration>, k: string, v: int): seq<DayDuration>
    decreases |data|
  {
    if |data| == 0 then [DayDuration(k, v)]
    else if data[0].date == k then [DayDuration(k, v)] + data[1..]
    else [data[0]] + SetDuration(data[1..], k, v)
  }

  /** After `d[k] = v` the key holds `v` and every other key its old value. */
  lemma {:induction false} SetDurationAt(data: seq<DayDuration>, k: string, v: int, e: string)
    ensures DurationAt(SetDuration(data, k, v), e) == if e == k then v else DurationAt(data, e)
    decreases |data|
  {
    if |data| > 0 && data[0].date != k {
      SetDurationAt(data[1..], k, v, e);
    }
  }

  /** After `d[k] = v` the keys are those before plus `k`. */
  lemma {:induction false} SetDurationHas(data: seq<DayDuration>, k: string, v: int, e: string)
    ensures e in DayDates(SetDuration(data, k, v)) <==> e == k || e in DayDates(data)
    decreases |data|
  {
    var r := SetDuration(data, k, v);
    InDayDates(r, e);
    if |data| > 0 {
      InDayDates(data, e);
      if data[0].date == k {
        assert r[1..] == data[1..];
      } else {
        SetDurationHas(data[1..], k, v, e);
        assert r[1..] == SetDuration(data[1..], k, v);
      }
    } else {
      assert r[1..] == [];
    }
  }

  /** A date is among the keys when it is the first key or among the rest. */
  lemma InDayDates(ds: seq<DayDuration>, e: string)
    requires |ds| > 0
    ensures e in DayDates(ds) <==> e == ds[0].date || e in DayDates(ds[1..])
  {
    var all, rest := DayDates(ds), DayDates(ds[1..]);
    if e in all {
      var i :| 0 <= i < |all| && all[i] == e;
      if i > 0 {
        assert rest[i - 1] == e;
      }
    }
    if e in rest {
      var i :| 0 <= i < |rest| && rest[i] == e;
      assert all[i + 1] == e;
    }
  }

  /** `d[k] = v` keeps the keys each once. */
  lemma {:induction false} SetDurationDistinct(data: seq<DayDuration>, k: string, v: int)
    requires Distinct(DayDates(data))
    ensures Distinct(DayDates(SetDuration(data, k, v)))
    decreases |data|
  {
    var r := SetDuration(data, k, v);
    if |data| > 0 {
      DistinctRest(data);
      InDayDates(data, data[0].date);
      if data[0].date == k {
        assert r[1..] == data[1..];
      } else {
        SetDurationDistinct(data[1..], k, v);
        SetDurationHas(data[1..], k, v, data[0].date);
        assert r[1..] == SetDuration(data[1..], k, v);
      }
      DistinctCons(r);
    }
  }

  /** Keys without repeats: the first key is not among the rest, and the rest have no repeats. */
  lemma DistinctRest(ds: seq<DayDuration>)
    requires |ds| > 0 && Distinct(DayDates(ds))
    ensures Distinct(DayDates(ds[1..])) && ds[0].date !in DayDates(ds[1..])
  {
    var all, rest := DayDates(ds), DayDates(ds[1..]);
    forall i, j | 0 <= i < j < |rest| ensures rest[i] != rest[j] {
      assert all[i + 1] == rest[i] && all[j + 1] == rest[j];
    }
    assert forall i :: 0 <= i < |rest| ==> rest[i] == all[i + 1];
  }

  /** The converse: a first key not among the rest, followed by keys without repeats. */
  lemma DistinctCons(ds: seq<DayDuration>)
    requires |ds| > 0 && Distinct(DayDates(ds[1..])) && ds[0].date !in DayDates(ds[1..])
    ensures Distinct(DayDates(ds))
  {
    var all, rest := DayDates(ds), DayDates(ds[1..]);
    forall i, j | 0 <= i < j < |all| ensures all[i] != all[j] {
      assert all[j] == rest[j - 1];
      if i > 0 {
        assert all[i] == rest[i - 1];
      }
    }
  }

  /** The insertion loop: each of today's items in turn goes to the front of the four lists. */
  function PrependItems(f: Flat, items: seq<ItemInfo>): Flat
    decreases |items|
  {
    if |items| == 0 then f
    else
      var g := PrependItems(f, items[..|items| - 1]);
      var it := items[|items| - 1];
      Flat([it.name] + g.names, [it.timestamp] + g.times, [it.date] + g.dates, [GroupText(it.configGroup)] + g.groups)
  }

  /** The four columns of a list of items, the group shown as `config_group or ''`. */
  function Columns(items: seq<ItemInfo>): (f: Flat)
    ensures |f.names| == |items| && |f.times| == |items| && |f.dates| == |items| && |f.groups| == |items|
    ensures forall k :: 0 <= k < |items| ==>
      f.names[k] == items[k].name && f.times[k] == items[k].timestamp && f.dates[k] == items[k].date
      && f.groups[k] == GroupText(items[k].configGroup)
  {
    Flat(seq(|items|, k requires 0 <= k < |items| => items[k].name),
         seq(|items|, k requires 0 <= k < |items| => items[k].timestamp),
         seq(|items|, k requires 0 <= k < |items| => items[k].date),
         seq(|items|, k requires 0 <= k < |items| => GroupText(items[k].configGroup)))
  }

  /** The reversal of a list ends with its reversed front and starts with its last element. */
  lemma ReverseLast<T>(s: seq<T>)
    requires |s| > 0
    ensures Reverse(s) == [s[|s| - 1]] + Reverse(s[..|s| - 1])
  {
  }

  /** One of the four lists: names, times, dates or groups. */
  function Col(f: Flat, which: nat): seq<string>
  {
    if which == 0 then f.names else if which == 1 then f.times else if which == 2 then f.dates else f.groups
  }

  lemma {:induction false} PrependCol(f: Flat, items: seq<ItemInfo>, which: nat)
    ensures Col(PrependItems(f, items), which) == Reverse(Col(Columns(items), which)) + Col(f, which)
    decreases |items|
  {
    if |items| > 0 {
      var init := items[..|items| - 1];
      PrependCol(f, init, which);
      var c := Col(Columns(items), which);
      var x := c[|items| - 1];
      assert c[..|items| - 1] == Col(Columns(init), which);
      assert Col(PrependItems(f, items), which) == [x] + Col(PrependItems(f, init), which);
      ReverseLast(c);
      assert [x] + (Reverse(c[..|items| - 1]) + Col(f, which)) == ([x] + Reverse(c[..|items| - 1])) + Col(f, which);
    }
  }

  /**
   * Inserting at index 0 one item after another leaves today's items
   * first, in reverse order, each with its group or `''`, followed by the
   * history unchanged.
   */
  lemma PrependItemsSpec(f: Flat, items: seq<ItemInfo>)
    ensures var c := Columns(items);
      PrependItems(f, items) == Flat(Reverse(c.names) + f.names, Reverse(c.times) + f.times,
                                     Reverse(c.dates) + f.dates, Reverse(c.groups) + f.groups)
  {
    PrependCol(f, items, 0);
    PrependCol(f, items, 1);
    PrependCol(f, items, 2);
    PrependCol(f, items, 3);
  }

  /** The loop of `get_log_list` that inserts today's items, one by one, at the front of the four lists. */
  method PrependEach(f: Flat, items: seq<ItemInfo>) returns (g: Flat)
    ensures g == PrependItems(f, items)
  {
    g := f;
    var i := 0;
    while i < |items|
      invariant 0 <= i <= |items|
      invariant g == PrependItems(f, items[..i])
    {
      var it := items[i];
      g := Flat([it.name] + g.names, [it.timestamp] + g.times, [it.date] + g.dates, [GroupText(it.configGroup)] + g.groups);
      assert items[..i + 1][..i] == items[..i];
      i := i + 1;
    }
    assert items[..i] == items;
  }

  /** The durations dict and the four item lists `get_log_list` keeps. */
  datatype Listing = Listing(durations: seq<DayDuration>, items: Flat)

  /** The history flattened in the dict's order, then today's data merged in when it has both time and items. */
  function Merge(history: seq<DayDuration>, grouped: seq<DayItems>, today: string, td: Today): Listing
  {
    var unified := Flatten(grouped, GroupDates(grouped));
    if td.duration > 0 && |td.items| > 0 then Listing(SetDuration(history, today, td.duration), PrependItems(unified, td.items))
    else Listing(history, unified)
  }

  /** The merge step of `get_log_list`: flatten the history, then put today's time and items in. */
  method MergeToday(history: seq<DayDuration>, grouped: seq<DayItems>, today: string, td: Today) returns (l: Listing)
    ensures l == Merge(history, grouped, today, td)
  {
    var unified := FlattenDates(grouped, GroupDates(grouped));
    var dict := history;
    if td.duration > 0 && |td.items| > 0 {
      dict := SetDuration(dict, today, td.duration);
      unified := PrependEach(unified, td.items);
    }
    l := Listing(dict, unified);
  }

  /** `sorted(date_duration_dict.keys(), reverse=True)`. */
  function LogList(l: Listing): seq<string>
  {
    SortDesc(DayDates(l.durations))
  }

  /**
   * The merged listing shows today exactly when the history did or today
   * has both time and items, and then with today's time; every other date
   * keeps its historical time; the log list is the dates, newest first,
   * each once when the history's dates were distinct.
   */
  lemma MergeSpec(history: seq<DayDuration>, grouped: seq<DayItems>, today: string, td: Today)
    ensures var l := Merge(history, grouped, today, td);
      && (today in DayDates(l.durations) <==> today in DayDates(history) || (td.duration > 0 && |td.items| > 0))
      && (td.duration > 0 && |td.items| > 0 ==> DurationAt(l.durations, today) == td.duration)
      && (forall e :: e != today ==> DurationAt(l.durations, e) == DurationAt(history, e))
      && (forall e :: e != today ==> (e in DayDates(l.durations) <==> e in DayDates(history)))
      && Descending(LogList(l)) && multiset(LogList(l)) == multiset(DayDates(l.durations))
      && (Distinct(DayDates(history)) ==> Distinct(LogList(l)))
  {
    var l := Merge(history, grouped, today, td);
    forall e ensures e in DayDates(SetDuration(history, today, td.duration)) <==> e == today || e in DayDates(history) {
      SetDurationHas(history, today, td.duration, e);
    }
    if Distinct(DayDates(history)) {
      SetDurationDistinct(history, today, td.duration);
    }
    forall e ensures DurationAt(SetDuration(history, today, td.duration), e) == if e == today then td.duration else DurationAt(history, e) {
      SetDurationAt(history, today, td.duration, e);
    }
    if Distinct(DayDates(history)) {
      SortDescDistinct(DayDates(l.durations));
    }
  }

  /** `[d[date] for date in dates]`. */
  function DurationsAlong(data: seq<DayDuration>, dates: seq<string>): (r: seq<int>)
    ensures |r| == |dates| && forall k :: 0 <= k < |dates| ==> r[k] == DurationAt(data, dates[k])
  {
    seq(|dates|, k requires 0 <= k < |dates| => DurationAt(data, dates[k]))
  }

  /**
   * The listing `get_log_list` leaves: the historical pass over the store's
   * tables, the stored history read back (nothing when the store fails),
   * and today's log merged in.
   */
  function Refresh(dir: Directory, t: Tables, cache: seq<string>, failing: bool, today: string, storeToday: string): Listing
  {
    var h := History(dir, t, cache, failing, today).tables;
    var history := if failing then [] else DurationsOf(h.logFiles, true, storeToday);
    var grouped := if failing then [] else Grouped(ItemsShown(h.items, true, storeToday));
    Merge(history, grouped, today, TodayData(dir, today))
  }

  /**
   * Refreshing again over the tables the first refresh left, whatever the
   * dedup list, gives the same listing: the second pass stores nothing
   * and today is read afresh.
   */
  lemma RefreshTwice(dir: Directory, t: Tables, c1: seq<string>, c2: seq<string>, failing: bool, today: string, storeToday: string)
    ensures Refresh(dir, History(dir, t, c1, failing, today).tables, c2, failing, today, storeToday) == Refresh(dir, t, c1, failing, today, storeToday)
  {
    HistoryTwice(dir, t, c1, c2, failing, today);
  }

  /**
   * The manager: the dedup list of pickups, the two dicts `get_log_list`
   * fills, the cached log list (`None` before the first call), the date of
   * today fixed when it was made, and its store.
   */
  class LogDataManager {
    var itemCachedList: seq<string>
    var itemData: Flat
    var durationData: seq<DayDuration>
    var logList: Option<seq<string>>
    const today: string
    const db: DatabaseManager

    predicate Valid()
      reads this, db
    {
      db.Valid()
    }

    /** A manager over a store holding the given log tables. */
    constructor (today: string, t: Tables)
      requires UniqueDates(t.logFiles)
      ensures Valid() && fresh(db) && db.Logs() == t && !db.failing
      ensures this.today == today && itemCachedList == [] && logList.None?
      ensures itemData == Flat([], [], [], []) && durationData == []
    {
      this.today := today;
      itemCachedList := [];
      itemData := Flat([], [], [], []);
      durationData := [];
      logList := None;
      db := new DatabaseManager(t);
    }

    /** `parse_log` on the text of a log of `date`; `None` stands for the `IndexError` it lets escape. */
    method ParseLog(content: string, date: string) returns (r: Option<LogAnalysisResult>)
      modifies this
      ensures ReadOut(r, itemCachedList) == Parse(HeaderAndExtra, content, date, old(itemCachedList))
      ensures itemData == old(itemData) && durationData == old(durationData) && logList == old(logList)
    {
      var o := ScanEntries(HeaderAndExtra, date, Tokens(content), itemCachedList);
      match o
      case Raised(c) =>
        itemCachedList := c;
        r := None;
      case Done(st) =>
        itemCachedList := st.cache;
        r := Some(Analysis(st));
    }

    /** `read_log_file`: no result for a missing or unreadable file, or a failed parse. */
    method ReadLogFile(dir: Directory, name: string, date: string) returns (r: Option<LogAnalysisResult>)
      modifies this
      ensures ReadOut(r, itemCachedList) == ReadLog(HeaderAndExtra, dir, name, date, old(itemCachedList))
      ensures itemData == old(itemData) && durationData == old(durationData) && logList == old(logList)
    {
      if name !in dir.files || dir.files[name].Unreadable? {
        return None;
      }
      r := ParseLog(dir.files[name].text, date);
    }

    /**
     * `_get_historical_data`: parses and stores the listed days the store
     * lacks (the manager's today excepted), then reads back the durations
     * and the grouped items of every day but the store's today, the date
     * the store reads from its own clock at query time.
     */
    method GetHistoricalData(dir: Directory, storeToday: string) returns (durations: seq<DayDuration>, grouped: seq<DayItems>)
      requires Valid()
      modifies this, db
      ensures Valid() && db.failing == old(db.failing) && db.posts == old(db.posts)
      ensures Pass(db.Logs(), itemCachedList) == History(dir, old(db.Logs()), old(itemCachedList), db.failing, today)
      ensures durations == if db.failing then [] else DurationsOf(db.logFiles, true, storeToday)
      ensures grouped == if db.failing then [] else Grouped(ItemsShown(db.items, true, storeToday))
      ensures itemData == old(itemData) && durationData == old(durationData) && logList == old(logList)
    {
      var dates := FileDates(dir.listing);
      var stored := db.GetStoredDates();
      if !db.failing {
        forall x ensures x in stored <==> x in Dates(db.logFiles) {
          assert x in stored <==> x in multiset(stored);
          assert x in Dates(db.logFiles) <==> x in multiset(Dates(db.logFiles));
        }
      }
      PendingMembers(dates, stored, if db.failing then [] else Dates(db.logFiles), today);
      var pending := FilesToProcess(dates, stored, today);
      IngestAll(dir, pending);
      durations := db.GetDurationData(true, storeToday);
      grouped := db.GetItemData(true, storeToday);
    }

    /** The file loop of `_get_historical_data`: each pending day parsed and, when worth it, stored. */
    method IngestAll(dir: Directory, pending: seq<string>)
      requires Valid()
      modifies this, db
      ensures Valid() && db.failing == old(db.failing) && db.posts == old(db.posts)
      ensures Pass(db.Logs(), itemCachedList) == Ingest(dir, pending, old(Pass(db.Logs(), itemCachedList)), db.failing)
      ensures itemData == old(itemData) && durationData == old(durationData) && logList == old(logList)
    {
      ghost var start := Pass(db.Logs(), itemCachedList);
      var i := 0;
      while i < |pending|
        invariant 0 <= i <= |pending|
        invariant db.Valid() && db.failing == old(db.failing) && db.posts == old(db.posts)
        invariant Pass(db.Logs(), itemCachedList) == Ingest(dir, pending[..i], start, db.failing)
        invariant itemData == old(itemData) && durationData == old(durationData) && logList == old(logList)
      {
        IngestOne(dir, pending[i]);
        IngestPrefix(dir, pending, i, start, db.failing);
        i := i + 1;
      }
      assert pending[..i] == pending;
    }

    /** One pending day: read on the running dedup list, stored when the result is worth it. */
    method IngestOne(dir: Directory, d: string)
      requires Valid()
      modifies this, db
      ensures Valid() && db.failing == old(db.failing) && db.posts == old(db.posts)
      ensures Pass(db.Logs(), itemCachedList) == IngestDay(dir, d, old(Pass(db.Logs(), itemCachedList)), db.failing)
      ensures itemData == old(itemData) && durationData == old(durationData) && logList == old(logList)
    {
      var result := ReadLogFile(dir, FileName(d), d);
      if result.Some? && |DropForbidden(result.value.itemCount)| > 0 {
        var _ := db.InsertLogFileData(d, result.value.duration, ToStored(result.value.items));
      }
    }

    /** `_get_today_data`: clears the dedup list, then reads today's log afresh. */
    method GetTodayData(dir: Directory) returns (td: Today)
      modifies this
      ensures td == TodayData(dir, today)
      ensures itemCachedList == ReadLog(HeaderAndExtra, dir, FileName(today), today, []).cache
      ensures itemData == old(itemData) && durationData == old(durationData) && logList == old(logList)
    {
      itemCachedList := [];
      var name := FileName(today);
      if name !in dir.files {
        return Today(0, []);
      }
      var result := ReadLogFile(dir, name, today);
      if result.None? {
        return Today(0, []);
      }
      if |DropForbidden(result.value.itemCount)| > 0 {
        td := Today(result.value.duration, result.value.items);
      } else {
        td := Today(0, []);
      }
    }

    /**
     * `get_log_list`: the historical pass, the history flattened in the
     * order the store grouped it, today merged in front, and the dates
     * newest first; the dicts and the list are kept on the manager.
     */
    method GetLogList(dir: Directory, storeToday: string) returns (r: seq<string>)
      requires Valid()
      modifies this, db
      ensures Valid() && db.failing == old(db.failing) && db.posts == old(db.posts)
      ensures db.Logs() == History(dir, old(db.Logs()), old(itemCachedList), db.failing, today).tables
      ensures itemCachedList == ReadLog(HeaderAndExtra, dir, FileName(today), today, []).cache
      ensures var history := if db.failing then [] else DurationsOf(db.logFiles, true, storeToday);
        var grouped := if db.failing then [] else Grouped(ItemsShown(db.items, true, storeToday));
        Listing(durationData, itemData) == Merge(history, grouped, today, TodayData(dir, today))
      ensures Listing(durationData, itemData) == Refresh(dir, old(db.Logs()), old(itemCachedList), db.failing, today, storeToday)
      ensures r == LogList(Listing(durationData, itemData)) && logList == Some(r)
    {
      var durations, grouped := GetHistoricalData(dir, storeToday);
      var td := GetTodayData(dir);
      var merged := MergeToday(durations, grouped, today, td);
      durationData := merged.durations;
      itemData := merged.items;
      r := SortDesc(DayDates(merged.durations));
      logList := Some(r);
    }

    /** `get_duration_data`: a fresh log list, then the durations along it. */
    method GetDurationData(dir: Directory, storeToday: string) returns (dates: seq<string>, durations: seq<int>)
      requires Valid()
      modifies this, db
      ensures Valid() && db.failing == old(db.failing) && db.posts == old(db.posts) && logList == Some(dates)
      ensures db.Logs() == History(dir, old(db.Logs()), old(itemCachedList), db.failing, today).tables
      ensures Listing(durationData, itemData) == Refresh(dir, old(db.Logs()), old(itemCachedList), db.failing, today, storeToday)
      ensures |durations| == |dates| && forall k :: 0 <= k < |dates| ==> durations[k] == DurationAt(durationData, dates[k])
      ensures dates == LogList(Listing(durationData, itemData))
    {
      var _ := GetLogList(dir, storeToday);
      dates := SortDesc(DayDates(durationData));
      durations := DurationsAlong(durationData, dates);
    }

    /** `get_item_data`: a fresh log list, then the item lists it left. */
    method GetItemData(dir: Directory, storeToday: string) returns (f: Flat)
      requires Valid()
      modifies this, db
      ensures Valid() && db.failing == old(db.failing) && db.posts == old(db.posts) && f == itemData && logList.Some?
      ensures db.Logs() == History(dir, old(db.Logs()), old(itemCachedList), db.failing, today).tables
      ensures Listing(durationData, itemData) == Refresh(dir, old(db.Logs()), old(itemCachedList), db.failing, today, storeToday)
      ensures logList.value == LogList(Listing(durationData, itemData))
    {
      var _ := GetLogList(dir, storeToday);
      f := itemData;
    }
  }
}

=== FILE: src/open_pattern.dfy ===
/**
 * The entry pattern of the single-file parsers (mini/app.py,
 * release/log_parser.py, server/app.py and server/analyse.py):
 *
 *   `\[([^]]+)\] \[([^]]+)\] ([^\n]+)\n?([^\n[]*)`
 *
 * written out as the single result Python's backtracking matcher settles
 * on.  Unlike the manager's patterns it needs nothing before the `[` and
 * nothing after the detail group, so `findall` reports every entry of a
 * well-formed file.
 */
module OpenPattern {
  import opened Wrappers
  import opened LogLines
  import opened Layouts
  import opened FramedPattern

  /**
   * The pattern tried at index `p`.  The time and level groups run to the
   * first `]`, the header to the end of its line; an optional newline and
   * the following run of characters other than newline and `[` make the
   * detail group, which is empty when the header ends the text.
   */
  function OpenAt(s: string, p: nat): (r: Option<Span>)
    ensures r.Some? ==> r.value.open == p && p < r.value.end <= |s| && s[p] == '['
  {
    if p >= |s| || s[p] != '[' then None
    else OpenAfterTime(s, p, NextIndex(s, p + 1, ']'))
  }

  /** The time group ran to index `j1`; `] [` must follow. */
  function OpenAfterTime(s: string, p: nat, j1: nat): (r: Option<Span>)
    requires p < j1 <= |s|
    ensures r.Some? ==> r.value.open == p && p < r.value.end <= |s|
  {
    if j1 == p + 1 || j1 + 3 > |s| || s[j1] != ']' || s[j1 + 1] != ' ' || s[j1 + 2] != '[' then None
    else OpenAfterLevel(s, p, j1, NextIndex(s, j1 + 3, ']'))
  }

  /** The level group ran to index `j2`; `] ` must follow. */
  function OpenAfterLevel(s: string, p: nat, j1: nat, j2: nat): (r: Option<Span>)
    requires p < j1 && j1 + 3 <= j2 <= |s|
    ensures r.Some? ==> r.value.open == p && p < r.value.end <= |s|
  {
    if j2 == j1 + 3 || j2 + 2 > |s| || s[j2] != ']' || s[j2 + 1] != ' ' then None
    else OpenAfterHeader(s, p, j1, j2, NextIndex(s, j2 + 2, '\n'))
  }

  /** The header ran to index `j3` (a newline or the end of the text) and must not be empty. */
  function OpenAfterHeader(s: string, p: nat, j1: nat, j2: nat, j3: nat): (r: Option<Span>)
    requires p < j1 && j1 + 3 < j2 && j2 + 2 <= j3 <= |s|
    ensures r.Some? ==> r.value.open == p && p < r.value.end <= |s|
  {
    if j3 == j2 + 2 then None
    else if j3 == |s| then Some(Span(p, j1, j2, j3, j3, j3))
    else
      var e := NextBreak(s, j3 + 1);
      Some(Span(p, j1, j2, j3, e, e))
  }

  /** `re.findall(log_pattern, s)` from index `pos`: leftmost matches, each search resuming where the last one ended. */
  function FindAllOpen(s: string, pos: nat): seq<Span>
    decreases |s| - pos
  {
    if pos >= |s| then []
    else
      match OpenAt(s, pos)
      case Some(m) => [m] + FindAllOpen(s, m.end)
      case None => FindAllOpen(s, pos + 1)
  }

  /** The entries a single-file parser walks. */
  function OpenTokens(s: string): (gs: seq<Groups>)
    ensures |gs| == |FindAllOpen(s, 0)|
  {
    GroupsOfSpans(s, FindAllOpen(s, 0))
  }

  /** Every reported match is a match of the pattern where it starts; matches come in order and do not overlap. */
  lemma {:induction false} FindAllOpenSound(s: string, pos: nat)
    ensures forall i :: 0 <= i < |FindAllOpen(s, pos)| ==>
      pos <= FindAllOpen(s, pos)[i].open && OpenAt(s, FindAllOpen(s, pos)[i].open) == Some(FindAllOpen(s, pos)[i])
    ensures forall i :: 0 <= i < |FindAllOpen(s, pos)| - 1 ==> FindAllOpen(s, pos)[i].end <= FindAllOpen(s, pos)[i + 1].open
    decreases |s| - pos
  {
    if pos < |s| {
      if OpenAt(s, pos).Some? {
        var m := OpenAt(s, pos).value;
        FindAllOpenSound(s, m.end);
        assert FindAllOpen(s, pos) == [m] + FindAllOpen(s, m.end);
      } else {
        FindAllOpenSound(s, pos + 1);
        assert FindAllOpen(s, pos) == FindAllOpen(s, pos + 1);
      }
    }
  }

  /** The match of an entry rendered at `p`: it ends after the detail text, before that line's newline. */
  function OpenSpanOf(p: nat, l: Line): Span
  {
    var j3 := HeaderEnd(p, l);
    match l.detail
    case None => Span(p, TimeEnd(p, l), LevelEnd(p, l), j3, j3 + 1, j3 + 1)
    case Some(d) => Span(p, TimeEnd(p, l), LevelEnd(p, l), j3, j3 + 1 + |d|, j3 + 1 + |d|)
  }

  lemma OpenAtIndices(s: string, p: nat, j1: nat, j2: nat, j3: nat)
    requires p + 1 < j1 && j1 + 3 < j2 && j2 + 2 < j3 < |s|
    requires NextIndex(s, p + 1, ']') == j1 && NextIndex(s, j1 + 3, ']') == j2 && NextIndex(s, j2 + 2, '\n') == j3
    requires s[p] == '[' && s[j1] == ']' && s[j1 + 1] == ' ' && s[j1 + 2] == '[' && s[j2] == ']' && s[j2 + 1] == ' '
    ensures OpenAt(s, p) == OpenAfterHeader(s, p, j1, j2, j3)
  {
    assert OpenAt(s, p) == OpenAfterTime(s, p, j1);
    assert OpenAfterTime(s, p, j1) == OpenAfterLevel(s, p, j1, j2);
  }

  /** A rendered entry followed by another entry (or by the end of the text) is matched where it starts. */
  lemma OpenAtLine(s: string, p: nat, l: Line)
    requires WellFormed(l) && IsAt(s, p, RenderLine(l))
    requires var e := p + |RenderLine(l)|; e == |s| || s[e] == '['
    ensures OpenAt(s, p) == Some(OpenSpanOf(p, l))
  {
    RenderedLine(s, p, l);
    HeaderMatched(s, p, l);
    var j3 := HeaderEnd(p, l);
    OpenAtIndices(s, p, TimeEnd(p, l), LevelEnd(p, l), j3);
    match l.detail
    case None =>
      NextBreakIs(s, j3 + 1, j3 + 1);
    case Some(d) =>
      RenderedDetail(s, p, l);
      DetailEnd(s, j3 + 1, d);
  }

  /** The groups of that match are the entry's fields. */
  lemma OpenGroupsOfLine(s: string, p: nat, l: Line)
    requires IsAt(s, p, RenderLine(l))
    ensures GroupsAt(s, OpenSpanOf(p, l)) == GroupsOf(l)
  {
    GroupsOfLine(s, p, l);
    assert GroupsAt(s, OpenSpanOf(p, l)) == GroupsAt(s, SpanOf(p, l));
  }

  /** The matches of the entries from `k` on. */
  function LineSpans(ls: seq<Line>, offs: seq<nat>, k: nat): seq<Span>
    requires |offs| == |ls| + 1
    decreases |ls| - k
  {
    if k < |ls| then [OpenSpanOf(offs[k], ls[k])] + LineSpans(ls, offs, k + 1) else []
  }

  /** At the start of entry `k` the scan reports that entry and resumes at the start of entry `k + 1`. */
  lemma OpenStep(s: string, ls: seq<Line>, offs: seq<nat>, k: nat)
    requires Layout(s, ls, offs) && k < |ls|
    ensures FindAllOpen(s, offs[k]) == [OpenSpanOf(offs[k], ls[k])] + FindAllOpen(s, offs[k + 1])
  {
    LayoutLine(s, ls, offs, k);
    LayoutAt(s, ls, offs, k);
    OpenStepAt(s, offs[k], ls[k], offs[k + 1]);
  }

  /**
   * An entry rendered at `p`, ending with its newline and followed at `e`
   * by another entry (or the end), is reported, and the scan resumes at `e`.
   */
  lemma OpenStepAt(s: string, p: nat, l: Line, e: nat)
    requires WellFormed(l) && IsAt(s, p, RenderLine(l)) && e == p + |RenderLine(l)|
    requires 0 < e && s[e - 1] == '\n' && (e == |s| || s[e] == '[')
    ensures FindAllOpen(s, p) == [OpenSpanOf(p, l)] + FindAllOpen(s, e)
  {
    OpenAtLine(s, p, l);
    var m := OpenSpanOf(p, l);
    assert FindAllOpen(s, p) == [m] + FindAllOpen(s, m.end);
    RenderedLine(s, p, l);
    if l.detail.Some? {
      assert m.end + 1 == e;
      assert OpenAt(s, m.end).None?;
      assert FindAllOpen(s, m.end) == FindAllOpen(s, e);
    } else {
      assert m.end == e;
    }
  }

  /** From the start of entry `k`, `findall` reports entry `k`, then every later entry. */
  lemma {:induction false} FindAllOpenLaidOut(s: string, ls: seq<Line>, offs: seq<nat>, k: nat)
    requires Layout(s, ls, offs) && k <= |ls|
    ensures FindAllOpen(s, offs[k]) == LineSpans(ls, offs, k)
    decreases |ls| - k
  {
    if k < |ls| {
      OpenStep(s, ls, offs, k);
      FindAllOpenLaidOut(s, ls, offs, k + 1);
    }
  }

  /** The groups of every entry, in order. */
  function AllGroups(ls: seq<Line>): (gs: seq<Groups>)
    ensures |gs| == |ls| && forall k :: 0 <= k < |ls| ==> gs[k] == GroupsOf(ls[k])
  {
    seq(|ls|, k requires 0 <= k < |ls| => GroupsOf(ls[k]))
  }

  /** The `i`-th match from entry `k` on is that of entry `k + i`. */
  lemma {:induction false} LineSpansAt(ls: seq<Line>, offs: seq<nat>, k: nat)
    requires |offs| == |ls| + 1 && k <= |ls|
    ensures |LineSpans(ls, offs, k)| == |ls| - k
    ensures forall i :: 0 <= i < |ls| - k ==> LineSpans(ls, offs, k)[i] == OpenSpanOf(offs[k + i], ls[k + i])
    decreases |ls| - k
  {
    if k < |ls| {
      LineSpansAt(ls, offs, k + 1);
      var sp, rest := LineSpans(ls, offs, k), LineSpans(ls, offs, k + 1);
      assert sp == [OpenSpanOf(offs[k], ls[k])] + rest;
      assert forall i :: 0 < i < |sp| ==> sp[i] == rest[i - 1];
    }
  }

  /** The groups of the matches of a laid-out file are the entries' fields. */
  lemma LineGroups(s: string, ls: seq<Line>, offs: seq<nat>)
    requires Layout(s, ls, offs)
    ensures GroupsOfSpans(s, LineSpans(ls, offs, 0)) == AllGroups(ls)
  {
    LineSpansAt(ls, offs, 0);
    GroupsOfSpansAt(s, LineSpans(ls, offs, 0));
    var gs := GroupsOfSpans(s, LineSpans(ls, offs, 0));
    forall i | 0 <= i < |ls|
      ensures gs[i] == AllGroups(ls)[i]
    {
      LayoutAt(s, ls, offs, i);
      OpenGroupsOfLine(s, offs[i], ls[i]);
    }
  }

  /** A well-formed file is tokenized entry by entry: nothing is skipped and nothing is merged. */
  lemma OpenTokensOfRendered(ls: seq<Line>)
    requires AllWellFormed(ls)
    ensures OpenTokens(Render(ls)) == AllGroups(ls)
  {
    var s, offs := Render(ls), Offsets(ls);
    RenderLayout(ls);
    FindAllOpenLaidOut(s, ls, offs, 0);
    LineGroups(s, ls, offs);
  }

  /** The three entries the manager's patterns reduce to two are all seen here. */
  lemma ThirdEntryKept(a: Line, b: Line, c: Line)
    requires WellFormed(a) && WellFormed(b) && WellFormed(c)
    ensures OpenTokens(Render([a, b, c])) == [GroupsOf(a), GroupsOf(b), GroupsOf(c)]
  {
    OpenTokensOfRendered([a, b, c]);
  }
}

=== FILE: src/preview_modes.dfy ===
/**
 * The preview modes of app/api/preview.py: the four mode names, the
 * check that a name is one of them, the three categories a mode falls
 * into, and the check that a mode can be shown in a browser.
 */
module PreviewModes {
  import opened Wrappers

  const NoneMode := "none"
  const SunshineMode := "sunshine"
  const WebRtcMode := "web-rtc"
  const LlHlsMode := "ll-hls"

  /** `PreviewMode.choices()`: the values in declaration order. */
  const Choices: seq<string> := [NoneMode, SunshineMode, WebRtcMode, LlHlsMode]

  const DefaultMode := NoneMode
  const BrowserModes: set<string> := {WebRtcMode, LlHlsMode}
  const ExternalClientModes: set<string> := {SunshineMode}
  const SupportedModes: set<string> := set m | m in Choices

  const UnsupportedPrefix := "不支持的预览模式: "

  /** A value, or one of the two exceptions the helpers raise. */
  datatype Checked<T> =
    | Value(value: T)
    | ValueError(message: string)
    | PreviewModeError(message: string, previewMode: string)

  /** `normalize_preview_mode`. */
  function Normalize(mode: string): Checked<string>
  {
    if mode !in SupportedModes then ValueError(UnsupportedPrefix + mode) else Value(mode)
  }

  /** A known mode comes back as it is; anything else raises `ValueError` naming it. */
  lemma NormalizeSpec(mode: string)
    ensures Normalize(mode).Value? <==> mode == NoneMode || mode == SunshineMode || mode == WebRtcMode || mode == LlHlsMode
    ensures Normalize(mode).Value? ==> Normalize(mode).value == mode
    ensures Normalize(mode).ValueError? ==> Normalize(mode).message == UnsupportedPrefix + mode
    ensures !Normalize(mode).PreviewModeError?
  {
    assert mode in SupportedModes <==> mode in Choices;
  }

  /** Membership of the normalised mode in a set, or the `ValueError` of the normalisation. */
  function NormalizedIn(mode: string, modes: set<string>): Checked<bool>
  {
    match Normalize(mode)
    case Value(m) => Value(m in modes)
    case ValueError(e) => ValueError(e)
    case PreviewModeError(e, p) => PreviewModeError(e, p)
  }

  /** `preview_mode_supports_browser`. */
  function SupportsBrowser(mode: string): Checked<bool>
  {
    NormalizedIn(mode, BrowserModes)
  }

  /** `preview_mode_requires_external_client`. */
  function RequiresExternalClient(mode: string): Checked<bool>
  {
    NormalizedIn(mode, ExternalClientModes)
  }

  /** `preview_mode_is_disabled`. */
  function IsDisabled(mode: string): Checked<bool>
  {
    NormalizedIn(mode, {NoneMode})
  }

  /**
   * For a known mode the three categories answer, each names exactly its
   * modes, and exactly one of them holds; an unknown mode makes all three
   * raise.
   */
  lemma CategoriesSpec(mode: string)
    ensures mode in SupportedModes ==>
      && SupportsBrowser(mode) == Value(mode == WebRtcMode || mode == LlHlsMode)
      && RequiresExternalClient(mode) == Value(mode == SunshineMode)
      && IsDisabled(mode) == Value(mode == NoneMode)
      && (if SupportsBrowser(mode).value then 1 else 0)
         + (if RequiresExternalClient(mode).value then 1 else 0)
         + (if IsDisabled(mode).value then 1 else 0) == 1
    ensures mode !in SupportedModes ==>
      && SupportsBrowser(mode) == ValueError(UnsupportedPrefix + mode)
      && RequiresExternalClient(mode) == ValueError(UnsupportedPrefix + mode)
      && IsDisabled(mode) == ValueError(UnsupportedPrefix + mode)
  {
    assert mode in SupportedModes <==> mode in Choices;
  }

  /**
   * `ensure_browser_capable_mode`: the canonical mode when it is allowed
   * (by default: the browser modes); a known mode that is not allowed
   * raises `PreviewModeError` carrying it.
   */
  function EnsureBrowserCapable(mode: string, allow: Option<set<string>>): Checked<string>
  {
    match Normalize(mode)
    case Value(canonical) =>
      var allowed := if allow.Some? then allow.value else BrowserModes;
      if canonical !in allowed then PreviewModeError(UnsupportedPrefix + canonical, canonical)
      else Value(canonical)
    case ValueError(e) => ValueError(e)
    case PreviewModeError(e, p) => PreviewModeError(e, p)
  }

  /**
   * The unknown-mode check comes first whatever is allowed; a known mode
   * passes exactly when allowed and otherwise is carried by the error;
   * with the default, exactly the modes the browser supports pass.
   */
  lemma EnsureBrowserCapableSpec(mode: string, allow: Option<set<string>>)
    ensures mode !in SupportedModes ==> EnsureBrowserCapable(mode, allow) == ValueError(UnsupportedPrefix + mode)
    ensures mode in SupportedModes ==>
      var allowed := if allow.Some? then allow.value else BrowserModes;
      && (EnsureBrowserCapable(mode, allow).Value? <==> mode in allowed)
      && (EnsureBrowserCapable(mode, allow).Value? ==> EnsureBrowserCapable(mode, allow).value == mode)
      && (EnsureBrowserCapable(mode, allow).PreviewModeError? ==> EnsureBrowserCapable(mode, allow).previewMode == mode)
      && !EnsureBrowserCapable(mode, allow).ValueError?
    ensures EnsureBrowserCapable(mode, None).Value? <==> SupportsBrowser(mode) == Value(true)
  {
  }
}

=== FILE: src/py_int.dfy ===
/**
 * Python's `int(text)` for base-10 text, as used throughout the log
 * readers: surrounding whitespace is ignored, one optional sign, then
 * ASCII digits with single underscores allowed between digits.
 */
module PyInt {
  import opened Wrappers
  import opened Strings

  predicate IsDigit(c: char)
  {
    '0' <= c <= '9'
  }

  /** A digit run with single `_` separators: `digit ("_"? digit)*`. */
  predicate DigitPart(s: string)
    decreases |s|
  {
    |s| > 0 && IsDigit(s[0])
    && (|s| == 1 || (if s[1] == '_' then |s| > 2 && DigitPart(s[2..]) else DigitPart(s[1..])))
  }

  function DropUnderscores(s: string): (r: string)
    ensures forall k :: 0 <= k < |r| ==> r[k] != '_' && r[k] in s
    ensures '_' !in s ==> r == s
    decreases |s|
  {
    if |s| == 0 then ""
    else if s[0] == '_' then DropUnderscores(s[1..])
    else [s[0]] + DropUnderscores(s[1..])
  }

  lemma {:induction false} DigitPartDigits(s: string)
    requires DigitPart(s)
    ensures AllDigits(DropUnderscores(s))
    decreases |s|
  {
    if |s| > 1 {
      if s[1] == '_' {
        DigitPartDigits(s[2..]);
        assert DropUnderscores(s) == [s[0]] + DropUnderscores(s[2..]) by {
          assert DropUnderscores(s[1..]) == DropUnderscores(s[2..]) by { assert s[1..][1..] == s[2..]; }
        }
      } else {
        DigitPartDigits(s[1..]);
      }
    }
  }

  /** `int(text)`; `None` where Python raises `ValueError`. */
  function ParseInt(text: string): (r: Option<int>)
  {
    var t := Strip(text);
    if |t| == 0 then None
    else
      var signed := t[0] == '-' || t[0] == '+';
      match ParseUnsigned(if signed then t[1..] else t)
      case None => None
      case Some(v) => Some(if t[0] == '-' then -(v as int) else v)
  }

  /** The unsigned part: digits with single underscores, read in base 10. */
  function ParseUnsigned(body: string): (r: Option<nat>)
    ensures r.Some? <==> DigitPart(body)
  {
    if !DigitPart(body) then None
    else
      DigitPartDigits(body);
      Some(DigitsValue(DropUnderscores(body)))
  }

  lemma {:induction false} AllDigitsPart(s: string)
    requires |s| > 0 && AllDigits(s)
    ensures DigitPart(s)
    decreases |s|
  {
    if |s| > 1 {
      AllDigitsPart(s[1..]);
    }
  }

  lemma UnsignedDigits(s: string)
    requires |s| > 0 && AllDigits(s)
    ensures ParseUnsigned(s) == Some(DigitsValue(s))
  {
    AllDigitsPart(s);
    assert '_' !in s by {
      forall k | 0 <= k < |s| ensures s[k] != '_' { }
    }
  }

  /** A plain run of ASCII digits reads as its decimal value. */
  lemma ParseDigits(s: string)
    requires |s| > 0 && AllDigits(s)
    ensures ParseInt(s) == Some(DigitsValue(s))
  {
    DigitNotSpace(s[0]);
    DigitNotSpace(s[|s| - 1]);
    assert Strip(s) == s;
    UnsignedDigits(s);
  }

  /** A minus sign and a run of ASCII digits reads as the negated value. */
  lemma ParseNegativeDigits(d: string)
    requires |d| > 0 && AllDigits(d)
    ensures ParseInt("-" + d) == Some(-(DigitsValue(d) as int))
  {
    var t := "-" + d;
    assert t[|t| - 1] == d[|d| - 1];
    DigitNotSpace(d[|d| - 1]);
    assert Strip(t) == t;
    ParseSigned(t, d);
  }

  lemma ParseSigned(t: string, d: string)
    requires |d| > 0 && AllDigits(d) && t == "-" + d && Strip(t) == t
    ensures ParseInt(t) == Some(-(DigitsValue(d) as int))
  {
    assert t[1..] == d;
    UnsignedDigits(d);
  }

  /** `int(str(n)) == n`. */
  lemma ParseIntOfString(n: int)
    ensures ParseInt(IntToString(n)) == Some(n)
  {
    if n >= 0 {
      assert IntToString(n) == NatToString(n);
      ParseNatString(n);
    } else {
      assert IntToString(n) == "-" + NatToString(-n);
      ParseNegativeString(-n);
    }
  }

  lemma ParseNatString(n: nat)
    ensures ParseInt(NatToString(n)) == Some(n)
  {
    ParseDigits(NatToString(n));
    NatToStringValue(n);
  }

  lemma ParseNegativeString(n: nat)
    requires n > 0
    ensures ParseInt("-" + NatToString(n)) == Some(-(n as int))
  {
    ParseNegativeDigits(NatToString(n));
    NatToStringValue(n);
  }

  /** Empty or blank text is rejected, and so is a sign with no digits. */
  lemma ParseIntRejects(text: string)
    requires Strip(text) == "" || Strip(text) == "-" || Strip(text) == "+"
    ensures ParseInt(text).None?
  {
  }
}

=== FILE: src/segments.dfy ===
/**
 * The activity segmentation of the log-data managers
 * (release/app/infrastructure/manager.py and db.py): consecutive kept
 * entries less than five minutes apart belong to one segment, and the
 * active duration is the sum over segments of `int(end - start)`.
 * Times are integer milliseconds since midnight.
 */
module Segments {
  import opened Wrappers

  /** Five minutes, the largest gap that keeps a segment open. */
  const Gap: int := 300000

  datatype Segment = Segment(start: int, end: int)

  /** `time_segments`, `current_start` and `last_time` of the parse loop. */
  datatype Tracker = Tracker(closed: seq<Segment>, start: Option<int>, last: Option<int>)

  const Fresh: Tracker := Tracker([], None, None)

  /** One kept entry at time `t`: first event, a gap of more than five minutes, or a continuation. */
  function Tick(g: Tracker, t: int): (r: Tracker)
    ensures r.last == Some(t)
    ensures g.start.Some? || g.last.None? ==> r.start.Some?
  {
    if g.last.None? then Tracker(g.closed, Some(t), Some(t))
    else if t - g.last.value > Gap then
      Tracker(g.closed + (if g.start.Some? then [Segment(g.start.value, g.last.value)] else []), Some(t), Some(t))
    else Tracker(g.closed, g.start, Some(t))
  }

  /** The segment bookkeeping of the parse loop for one kept entry, on the loop's own variables. */
  method Advance(segments: seq<Segment>, currentStart: Option<int>, lastTime: Option<int>, t: int)
    returns (segments': seq<Segment>, currentStart': Option<int>, lastTime': Option<int>)
    ensures Tracker(segments', currentStart', lastTime') == Tick(Tracker(segments, currentStart, lastTime), t)
  {
    segments', currentStart' := segments, currentStart;
    if lastTime.None? {
      currentStart' := Some(t);
    } else if t - lastTime.value > Gap {
      if currentStart.Some? {
        segments' := segments + [Segment(currentStart.value, lastTime.value)];
      }
      currentStart' := Some(t);
    }
    lastTime' := Some(t);
  }

  /** The entries' times fed to the tracker one after another. */
  function Ticks(g: Tracker, ts: seq<int>): Tracker
    decreases |ts|
  {
    if |ts| == 0 then g else Ticks(Tick(g, ts[0]), ts[1..])
  }

  /** The segments after the loop: the open one is closed at the last time. */
  function Close(g: Tracker): seq<Segment>
  {
    g.closed + (if g.start.Some? && g.last.Some? then [Segment(g.start.value, g.last.value)] else [])
  }

  /** `int(x)` of a seconds value given in milliseconds: truncation toward zero. */
  function TruncSeconds(ms: int): int
  {
    if ms >= 0 then ms / 1000 else -((-ms) / 1000)
  }

  /** `sum(int(end - start) for start, end in time_segments)`. */
  function SumSeconds(segs: seq<Segment>): int
    decreases |segs|
  {
    if |segs| == 0 then 0 else SumSeconds(segs[..|segs| - 1]) + TruncSeconds(segs[|segs| - 1].end - segs[|segs| - 1].start)
  }

  /** The active duration, in whole seconds, of entries at times `ts`. */
  function Duration(ts: seq<int>): int
  {
    SumSeconds(Close(Ticks(Fresh, ts)))
  }

  /** A segment is closed exactly when a kept entry comes more than five minutes after the previous one. */
  lemma TickCloses(g: Tracker, t: int)
    requires g.last.Some? ==> g.start.Some?
    ensures |Tick(g, t).closed| > |g.closed| <==> g.last.Some? && t - g.last.value > Gap
    ensures Tick(g, t).closed[..|g.closed|] == g.closed
  {
  }

  predicate NonDecreasing(ts: seq<int>)
  {
    forall i, j :: 0 <= i < j < |ts| ==> ts[i] <= ts[j]
  }

  function SumLength(segs: seq<Segment>): int
    decreases |segs|
  {
    if |segs| == 0 then 0 else SumLength(segs[..|segs| - 1]) + (segs[|segs| - 1].end - segs[|segs| - 1].start)
  }

  predicate Forward(segs: seq<Segment>)
  {
    forall k :: 0 <= k < |segs| ==> segs[k].start <= segs[k].end
  }

  /** What the tracker keeps while times do not go backwards, measured from the first time. */
  predicate Spanned(g: Tracker, first: int)
  {
    g.start.Some? && g.last.Some? && first <= g.start.value <= g.last.value
    && Forward(g.closed) && SumLength(g.closed) <= g.start.value - first
  }

  lemma SumLengthAppend(segs: seq<Segment>, s: Segment)
    ensures SumLength(segs + [s]) == SumLength(segs) + (s.end - s.start)
  {
    assert (segs + [s])[..|segs|] == segs;
  }

  lemma {:induction false} TicksSpanned(g: Tracker, first: int, ts: seq<int>)
    requires Spanned(g, first) && NonDecreasing(ts) && (|ts| > 0 ==> g.last.value <= ts[0])
    ensures Spanned(Ticks(g, ts), first)
    ensures |ts| > 0 ==> Ticks(g, ts).last == Some(ts[|ts| - 1])
    ensures |ts| == 0 ==> Ticks(g, ts) == g
    decreases |ts|
  {
    if |ts| > 0 {
      var h := Tick(g, ts[0]);
      if ts[0] - g.last.value > Gap {
        var s := Segment(g.start.value, g.last.value);
        SumLengthAppend(g.closed, s);
        assert h.closed == g.closed + [s];
      }
      assert Spanned(h, first);
      TicksSpanned(h, first, ts[1..]);
    }
  }

  /** Whole seconds never exceed the milliseconds they truncate, for a sum of non-negative lengths. */
  lemma {:induction false} SumSecondsBound(segs: seq<Segment>)
    requires Forward(segs)
    ensures 0 <= SumSeconds(segs) && SumSeconds(segs) * 1000 <= SumLength(segs)
    decreases |segs|
  {
    if |segs| > 0 {
      SumSecondsBound(segs[..|segs| - 1]);
    }
  }

  /**
   * For times that never go backwards, the duration lies between zero and
   * the span from the first to the last kept entry.
   */
  lemma DurationBounds(ts: seq<int>)
    requires |ts| > 0 && NonDecreasing(ts)
    ensures 0 <= Duration(ts) && Duration(ts) * 1000 <= ts[|ts| - 1] - ts[0]
  {
    var g := Tick(Fresh, ts[0]);
    assert Ticks(Fresh, ts) == Ticks(g, ts[1..]);
    TicksSpanned(g, ts[0], ts[1..]);
    var e := Ticks(g, ts[1..]);
    assert e.last == Some(ts[|ts| - 1]);
    var segs := Close(e);
    var last := Segment(e.start.value, e.last.value);
    assert segs == e.closed + [last];
    SumLengthAppend(e.closed, last);
    SumSecondsBound(segs);
  }

  /** A clock that goes back yields a negative segment: 10 s then 5 s give -5 s. */
  lemma BackwardClock()
    ensures Duration([10000, 5000]) == -5
  {
    assert Ticks(Fresh, [10000, 5000]) == Tracker([], Some(10000), Some(5000)) by {
      assert [10000, 5000][1..] == [5000];
      assert [5000][1..] == [];
    }
    var segs := [Segment(10000, 5000)];
    assert Close(Tracker([], Some(10000), Some(5000))) == segs;
    assert segs[..0] == [];
    assert SumSeconds(segs) == TruncSeconds(-5000) == -5;
  }
}

=== FILE: src/server_analyse.dfy ===
/**
 * The counting-only parser of server/analyse.py.  It walks the same
 * open-pattern matches as server/app.py, counts every match by its class
 * name and every pickup by item, and reads no time at all.
 */
module ServerAnalyse {
  import opened Wrappers
  import opened Strings
  import opened LogLines
  import opened OpenPattern
  import opened Tallies
  import EntryScan
  import Manager
  import opened ServerApp

  /** The two dictionaries the loop fills. */
  datatype Counters = Counters(typeCount: seq<Count>, itemCount: seq<Count>)

  const NoCounts: Counters := Counters([], [])

  /** The answer of `parse_log`. */
  datatype Analysis = Analysis(typeCount: seq<Count>, itemCount: seq<Count>, interactionCount: int, itemList: seq<string>)

  /**
   * One match: the class name is counted; a detail text naming a pickup
   * counts its item, and raises when it has no `：`.  Only the class name,
   * the branch and the item name of the view are read, never its time.
   */
  function CountStep(e: Sight, c: Counters): Option<Counters>
  {
    var typeCount := Inc(c.typeCount, e.header);
    if e.kind != PickupLine then Some(Counters(typeCount, c.itemCount))
    else if e.item.None? then None
    else Some(Counters(typeCount, Inc(c.itemCount, e.item.value)))
  }

  function CountScan(es: seq<Sight>, c: Counters): Option<Counters>
    decreases |es|
  {
    if |es| == 0 then Some(c)
    else
      match CountStep(es[0], c)
      case None => None
      case Some(c') => CountScan(es[1..], c')
  }

  /** `parse_log`: `None` where it raises; `interaction_count` is the sum of the item counts, `item_list` their keys. */
  function Analyse(content: string): Option<Analysis>
  {
    match CountScan(Sights(OpenTokens(content)), NoCounts)
    case None => None
    case Some(c) => Some(Analysis(c.typeCount, c.itemCount, Total(c.itemCount), Keys(c.itemCount)))
  }

  /**
   * The walk raises exactly when some pickup has no `：`; otherwise the
   * class names and the picked items have each been counted in order.
   */
  lemma {:induction false} CountScanSpec(es: seq<Sight>, c: Counters)
    ensures CountScan(es, c).None? <==> None in PickupNames(es)
    ensures CountScan(es, c).Some? ==>
      && CountScan(es, c).value.typeCount == IncAll(c.typeCount, HeadersOf(es))
      && CountScan(es, c).value.itemCount == IncAll(c.itemCount, Values(PickupNames(es)))
    decreases |es|
  {
    if |es| > 0 {
      var e := es[0];
      assert HeadersOf(es)[1..] == HeadersOf(es[1..]);
      if e.kind == PickupLine {
        assert PickupNames(es) == [e.item] + PickupNames(es[1..]);
        if e.item.Some? {
          CountScanSpec(es[1..], CountStep(e, c).value);
          assert Values(PickupNames(es)) == [e.item.value] + Values(PickupNames(es[1..]));
          assert Values(PickupNames(es))[1..] == Values(PickupNames(es[1..]));
        }
      } else {
        assert PickupNames(es) == PickupNames(es[1..]);
        CountScanSpec(es[1..], CountStep(e, c).value);
      }
    }
  }

  /**
   * `parse_log` raises exactly when a pickup has no `：`.  Otherwise the
   * class-name counts sum to the number of matches, each item is counted
   * as often as it is picked up, `interaction_count` is the number of
   * pickups, and `item_list` holds each picked item once, in the order
   * of its first pickup.
   */
  lemma AnalyseSpec(content: string)
    ensures var es := Sights(OpenTokens(content));
      Analyse(content).None? <==> None in PickupNames(es)
    ensures Analyse(content).Some? ==>
      var r, es := Analyse(content).value, Sights(OpenTokens(content));
      var picked := Values(PickupNames(es));
      && Total(r.typeCount) == |OpenTokens(content)|
      && UniqueKeys(r.typeCount) && UniqueKeys(r.itemCount)
      && (forall k :: Get(r.itemCount, k) == multiset(picked)[k])
      && r.interactionCount == |picked|
      && r.itemList == FirstSeen([], picked)
      && (forall k :: k in r.itemList <==> k in picked)
  {
    var es := Sights(OpenTokens(content));
    CountScanSpec(es, NoCounts);
    if Analyse(content).Some? {
      var picked := Values(PickupNames(es));
      IncAllSpec([], HeadersOf(es));
      IncAllSpec([], picked);
      IncAllKeys([], picked);
      forall k ensures Get(Analyse(content).value.itemCount, k) == multiset(picked)[k] {
        IncAllGet([], picked, k);
      }
    }
  }

  /** `read_log_file`: `None` for a missing or unreadable file and for content `parse_log` raises on. */
  function ReadLog(dir: Manager.Directory, path: string): (r: Option<Analysis>)
    ensures r.None? <==> (path !in dir.files || dir.files[path].Unreadable?
                          || None in PickupNames(Sights(OpenTokens(dir.files[path].text))))
  {
    if path !in dir.files || dir.files[path].Unreadable? then None
    else
      AnalyseSpec(dir.files[path].text);
      Analyse(dir.files[path].text)
  }

  /** The per-match body of `parse_log`. */
  method Visit(header: string, details: string, c: Counters) returns (o: Option<Counters>)
    ensures o == CountStep(Sight(header, KindOf(details), EntryScan.ItemName(details), None), c)
  {
    var typeCount := Inc(c.typeCount, header);
    if KindOf(details) == PickupLine {
      var item := EntryScan.ItemName(details);
      if item.None? {
        return None;
      }
      o := Some(Counters(typeCount, Inc(c.itemCount, item.value)));
    } else {
      o := Some(Counters(typeCount, c.itemCount));
    }
  }

  /** One step of the walk, taken at position `i` of the views. */
  lemma CountScanAt(es: seq<Sight>, i: nat, c: Counters)
    requires i < |es|
    ensures CountScan(es[i..], c) ==
      match CountStep(es[i], c)
      case None => None
      case Some(c') => CountScan(es[i + 1..], c')
  {
    assert es[i..][0] == es[i] && es[i..][1..] == es[i + 1..];
  }

  /** Counting reads no time, so the view's time plays no part. */
  lemma CountStepTimeless(g: Groups, c: Counters)
    ensures var d := Strip(g.extra);
      CountStep(See(g), c) == CountStep(Sight(g.header, KindOf(d), EntryScan.ItemName(d), None), c)
  {
  }

  /** The loop of `parse_log` over the matches. */
  method CountAll(matches: seq<Groups>) returns (o: Option<Counters>)
    ensures o == CountScan(Sights(matches), NoCounts)
  {
    ghost var es := Sights(matches);
    var c := NoCounts;
    var i := 0;
    while i < |matches|
      invariant 0 <= i <= |matches|
      invariant CountScan(es[i..], c) == CountScan(es, NoCounts)
    {
      var v := Visit(matches[i].header, Strip(matches[i].extra), c);
      assert es[i] == See(matches[i]);
      CountStepTimeless(matches[i], c);
      CountScanAt(es, i, c);
      if v.None? {
        return None;
      }
      c := v.value;
      i := i + 1;
    }
    assert es[i..] == [];
    o := Some(c);
  }

  /** `parse_log`: `None` where it raises. */
  method ParseLog(content: string) returns (r: Option<Analysis>)
    ensures r == Analyse(content)
  {
    var matches := OpenTokens(content);
    var o := CountAll(matches);
    if o.None? {
      return None;
    }
    var c := o.value;
    r := Some(Analysis(c.typeCount, c.itemCount, Total(c.itemCount), Keys(c.itemCount)));
  }
}

=== FILE: src/server_app.dfy ===
/**
 * The statistics server of server/app.py.  Its `parse_log` walks the same
 * open-pattern matches as the single-file parsers, counts every entry by
 * its class name and every pickup by item, and times only the windows
 * between a main-window start marker and a main-window exit (or shutdown)
 * marker.  `analyse_all_logs` adds the per-file durations back up from
 * their formatted text, with a carry of minutes into hours.
 */
module ServerApp {
  import opened Wrappers
  import opened Strings
  import opened LogLines
  import opened OpenPattern
  import opened Clock
  import opened Tallies
  import opened Durations
  import EntryScan
  import Manager

  /** The marker of a main window being created: a new timing window opens. */
  const WindowOpen: string := "主窗体实例化"
  /** The markers that close the open timing window. */
  const WindowExit: string := "主窗体退出"
  const Shutdown: string := "将执行 关机"

  /** The loop variables of `parse_log`: the two counters, the pickups in order, the open window and the duration. */
  datatype ServerRun = ServerRun(typeCount: seq<Count>, interactions: seq<string>, itemCount: seq<Count>, start: Option<int>, duration: int)

  const Fresh: ServerRun := ServerRun([], [], [], None, 0)

  /** Which branch of the `if`/`elif` chain a detail text takes: a pickup is never looked at for markers. */
  datatype Kind = PickupLine | OpenLine | CloseLine | OtherLine

  function KindOf(d: string): Kind
  {
    if Contains(d, EntryScan.Pickup) then PickupLine
    else if Contains(d, WindowOpen) then OpenLine
    else if Contains(d, WindowExit) || Contains(d, Shutdown) then CloseLine
    else OtherLine
  }

  /** What the loop reads of one match: the class name, the branch, the item name and the converted time. */
  datatype Sight = Sight(header: string, kind: Kind, item: Option<string>, us: Option<int>)

  function See(g: Groups): Sight
  {
    var d := Strip(g.extra);
    Sight(g.header, KindOf(d), EntryScan.ItemName(d), ClockMicros(g.time))
  }

  function Sights(gs: seq<Groups>): (es: seq<Sight>)
    ensures |es| == |gs| && forall k :: 0 <= k < |gs| ==> es[k] == See(gs[k])
  {
    seq(|gs|, k requires 0 <= k < |gs| => See(gs[k]))
  }

  /**
   * One match: the class name is counted first; then a pickup is counted,
   * or a start marker (re)opens the window at its time, or an exit marker
   * closes an open window and adds its length in whole seconds (the time
   * is read only then).  `None` where the split or `strptime` raises.
   */
  function ServerStep(e: Sight, st: ServerRun): Option<ServerRun>
  {
    var counted := st.(typeCount := Inc(st.typeCount, e.header));
    match e.kind
    case PickupLine =>
      if e.item.None? then None
      else Some(counted.(interactions := st.interactions + [e.item.value], itemCount := Inc(st.itemCount, e.item.value)))
    case OpenLine =>
      if e.us.None? then None else Some(counted.(start := e.us))
    case CloseLine =>
      if st.start.None? then Some(counted)
      else if e.us.None? then None
      else Some(counted.(start := None, duration := st.duration + WholeSeconds(e.us.value - st.start.value)))
    case OtherLine => Some(counted)
  }

  function ServerScan(es: seq<Sight>, st: ServerRun): Option<ServerRun>
    decreases |es|
  {
    if |es| == 0 then Some(st)
    else
      match ServerStep(es[0], st)
      case None => None
      case Some(st') => ServerScan(es[1..], st')
  }

  /** The result of `parse_log`; `interaction_count` is the length of the pickup list and `delta_time` the formatted duration. */
  datatype ServerParsed = ServerParsed(typeCount: seq<Count>, interactions: seq<string>, itemCount: seq<Count>, duration: int)
  {
    function InteractionCount(): int { |interactions| }
    function DeltaTime(): string { FormatDuration(Some(duration)) }
  }

  function ServerParse(content: string): Option<ServerParsed>
  {
    match ServerScan(Sights(OpenTokens(content)), Fresh)
    case None => None
    case Some(r) => Some(ServerParsed(r.typeCount, r.interactions, r.itemCount, r.duration))
  }

  /** The item names of the pickup matches, in order (`None` in place of a pickup without `：`). */
  function PickupNames(es: seq<Sight>): seq<Option<string>>
    decreases |es|
  {
    if |es| == 0 then []
    else (if es[0].kind == PickupLine then [es[0].item] else []) + PickupNames(es[1..])
  }

  function Values(xs: seq<Option<string>>): seq<string>
    decreases |xs|
  {
    if |xs| == 0 then [] else (if xs[0].Some? then [xs[0].value] else []) + Values(xs[1..])
  }

  function HeadersOf(es: seq<Sight>): (r: seq<string>)
    ensures |r| == |es| && forall k :: 0 <= k < |es| ==> r[k] == es[k].header
  {
    seq(|es|, k requires 0 <= k < |es| => es[k].header)
  }

  /** A pickup without `：` anywhere among the matches makes the walk raise. */
  lemma {:induction false} ServerScanRaises(es: seq<Sight>, st: ServerRun)
    requires None in PickupNames(es)
    ensures ServerScan(es, st).None?
    decreases |es|
  {
    var o := ServerStep(es[0], st);
    if es[0].kind == PickupLine {
      assert PickupNames(es) == [es[0].item] + PickupNames(es[1..]);
      if es[0].item.Some? {
        ServerScanRaises(es[1..], o.value);
      }
    } else {
      assert PickupNames(es) == PickupNames(es[1..]);
      if o.Some? {
        ServerScanRaises(es[1..], o.value);
      }
    }
  }

  /**
   * Every match is counted once by class name, and every pickup is
   * appended to the pickup list and counted by item.
   */
  lemma {:induction false} ServerScanCounts(es: seq<Sight>, st: ServerRun)
    requires ServerScan(es, st).Some?
    ensures var r := ServerScan(es, st).value;
      && r.typeCount == IncAll(st.typeCount, HeadersOf(es))
      && r.interactions == st.interactions + Values(PickupNames(es))
      && r.itemCount == IncAll(st.itemCount, Values(PickupNames(es)))
    decreases |es|
  {
    if |es| > 0 {
      var e := es[0];
      var o := ServerStep(e, st);
      assert HeadersOf(es)[1..] == HeadersOf(es[1..]);
      ServerScanCounts(es[1..], o.value);
      if e.kind == PickupLine {
        assert PickupNames(es) == [e.item] + PickupNames(es[1..]);
        assert Values(PickupNames(es)) == [e.item.value] + Values(PickupNames(es[1..]));
        assert Values(PickupNames(es))[1..] == Values(PickupNames(es[1..]));
      } else {
        assert PickupNames(es) == PickupNames(es[1..]);
      }
    }
  }

  /**
   * The class-name counts sum to the number of matches, the pickup list
   * holds every pickup in order, and `interaction_count` equals the sum
   * of the item counts, whose keys are exactly the picked items.
   */
  lemma ServerParseSpec(content: string)
    ensures var es := Sights(OpenTokens(content));
      None in PickupNames(es) ==> ServerParse(content).None?
    ensures ServerParse(content).Some? ==>
      var r, es := ServerParse(content).value, Sights(OpenTokens(content));
      && Total(r.typeCount) == |es|
      && r.interactions == Values(PickupNames(es))
      && r.InteractionCount() == Total(r.itemCount)
      && (forall k :: k in Keys(r.itemCount) <==> k in r.interactions)
  {
    var es := Sights(OpenTokens(content));
    if None in PickupNames(es) {
      ServerScanRaises(es, Fresh);
    }
    if ServerScan(es, Fresh).Some? {
      var w := ServerScan(es, Fresh).value;
      var r := ServerParse(content).value;
      assert r.typeCount == w.typeCount && r.interactions == w.interactions && r.itemCount == w.itemCount;
      ServerScanCounts(es, Fresh);
      IncAllSpec([], HeadersOf(es));
      IncAllSpec([], Values(PickupNames(es)));
      assert [] + Values(PickupNames(es)) == Values(PickupNames(es));
    }
  }

  /**
   * A start marker opens the window at its time, replacing one already
   * open; an exit or shutdown marker while no window is open is ignored,
   * without even reading its time; one while a window is open adds the
   * window's length in whole seconds and closes it; a pickup never
   * touches the window.
   */
  lemma WindowRules(e: Sight, st: ServerRun)
    ensures e.kind == OpenLine ==>
      ServerStep(e, st) == if e.us.None? then None else Some(st.(typeCount := Inc(st.typeCount, e.header), start := e.us))
    ensures e.kind == CloseLine && st.start.None? ==> ServerStep(e, st) == Some(st.(typeCount := Inc(st.typeCount, e.header)))
    ensures e.kind == CloseLine && st.start.Some? && e.us.Some? ==>
      ServerStep(e, st) == Some(st.(typeCount := Inc(st.typeCount, e.header), start := None,
        duration := st.duration + WholeSeconds(e.us.value - st.start.value)))
    ensures e.kind == PickupLine && ServerStep(e, st).Some? ==>
      ServerStep(e, st).value.start == st.start && ServerStep(e, st).value.duration == st.duration
  {
  }

  /** A start marker and then an exit marker give one window: its length in whole seconds, never negative when time moves forward. */
  lemma OneWindow(a: Sight, b: Sight)
    requires a.kind == OpenLine && b.kind == CloseLine && a.us.Some? && b.us.Some?
    ensures ServerScan([a, b], Fresh).Some?
    ensures var t0, t1 := a.us.value, b.us.value;
      ServerScan([a, b], Fresh).value.duration == WholeSeconds(t1 - t0)
      && (t0 <= t1 ==> ServerScan([a, b], Fresh).value.duration >= 0)
  {
    var s1 := Fresh.(typeCount := Inc([], a.header), start := a.us);
    assert ServerStep(a, Fresh) == Some(s1);
    var s2 := s1.(typeCount := Inc(s1.typeCount, b.header), start := None, duration := WholeSeconds(b.us.value - a.us.value));
    assert ServerStep(b, s1) == Some(s2);
    assert [a, b][1..] == [b] && [b][1..] == [];
    assert ServerScan([b], s1) == ServerScan([], s2);
  }

  /** The per-match body of `parse_log`. */
  method Visit(header: string, timestamp: string, details: string, st: ServerRun) returns (o: Option<ServerRun>)
    ensures o == ServerStep(Sight(header, KindOf(details), EntryScan.ItemName(details), ClockMicros(timestamp)), st)
  {
    var typeCount := Inc(st.typeCount, header);
    var kind := KindOf(details);
    match kind
    case PickupLine =>
      var item := EntryScan.ItemName(details);
      if item.None? {
        return None;
      }
      o := Some(ServerRun(typeCount, st.interactions + [item.value], Inc(st.itemCount, item.value), st.start, st.duration));
    case OpenLine =>
      var t := ClockMicros(timestamp);
      if t.None? {
        return None;
      }
      o := Some(ServerRun(typeCount, st.interactions, st.itemCount, t, st.duration));
    case CloseLine =>
      if st.start.None? {
        return Some(st.(typeCount := typeCount));
      }
      var t := ClockMicros(timestamp);
      if t.None? {
        return None;
      }
      o := Some(ServerRun(typeCount, st.interactions, st.itemCount, None, st.duration + WholeSeconds(t.value - st.start.value)));
    case OtherLine =>
      o := Some(st.(typeCount := typeCount));
  }

  /** `parse_log`: `None` where it raises. */
  method ParseLog(content: string) returns (r: Option<ServerParsed>)
    ensures r == ServerParse(content)
  {
    var matches := OpenTokens(content);
    ghost var es := Sights(matches);
    var st := Fresh;
    var i := 0;
    while i < |matches|
      invariant 0 <= i <= |matches|
      invariant ServerScan(es[i..], st) == ServerScan(es, Fresh)
    {
      assert es[i..][0] == See(matches[i]) && es[i..][1..] == es[i + 1..];
      var o := Visit(matches[i].header, matches[i].time, Strip(matches[i].extra), st);
      if o.None? {
        return None;
      }
      st := o.value;
      i := i + 1;
    }
    assert es[i..] == [];
    r := Some(ServerParsed(st.typeCount, st.interactions, st.itemCount, st.duration));
  }

  /** `read_log_file`: the error result for a missing or unreadable file, or for a walk that raises. */
  function ServerRead(dir: Manager.Directory, name: string): Option<ServerParsed>
  {
    if name !in dir.files || dir.files[name].Unreadable? then None
    else ServerParse(dir.files[name].text)
  }

  /** `filter_forbidden_items`: a copy of the counts without the forbidden keys. */
  function FilterForbidden(items: seq<Count>): seq<Count>
  {
    EntryScan.DropForbidden(items)
  }

  predicate Forbidden(k: string)
  {
    k == EntryScan.Investigate || k == EntryScan.DirectPickup
  }

  /** The forbidden keys read as zero afterwards; every other key keeps its count. */
  lemma FilterForbiddenSpec(items: seq<Count>)
    requires UniqueKeys(items)
    ensures UniqueKeys(FilterForbidden(items))
    ensures forall k :: Get(FilterForbidden(items), k) == if Forbidden(k) then 0 else Get(items, k)
    ensures forall k :: Forbidden(k) ==> k !in Keys(FilterForbidden(items))
  {
    var once := Remove(items, EntryScan.Investigate);
    forall k ensures Get(FilterForbidden(items), k) == if Forbidden(k) then 0 else Get(items, k) {
      GetRemove(items, EntryScan.Investigate, k);
      GetRemove(once, EntryScan.DirectPickup, k);
    }
    GetRemove(items, EntryScan.Investigate, "");
    GetRemove(once, EntryScan.DirectPickup, "");
  }

  /** A date `get_log_list` keeps: its file parses and has a pickup that is not a forbidden key. */
  predicate ServerListable(dir: Manager.Directory, d: string)
  {
    var r := ServerRead(dir, Manager.FileName(d));
    r.Some? && |FilterForbidden(r.value.itemCount)| > 0
  }

  /** `get_log_list`: the listed dates that are kept, in listing order. */
  function ServerListLogs(dir: Manager.Directory, files: seq<string>): (r: seq<string>)
    ensures forall x :: x in r <==> x in files && ServerListable(dir, x)
    ensures |r| <= |files|
    decreases |files|
  {
    if |files| == 0 then []
    else
      var init, f := files[..|files| - 1], files[|files| - 1];
      assert files == init + [f];
      ServerListLogs(dir, init) + (if ServerListable(dir, f) then [f] else [])
  }

  method GetLogList(dir: Manager.Directory) returns (logs: seq<string>)
    ensures logs == ServerListLogs(dir, Manager.FileDates(dir.listing))
  {
    var files := Manager.FileDates(dir.listing);
    logs := [];
    var i := 0;
    while i < |files|
      invariant 0 <= i <= |files|
      invariant logs == ServerListLogs(dir, files[..i])
    {
      var file := files[i];
      assert files[..i + 1][..i] == files[..i];
      var result := ServerRead(dir, Manager.FileName(file));
      if result.Some? {
        var items := FilterForbidden(result.value.itemCount);
        if |items| > 0 {
          logs := logs + [file];
        }
      }
      i := i + 1;
    }
    assert files[..i] == files;
  }

  predicate IsLogName(f: string)
  {
    |f| >= 4 && f[|f| - 4..] == ".log"
  }

  /** The running totals of `analyse_all_logs`: hours, minutes and the merged item counts. */
  datatype Totals = Totals(hours: int, minutes: int, itemCount: seq<Count>)

  /** The loop of `analyse_all_logs` over the directory listing. */
  function Accumulate(dir: Manager.Directory, names: seq<string>): Totals
    decreases |names|
  {
    if |names| == 0 then Totals(0, 0, [])
    else AddFile(dir, Accumulate(dir, names[..|names| - 1]), names[|names| - 1])
  }

  /** One file of the listing: skipped unless it is a `.log` file that parses; otherwise its hours, minutes and filtered counts added. */
  function AddFile(dir: Manager.Directory, a: Totals, f: string): Totals
  {
    var r := ServerRead(dir, f);
    if !IsLogName(f) || r.None? then a
    else
      var hm := ParseDuration(r.value.DeltaTime());
      Totals(a.hours + hm.0, a.minutes + hm.1, MergeCounts(a.itemCount, FilterForbidden(r.value.itemCount)))
  }

  /** The answer of `analyse_all_logs`: the duration text and the summed item counts. */
  datatype AllReport = AllReport(duration: string, itemCount: seq<Count>)

  function CarryText(h: int, m: int): string
    requires h >= 0 && m >= 0
  {
    NatToString(h + m / 60) + Hour + NatToString(m % 60) + Minute
  }

  function AnalyseAll(dir: Manager.Directory): AllReport
  {
    var a := Accumulate(dir, dir.listing);
    AccumulateNonNegative(dir, dir.listing);
    AllReport(CarryText(a.hours, a.minutes), a.itemCount)
  }

  lemma {:induction false} AccumulateNonNegative(dir: Manager.Directory, names: seq<string>)
    ensures Accumulate(dir, names).hours >= 0 && Accumulate(dir, names).minutes >= 0
    decreases |names|
  {
    if |names| > 0 {
      AccumulateNonNegative(dir, names[..|names| - 1]);
    }
  }

  /** After the carry the minutes are below 60 and no minute is lost. */
  lemma CarrySpec(h: int, m: int)
    requires h >= 0 && m >= 0
    ensures var H, M := h + m / 60, m % 60;
      0 <= M < 60 && H * 60 + M == h * 60 + m && CarryText(h, m) == NatToString(H) + Hour + NatToString(M) + Minute
  {
  }

  /**
   * The item counts merge the filtered counts of every `.log` file that
   * parses: totals add up file by file, and no forbidden key appears.
   */
  lemma {:induction false} AccumulateItems(dir: Manager.Directory, names: seq<string>)
    ensures UniqueKeys(Accumulate(dir, names).itemCount)
    ensures forall k :: Forbidden(k) ==> Get(Accumulate(dir, names).itemCount, k) == 0
    ensures Total(Accumulate(dir, names).itemCount) == FileTotals(dir, names)
    decreases |names|
  {
    if |names| > 0 {
      var init, f := names[..|names| - 1], names[|names| - 1];
      AccumulateItems(dir, init);
      var r := ServerRead(dir, f);
      if IsLogName(f) && r.Some? {
        var a := Accumulate(dir, init);
        var items := r.value.itemCount;
        ServerReadUnique(dir, f);
        FilterForbiddenSpec(items);
        MergeSpec(a.itemCount, FilterForbidden(items));
      }
    }
  }

  lemma ServerReadUnique(dir: Manager.Directory, f: string)
    requires ServerRead(dir, f).Some?
    ensures UniqueKeys(ServerRead(dir, f).value.itemCount)
  {
    var es := Sights(OpenTokens(dir.files[f].text));
    ServerScanCounts(es, Fresh);
    IncAllSpec([], Values(PickupNames(es)));
  }

  /** The sum, over the `.log` files that parse, of their filtered counts. */
  function FileTotals(dir: Manager.Directory, names: seq<string>): int
    decreases |names|
  {
    if |names| == 0 then 0
    else
      var f := names[|names| - 1];
      var r := ServerRead(dir, f);
      FileTotals(dir, names[..|names| - 1]) + (if IsLogName(f) && r.Some? then Total(FilterForbidden(r.value.itemCount)) else 0)
  }

  /** The body of the item loop: `total[key] += value` for each filtered key. */
  method MergeLoop(total: seq<Count>, items: seq<Count>) returns (r: seq<Count>)
    ensures r == MergeCounts(total, items)
  {
    r := total;
    var j := 0;
    while j < |items|
      invariant 0 <= j <= |items|
      invariant MergeCounts(r, items[j..]) == MergeCounts(total, items)
    {
      assert items[j..][0] == items[j] && items[j..][1..] == items[j + 1..];
      r := AddTo(r, items[j].key, items[j].n);
      j := j + 1;
    }
    assert items[j..] == [];
  }

  /** The body of the file loop. */
  method ReadInto(dir: Manager.Directory, filename: string, totalHours: int, totalMinutes: int, counts: seq<Count>)
    returns (hours: int, minutes: int, merged: seq<Count>)
    ensures Totals(hours, minutes, merged) == AddFile(dir, Totals(totalHours, totalMinutes, counts), filename)
  {
    hours, minutes, merged := totalHours, totalMinutes, counts;
    if IsLogName(filename) {
      var result := ServerRead(dir, filename);
      if result.Some? {
        var items := FilterForbidden(result.value.itemCount);
        merged := MergeLoop(counts, items);
        var hm := ParseDuration(result.value.DeltaTime());
        hours := totalHours + hm.0;
        minutes := totalMinutes + hm.1;
      }
    }
  }

  /** `analyse_all_logs`: every `.log` file of the listing read, its counts merged and its duration text added up, then the carry. */
  method AnalyseAllLogs(dir: Manager.Directory) returns (r: AllReport)
    ensures r == AnalyseAll(dir)
  {
    var totalHours, totalMinutes := 0, 0;
    var counts: seq<Count> := [];
    var names := dir.listing;
    var i := 0;
    while i < |names|
      invariant 0 <= i <= |names|
      invariant Accumulate(dir, names[..i]) == Totals(totalHours, totalMinutes, counts)
    {
      assert names[..i + 1][..i] == names[..i];
      totalHours, totalMinutes, counts := ReadInto(dir, names[i], totalHours, totalMinutes, counts);
      i := i + 1;
    }
    assert names[..i] == names;
    AccumulateNonNegative(dir, names);
    totalHours := totalHours + totalMinutes / 60;
    totalMinutes := totalMinutes % 60;
    r := AllReport(NatToString(totalHours) + Hour + NatToString(totalMinutes) + Minute, counts);
  }

  /** `analyse_single_log(date)`: the error for a file that cannot be read or parsed; otherwise the filtered counts and the formatted duration. */
  function SingleLog(dir: Manager.Directory, date: string): Option<(seq<Count>, string)>
  {
    match ServerRead(dir, Manager.FileName(date))
    case None => None
    case Some(r) => Some((FilterForbidden(r.itemCount), r.DeltaTime()))
  }

  /** The single-day answer never holds a forbidden key, and its counts are the day's counts otherwise. */
  lemma SingleLogSpec(dir: Manager.Directory, date: string)
    ensures SingleLog(dir, date).None? <==> ServerRead(dir, Manager.FileName(date)).None?
    ensures SingleLog(dir, date).Some? ==>
      var r := ServerRead(dir, Manager.FileName(date)).value;
      SingleLog(dir, date).value.1 == FormatDuration(Some(r.duration))
      && forall k :: Get(SingleLog(dir, date).value.0, k) == if Forbidden(k) then 0 else Get(r.itemCount, k)
  {
    if ServerRead(dir, Manager.FileName(date)).Some? {
      ServerReadUnique(dir, Manager.FileName(date));
      FilterForbiddenSpec(ServerRead(dir, Manager.FileName(date)).value.itemCount);
    }
  }
}

=== FILE: src/site_analysis.dfy ===
/**
 * The statistics of the web front end (`AnalysisFunctions` in
 * website/lib/functions.ts): filtering the item rows by date and task,
 * counting items, totalling play time, and the per-date trend series.
 *
 * The item rows arrive as four parallel arrays (`ItemDataDict`), the
 * durations as two (`DurationDict`); a trend series is a JavaScript
 * object from dates to numbers, modelled as its entries in the order
 * they were first set. JavaScript enumerates integer-like keys such as
 * these dates in ascending numeric order instead, so the entry order
 * here is not the object's key order.
 */
module SiteAnalysis {
  import opened Wrappers
  import opened SiteNumbers
  import opened Tallies

  const All := "all"
  const TotalItems := "totalItems"
  const DurationKind := "duration"

  /** The TypeError `seconds.split('.')` raises when a stamp has fewer than three ':'-separated parts. */
  const SplitTypeError := "Cannot read properties of undefined (reading 'split')"

  /** `ItemDataDict`: one item pick-up per index. */
  datatype ItemData = ItemData(names: seq<string>, tasks: seq<string>, stamps: seq<string>, dates: seq<string>)

  predicate Parallel(d: ItemData)
  {
    |d.names| == |d.dates| && |d.tasks| == |d.dates| && |d.stamps| == |d.dates|
  }

  /** `DurationDict`: one play-time figure (seconds) per index. */
  datatype DurationData = DurationData(dates: seq<string>, durations: seq<int>)

  predicate DurationsParallel(dd: DurationData)
  {
    |dd.durations| == |dd.dates|
  }

  /** One index of the four arrays. */
  datatype Row = Row(name: string, task: string, stamp: string, date: string)

  function RowAt(d: ItemData, i: nat): Row
    requires Parallel(d) && i < |d.dates|
  {
    Row(d.names[i], d.tasks[i], d.stamps[i], d.dates[i])
  }

  function Rows(d: ItemData): (r: seq<Row>)
    requires Parallel(d)
    ensures |r| == |d.dates| && forall i :: 0 <= i < |r| ==> r[i] == RowAt(d, i)
  {
    seq(|d.dates|, i requires 0 <= i < |d.dates| => RowAt(d, i))
  }

  const NoRows := ItemData([], [], [], [])

  /** Pushing one row onto each of the four arrays. */
  function Push(p: ItemData, r: Row): ItemData
  {
    ItemData(p.names + [r.name], p.tasks + [r.task], p.stamps + [r.stamp], p.dates + [r.date])
  }

  lemma RowsPush(p: ItemData, r: Row)
    requires Parallel(p)
    ensures Parallel(Push(p, r)) && Rows(Push(p, r)) == Rows(p) + [r]
  {
  }

  datatype Column = DateColumn | TaskColumn

  function Key(r: Row, c: Column): string
  {
    if c == DateColumn then r.date else r.task
  }

  /** The rows among the first `n` whose column `c` holds `v`, pushed in order (the `forEach` filters). */
  function Select(d: ItemData, c: Column, v: string, n: nat): (r: ItemData)
    requires Parallel(d) && n <= |d.dates|
    ensures Parallel(r)
    decreases n
  {
    if n == 0 then NoRows
    else
      var p := Select(d, c, v, n - 1);
      if Key(RowAt(d, n - 1), c) == v then Push(p, RowAt(d, n - 1)) else p
  }

  /** The reference filter on a list of rows. */
  function Where(rows: seq<Row>, c: Column, v: string): seq<Row>
    decreases |rows|
  {
    if |rows| == 0 then [] else (if Key(rows[0], c) == v then [rows[0]] else []) + Where(rows[1..], c, v)
  }

  lemma {:induction false} WhereAppend(rows: seq<Row>, x: Row, c: Column, v: string)
    ensures Where(rows + [x], c, v) == Where(rows, c, v) + (if Key(x, c) == v then [x] else [])
    decreases |rows|
  {
    if |rows| == 0 {
      assert rows + [x] == [x];
    } else {
      var h := if Key(rows[0], c) == v then [rows[0]] else [];
      assert (rows + [x])[0] == rows[0] && (rows + [x])[1..] == rows[1..] + [x];
      assert Where(rows + [x], c, v) == h + Where(rows[1..] + [x], c, v);
      WhereAppend(rows[1..], x, c, v);
    }
  }

  /** The filter keeps every row whose column holds `v`, as often as it occurs, and no other row. */
  lemma {:induction false} WhereSpec(rows: seq<Row>, c: Column, v: string)
    ensures forall r :: multiset(Where(rows, c, v))[r] == if Key(r, c) == v then multiset(rows)[r] else 0
    decreases |rows|
  {
    if |rows| > 0 {
      WhereSpec(rows[1..], c, v);
      assert rows == [rows[0]] + rows[1..];
    }
  }

  /** The filtering loop keeps the four arrays parallel and its rows are the filter of the first `n` rows, in order. */
  lemma {:induction false} SelectRows(d: ItemData, c: Column, v: string, n: nat)
    requires Parallel(d) && n <= |d.dates|
    ensures Rows(Select(d, c, v, n)) == Where(Rows(d)[..n], c, v)
    decreases n
  {
    if n > 0 {
      SelectRows(d, c, v, n - 1);
      assert Rows(d)[..n] == Rows(d)[..n - 1] + [RowAt(d, n - 1)];
      WhereAppend(Rows(d)[..n - 1], RowAt(d, n - 1), c, v);
      RowsPush(Select(d, c, v, n - 1), RowAt(d, n - 1));
    }
  }

  /** `itemData.Date.forEach` (or `.Task.forEach`) pushing the rows whose column equals `v`. */
  method FilterRows(d: ItemData, c: Column, v: string) returns (r: ItemData)
    requires Parallel(d)
    ensures r == Select(d, c, v, |d.dates|)
  {
    r := NoRows;
    var i := 0;
    while i < |d.dates|
      invariant 0 <= i <= |d.dates|
      invariant r == Select(d, c, v, i)
    {
      var key := if c == DateColumn then d.dates[i] else d.tasks[i];
      if key == v {
        r := ItemData(r.names + [d.names[i]], r.tasks + [d.tasks[i]], r.stamps + [d.stamps[i]], r.dates + [d.dates[i]]);
      }
      i := i + 1;
    }
  }

  /** `counts[key] = (counts[key] || 0) + 1` for each key in turn. */
  function CountKeys(keys: seq<string>): seq<Count>
    decreases |keys|
  {
    if |keys| == 0 then [] else Inc(CountKeys(keys[..|keys| - 1]), keys[|keys| - 1])
  }

  /** Each key once, counted as often as it occurs; the counts add up to the number of keys. */
  lemma CountKeysSpec(keys: seq<string>)
    ensures UniqueKeys(CountKeys(keys)) && Positive(CountKeys(keys))
    ensures Total(CountKeys(keys)) == |keys|
    ensures forall k :: Get(CountKeys(keys), k) == multiset(keys)[k]
    ensures forall k :: k in Keys(CountKeys(keys)) <==> k in keys
  {
    CountKeysShape(keys);
    forall k ensures Get(CountKeys(keys), k) == multiset(keys)[k] && (k in Keys(CountKeys(keys)) <==> k in keys) {
      CountKeysGet(keys, k);
    }
  }

  lemma {:induction false} CountKeysShape(keys: seq<string>)
    ensures UniqueKeys(CountKeys(keys)) && Positive(CountKeys(keys))
    ensures Total(CountKeys(keys)) == |keys|
    decreases |keys|
  {
    if |keys| > 0 {
      var init, last := keys[..|keys| - 1], keys[|keys| - 1];
      CountKeysShape(init);
      IncUnique(CountKeys(init), last);
      IncPositive(CountKeys(init), last);
      IncTotal(CountKeys(init), last);
    }
  }

  lemma {:induction false} CountKeysGet(keys: seq<string>, k: string)
    ensures Get(CountKeys(keys), k) == multiset(keys)[k]
    ensures k in Keys(CountKeys(keys)) <==> k in keys
    decreases |keys|
  {
    if |keys| > 0 {
      var init, last := keys[..|keys| - 1], keys[|keys| - 1];
      CountKeysGet(init, k);
      CountKeysShape(init);
      IncGet(CountKeys(init), last, k);
      IncHas(CountKeys(init), last, k);
      assert keys == init + [last];
    } else {
      GetAbsent([], k);
    }
  }

  /** Counting the names of the filtered rows. */
  method CountNames(names: seq<string>) returns (counts: seq<Count>)
    ensures counts == CountKeys(names)
  {
    counts := [];
    var i := 0;
    while i < |names|
      invariant 0 <= i <= |names|
      invariant counts == CountKeys(names[..i])
    {
      assert names[..i + 1][..i] == names[..i];
      counts := Inc(counts, names[i]);
      i := i + 1;
    }
    assert names[..|names|] == names;
  }

  /** `reduce((sum, x) => sum + x, 0)`. */
  function Sum(xs: seq<int>): int
    decreases |xs|
  {
    if |xs| == 0 then 0 else Sum(xs[..|xs| - 1]) + xs[|xs| - 1]
  }

  method SumDurations(xs: seq<int>) returns (t: int)
    ensures t == Sum(xs)
  {
    t := 0;
    var i := 0;
    while i < |xs|
      invariant 0 <= i <= |xs|
      invariant t == Sum(xs[..i])
    {
      assert xs[..i + 1][..i] == xs[..i];
      t := t + xs[i];
      i := i + 1;
    }
    assert xs[..|xs|] == xs;
  }

  /** The play time of the first `n` entries recorded under `date`. */
  function DurationOn(dd: DurationData, date: string, n: nat): int
    requires DurationsParallel(dd) && n <= |dd.dates|
    decreases n
  {
    if n == 0 then 0
    else DurationOn(dd, date, n - 1) + (if dd.dates[n - 1] == date then dd.durations[n - 1] else 0)
  }

  /** `durationData.Date.forEach` adding the durations of one date. */
  method SumDurationsOn(dd: DurationData, date: string) returns (t: int)
    requires DurationsParallel(dd)
    ensures t == DurationOn(dd, date, |dd.dates|)
  {
    t := 0;
    var i := 0;
    while i < |dd.dates|
      invariant 0 <= i <= |dd.dates|
      invariant t == DurationOn(dd, date, i)
    {
      if dd.dates[i] == date {
        t := t + dd.durations[i];
      }
      i := i + 1;
    }
  }

  /**
   * The play time per date, dates in first-seen order. `trendData[date]`
   * is reset rather than added to when it holds 0, which gives the same
   * number.
   */
  function ByDate(dd: DurationData, n: nat): seq<Count>
    requires DurationsParallel(dd) && n <= |dd.dates|
    decreases n
  {
    if n == 0 then [] else AddTo(ByDate(dd, n - 1), dd.dates[n - 1], dd.durations[n - 1])
  }

  /**
   * Each date once, holding exactly the play time recorded under it (the
   * figure the dashboard shows for that date alone), and the series adds
   * up to the whole play time.
   */
  lemma {:induction false} ByDateSpec(dd: DurationData, n: nat)
    requires DurationsParallel(dd) && n <= |dd.dates|
    ensures UniqueKeys(ByDate(dd, n))
    ensures Total(ByDate(dd, n)) == Sum(dd.durations[..n])
    ensures forall k :: Get(ByDate(dd, n), k) == DurationOn(dd, k, n)
    ensures forall k :: k in Keys(ByDate(dd, n)) <==> k in dd.dates[..n]
    decreases n
  {
    if n > 0 {
      ByDateSpec(dd, n - 1);
      AddToSpec(ByDate(dd, n - 1), dd.dates[n - 1], dd.durations[n - 1]);
      assert dd.durations[..n][..n - 1] == dd.durations[..n - 1];
      assert dd.dates[..n] == dd.dates[..n - 1] + [dd.dates[n - 1]];
    }
  }

  method DurationsByDate(dd: DurationData) returns (ts: seq<Count>)
    requires DurationsParallel(dd)
    ensures ts == ByDate(dd, |dd.dates|)
  {
    ts := [];
    var i := 0;
    while i < |dd.dates|
      invariant 0 <= i <= |dd.dates|
      invariant ts == ByDate(dd, i)
    {
      ts := AddTo(ts, dd.dates[i], dd.durations[i]);
      i := i + 1;
    }
  }

  /** Whether row `i` is for the item (when one is given) and the selected task (when one is given). */
  predicate Matches(d: ItemData, i: nat, item: Option<string>, task: Option<string>)
    requires Parallel(d) && i < |d.dates|
  {
    (item.None? || d.names[i] == item.value) && (task.None? || d.tasks[i] == task.value)
  }

  /** The earliest and the latest second of the day seen on one date. */
  datatype Span = Span(date: string, lo: Num, hi: Num)

  /**
   * One time stamp folded into the spans: a new date starts at
   * `{min: t, max: t}` (where `Math.min(t, t)` is `t`), a known date
   * widens in place.
   */
  function Observe(spans: seq<Span>, date: string, t: Num): seq<Span>
    decreases |spans|
  {
    if |spans| == 0 then [Span(date, t, t)]
    else if spans[0].date == date then [Span(date, Min(spans[0].lo, t), Max(spans[0].hi, t))] + spans[1..]
    else [spans[0]] + Observe(spans[1..], date, t)
  }

  /** What each row's stamp reads as (`StampSeconds`), index by index. */
  function Times(d: ItemData): (r: seq<Option<Num>>)
    requires Parallel(d)
    ensures |r| == |d.dates|
  {
    ReadEach(d.stamps, StampSeconds)
  }

  /** Each stamp read with `read`, in order. */
  function ReadEach(stamps: seq<string>, read: string -> Option<Num>): (r: seq<Option<Num>>)
    ensures |r| == |stamps| && forall i :: 0 <= i < |stamps| ==> r[i] == read(stamps[i])
  {
    seq(|stamps|, i requires 0 <= i < |stamps| => read(stamps[i]))
  }

  lemma ReadEachSnoc(stamps: seq<string>, s: string, read: string -> Option<Num>)
    ensures ReadEach(stamps + [s], read) == ReadEach(stamps, read) + [read(s)]
  {
  }

  /**
   * The spans of the matching rows among the first `n`, each row's time
   * of day taken from `times`; `None` once a stamp throws.
   */
  function Spans(d: ItemData, task: Option<string>, times: seq<Option<Num>>, n: nat): Option<seq<Span>>
    requires Parallel(d) && |times| == |d.dates| && n <= |d.dates|
    decreases n
  {
    if n == 0 then Some([])
    else
      match Spans(d, task, times, n - 1)
      case None => None
      case Some(s) =>
        if !Matches(d, n - 1, None, task) then Some(s)
        else
          match times[n - 1]
          case None => None
          case Some(t) => Some(Observe(s, d.dates[n - 1], t))
  }

  /** `totalDuration += max - min` over the spans. */
  function SpanTotal(spans: seq<Span>): Num
    decreases |spans|
  {
    if |spans| == 0 then Finite(0)
    else Add(SpanTotal(spans[..|spans| - 1]), Sub(spans[|spans| - 1].hi, spans[|spans| - 1].lo))
  }

  /** The span of a date, if it has one. */
  function SpanOf(spans: seq<Span>, date: string): (r: Option<Span>)
    ensures r.Some? ==> r.value in spans && r.value.date == date
    decreases |spans|
  {
    if |spans| == 0 then None else if spans[0].date == date then Some(spans[0]) else SpanOf(spans[1..], date)
  }

  predicate UniqueDates(spans: seq<Span>)
  {
    forall i, j :: 0 <= i < j < |spans| ==> spans[i].date != spans[j].date
  }

  /** Every span holds numbers, the earliest no later than the latest. */
  predicate Ordered(spans: seq<Span>)
  {
    forall i :: 0 <= i < |spans| ==> spans[i].lo.Finite? && spans[i].hi.Finite? && spans[i].lo.n <= spans[i].hi.n
  }

  lemma {:induction false} SpanOfIn(spans: seq<Span>, date: string)
    ensures SpanOf(spans, date).Some? <==> exists i :: 0 <= i < |spans| && spans[i].date == date
    decreases |spans|
  {
    if |spans| > 0 {
      SpanOfIn(spans[1..], date);
      if spans[0].date != date {
        assert forall i :: 1 <= i < |spans| ==> spans[i] == spans[1..][i - 1];
      }
    }
  }

  /** Folding in a time widens its own date's span (or starts it) and leaves every other date alone. */
  lemma {:induction false} ObserveSpec(spans: seq<Span>, date: string, t: Num)
    requires UniqueDates(spans)
    ensures UniqueDates(Observe(spans, date, t))
    ensures SpanOf(spans, date).None? ==> SpanOf(Observe(spans, date, t), date) == Some(Span(date, t, t))
    ensures SpanOf(spans, date).Some? ==>
      SpanOf(Observe(spans, date, t), date)
      == Some(Span(date, Min(SpanOf(spans, date).value.lo, t), Max(SpanOf(spans, date).value.hi, t)))
    ensures forall x :: x != date ==> SpanOf(Observe(spans, date, t), x) == SpanOf(spans, x)
    decreases |spans|
  {
    ObserveUnique(spans, date, t);
    if |spans| > 0 {
      var r := Observe(spans, date, t);
      if spans[0].date == date {
        assert r[1..] == spans[1..];
      } else {
        assert UniqueDates(spans[1..]);
        ObserveSpec(spans[1..], date, t);
        assert r[1..] == Observe(spans[1..], date, t);
      }
    }
  }

  /** Folding in a time keeps one span per date. */
  lemma {:induction false} ObserveUnique(spans: seq<Span>, date: string, t: Num)
    requires UniqueDates(spans)
    ensures UniqueDates(Observe(spans, date, t))
    decreases |spans|
  {
    if |spans| > 0 {
      var r := Observe(spans, date, t);
      if spans[0].date == date {
        assert r[1..] == spans[1..];
        assert forall i :: 0 <= i < |r| ==> r[i].date == spans[i].date;
      } else {
        ObserveUnique(spans[1..], date, t);
        assert r[1..] == Observe(spans[1..], date, t);
        ObserveDates(spans[1..], date, t);
        assert forall i :: 1 <= i < |spans| ==> spans[i].date in DatesOf(spans[1..]) by {
          assert forall i :: 1 <= i < |spans| ==> spans[i] == spans[1..][i - 1];
        }
        assert spans[0].date !in DatesOf(spans[1..]);
      }
    }
  }

  function DatesOf(spans: seq<Span>): (r: set<string>)
    ensures forall i :: 0 <= i < |spans| ==> spans[i].date in r
    ensures forall x :: x in r ==> exists i :: 0 <= i < |spans| && spans[i].date == x
  {
    set i | 0 <= i < |spans| :: spans[i].date
  }

  lemma {:induction false} ObserveDates(spans: seq<Span>, date: string, t: Num)
    ensures forall x :: x in Observe(spans, date, t) ==> x.date == date || x.date in DatesOf(spans)
    decreases |spans|
  {
    if |spans| > 0 && spans[0].date != date {
      ObserveDates(spans[1..], date, t);
      assert DatesOf(spans[1..]) <= DatesOf(spans) by {
        assert forall i :: 0 <= i < |spans[1..]| ==> spans[1..][i] == spans[i + 1];
      }
    }
  }

  lemma {:induction false} ObserveOrdered(spans: seq<Span>, date: string, t: Num)
    requires Ordered(spans) && t.Finite?
    ensures Ordered(Observe(spans, date, t))
    decreases |spans|
  {
    if |spans| > 0 && spans[0].date != date {
      ObserveOrdered(spans[1..], date, t);
    }
  }

  /** Every matching row among the first `n` has a stamp that reads as a number. */
  predicate Numeric(d: ItemData, task: Option<string>, times: seq<Option<Num>>, n: nat)
    requires Parallel(d) && |times| == |d.dates| && n <= |d.dates|
  {
    forall i :: 0 <= i < n && Matches(d, i, None, task) ==> times[i].Some? && times[i].value.Finite?
  }

  /** The span of date `x` holds numbers and reaches from at most `v` to at least `v`. */
  predicate Covers(spans: seq<Span>, x: string, v: int)
  {
    var sp := SpanOf(spans, x);
    sp.Some? && sp.value.lo.Finite? && sp.value.hi.Finite? && sp.value.lo.n <= v <= sp.value.hi.n
  }

  /** Folding in a number keeps every time already covered and covers the new one. */
  lemma ObserveCovers(spans: seq<Span>, date: string, t: int, x: string, v: int)
    requires UniqueDates(spans)
    requires Covers(spans, x, v)
    ensures Covers(Observe(spans, date, Finite(t)), x, v)
  {
    ObserveSpec(spans, date, Finite(t));
    if x == date {
      var b := SpanOf(spans, date).value;
      assert SpanOf(Observe(spans, date, Finite(t)), date) == Some(Span(date, Min(b.lo, Finite(t)), Max(b.hi, Finite(t))));
    }
  }

  lemma ObserveCoversNew(spans: seq<Span>, date: string, t: int)
    requires UniqueDates(spans) && Ordered(spans)
    ensures Covers(Observe(spans, date, Finite(t)), date, t)
  {
    ObserveSpec(spans, date, Finite(t));
  }

  /**
   * When every stamp reads as a number, the spans give each date once,
   * hold numbers in order, and every matching row's time of day lies
   * within its date's span.
   */
  lemma {:induction false} SpansBounds(d: ItemData, task: Option<string>, times: seq<Option<Num>>, n: nat)
    requires Parallel(d) && |times| == |d.dates| && n <= |d.dates| && Numeric(d, task, times, n)
    ensures Spans(d, task, times, n).Some?
    ensures UniqueDates(Spans(d, task, times, n).value) && Ordered(Spans(d, task, times, n).value)
    ensures forall i :: 0 <= i < n && Matches(d, i, None, task) ==>
      Covers(Spans(d, task, times, n).value, d.dates[i], times[i].value.n)
    decreases n
  {
    if n > 0 {
      var m: nat := n - 1;
      SpansBounds(d, task, times, m);
      var s := Spans(d, task, times, m).value;
      if Matches(d, m, None, task) {
        var date, t := d.dates[m], times[m].value.n;
        var s' := Observe(s, date, Finite(t));
        assert Spans(d, task, times, n) == Some(s');
        ObserveUnique(s, date, Finite(t));
        ObserveOrdered(s, date, Finite(t));
        forall i | 0 <= i < n && Matches(d, i, None, task)
          ensures Covers(s', d.dates[i], times[i].value.n)
        {
          if i < m {
            ObserveCovers(s, date, t, d.dates[i], times[i].value.n);
          } else {
            ObserveCoversNew(s, date, t);
          }
        }
      } else {
        assert Spans(d, task, times, n) == Some(s);
      }
    }
  }

  /** The earliest and the latest time of a date's span are times of matching rows on that date. */
  lemma {:induction false} SpansAttained(d: ItemData, task: Option<string>, times: seq<Option<Num>>, n: nat, x: string)
    requires Parallel(d) && |times| == |d.dates| && n <= |d.dates| && Numeric(d, task, times, n)
    requires Spans(d, task, times, n).Some? && SpanOf(Spans(d, task, times, n).value, x).Some?
    ensures exists i :: (0 <= i < n && Matches(d, i, None, task) && d.dates[i] == x
      && times[i].value == SpanOf(Spans(d, task, times, n).value, x).value.lo)
    ensures exists i :: (0 <= i < n && Matches(d, i, None, task) && d.dates[i] == x
      && times[i].value == SpanOf(Spans(d, task, times, n).value, x).value.hi)
    decreases n, 1
  {
    assert n > 0;
    var m: nat := n - 1;
    if !Matches(d, m, None, task) {
      assert Spans(d, task, times, n) == Spans(d, task, times, m);
      SpansAttained(d, task, times, m, x);
    } else if d.dates[m] == x {
      SpansAttainedLast(d, task, times, n, x);
    } else {
      var s := Spans(d, task, times, m).value;
      SpansUnique(d, task, times, m);
      assert Spans(d, task, times, n) == Some(Observe(s, d.dates[m], times[m].value));
      ObserveAt(s, d.dates[m], times[m].value, x);
      SpansAttained(d, task, times, m, x);
    }
  }

  /** `SpansAttained` when the last row matches and falls on the date. */
  lemma {:induction false} SpansAttainedLast(d: ItemData, task: Option<string>, times: seq<Option<Num>>, n: nat, x: string)
    requires Parallel(d) && |times| == |d.dates| && 0 < n <= |d.dates| && Numeric(d, task, times, n)
    requires Matches(d, n - 1, None, task) && d.dates[n - 1] == x
    requires Spans(d, task, times, n).Some? && SpanOf(Spans(d, task, times, n).value, x).Some?
    ensures exists i :: (0 <= i < n && Matches(d, i, None, task) && d.dates[i] == x
      && times[i].value == SpanOf(Spans(d, task, times, n).value, x).value.lo)
    ensures exists i :: (0 <= i < n && Matches(d, i, None, task) && d.dates[i] == x
      && times[i].value == SpanOf(Spans(d, task, times, n).value, x).value.hi)
    decreases n, 0
  {
    var m: nat := n - 1;
    var s := Spans(d, task, times, m).value;
    var t := times[m].value;
    SpansUnique(d, task, times, m);
    assert Spans(d, task, times, n) == Some(Observe(s, x, t));
    ObserveAt(s, x, t, x);
    var sp := SpanOf(Spans(d, task, times, n).value, x).value;
    if SpanOf(s, x).Some? {
      var before := SpanOf(s, x).value;
      SpansAttained(d, task, times, m, x);
      assert sp.lo == before.lo || sp.lo == t;
      assert sp.hi == before.hi || sp.hi == t;
    }
  }

  /** Folding in a time changes the span of its own date only. */
  lemma ObserveAt(spans: seq<Span>, date: string, t: Num, x: string)
    requires UniqueDates(spans)
    ensures SpanOf(Observe(spans, date, t), x) ==
      if x != date then SpanOf(spans, x)
      else if SpanOf(spans, x).None? then Some(Span(date, t, t))
      else Some(Span(date, Min(SpanOf(spans, x).value.lo, t), Max(SpanOf(spans, x).value.hi, t)))
  {
    ObserveSpec(spans, date, t);
  }

  /** The spans give each date once. */
  lemma {:induction false} SpansUnique(d: ItemData, task: Option<string>, times: seq<Option<Num>>, n: nat)
    requires Parallel(d) && |times| == |d.dates| && n <= |d.dates| && Spans(d, task, times, n).Some?
    ensures UniqueDates(Spans(d, task, times, n).value)
    decreases n
  {
    if n > 0 {
      var m: nat := n - 1;
      assert Spans(d, task, times, m).Some?;
      SpansUnique(d, task, times, m);
      if Matches(d, m, None, task) {
        ObserveUnique(Spans(d, task, times, m).value, d.dates[m], times[m].value);
      }
    }
  }

  /** With every span in order, the summed play time is a non-negative number. */
  lemma {:induction false} SpanTotalNonNegative(spans: seq<Span>)
    requires Ordered(spans)
    ensures SpanTotal(spans).Finite? && SpanTotal(spans).n >= 0
    decreases |spans|
  {
    if |spans| > 0 {
      SpanTotalNonNegative(spans[..|spans| - 1]);
    }
  }

  /** One matching stamp with fewer than three parts makes the whole computation throw. */
  lemma {:induction false} SpansThrow(d: ItemData, task: Option<string>, times: seq<Option<Num>>, n: nat, i: nat)
    requires Parallel(d) && |times| == |d.dates| && i < n <= |d.dates|
    requires Matches(d, i, None, task) && times[i].None?
    ensures Spans(d, task, times, n).None?
    decreases n
  {
    if i < n - 1 {
      SpansThrow(d, task, times, n - 1, i);
    }
  }

  /**
   * The `forEach` over the stamps, folding each matching one into the
   * spans; it stops at the first TypeError. The stamps are read up front
   * (`Times`), which cannot fail; the error comes from the first matching
   * row whose reading is missing, as in the loop itself.
   */
  method CollectSpans(d: ItemData, task: Option<string>) returns (r: Option<seq<Span>>)
    requires Parallel(d)
    ensures r == Spans(d, task, Times(d), |d.dates|)
  {
    var times := Times(d);
    r := FoldSpans(d, task, times);
  }

  /** The loop of `CollectSpans`, over the times read up front. */
  method FoldSpans(d: ItemData, task: Option<string>, times: seq<Option<Num>>) returns (r: Option<seq<Span>>)
    requires Parallel(d) && |times| == |d.dates|
    ensures r == Spans(d, task, times, |d.dates|)
  {
    var spans: seq<Span> := [];
    var i := 0;
    while i < |d.dates|
      invariant 0 <= i <= |d.dates|
      invariant Spans(d, task, times, i) == Some(spans)
    {
      SpansStep(d, task, times, i + 1);
      if task.None? || d.tasks[i] == task.value {
        var t := times[i];
        if t.None? {
          SpansThrow(d, task, times, |d.dates|, i);
          return None;
        }
        spans := Observe(spans, d.dates[i], t.value);
      }
      i := i + 1;
    }
    r := Some(spans);
  }

  /** `totalDuration += timeRange.max - timeRange.min` over the spans. */
  method TotalOfSpans(spans: seq<Span>) returns (t: Num)
    ensures t == SpanTotal(spans)
  {
    t := Finite(0);
    var i := 0;
    while i < |spans|
      invariant 0 <= i <= |spans|
      invariant t == SpanTotal(spans[..i])
    {
      assert spans[..i + 1][..i] == spans[..i];
      t := Add(t, Sub(spans[i].hi, spans[i].lo));
      i := i + 1;
    }
    assert spans[..|spans|] == spans;
  }

  /** The dates of the matching rows among the first `n`, in row order. */
  function MatchingDates(d: ItemData, item: Option<string>, task: Option<string>, n: nat): seq<string>
    requires Parallel(d) && n <= |d.dates|
    decreases n
  {
    if n == 0 then []
    else MatchingDates(d, item, task, n - 1) + (if Matches(d, n - 1, item, task) then [d.dates[n - 1]] else [])
  }

  /** The indices of the matching rows among the first `n` that fall on `date`. */
  function OnDate(d: ItemData, item: Option<string>, task: Option<string>, n: nat, date: string): set<int>
    requires Parallel(d) && n <= |d.dates|
  {
    set i | 0 <= i < n && Matches(d, i, item, task) && d.dates[i] == date
  }

  /** The indices of all matching rows among the first `n`. */
  function MatchingRows(d: ItemData, item: Option<string>, task: Option<string>, n: nat): set<int>
    requires Parallel(d) && n <= |d.dates|
  {
    set i | 0 <= i < n && Matches(d, i, item, task)
  }

  /** One date per matching row. */
  lemma {:induction false} MatchingDatesSize(d: ItemData, item: Option<string>, task: Option<string>, n: nat)
    requires Parallel(d) && n <= |d.dates|
    ensures |MatchingDates(d, item, task, n)| == |MatchingRows(d, item, task, n)|
    decreases n
  {
    if n > 0 {
      var m := n - 1;
      MatchingDatesSize(d, item, task, m);
      var before, after := MatchingRows(d, item, task, m), MatchingRows(d, item, task, n);
      var c := Matches(d, m, item, task);
      forall i ensures i in after <==> i in before || (c && i == m) {
      }
      SetStep(before, after, m, c);
    }
  }

  /** One more row adds its index to the rows on its date exactly when it matches. */
  lemma OnDateStep(d: ItemData, item: Option<string>, task: Option<string>, m: nat, date: string)
    requires Parallel(d) && m < |d.dates|
    ensures |OnDate(d, item, task, m + 1, date)|
      == |OnDate(d, item, task, m, date)| + if Matches(d, m, item, task) && d.dates[m] == date then 1 else 0
  {
    var before, after := OnDate(d, item, task, m, date), OnDate(d, item, task, m + 1, date);
    var c := Matches(d, m, item, task) && d.dates[m] == date;
    forall i ensures i in after <==> i in before || (c && i == m) {
    }
    SetStep(before, after, m, c);
  }

  /** A set that grows by at most one new element `m`. */
  lemma SetStep(before: set<int>, after: set<int>, m: int, c: bool)
    requires forall i :: i in after <==> i in before || (c && i == m)
    requires m !in before
    ensures |after| == |before| + if c then 1 else 0
  {
    if c {
      forall i ensures i in after <==> i in before + {m} {
      }
      assert after == before + {m};
    } else {
      forall i ensures i in after <==> i in before {
      }
      assert after == before;
    }
  }

  /** One more row adds its date to the matching dates exactly when it matches. */
  lemma MatchingDatesStep(d: ItemData, item: Option<string>, task: Option<string>, m: nat, date: string)
    requires Parallel(d) && m < |d.dates|
    ensures multiset(MatchingDates(d, item, task, m + 1))[date]
      == multiset(MatchingDates(d, item, task, m))[date] + if Matches(d, m, item, task) && d.dates[m] == date then 1 else 0
  {
    var prev := MatchingDates(d, item, task, m);
    var add := if Matches(d, m, item, task) then [d.dates[m]] else [];
    assert MatchingDates(d, item, task, m + 1) == prev + add;
    assert multiset(prev + add) == multiset(prev) + multiset(add);
  }

  /** A date occurs among the matching dates once per matching row on that date. */
  lemma {:induction false} MatchingDatesCount(d: ItemData, item: Option<string>, task: Option<string>, n: nat, date: string)
    requires Parallel(d) && n <= |d.dates|
    ensures multiset(MatchingDates(d, item, task, n))[date] == |OnDate(d, item, task, n, date)|
    decreases n
  {
    if n > 0 {
      var m: nat := n - 1;
      MatchingDatesCount(d, item, task, m, date);
      OnDateStep(d, item, task, m, date);
      MatchingDatesStep(d, item, task, m, date);
    }
  }

  /** `itemData.Date.forEach` counting one per matching row under its date. */
  method CountDates(d: ItemData, item: Option<string>, task: Option<string>) returns (counts: seq<Count>)
    requires Parallel(d)
    ensures counts == CountKeys(MatchingDates(d, item, task, |d.dates|))
  {
    counts := [];
    var i := 0;
    while i < |d.dates|
      invariant 0 <= i <= |d.dates|
      invariant counts == CountKeys(MatchingDates(d, item, task, i))
    {
      if (item.None? || d.names[i] == item.value) && (task.None? || d.tasks[i] == task.value) {
        var dates := MatchingDates(d, item, task, i);
        assert MatchingDates(d, item, task, i + 1) == dates + [d.dates[i]];
        assert (dates + [d.dates[i]])[..|dates|] == dates;
        assert CountKeys(dates + [d.dates[i]]) == Inc(CountKeys(dates), d.dates[i]);
        counts := Inc(counts, d.dates[i]);
      } else {
        assert MatchingDates(d, item, task, i + 1) == MatchingDates(d, item, task, i) + [];
        assert MatchingDates(d, item, task, i) + [] == MatchingDates(d, item, task, i);
      }
      i := i + 1;
    }
  }

  /** `'all'` means no filter. */
  function TaskFilter(task: string): Option<string>
  {
    if task == All then None else Some(task)
  }

  /** `processedData`: the item counts and the formatted play time. */
  datatype Processed = Processed(itemCount: seq<Count>, duration: string)

  /** What `calculateItemTrend` returns: the processed data and the filtered rows. */
  datatype ItemTrendResult = ItemTrendResult(processed: Processed, filtered: ItemData)

  /** Step one and two of `calculateItemTrend`: the rows of the date, then of the selected task. */
  function Filtered(d: ItemData, date: string, task: string): (r: ItemData)
    requires Parallel(d)
    ensures Parallel(r)
  {
    var byDate := if date == All then d else Select(d, DateColumn, date, |d.dates|);
    if task == All then byDate else Select(byDate, TaskColumn, task, |byDate.dates|)
  }

  /**
   * The play time `calculateItemTrend` formats: the recorded durations
   * when every task is shown, otherwise the summed daily spans of the
   * filtered rows; `None` when a stamp throws.
   */
  function TotalDuration(f: ItemData, dd: DurationData, date: string, task: string): Option<Num>
    requires Parallel(f) && DurationsParallel(dd)
  {
    if task == All then Some(Finite(if date == All then Sum(dd.durations) else DurationOn(dd, date, |dd.dates|)))
    else if |f.stamps| == 0 then Some(Finite(0))
    else
      match Spans(f, None, Times(f), |f.dates|)
      case None => None
      case Some(s) => Some(SpanTotal(s))
  }

  /** `calculateItemTrend`. */
  function ItemTrend(d: ItemData, dd: DurationData, date: string, task: string): Answer<ItemTrendResult>
    requires Parallel(d) && DurationsParallel(dd)
  {
    var f := Filtered(d, date, task);
    match TotalDuration(f, dd, date, task)
    case None => Threw(SplitTypeError)
    case Some(total) => Ok(ItemTrendResult(Processed(CountKeys(f.names), FormatDuration(total)), f))
  }

  method CalculateItemTrend(d: ItemData, dd: DurationData, date: string, task: string)
    returns (r: Answer<ItemTrendResult>)
    requires Parallel(d) && DurationsParallel(dd)
    ensures r == ItemTrend(d, dd, date, task)
  {
    var byDate := d;
    if date != All {
      byDate := FilterRows(d, DateColumn, date);
    }
    var f := byDate;
    if task != All {
      f := FilterRows(byDate, TaskColumn, task);
    }
    var counts := CountNames(f.names);
    var total: Num := Finite(0);
    if task == All {
      var t;
      if date == All {
        t := SumDurations(dd.durations);
      } else {
        t := SumDurationsOn(dd, date);
      }
      total := Finite(t);
    } else if |f.stamps| > 0 {
      var spans := CollectSpans(f, None);
      if spans.None? {
        return Threw(SplitTypeError);
      }
      total := TotalOfSpans(spans.value);
    }
    r := Ok(ItemTrendResult(Processed(counts, FormatDuration(total)), f));
  }

  /** The rows `calculateItemTrend` keeps: those of the date (unless `'all'`), then of the selected task (unless `'all'`), in order. */
  lemma FilteredRows(d: ItemData, date: string, task: string)
    requires Parallel(d)
    ensures var byDate := if date == All then Rows(d) else Where(Rows(d), DateColumn, date);
      Rows(Filtered(d, date, task)) == if task == All then byDate else Where(byDate, TaskColumn, task)
  {
    assert Rows(d)[..|d.dates|] == Rows(d);
    var byDate := if date == All then d else Select(d, DateColumn, date, |d.dates|);
    if date != All {
      SelectRows(d, DateColumn, date, |d.dates|);
    }
    if task != All {
      SelectRows(byDate, TaskColumn, task, |byDate.dates|);
      assert Rows(byDate)[..|byDate.dates|] == Rows(byDate);
    }
  }

  /** Every matching row's stamp reads (has three parts) exactly when the spans can be built. */
  lemma {:induction false} SpansSome(d: ItemData, task: Option<string>, times: seq<Option<Num>>, n: nat)
    requires Parallel(d) && |times| == |d.dates| && n <= |d.dates|
    ensures Spans(d, task, times, n).Some? <==> forall i :: 0 <= i < n && Matches(d, i, None, task) ==> times[i].Some?
    decreases n
  {
    if n > 0 {
      SpansSome(d, task, times, n - 1);
    }
  }

  /**
   * With every task shown, the play time `calculateItemTrend` reports is
   * the whole recorded play time, or that recorded under the date.
   */
  lemma TotalDurationAll(f: ItemData, dd: DurationData, date: string)
    requires Parallel(f) && DurationsParallel(dd)
    ensures date == All ==> TotalDuration(f, dd, date, All) == Some(Finite(Sum(dd.durations)))
    ensures date != All ==> TotalDuration(f, dd, date, All) == Some(Finite(Get(ByDate(dd, |dd.dates|), date)))
  {
    ByDateSpec(dd, |dd.dates|);
  }

  /**
   * For one task the play time comes from the stamps of the kept rows:
   * it is missing exactly when one of them has fewer than three parts,
   * and is a non-negative number when every stamp reads as one.
   */
  lemma TotalDurationStamps(f: ItemData, dd: DurationData, date: string, task: string)
    requires Parallel(f) && DurationsParallel(dd) && task != All
    ensures TotalDuration(f, dd, date, task).None? <==> exists i :: 0 <= i < |f.dates| && Times(f)[i].None?
    ensures Numeric(f, None, Times(f), |f.dates|) ==>
      TotalDuration(f, dd, date, task).Some? && TotalDuration(f, dd, date, task).value.Finite?
      && TotalDuration(f, dd, date, task).value.n >= 0
  {
    var n := |f.dates|;
    SpansSome(f, None, Times(f), n);
    assert forall i :: 0 <= i < n ==> Matches(f, i, None, None);
    if Numeric(f, None, Times(f), n) {
      SpansBounds(f, None, Times(f), n);
      SpanTotalNonNegative(Spans(f, None, Times(f), n).value);
    }
  }

  /**
   * `calculateItemTrend` counts every kept row's item once under its
   * name, and throws exactly when the play time comes from stamps and one
   * of them has fewer than three parts.
   */
  lemma ItemTrendSpec(d: ItemData, dd: DurationData, date: string, task: string)
    requires Parallel(d) && DurationsParallel(dd)
    ensures var f := Filtered(d, date, task);
      && (ItemTrend(d, dd, date, task).Threw? <==>
           task != All && exists i :: 0 <= i < |f.dates| && Times(f)[i].None?)
      && (ItemTrend(d, dd, date, task).Threw? ==> ItemTrend(d, dd, date, task).error == SplitTypeError)
    ensures ItemTrend(d, dd, date, task).Ok? ==>
      var r := ItemTrend(d, dd, date, task).value;
      && r.filtered == Filtered(d, date, task)
      && UniqueKeys(r.processed.itemCount)
      && Total(r.processed.itemCount) == |r.filtered.names|
      && (forall k :: Get(r.processed.itemCount, k) == multiset(r.filtered.names)[k])
  {
    var f := Filtered(d, date, task);
    if task == All {
      TotalDurationAll(f, dd, date);
    } else {
      TotalDurationStamps(f, dd, date, task);
    }
    CountKeysSpec(f.names);
  }

  /** One point of a trend series: a date and its number. */
  datatype Point = Point(date: string, value: Num)

  /** A counter as a trend series. */
  function CountPoints(ts: seq<Count>): (r: seq<Point>)
    ensures |r| == |ts| && forall i :: 0 <= i < |ts| ==> r[i] == Point(ts[i].key, Finite(ts[i].n))
  {
    seq(|ts|, i requires 0 <= i < |ts| => Point(ts[i].key, Finite(ts[i].n)))
  }

  /** `Object.entries(spans)` written out as `trendData[date] = max - min`. */
  function SpanPoints(spans: seq<Span>): (r: seq<Point>)
    ensures |r| == |spans| && forall i :: 0 <= i < |spans| ==> r[i] == Point(spans[i].date, Sub(spans[i].hi, spans[i].lo))
  {
    seq(|spans|, i requires 0 <= i < |spans| => Point(spans[i].date, Sub(spans[i].hi, spans[i].lo)))
  }

  /** `trendData[date]`: the number of the first point of the date, or `undefined`. */
  function Lookup(ps: seq<Point>, date: string): Option<Num>
    decreases |ps|
  {
    if |ps| == 0 then None else if ps[0].date == date then Some(ps[0].value) else Lookup(ps[1..], date)
  }

  /** The numbers of a series added up. */
  function PointSum(ps: seq<Point>): Num
    decreases |ps|
  {
    if |ps| == 0 then Finite(0) else Add(PointSum(ps[..|ps| - 1]), ps[|ps| - 1].value)
  }

  /** A counter read as a series answers what the counter holds, and nothing for a missing key. */
  lemma {:induction false} CountPointsLookup(ts: seq<Count>, k: string)
    ensures Lookup(CountPoints(ts), k) == if k in Keys(ts) then Some(Finite(Get(ts, k))) else None
    decreases |ts|
  {
    if |ts| > 0 {
      assert CountPoints(ts)[1..] == CountPoints(ts[1..]);
      assert Keys(ts) == [ts[0].key] + Keys(ts[1..]);
      CountPointsLookup(ts[1..], k);
    }
  }

  lemma {:induction false} CountPointsSum(ts: seq<Count>)
    ensures PointSum(CountPoints(ts)) == Finite(Total(ts))
    decreases |ts|
  {
    if |ts| > 0 {
      var m := |ts| - 1;
      assert CountPoints(ts)[..m] == CountPoints(ts[..m]);
      CountPointsSum(ts[..m]);
      TotalSnoc(ts[..m], ts[m]);
      assert ts[..m] + [ts[m]] == ts;
    }
  }

  /** The spans read as a series answer `max - min` of the date's span, and nothing for a date without one. */
  lemma {:induction false} SpanPointsLookup(spans: seq<Span>, x: string)
    ensures Lookup(SpanPoints(spans), x) ==
      if SpanOf(spans, x).None? then None else Some(Sub(SpanOf(spans, x).value.hi, SpanOf(spans, x).value.lo))
    decreases |spans|
  {
    if |spans| > 0 {
      assert SpanPoints(spans)[1..] == SpanPoints(spans[1..]);
      SpanPointsLookup(spans[1..], x);
    }
  }

  /** The series of the spans adds up to the summed play time. */
  lemma {:induction false} SpanPointsSum(spans: seq<Span>)
    ensures PointSum(SpanPoints(spans)) == SpanTotal(spans)
    decreases |spans|
  {
    if |spans| > 0 {
      var m := |spans| - 1;
      assert SpanPoints(spans)[..m] == SpanPoints(spans[..m]);
      SpanPointsSum(spans[..m]);
    }
  }

  /** `calculateTrendData`: a series per date, or the TypeError of a stamp with fewer than three parts. */
  function TrendData(kind: string, d: ItemData, dd: DurationData, task: string): Answer<seq<Point>>
    requires Parallel(d) && DurationsParallel(dd)
  {
    if kind == TotalItems then Ok(CountPoints(CountKeys(MatchingDates(d, None, TaskFilter(task), |d.dates|))))
    else if kind == DurationKind then
      if task == All then Ok(CountPoints(ByDate(dd, |dd.dates|)))
      else
        match Spans(d, Some(task), Times(d), |d.dates|)
        case None => Threw(SplitTypeError)
        case Some(spans) => Ok(SpanPoints(spans))
    else Ok([])
  }

  method CalculateTrendData(kind: string, d: ItemData, dd: DurationData, task: string) returns (r: Answer<seq<Point>>)
    requires Parallel(d) && DurationsParallel(dd)
    ensures r == TrendData(kind, d, dd, task)
  {
    if kind == TotalItems {
      var counts := CountDates(d, None, TaskFilter(task));
      r := Ok(CountPoints(counts));
    } else if kind == DurationKind {
      if task == All {
        var ts := DurationsByDate(dd);
        r := Ok(CountPoints(ts));
      } else {
        var spans := CollectSpans(d, Some(task));
        if spans.None? {
          return Threw(SplitTypeError);
        }
        r := Ok(SpanPoints(spans.value));
      }
    } else {
      r := Ok([]);
    }
  }

  /** Per date, the number of matching rows on it; all dates together, the number of matching rows. */
  lemma DateCounts(d: ItemData, item: Option<string>, task: Option<string>, x: string)
    requires Parallel(d)
    ensures var n := |d.dates|;
      var ps := CountPoints(CountKeys(MatchingDates(d, item, task, n)));
      && Lookup(ps, x) == (if |OnDate(d, item, task, n, x)| > 0 then Some(Finite(|OnDate(d, item, task, n, x)|)) else None)
      && PointSum(ps) == Finite(|MatchingRows(d, item, task, n)|)
  {
    var n := |d.dates|;
    var md := MatchingDates(d, item, task, n);
    CountKeysSpec(md);
    CountPointsLookup(CountKeys(md), x);
    CountPointsSum(CountKeys(md));
    MatchingDatesCount(d, item, task, n, x);
    MatchingDatesSize(d, item, task, n);
  }

  /**
   * The `'totalItems'` series counts, per date, the rows of the selected task (of
   * every task for `'all'`), and adds up to their number.
   */
  lemma TrendItemsSpec(d: ItemData, dd: DurationData, task: string, x: string)
    requires Parallel(d) && DurationsParallel(dd)
    ensures var n, t := |d.dates|, TaskFilter(task);
      && TrendData(TotalItems, d, dd, task).Ok?
      && Lookup(TrendData(TotalItems, d, dd, task).value, x)
         == (if |OnDate(d, None, t, n, x)| > 0 then Some(Finite(|OnDate(d, None, t, n, x)|)) else None)
      && PointSum(TrendData(TotalItems, d, dd, task).value) == Finite(|MatchingRows(d, None, t, n)|)
  {
    DateCounts(d, None, TaskFilter(task), x);
  }

  /**
   * The `'duration'` series for `'all'` gives each recorded date its play
   * time, the figure `calculateItemTrend` shows for that date, and adds up
   * to the whole play time.
   */
  lemma TrendDurationAllSpec(d: ItemData, dd: DurationData, x: string)
    requires Parallel(d) && DurationsParallel(dd)
    ensures TrendData(DurationKind, d, dd, All).Ok?
    ensures Lookup(TrendData(DurationKind, d, dd, All).value, x)
      == if x in dd.dates then Some(Finite(DurationOn(dd, x, |dd.dates|))) else None
    ensures PointSum(TrendData(DurationKind, d, dd, All).value) == Finite(Sum(dd.durations))
  {
    var ts := ByDate(dd, |dd.dates|);
    ByDateSpec(dd, |dd.dates|);
    assert dd.dates[..|dd.dates|] == dd.dates && dd.durations[..|dd.dates|] == dd.durations;
    CountPointsLookup(ts, x);
    CountPointsSum(ts);
  }

  /** Where all of a date's rows lie: `lo` and `hi` are the earliest and the latest of their times. */
  predicate DayRange(d: ItemData, task: Option<string>, times: seq<Option<Num>>, x: string, lo: int, hi: int)
    requires Parallel(d) && |times| == |d.dates|
  {
    var n := |d.dates|;
    && (exists i :: 0 <= i < n && Matches(d, i, None, task) && d.dates[i] == x && times[i] == Some(Finite(lo)))
    && (exists i :: 0 <= i < n && Matches(d, i, None, task) && d.dates[i] == x && times[i] == Some(Finite(hi)))
    && (forall i :: 0 <= i < n && Matches(d, i, None, task) && d.dates[i] == x ==>
          times[i].Some? && times[i].value.Finite? && lo <= times[i].value.n <= hi)
  }

  /** The play time of a date in the `'duration'` series is the one `calculateItemTrend` formats for that date. */
  lemma TrendAgreesWithItemTrend(d: ItemData, dd: DurationData, x: string)
    requires Parallel(d) && DurationsParallel(dd) && x != All && x in dd.dates
    ensures TrendData(DurationKind, d, dd, All).Ok? && ItemTrend(d, dd, x, All).Ok?
    ensures Lookup(TrendData(DurationKind, d, dd, All).value, x).Some?
    ensures ItemTrend(d, dd, x, All).value.processed.duration
      == FormatDuration(Lookup(TrendData(DurationKind, d, dd, All).value, x).value)
  {
    var ts := ByDate(dd, |dd.dates|);
    ByDateSpec(dd, |dd.dates|);
    assert dd.dates[..|dd.dates|] == dd.dates;
    CountPointsLookup(ts, x);
    TotalDurationAll(Filtered(d, x, All), dd, x);
  }

  /**
   * When every matching stamp reads as a number, the series of the spans
   * has a point for exactly the dates of the matching rows, each the
   * latest minus the earliest time of day of that date's rows.
   */
  lemma SpanSeries(d: ItemData, task: Option<string>, times: seq<Option<Num>>, x: string)
    requires Parallel(d) && |times| == |d.dates| && Numeric(d, task, times, |d.dates|)
    ensures Spans(d, task, times, |d.dates|).Some?
    ensures var v := Lookup(SpanPoints(Spans(d, task, times, |d.dates|).value), x);
      && (v.Some? <==> exists i :: 0 <= i < |d.dates| && Matches(d, i, None, task) && d.dates[i] == x)
      && (v.Some? ==>
            exists lo, hi :: lo <= hi && DayRange(d, task, times, x, lo, hi) && v.value == Finite(hi - lo))
  {
    var n := |d.dates|;
    SpansBounds(d, task, times, n);
    var spans := Spans(d, task, times, n).value;
    SpanPointsLookup(spans, x);
    if SpanOf(spans, x).Some? {
      SpansAttained(d, task, times, n, x);
      var sp := SpanOf(spans, x).value;
      assert sp in spans;
      assert DayRange(d, task, times, x, sp.lo.n, sp.hi.n);
    }
  }

  /**
   * The `'duration'` series of one task throws exactly when one of its
   * rows has a stamp with fewer than three parts; when every stamp reads
   * as a number it is the series of the selected task's spans.
   */
  lemma TrendDurationTaskSpec(d: ItemData, dd: DurationData, task: string, x: string)
    requires Parallel(d) && DurationsParallel(dd) && task != All
    ensures TrendData(DurationKind, d, dd, task).Threw? <==>
      exists i :: 0 <= i < |d.dates| && d.tasks[i] == task && Times(d)[i].None?
    ensures Numeric(d, Some(task), Times(d), |d.dates|) ==>
      && TrendData(DurationKind, d, dd, task).Ok?
      && var v := Lookup(TrendData(DurationKind, d, dd, task).value, x);
      && (v.Some? <==> exists i :: 0 <= i < |d.dates| && d.tasks[i] == task && d.dates[i] == x)
      && (v.Some? ==>
            exists lo, hi :: lo <= hi && DayRange(d, Some(task), Times(d), x, lo, hi) && v.value == Finite(hi - lo))
  {
    TaskSpans(d, task, Times(d), x);
  }

  /** `TrendDurationTaskSpec` for any times of day, stated on the spans. */
  lemma TaskSpans(d: ItemData, task: string, times: seq<Option<Num>>, x: string)
    requires Parallel(d) && |times| == |d.dates|
    ensures Spans(d, Some(task), times, |d.dates|).None? <==>
      exists i :: 0 <= i < |d.dates| && d.tasks[i] == task && times[i].None?
    ensures Numeric(d, Some(task), times, |d.dates|) ==>
      && Spans(d, Some(task), times, |d.dates|).Some?
      && var v := Lookup(SpanPoints(Spans(d, Some(task), times, |d.dates|).value), x);
      && (v.Some? <==> exists i :: 0 <= i < |d.dates| && d.tasks[i] == task && d.dates[i] == x)
      && (v.Some? ==>
            exists lo, hi :: lo <= hi && DayRange(d, Some(task), times, x, lo, hi) && v.value == Finite(hi - lo))
  {
    var n := |d.dates|;
    SpansSome(d, Some(task), times, n);
    assert forall i :: 0 <= i < n ==> (Matches(d, i, None, Some(task)) <==> d.tasks[i] == task);
    if Numeric(d, Some(task), times, n) {
      SpanSeries(d, Some(task), times, x);
    }
  }

  /** The spans depend only on the rows and times they read. */
  lemma {:induction false} SpansAgree(a: ItemData, b: ItemData, task: Option<string>, ta: seq<Option<Num>>, tb: seq<Option<Num>>, k: nat)
    requires Parallel(a) && Parallel(b) && |ta| == |a.dates| && |tb| == |b.dates| && k <= |a.dates| && k <= |b.dates|
    requires forall i :: 0 <= i < k ==> RowAt(a, i) == RowAt(b, i) && ta[i] == tb[i]
    ensures Spans(a, task, ta, k) == Spans(b, task, tb, k)
    decreases k
  {
    if k > 0 {
      SpansAgree(a, b, task, ta, tb, k - 1);
      assert RowAt(a, k - 1) == RowAt(b, k - 1);
    }
  }

  /** One more row folds its time into the spans when it matches. */
  lemma SpansSnoc(p: ItemData, r: Row, task: Option<string>, ts: seq<Option<Num>>, t: Option<Num>)
    requires Parallel(p) && |ts| == |p.dates|
    ensures Parallel(Push(p, r))
    ensures var sp := Spans(p, task, ts, |p.dates|);
      Spans(Push(p, r), task, ts + [t], |p.dates| + 1)
      == if sp.None? then None
         else if !(task.None? || r.task == task.value) then sp
         else if t.None? then None
         else Some(Observe(sp.value, r.date, t.value))
  {
    var f := Push(p, r);
    RowsPush(p, r);
    forall i | 0 <= i < |p.dates|
      ensures RowAt(f, i) == RowAt(p, i)
    {
      assert Rows(f)[i] == Rows(p)[i];
    }
    SpansAgree(f, p, task, ts + [t], ts, |p.dates|);
  }

  /** The last of the first `n` rows folded into the spans of the ones before. */
  lemma SpansStep(d: ItemData, task: Option<string>, times: seq<Option<Num>>, n: nat)
    requires Parallel(d) && |times| == |d.dates| && 0 < n <= |d.dates|
    ensures var sp, r, t := Spans(d, task, times, n - 1), RowAt(d, n - 1), times[n - 1];
      Spans(d, task, times, n)
      == if sp.None? then None
         else if !(task.None? || r.task == task.value) then sp
         else if t.None? then None
         else Some(Observe(sp.value, r.date, t.value))
  {
  }

  /** The times of the rows the task-name filter keeps. */
  function SelectTimes(d: ItemData, task: string, times: seq<Option<Num>>, n: nat): (r: seq<Option<Num>>)
    requires Parallel(d) && |times| == |d.dates| && n <= |d.dates|
    ensures |r| == |Select(d, TaskColumn, task, n).dates|
    decreases n
  {
    if n == 0 then [] else SelectTimes(d, task, times, n - 1) + (if d.tasks[n - 1] == task then [times[n - 1]] else [])
  }

  /** Reading the kept rows' stamps with any reader gives the kept entries of the whole table's readings. */
  lemma {:induction false} TimesSelect(d: ItemData, task: string, n: nat, read: string -> Option<Num>)
    requires Parallel(d) && n <= |d.dates|
    ensures ReadEach(Select(d, TaskColumn, task, n).stamps, read) == SelectTimes(d, task, ReadEach(d.stamps, read), n)
    decreases n
  {
    if n > 0 {
      var m: nat := n - 1;
      TimesSelect(d, task, m, read);
      var p := Select(d, TaskColumn, task, m);
      var all := ReadEach(d.stamps, read);
      if d.tasks[m] == task {
        var row := RowAt(d, m);
        assert Select(d, TaskColumn, task, n) == Push(p, row);
        assert Push(p, row).stamps == p.stamps + [row.stamp];
        assert all[m] == read(row.stamp);
        ReadEachSnoc(p.stamps, row.stamp, read);
      } else {
        assert Select(d, TaskColumn, task, n) == p;
        assert SelectTimes(d, task, all, n) == SelectTimes(d, task, all, m) + [];
      }
    }
  }

  /** Spanning the rows the task-name filter kept is spanning the selected task's rows of the whole table. */
  lemma {:induction false} SpansSelect(d: ItemData, task: string, times: seq<Option<Num>>, n: nat)
    requires Parallel(d) && |times| == |d.dates| && n <= |d.dates|
    ensures var f := Select(d, TaskColumn, task, n);
      Spans(f, None, SelectTimes(d, task, times, n), |f.dates|) == Spans(d, Some(task), times, n)
    decreases n
  {
    if n > 0 {
      var m: nat := n - 1;
      SpansSelect(d, task, times, m);
      var p := Select(d, TaskColumn, task, m);
      var ts := SelectTimes(d, task, times, m);
      if d.tasks[m] == task {
        var row := RowAt(d, m);
        assert Select(d, TaskColumn, task, n) == Push(p, row);
        assert SelectTimes(d, task, times, n) == ts + [times[m]];
        SpansSnoc(p, row, None, ts, times[m]);
        SpansStep(d, Some(task), times, n);
      } else {
        assert Select(d, TaskColumn, task, n) == p;
        assert SelectTimes(d, task, times, n) == ts + [];
        assert ts + [] == ts;
        assert !Matches(d, m, None, Some(task));
      }
    }
  }

  /**
   * For one task, the `'duration'` series throws exactly when
   * `calculateItemTrend` over all dates throws, and otherwise adds up to
   * the play time that call formats.
   */
  lemma TrendSumsToItemTrend(d: ItemData, dd: DurationData, task: string)
    requires Parallel(d) && DurationsParallel(dd) && task != All
    ensures TrendData(DurationKind, d, dd, task).Ok? <==> ItemTrend(d, dd, All, task).Ok?
    ensures TrendData(DurationKind, d, dd, task).Ok? ==>
      ItemTrend(d, dd, All, task).value.processed.duration
      == FormatDuration(PointSum(TrendData(DurationKind, d, dd, task).value))
  {
    var n := |d.dates|;
    var f := Select(d, TaskColumn, task, n);
    assert Filtered(d, All, task) == f;
    SpansSelect(d, task, Times(d), n);
    TimesSelect(d, task, n, StampSeconds);
    match Spans(d, Some(task), Times(d), n)
    case None =>
    case Some(spans) =>
      SpanPointsSum(spans);
      if |f.stamps| == 0 {
        assert spans == [];
      }
  }

  /** `calculateAnItemTrend`: per date, how often the item was picked up in the selected task (in any task for `'all'`). */
  function AnItemTrend(item: string, d: ItemData, task: string): seq<Point>
    requires Parallel(d)
  {
    CountPoints(CountKeys(MatchingDates(d, Some(item), TaskFilter(task), |d.dates|)))
  }

  method CalculateAnItemTrend(item: string, d: ItemData, task: string) returns (r: seq<Point>)
    requires Parallel(d)
    ensures r == AnItemTrend(item, d, task)
  {
    var counts := CountDates(d, Some(item), TaskFilter(task));
    r := CountPoints(counts);
  }

  /** Each date of the item's series counts its rows of the item (and task); the series adds up to all of them. */
  lemma AnItemTrendSpec(item: string, d: ItemData, task: string, x: string)
    requires Parallel(d)
    ensures var n, t := |d.dates|, TaskFilter(task);
      && Lookup(AnItemTrend(item, d, task), x)
         == (if |OnDate(d, Some(item), t, n, x)| > 0 then Some(Finite(|OnDate(d, Some(item), t, n, x)|)) else None)
      && PointSum(AnItemTrend(item, d, task)) == Finite(|MatchingRows(d, Some(item), t, n)|)
  {
    DateCounts(d, Some(item), TaskFilter(task), x);
  }
}

=== FILE: src/site_numbers.dfy ===
/**
 * The number and text helpers of the web front end's statistics class
 * (website/lib/functions.ts): JavaScript numbers as the helpers produce
 * them, `formatDuration`, the `parseInt` reading of an "HH:MM:SS.mmm"
 * time of day, and `escapeXML`.
 */
module SiteNumbers {
  import opened Wrappers
  import opened Strings

  /** A JavaScript number as these helpers produce it: an integer, or NaN. */
  datatype Num = Finite(n: int) | NaN

  /** `a + b`: NaN as soon as either side is. */
  function Add(a: Num, b: Num): Num
  {
    if a.Finite? && b.Finite? then Finite(a.n + b.n) else NaN
  }

  /** `a - b`. */
  function Sub(a: Num, b: Num): Num
  {
    if a.Finite? && b.Finite? then Finite(a.n - b.n) else NaN
  }

  /** `k * a` for an integer constant `k`. */
  function Scale(k: int, a: Num): Num
  {
    if a.Finite? then Finite(k * a.n) else NaN
  }

  /** `Math.min(a, b)`: NaN when either argument is. */
  function Min(a: Num, b: Num): Num
  {
    if a.Finite? && b.Finite? then Finite(if a.n <= b.n then a.n else b.n) else NaN
  }

  /** `Math.max(a, b)`. */
  function Max(a: Num, b: Num): Num
  {
    if a.Finite? && b.Finite? then Finite(if a.n >= b.n then a.n else b.n) else NaN
  }

  /** JavaScript's `t % d` for `d > 0`: the remainder takes the sign of `t`. */
  function JsRem(t: int, d: int): (r: int)
    requires d > 0
    ensures t >= 0 ==> 0 <= r < d
    ensures t < 0 ==> -d < r <= 0
  {
    if t >= 0 then t % d else -((-t) % d)
  }

  /**
   * `formatDuration`: `Math.floor(t / 3600)` hours and
   * `Math.floor((t % 3600) / 60)` minutes. Dafny's `/` by a positive
   * constant is already the floor.
   */
  function FormatDuration(total: Num): string
  {
    match total
    case NaN => "NaN小时NaN分钟"
    case Finite(t) => IntToString(t / 3600) + "小时" + IntToString(JsRem(t, 3600) / 60) + "分钟"
  }

  /**
   * For a non-negative duration the text names the whole hours and the
   * whole minutes left over: any `h`, `m` with `0 <= m < 60` and
   * `3600h + 60m <= t < 3600h + 60m + 60` are the two numbers shown.
   */
  lemma FormatDurationSpec(t: int, h: int, m: int)
    requires t >= 0 && 0 <= m < 60
    requires h * 3600 + m * 60 <= t < h * 3600 + m * 60 + 60
    ensures FormatDuration(Finite(t)) == IntToString(h) + "小时" + IntToString(m) + "分钟"
  {
    assert t / 3600 == h;
    assert t % 3600 == m * 60 + (t - h * 3600 - m * 60);
    assert (t % 3600) / 60 == m;
  }

  /** Below zero both divisions round down while the remainder keeps the sign: -30 s reads "-1小时-1分钟". */
  lemma FormatDurationNegative()
    ensures FormatDuration(Finite(-30)) == "-1小时-1分钟"
  {
    assert JsRem(-30, 3600) == -30;
    assert -30 / 60 == -1;
    assert IntToString(-1) == "-1";
  }

  /** The leading run of ASCII digits of `s`. */
  function LeadingDigits(s: string): (r: string)
    ensures |r| <= |s| && AllDigits(r)
    ensures |r| < |s| ==> !('0' <= s[|r|] <= '9')
    decreases |s|
  {
    if |s| > 0 && '0' <= s[0] <= '9' then [s[0]] + LeadingDigits(s[1..]) else ""
  }

  /**
   * The characters `parseInt` skips at the start: the ECMAScript
   * WhiteSpace (TAB, VT, FF, the space separators and U+FEFF) and
   * LineTerminator (LF, CR, U+2028, U+2029) sets.
   */
  predicate JsSpace(c: char)
  {
    var n := c as int;
    n == 0x09 || n == 0x0A || n == 0x0B || n == 0x0C || n == 0x0D || n == 0x20 || n == 0xA0 || n == 0x1680
    || (0x2000 <= n <= 0x200A) || n == 0x2028 || n == 0x2029 || n == 0x202F || n == 0x205F || n == 0x3000 || n == 0xFEFF
  }

  /** `s.trimStart()`: drops the leading JavaScript white space. */
  function TrimStart(s: string): (r: string)
    ensures |r| <= |s|
    decreases |s|
  {
    if |s| > 0 && JsSpace(s[0]) then TrimStart(s[1..]) else s
  }

  /** What `trimStart` drops is white space, and what it keeps starts with something else. */
  lemma {:induction false} TrimStartSpec(s: string)
    ensures var r := TrimStart(s);
      && r == s[|s| - |r|..]
      && (forall k :: 0 <= k < |s| - |r| ==> JsSpace(s[k]))
      && (|r| > 0 ==> !JsSpace(r[0]))
    decreases |s|
  {
    if |s| > 0 && JsSpace(s[0]) {
      TrimStartSpec(s[1..]);
      assert s[1..][|s[1..]| - |TrimStart(s)|..] == s[|s| - |TrimStart(s)|..];
    }
  }

  /** Leading white space is dropped one character at a time. */
  lemma TrimStartSkip(s: string)
    requires |s| > 0 && JsSpace(s[0])
    ensures TrimStart(s) == TrimStart(s[1..])
  {
  }

  /** Text that starts with a character other than white space has nothing to trim. */
  lemma TrimStartKeeps(s: string)
    requires |s| > 0 && !JsSpace(s[0])
    ensures TrimStart(s) == s
  {
  }

  /**
   * `parseInt(s)` in base 10: leading white space is skipped, one sign is
   * read, then the longest run of digits; no digit at all gives NaN.
   */
  function JsParseInt(s: string): Num
  {
    ParseTrimmed(TrimStart(s))
  }

  /** The sign and digits `parseInt` reads once the white space is gone. */
  function ParseTrimmed(t: string): Num
  {
    var signed := |t| > 0 && (t[0] == '-' || t[0] == '+');
    var digits := LeadingDigits(if signed then t[1..] else t);
    if |digits| == 0 then NaN
    else Finite(if signed && t[0] == '-' then -(DigitsValue(digits) as int) else DigitsValue(digits))
  }

  lemma {:induction false} LeadingDigitsOf(ds: string, rest: string)
    requires AllDigits(ds)
    requires |rest| > 0 ==> !('0' <= rest[0] <= '9')
    ensures LeadingDigits(ds + rest) == ds
    decreases |ds|
  {
    if |ds| > 0 {
      assert (ds + rest)[1..] == ds[1..] + rest;
      LeadingDigitsOf(ds[1..], rest);
    } else {
      assert ds + rest == rest;
    }
  }

  /** `parseInt` reads a run of digits as its decimal value and ignores whatever follows a non-digit. */
  lemma JsParseIntDigits(ds: string, rest: string)
    requires |ds| > 0 && AllDigits(ds)
    requires |rest| > 0 ==> !('0' <= rest[0] <= '9')
    ensures JsParseInt(ds + rest) == Finite(DigitsValue(ds))
  {
    var s := ds + rest;
    assert s[0] == ds[0];
    JsParseIntUnsigned(s);
    LeadingDigitsOf(ds, rest);
  }

  lemma TrimmedDigits(t: string)
    requires |t| > 0 && '0' <= t[0] <= '9'
    ensures ParseTrimmed(t) == Finite(DigitsValue(LeadingDigits(t)))
  {
    assert t[0] != '-' && t[0] != '+';
    assert LeadingDigits(t) == [t[0]] + LeadingDigits(t[1..]);
  }

  /** Text that starts with a digit reads as the value of its leading digits. */
  lemma JsParseIntUnsigned(s: string)
    requires |s| > 0 && '0' <= s[0] <= '9'
    ensures JsParseInt(s) == Finite(DigitsValue(LeadingDigits(s)))
  {
    assert !JsSpace(s[0]);
    TrimStartKeeps(s);
    TrimmedDigits(s);
  }

  /**
   * The white space skipped is JavaScript's, not Python's: U+001C is not
   * skipped, so "\u001C5" is NaN, while U+FEFF is, so "\uFEFF5" reads 5.
   */
  lemma JsSpaceExamples()
    ensures JsParseInt("\U{001C}5") == NaN
    ensures JsParseInt("\U{FEFF}5") == Finite(5)
  {
    var a, b := "\U{001C}5", "\U{FEFF}5";
    assert !JsSpace(a[0]);
    TrimStartKeeps(a);
    assert a[0] != '-' && a[0] != '+';
    assert LeadingDigits(a) == "";
    assert JsSpace(b[0]) && b[1..] == "5";
    TrimStartSkip(b);
    TrimStartKeeps("5");
    TrimmedDigits("5");
    assert LeadingDigits("5") == "5" by {
      assert "5"[1..] == "";
    }
  }

  lemma TrimmedNoDigits(t: string)
    requires forall k :: 0 <= k < |t| ==> !('0' <= t[k] <= '9')
    ensures ParseTrimmed(t) == NaN
  {
    if |t| > 1 {
      assert t[1..][0] == t[1];
    }
  }

  /** Text with no digit at all reads as NaN. */
  lemma JsParseIntNoDigits(s: string)
    requires forall k :: 0 <= k < |s| ==> !('0' <= s[k] <= '9')
    ensures JsParseInt(s) == NaN
  {
    var t := TrimStart(s);
    TrimStartSpec(s);
    assert forall k :: 0 <= k < |t| ==> t[k] == s[|s| - |t| + k];
    TrimmedNoDigits(t);
  }

  /**
   * The seconds of the day in an "HH:MM:SS.mmm" time stamp, as
   * `parseInt(hours) * 3600 + parseInt(minutes) * 60 + parseInt(sec)`
   * computes them; `None` where fewer than three ':'-separated parts leave
   * `seconds` undefined, so that `seconds.split('.')` throws a TypeError.
   */
  function StampSeconds(stamp: string): Option<Num>
  {
    var parts := Split(stamp, ':');
    if |parts| < 3 then None
    else
      var sec := Split(parts[2], '.')[0];
      Some(Add(Add(Scale(3600, JsParseInt(parts[0])), Scale(60, JsParseInt(parts[1]))), JsParseInt(sec)))
  }

  lemma SplitThree(h: string, m: string, rest: string)
    requires ':' !in h && ':' !in m && ':' !in rest
    ensures Split(h + ":" + m + ":" + rest, ':') == [h, m, rest]
  {
    assert h + ":" + m + ":" + rest == h + [':'] + (m + [':'] + rest);
    SplitConcat(h, m + [':'] + rest, ':');
    SplitConcat(m, rest, ':');
  }

  /**
   * The three fields of a stamp are read with `parseInt`: the hours before
   * the first ':', the minutes before the second, and the seconds up to
   * the '.' that starts the milliseconds.
   */
  lemma StampFields(h: string, m: string, s: string, ms: string)
    requires ':' !in h && ':' !in m && ':' !in s && '.' !in s && ':' !in ms
    ensures StampSeconds(h + ":" + m + ":" + s + "." + ms)
      == Some(Add(Add(Scale(3600, JsParseInt(h)), Scale(60, JsParseInt(m))), JsParseInt(s)))
  {
    var rest := s + "." + ms;
    assert ':' !in rest by {
      assert forall k :: 0 <= k < |rest| ==> rest[k] == (if k < |s| then s[k] else if k == |s| then '.' else ms[k - |s| - 1]);
    }
    assert h + ":" + m + ":" + s + "." + ms == h + ":" + m + ":" + rest;
    SplitThree(h, m, rest);
    assert rest == s + ['.'] + ms;
    SplitConcat(s, ms, '.');
  }

  lemma JsParseIntAll(ds: string)
    requires |ds| > 0 && AllDigits(ds)
    ensures JsParseInt(ds) == Finite(DigitsValue(ds))
  {
    JsParseIntDigits(ds, "");
    assert ds + "" == ds;
  }

  /**
   * A stamp written from whole hours, minutes and seconds reads back as
   * `3600 * hours + 60 * minutes + seconds`, whatever its milliseconds.
   */
  lemma StampSecondsOf(hours: nat, minutes: nat, seconds: nat, ms: string)
    requires ':' !in ms
    ensures StampSeconds(NatToString(hours) + ":" + NatToString(minutes) + ":" + NatToString(seconds) + "." + ms)
      == Some(Finite(hours * 3600 + minutes * 60 + seconds))
  {
    var h, m, s := NatToString(hours), NatToString(minutes), NatToString(seconds);
    NumeralField(hours);
    NumeralField(minutes);
    NumeralField(seconds);
    StampFields(h, m, s, ms);
    SecondsOfDay(hours, minutes, seconds);
  }

  /** A numeral holds neither separator of a stamp and reads back with `parseInt`. */
  lemma NumeralField(n: nat)
    ensures ':' !in NatToString(n) && '.' !in NatToString(n)
    ensures JsParseInt(NatToString(n)) == Finite(n)
  {
    var ds := NatToString(n);
    JsParseIntAll(ds);
    NatToStringValue(n);
  }

  lemma SecondsOfDay(x: int, y: int, z: int)
    ensures Add(Add(Scale(3600, Finite(x)), Scale(60, Finite(y))), Finite(z)) == Finite(x * 3600 + y * 60 + z)
  {
  }

  /** Fewer than three parts: the site throws before computing a number. */
  lemma StampSecondsThrows(a: string, b: string)
    requires ':' !in a && ':' !in b
    ensures StampSeconds(a) == None
    ensures StampSeconds(a + ":" + b) == None
  {
    assert a + ":" + b == a + [':'] + b;
    SplitConcat(a, b, ':');
  }

  /** The entity `escapeXML` puts in place of one character. */
  function EscapeChar(c: char): string
  {
    match c
    case '<' => "&lt;"
    case '>' => "&gt;"
    case '&' => "&amp;"
    case '"' => "&quot;"
    case '\'' => "&apos;"
    case _ => [c]
  }

  /** `escapeXML`: each of `<`, `>`, `&`, `"` and `'` becomes its entity. */
  function EscapeXml(s: string): string
    decreases |s|
  {
    if |s| == 0 then "" else EscapeChar(s[0]) + EscapeXml(s[1..])
  }

  /** Reading the five entities back into characters; anything else is copied. */
  function UnescapeXml(s: string): string
    decreases |s|
  {
    if |s| == 0 then ""
    else if "&lt;" <= s then "<" + UnescapeXml(s[4..])
    else if "&gt;" <= s then ">" + UnescapeXml(s[4..])
    else if "&amp;" <= s then "&" + UnescapeXml(s[5..])
    else if "&quot;" <= s then "\"" + UnescapeXml(s[6..])
    else if "&apos;" <= s then "'" + UnescapeXml(s[6..])
    else [s[0]] + UnescapeXml(s[1..])
  }

  predicate Special(c: char)
  {
    c == '<' || c == '>' || c == '&' || c == '"' || c == '\''
  }

  /** Exactly the five characters are replaced; every other character is kept as it is. */
  lemma EscapeCharSpec(c: char)
    ensures !Special(c) <==> EscapeChar(c) == [c]
    ensures Special(c) ==> |EscapeChar(c)| >= 4 && EscapeChar(c)[0] == '&' && EscapeChar(c)[|EscapeChar(c)| - 1] == ';'
  {
  }

  /** Escaping loses nothing: reading the entities back gives the text. */
  lemma {:induction false} EscapeRoundTrip(s: string)
    ensures UnescapeXml(EscapeXml(s)) == s
    decreases |s|
  {
    if |s| > 0 {
      EscapeRoundTrip(s[1..]);
      UnescapeChar(s[0], EscapeXml(s[1..]));
      assert s == [s[0]] + s[1..];
    }
  }

  /** An escaped character followed by any text reads back as that character followed by the text read back. */
  lemma UnescapeChar(c: char, rest: string)
    ensures UnescapeXml(EscapeChar(c) + rest) == [c] + UnescapeXml(rest)
  {
    var x := EscapeChar(c);
    var e := x + rest;
    assert e[|x|..] == rest;
    match c
    case '<' => assert x <= e;
    case '>' => assert x <= e && e[1] == 'g';
    case '&' => assert x <= e && e[1] == 'a';
    case '"' => assert x <= e && e[1] == 'q';
    case '\'' => assert x <= e && e[1] == 'a' && e[2] == 'p';
    case _ => assert e[0] == c && e[1..] == rest;
  }

  /** No markup character other than the `&` that opens an entity survives escaping. */
  lemma {:induction false} EscapedHasNoMarkup(s: string)
    ensures forall k :: 0 <= k < |EscapeXml(s)| ==> EscapeXml(s)[k] !in "<>\"'"
    ensures |EscapeXml(s)| >= |s|
    decreases |s|
  {
    if |s| > 0 {
      EscapedHasNoMarkup(s[1..]);
      var e := EscapeChar(s[0]);
      assert forall k :: 0 <= k < |e| ==> e[k] !in "<>\"'";
      assert forall k :: |e| <= k < |EscapeXml(s)| ==> EscapeXml(s)[k] == EscapeXml(s[1..])[k - |e|];
    }
  }
}

=== FILE: src/streaming.dfy ===
/**
 * The preview pipeline of app/streaming/preview.py: the preview backends,
 * the inter-frame delay tracker, the pool of reusable frame buffers, the
 * Sunshine engine's buffer and sampling bookkeeping, the engine factory
 * and the soak test driver.  A frame buffer is its shape plus a serial
 * number telling apart buffers made at different times; timestamps are
 * exact reals.
 */
module Streaming {
  import opened Wrappers
  import PreviewModes

  /** `PreviewMode` of the streaming package. */
  datatype PreviewMode = NoPreview | WebRtc | LlHls | Sunshine

  function ModeValue(m: PreviewMode): string
  {
    match m
    case NoPreview => "none"
    case WebRtc => "web-rtc"
    case LlHls => "ll-hls"
    case Sunshine => "sunshine"
  }

  /** `PreviewMode.from_value`: `None`, the empty text and unknown values fall back to no preview. */
  function FromValue(value: Option<string>): PreviewMode
  {
    if value.None? || value.value == "" then NoPreview
    else if value.value == "none" then NoPreview
    else if value.value == "web-rtc" then WebRtc
    else if value.value == "ll-hls" then LlHls
    else if value.value == "sunshine" then Sunshine
    else NoPreview
  }

  /**
   * Every backend is found again from its value; the values are exactly
   * the modes app/api/preview.py supports; anything else means no preview.
   */
  lemma FromValueSpec(value: Option<string>)
    ensures forall m :: FromValue(Some(ModeValue(m))) == m
    ensures forall m :: ModeValue(m) in PreviewModes.SupportedModes
    ensures value.Some? && value.value in PreviewModes.SupportedModes ==> ModeValue(FromValue(value)) == value.value
    ensures value.None? || value.value !in PreviewModes.SupportedModes ==> FromValue(value) == NoPreview
  {
    assert PreviewModes.SupportedModes == {"none", "sunshine", "web-rtc", "ll-hls"} by {
      assert forall m :: m in PreviewModes.SupportedModes <==> m in PreviewModes.Choices;
    }
  }

  /** The engine `create_engine` builds. */
  datatype EngineKind = SunshineEngine | NullEngine

  /** `PreviewManager(mode).create_engine()`: a Sunshine engine for Sunshine, a discarding one otherwise. */
  function CreateEngine(mode: string): EngineKind
  {
    if FromValue(Some(mode)) == Sunshine then SunshineEngine else NullEngine
  }

  lemma CreateEngineSpec(mode: string)
    ensures CreateEngine(mode) == SunshineEngine <==> mode == "sunshine"
  {
  }

  // ---------------------------------------------------------------
  // FrameDelayTracker
  // ---------------------------------------------------------------

  /** `max(0.0, x)`. */
  function NonNegative(x: real): real
  {
    if 0.0 >= x then 0.0 else x
  }

  /** One `observe(t)`: the delay it answers and the timestamp it keeps. */
  function Observation(last: Option<real>, t: real): (Option<real>, Option<real>)
  {
    if last.None? then (None, Some(t)) else (Some(NonNegative(t - last.value)), Some(t))
  }

  /** The delays answered to the timestamps `ts` in turn, starting from `last`. */
  function Delays(last: Option<real>, ts: seq<real>): seq<Option<real>>
    decreases |ts|
  {
    if |ts| == 0 then [] else [Observation(last, ts[0]).0] + Delays(Some(ts[0]), ts[1..])
  }

  /**
   * A fresh (or reset) tracker answers nothing to its first timestamp and
   * then the non-negative gap to the one before.
   */
  lemma {:induction false} DelaysSpec(last: Option<real>, ts: seq<real>)
    ensures |Delays(last, ts)| == |ts|
    ensures |ts| > 0 ==> Delays(last, ts)[0] == if last.None? then None else Some(NonNegative(ts[0] - last.value))
    ensures forall k :: 0 < k < |ts| ==>
      Delays(last, ts)[k] == Some(NonNegative(ts[k] - ts[k - 1])) && Delays(last, ts)[k].value >= 0.0
    decreases |ts|
  {
    if |ts| > 0 {
      DelaysSpec(Some(ts[0]), ts[1..]);
      forall k | 0 < k < |ts|
        ensures Delays(last, ts)[k] == Some(NonNegative(ts[k] - ts[k - 1]))
      {
        if k > 1 {
          assert Delays(last, ts)[k] == Delays(Some(ts[0]), ts[1..])[k - 1];
        }
      }
    }
  }

  /** The sum of the delays answered. */
  function TotalDelay(ds: seq<Option<real>>): real
    decreases |ds|
  {
    if |ds| == 0 then 0.0 else (if ds[0].Some? then ds[0].value else 0.0) + TotalDelay(ds[1..])
  }

  predicate NonDecreasing(ts: seq<real>)
  {
    forall i, j :: 0 <= i < j < |ts| ==> ts[i] <= ts[j]
  }

  /** On timestamps that never go back, the delays add up to the time between the first and the last. */
  lemma {:induction false} DelaysTelescope(prev: real, ts: seq<real>)
    requires NonDecreasing([prev] + ts)
    ensures TotalDelay(Delays(Some(prev), ts)) == if |ts| == 0 then 0.0 else ts[|ts| - 1] - prev
    decreases |ts|
  {
    if |ts| > 0 {
      assert ([prev] + ts)[0] == prev && ([prev] + ts)[1] == ts[0];
      assert NonDecreasing([ts[0]] + ts[1..]) by {
        assert [ts[0]] + ts[1..] == ([prev] + ts)[1..];
      }
      DelaysTelescope(ts[0], ts[1..]);
      assert Delays(Some(prev), ts)[1..] == Delays(Some(ts[0]), ts[1..]);
    }
  }

  /** `FrameDelayTracker`. */
  class FrameDelayTracker {
    var last: Option<real>

    constructor ()
      ensures last.None?
    {
      last := None;
    }

    /** `observe`: nothing the first time, then the non-negative gap to the previous timestamp. */
    method Observe(t: real) returns (delay: Option<real>)
      modifies this
      ensures (delay, last) == Observation(old(last), t)
    {
      if last.None? {
        last := Some(t);
        return None;
      }
      var gap := t - last.value;
      delay := Some(if 0.0 >= gap then 0.0 else gap);
      last := Some(t);
    }

    /** `reset`: the next observation is a first one again. */
    method Reset()
      modifies this
      ensures last.None?
    {
      last := None;
    }
  }

  // ---------------------------------------------------------------
  // FrameBufferPool
  // ---------------------------------------------------------------

  /** `(height, width, channels)`. */
  type Shape = (int, int, int)

  /** A frame buffer: its shape, and the serial number of its making. */
  datatype Buffer = Buffer(shape: Shape, serial: nat)

  /** The pool's state: the pooled buffers front first, the resolution, and how many buffers were made. */
  datatype PoolState = PoolState(pool: seq<Buffer>, resolution: Option<Shape>, made: nat)

  /**
   * What the pool promises: never more than `max` buffers, and while it has
   * a resolution, only buffers of that shape.
   */
  predicate PoolValid(max: int, s: PoolState)
  {
    && (|s.pool| == 0 || |s.pool| <= max)
    && (s.resolution.Some? ==> forall b :: b in s.pool ==> b.shape == s.resolution.value)
  }

  /** `acquire(shape)`: the new state and the buffer handed out. */
  function PoolAcquire(s: PoolState, shape: Shape): (PoolState, Buffer)
  {
    var pool := if s.resolution != Some(shape) then [] else s.pool;
    if |pool| > 0 && pool[0].shape == shape then (PoolState(pool[1..], Some(shape), s.made), pool[0])
    else if |pool| > 0 then (PoolState(pool[1..], Some(shape), s.made + 1), Buffer(shape, s.made))
    else (PoolState([], Some(shape), s.made + 1), Buffer(shape, s.made))
  }

  /** `release(buffer)`. */
  function PoolRelease(max: int, s: PoolState, b: Buffer): PoolState
  {
    if s.resolution.Some? && b.shape != s.resolution.value then s
    else if |s.pool| < max then s.(pool := s.pool + [b])
    else s
  }

  /** `clear()`. */
  function PoolClear(s: PoolState): PoolState
  {
    s.(pool := [], resolution := None)
  }

  /**
   * The buffer has the requested shape, which becomes the resolution; on
   * an unchanged resolution a pooled buffer is handed out before a new one
   * is made; a new resolution empties the pool and makes a new buffer.
   */
  lemma AcquireSpec(max: int, s: PoolState, shape: Shape)
    ensures var (s', b) := PoolAcquire(s, shape);
      && b.shape == shape && s'.resolution == Some(shape)
      && (PoolValid(max, s) ==> PoolValid(max, s'))
      && (s.resolution == Some(shape) && |s.pool| > 0 && PoolValid(max, s) ==>
            b == s.pool[0] && s'.pool == s.pool[1..] && s'.made == s.made)
      && (s.resolution != Some(shape) || |s.pool| == 0 ==>
            b == Buffer(shape, s.made) && s'.pool == [] && s'.made == s.made + 1)
  {
  }

  /**
   * A buffer of another shape than the resolution is dropped; otherwise
   * it is pooled exactly when there is room; the bound is kept.
   */
  lemma ReleaseSpec(max: int, s: PoolState, b: Buffer)
    ensures var s' := PoolRelease(max, s, b);
      && s'.resolution == s.resolution && s'.made == s.made
      && (s'.pool == s.pool + [b] <==> (s.resolution.None? || b.shape == s.resolution.value) && |s.pool| < max)
      && (s'.pool != s.pool + [b] ==> s'.pool == s.pool)
      && (PoolValid(max, s) ==> PoolValid(max, s'))
  {
    var s' := PoolRelease(max, s, b);
    if s'.pool == s.pool + [b] {
      assert |s'.pool| != |s.pool|;
    }
  }

  /** The pool operations, as a caller issues them. */
  datatype PoolOp = AcquireOp(shape: Shape) | ReleaseOp(buffer: Buffer) | ClearOp

  function Apply(max: int, s: PoolState, op: PoolOp): PoolState
  {
    match op
    case AcquireOp(shape) => PoolAcquire(s, shape).0
    case ReleaseOp(b) => PoolRelease(max, s, b)
    case ClearOp => PoolClear(s)
  }

  function Run(max: int, s: PoolState, ops: seq<PoolOp>): PoolState
    decreases |ops|
  {
    if |ops| == 0 then s else Run(max, Apply(max, s, ops[0]), ops[1..])
  }

  /** Whatever the callers do, the pool never holds more than `max` buffers, nor one of a stale shape. */
  lemma {:induction false} RunKeepsValid(max: int, s: PoolState, ops: seq<PoolOp>)
    requires PoolValid(max, s)
    ensures PoolValid(max, Run(max, s, ops))
    ensures |Run(max, s, ops).pool| == 0 || |Run(max, s, ops).pool| <= max
    decreases |ops|
  {
    if |ops| > 0 {
      match ops[0] {
        case AcquireOp(shape) => AcquireSpec(max, s, shape);
        case ReleaseOp(b) => ReleaseSpec(max, s, b);
        case ClearOp =>
      }
      RunKeepsValid(max, Apply(max, s, ops[0]), ops[1..]);
    }
  }

  /** `FrameBufferPool`. */
  class FrameBufferPool {
    const maxBuffers: int
    var pool: seq<Buffer>
    var resolution: Option<Shape>
    var made: nat

    function State(): PoolState
      reads this
    {
      PoolState(pool, resolution, made)
    }

    predicate Valid()
      reads this
    {
      PoolValid(maxBuffers, State())
    }

    constructor (maxBuffers: int)
      ensures Valid() && this.maxBuffers == maxBuffers && pool == [] && resolution.None? && made == 0
    {
      this.maxBuffers := maxBuffers;
      pool := [];
      resolution := None;
      made := 0;
    }

    method Acquire(shape: Shape) returns (b: Buffer)
      modifies this
      ensures (State(), b) == PoolAcquire(old(State()), shape)
    {
      if resolution != Some(shape) {
        resolution := Some(shape);
        pool := [];
      }
      if |pool| > 0 {
        b := pool[0];
        pool := pool[1..];
        if b.shape != shape {
          b := Buffer(shape, made);
          made := made + 1;
        }
      } else {
        b := Buffer(shape, made);
        made := made + 1;
      }
    }

    method Release(b: Buffer)
      modifies this
      ensures State() == PoolRelease(maxBuffers, old(State()), b)
    {
      if resolution.Some? && b.shape != resolution.value {
        return;
      }
      if |pool| < maxBuffers {
        pool := pool + [b];
      }
    }

    method Clear()
      modifies this
      ensures State() == PoolClear(old(State()))
    {
      pool := [];
      resolution := None;
    }
  }

  // ---------------------------------------------------------------
  // Sampling
  // ---------------------------------------------------------------

  /** `MetricSample`: the memory figures read from the process are not part of this model. */
  datatype MetricSample = MetricSample(timestamp: real, frameDelay: Option<real>)

  /** The tracker's timestamp, the time of the last sample, and the samples. */
  datatype Meter = Meter(observed: Option<real>, lastSample: Option<real>, samples: seq<MetricSample>)

  /** `_maybe_sample` records at the first frame and whenever `interval` has passed since the last sample. */
  predicate Due(lastSample: Option<real>, interval: real, t: real)
  {
    lastSample.None? || t - lastSample.value >= interval
  }

  /** The timing part of `handle_frame(t)`: observe the delay, then maybe sample. */
  function Frame(interval: real, m: Meter, t: real): Meter
  {
    var (delay, observed) := Observation(m.observed, t);
    if Due(m.lastSample, interval, t) then Meter(observed, Some(t), m.samples + [MetricSample(t, delay)])
    else Meter(observed, m.lastSample, m.samples)
  }

  function Frames(interval: real, m: Meter, ts: seq<real>): Meter
    decreases |ts|
  {
    if |ts| == 0 then m else Frames(interval, Frame(interval, m, ts[0]), ts[1..])
  }

  /** The samples are `interval` apart, and the last sample's time is the one remembered. */
  predicate Spaced(interval: real, m: Meter)
  {
    && (forall k :: 0 < k < |m.samples| ==> m.samples[k].timestamp - m.samples[k - 1].timestamp >= interval)
    && (|m.samples| > 0 ==> m.lastSample == Some(m.samples[|m.samples| - 1].timestamp))
    && (|m.samples| == 0 ==> m.lastSample.None?)
  }

  lemma FrameKeepsSpaced(interval: real, m: Meter, t: real)
    requires Spaced(interval, m)
    ensures Spaced(interval, Frame(interval, m, t))
    ensures Frame(interval, m, t).samples[..|m.samples|] == m.samples
    ensures |Frame(interval, m, t).samples| >= |m.samples|
  {
    var m' := Frame(interval, m, t);
    assert m'.samples[..|m.samples|] == m.samples;
  }

  /**
   * Frame after frame, samples are only added, always `interval` apart;
   * a meter with no sample yet records the very first frame, with no delay
   * when its tracker was fresh.
   */
  lemma {:induction false} FramesSpec(interval: real, m: Meter, ts: seq<real>)
    requires Spaced(interval, m)
    ensures Spaced(interval, Frames(interval, m, ts))
    ensures |Frames(interval, m, ts).samples| >= |m.samples|
    ensures Frames(interval, m, ts).samples[..|m.samples|] == m.samples
    ensures |ts| > 0 && m.lastSample.None? ==>
      |Frames(interval, m, ts).samples| > |m.samples| &&
      Frames(interval, m, ts).samples[|m.samples|] == MetricSample(ts[0], Observation(m.observed, ts[0]).0)
    decreases |ts|
  {
    if |ts| > 0 {
      var m1 := Frame(interval, m, ts[0]);
      FrameKeepsSpaced(interval, m, ts[0]);
      FramesSpec(interval, m1, ts[1..]);
      var r := Frames(interval, m, ts);
      assert r == Frames(interval, m1, ts[1..]);
      assert r.samples[..|m.samples|] == r.samples[..|m1.samples|][..|m.samples|];
      if m.lastSample.None? {
        assert m1.samples == m.samples + [MetricSample(ts[0], Observation(m.observed, ts[0]).0)];
        assert r.samples[|m.samples|] == r.samples[..|m1.samples|][|m.samples|];
      }
    }
  }

  // ---------------------------------------------------------------
  // SunshinePreviewEngine
  // ---------------------------------------------------------------

  /** `SunshinePreviewEngine`. */
  class SunshinePreviewEngine {
    const pool: FrameBufferPool
    const latency: FrameDelayTracker
    const sampleInterval: real
    var active: Option<Buffer>
    var lastSample: Option<real>
    var samples: seq<MetricSample>
    var rebuildCount: nat

    function Timing(): Meter
      reads this, latency
    {
      Meter(latency.last, lastSample, samples)
    }

    predicate Valid()
      reads this, pool
    {
      pool.Valid()
    }

    constructor (sampleInterval: real, maxBuffers: int)
      ensures Valid() && fresh(pool) && fresh(latency)
      ensures this.sampleInterval == sampleInterval && pool.maxBuffers == maxBuffers
      ensures pool.State() == PoolState([], None, 0) && active.None? && rebuildCount == 0
      ensures Timing() == Meter(None, None, [])
    {
      this.sampleInterval := sampleInterval;
      pool := new FrameBufferPool(maxBuffers);
      latency := new FrameDelayTracker();
      active := None;
      lastSample := None;
      samples := [];
      rebuildCount := 0;
    }

    /**
     * `_ensure_buffer`: the active buffer when it has the shape; otherwise
     * the active one goes back to the pool, a buffer of the shape is taken
     * from it and one more rebuild is counted.  (The source checks the
     * acquired buffer's shape once more; `Acquire` always answers the
     * requested shape, so that check never fires.)
     */
    method EnsureBuffer(shape: Shape) returns (b: Buffer)
      modifies this, pool
      ensures b.shape == shape && active == Some(b)
      ensures lastSample == old(lastSample) && samples == old(samples)
      ensures old(active).Some? && old(active).value.shape == shape ==>
        b == old(active).value && rebuildCount == old(rebuildCount) && pool.State() == old(pool.State())
      ensures !(old(active).Some? && old(active).value.shape == shape) ==>
        var released := if old(active).Some? then PoolRelease(pool.maxBuffers, old(pool.State()), old(active).value) else old(pool.State());
        && (pool.State(), b) == PoolAcquire(released, shape)
        && rebuildCount == old(rebuildCount) + 1
      ensures old(Valid()) ==> Valid()
    {
      if active.Some? && active.value.shape == shape {
        return active.value;
      }
      if active.Some? {
        ReleaseSpec(pool.maxBuffers, pool.State(), active.value);
        pool.Release(active.value);
      }
      AcquireSpec(pool.maxBuffers, pool.State(), shape);
      b := pool.Acquire(shape);
      active := Some(b);
      rebuildCount := rebuildCount + 1;
    }

    /** `_maybe_sample`. */
    method MaybeSample(t: real, delay: Option<real>)
      modifies this
      ensures active == old(active) && rebuildCount == old(rebuildCount)
      ensures Due(old(lastSample), sampleInterval, t) ==>
        lastSample == Some(t) && samples == old(samples) + [MetricSample(t, delay)]
      ensures !Due(old(lastSample), sampleInterval, t) ==> lastSample == old(lastSample) && samples == old(samples)
    {
      if lastSample.Some? && t - lastSample.value < sampleInterval {
        return;
      }
      samples := samples + [MetricSample(t, delay)];
      lastSample := Some(t);
    }

    /**
     * `handle_frame`: the frame's timestamp, or the time source's reading
     * `now` when it has none; the buffer for its shape, then the delay and
     * the sample.
     */
    method HandleFrame(shape: Shape, timestamp: Option<real>, now: real)
      modifies this, pool, latency
      ensures var t := if timestamp.Some? then timestamp.value else now;
        Timing() == Frame(sampleInterval, old(Timing()), t)
      ensures active.Some? && active.value.shape == shape
      ensures old(active).Some? && old(active).value.shape == shape ==>
        rebuildCount == old(rebuildCount) && pool.State() == old(pool.State())
      ensures !(old(active).Some? && old(active).value.shape == shape) ==> rebuildCount == old(rebuildCount) + 1
      ensures old(Valid()) ==> Valid()
    {
      var t := if timestamp.Some? then timestamp.value else now;
      var _ := EnsureBuffer(shape);
      var delay := latency.Observe(t);
      MaybeSample(t, delay);
    }

    /** `stop`: the active buffer back to the pool, then everything forgotten but the samples. */
    method Stop()
      modifies this, pool, latency
      ensures active.None? && pool.pool == [] && pool.resolution.None? && pool.made == old(pool.made)
      ensures latency.last.None? && lastSample.None?
      ensures samples == old(samples) && rebuildCount == old(rebuildCount)
      ensures Valid()
    {
      if active.Some? {
        pool.Release(active.value);
        active := None;
      }
      pool.Clear();
      latency.Reset();
      lastSample := None;
    }
  }

  // ---------------------------------------------------------------
  // run_sunshine_soak_test
  // ---------------------------------------------------------------

  /** `int(duration / interval)`, at least one frame. */
  function FrameCount(duration: real, interval: real): nat
    requires interval > 0.0
  {
    var n := (duration / interval).Floor;
    if n <= 0 then 1 else n
  }

  /** The timestamps of `n` frames one `interval` apart, after `start`, as the driver adds them up. */
  function FrameTimes(start: real, interval: real, n: nat): (ts: seq<real>)
    ensures |ts| == n
    decreases n
  {
    if n == 0 then [] else [start + interval] + FrameTimes(start + interval, interval, n - 1)
  }

  /** The soak test's samples: every frame's timing run through a fresh engine. */
  function SoakSamples(duration: real, interval: real, sampleInterval: real): seq<MetricSample>
    requires interval > 0.0
  {
    Frames(sampleInterval, Meter(None, None, []), FrameTimes(0.0, interval, FrameCount(duration, interval))).samples
  }

  /**
   * There is always a frame, the first frame is always sampled (at one
   * interval, with no delay), and samples are at least `sampleInterval`
   * apart.
   */
  lemma SoakSamplesSpec(duration: real, interval: real, sampleInterval: real)
    requires interval > 0.0
    ensures var s := SoakSamples(duration, interval, sampleInterval);
      && |s| >= 1
      && s[0] == MetricSample(interval, None)
      && forall k :: 0 < k < |s| ==> s[k].timestamp - s[k - 1].timestamp >= sampleInterval
  {
    var ts := FrameTimes(0.0, interval, FrameCount(duration, interval));
    FramesSpec(sampleInterval, Meter(None, None, []), ts);
    assert ts[0] == 0.0 + interval;
  }

  /** The frames of the soak test, handed one by one to the engine. */
  method DriveFrames(engine: SunshinePreviewEngine, total: nat, interval: real, shapeOf: nat -> Shape)
    modifies engine, engine.pool, engine.latency
    ensures engine.Timing() == Frames(engine.sampleInterval, old(engine.Timing()), FrameTimes(0.0, interval, total))
  {
    ghost var start := engine.Timing();
    var timestamp := 0.0;
    var index := 0;
    while index < total
      invariant 0 <= index <= total
      invariant Frames(engine.sampleInterval, engine.Timing(), FrameTimes(timestamp, interval, total - index))
        == Frames(engine.sampleInterval, start, FrameTimes(0.0, interval, total))
    {
      timestamp := timestamp + interval;
      engine.HandleFrame(shapeOf(index), Some(timestamp), 0.0);
      index := index + 1;
    }
  }

  /**
   * `run_sunshine_soak_test`: the argument checks, then one frame per
   * interval through a new engine; a frame's shape comes from
   * `frameShape(index)`, the black 1280x720 frame when there is none.
   */
  method RunSoakTest(duration: real, interval: real, sampleInterval: real, frameShape: Option<nat -> Shape>)
    returns (r: PreviewModes.Checked<seq<MetricSample>>)
    ensures interval <= 0.0 ==> r == PreviewModes.ValueError("frame_interval must be positive")
    ensures interval > 0.0 && duration <= 0.0 ==> r == PreviewModes.ValueError("duration_seconds must be positive")
    ensures interval > 0.0 && duration > 0.0 ==> r == PreviewModes.Value(SoakSamples(duration, interval, sampleInterval))
  {
    if interval <= 0.0 {
      return PreviewModes.ValueError("frame_interval must be positive");
    }
    if duration <= 0.0 {
      return PreviewModes.ValueError("duration_seconds must be positive");
    }
    var shapeOf := if frameShape.Some? then frameShape.value else (_: nat) => (720, 1280, 3);
    var engine := new SunshinePreviewEngine(sampleInterval, 3);
    var total := (duration / interval).Floor;
    if total <= 0 {
      total := 1;
    }
    DriveFrames(engine, total, interval, shapeOf);
    engine.Stop();
    r := PreviewModes.Value(engine.samples);
  }
}

=== FILE: src/strings.dfy ===
/**
 * Text helpers with the semantics of the Python and JavaScript string
 * operations the system uses: substring tests, `find`, `split`, `strip`,
 * `lower`, `replace(old, "")` and code-point ordering.
 */
module Strings {
  import opened Wrappers

  /** `t in s` in Python, `s.includes(t)` in JavaScript. */
  predicate Contains(s: string, t: string)
    decreases |s|
  {
    t <= s || (|s| > 0 && Contains(s[1..], t))
  }

  /** The lowest index at which `t` occurs in `s` (`s.find(t)`). */
  function IndexOf(s: string, t: string): (r: Option<nat>)
    ensures r.Some? ==> r.value + |t| <= |s| && t <= s[r.value..]
    ensures r.Some? <==> Contains(s, t)
    ensures r.Some? ==> forall k :: 0 <= k < r.value ==> !(t <= s[k..])
    decreases |s|
  {
    if t <= s then Some(0)
    else if |s| == 0 then None
    else
      match IndexOf(s[1..], t)
      case None => None
      case Some(k) =>
        assert s[1..][k..] == s[k + 1..];
        assert forall j :: 1 <= j < k + 1 ==> s[j..] == s[1..][j - 1..];
        Some(k + 1)
  }

  lemma {:induction false} ContainsAt(s: string, t: string, i: nat)
    requires i <= |s| && t <= s[i..]
    ensures Contains(s, t)
    decreases i
  {
    if i > 0 {
      assert s[1..][i - 1..] == s[i..];
      ContainsAt(s[1..], t, i - 1);
    }
  }

  /** Contains of a single character agrees with sequence membership. */
  lemma {:induction false} ContainsChar(s: string, c: char)
    ensures Contains(s, [c]) <==> c in s
    decreases |s|
  {
    if |s| > 0 {
      ContainsChar(s[1..], c);
      assert s == [s[0]] + s[1..];
    }
  }

  lemma {:induction false} ContainsInfix(a: string, t: string, b: string)
    ensures Contains(a + t + b, t)
  {
    assert t <= (a + t + b)[|a|..];
    ContainsAt(a + t + b, t, |a|);
  }

  /** Every occurrence inside `s` is also an occurrence inside a longer text containing `s`. */
  lemma {:induction false} ContainsMono(a: string, s: string, b: string, t: string)
    requires Contains(s, t)
    ensures Contains(a + s + b, t)
  {
    var i := IndexOf(s, t).value;
    assert t <= s[i..];
    assert s[i..] <= (a + s + b)[|a| + i..];
    ContainsAt(a + s + b, t, |a| + i);
  }

  /** Every character of an occurring text is a character of the text it occurs in. */
  lemma ContainsCharOf(s: string, t: string, c: char)
    requires Contains(s, t) && c in t
    ensures c in s
  {
    var i := IndexOf(s, t).value;
    var k :| 0 <= k < |t| && t[k] == c;
    assert s[i..][k] == c;
  }

  /** Python `str.isspace()` for one character. */
  predicate IsSpace(c: char)
  {
    ('\U{0009}' <= c <= '\U{000D}') || ('\U{001C}' <= c <= '\U{0020}')
    || c == '\U{0085}' || c == '\U{00A0}' || c == '\U{1680}'
    || ('\U{2000}' <= c <= '\U{200A}') || c == '\U{2028}' || c == '\U{2029}'
    || c == '\U{202F}' || c == '\U{205F}' || c == '\U{3000}'
  }

  lemma DigitNotSpace(c: char)
    requires '0' <= c <= '9'
    ensures !IsSpace(c)
  {
  }

  /** Text that starts with a non-space character has nothing to strip on the left. */
  lemma LStripKeeps(s: string)
    requires |s| > 0 && !IsSpace(s[0])
    ensures LStrip(s) == s
  {
  }

  /** `s.lstrip()`: drops leading whitespace. */
  function LStrip(s: string): (r: string)
    ensures |r| <= |s| && r == s[|s| - |r|..]
    ensures forall k :: 0 <= k < |s| - |r| ==> IsSpace(s[k])
    ensures |r| > 0 ==> !IsSpace(r[0])
    decreases |s|
  {
    if |s| > 0 && IsSpace(s[0]) then LStrip(s[1..]) else s
  }

  /** `s.rstrip()`: drops trailing whitespace. */
  function RStrip(s: string): (r: string)
    ensures |r| <= |s| && r == s[..|r|]
    ensures forall k :: |r| <= k < |s| ==> IsSpace(s[k])
    ensures |r| > 0 ==> !IsSpace(r[|r| - 1])
    decreases |s|
  {
    if |s| > 0 && IsSpace(s[|s| - 1]) then RStrip(s[..|s| - 1]) else s
  }

  /** Python `s.strip()`: drops leading and trailing whitespace. */
  function Strip(s: string): (r: string)
    ensures |r| <= |s|
    ensures |r| > 0 ==> !IsSpace(r[0]) && !IsSpace(r[|r| - 1])
    ensures |s| > 0 && !IsSpace(s[0]) && !IsSpace(s[|s| - 1]) ==> r == s
  {
    RStrip(LStrip(s))
  }

  /** Python `s.strip(c)` for a single character `c`. */
  function StripChar(s: string, c: char): (r: string)
    ensures |r| <= |s|
    ensures |r| > 0 ==> r[0] != c && r[|r| - 1] != c
    ensures c !in s ==> r == s
  {
    StripCharRight(StripCharLeft(s, c), c)
  }

  function StripCharLeft(s: string, c: char): (r: string)
    ensures |r| <= |s| && r == s[|s| - |r|..]
    ensures |r| > 0 ==> r[0] != c
    decreases |s|
  {
    if |s| > 0 && s[0] == c then StripCharLeft(s[1..], c) else s
  }

  function StripCharRight(s: string, c: char): (r: string)
    ensures |r| <= |s| && r == s[..|r|]
    ensures |r| > 0 ==> r[|r| - 1] != c
    decreases |s|
  {
    if |s| > 0 && s[|s| - 1] == c then StripCharRight(s[..|s| - 1], c) else s
  }

  /** Python `s.split(sep)` for a one-character separator; never empty. */
  function Split(s: string, sep: char): (r: seq<string>)
    ensures |r| >= 1
    ensures forall k :: 0 <= k < |r| ==> sep !in r[k]
    ensures sep !in s ==> r == [s]
    decreases |s|
  {
    if |s| == 0 then [""]
    else
      var rest := Split(s[1..], sep);
      assert sep !in s ==> sep !in s[1..] && rest == [s[1..]] && s == [s[0]] + s[1..];
      if s[0] == sep then [""] + rest
      else [[s[0]] + rest[0]] + rest[1..]
  }

  /** Splitting at the first separator: the part before it, then the split of the rest. */
  lemma {:induction false} SplitConcat(a: string, b: string, sep: char)
    requires sep !in a
    ensures Split(a + [sep] + b, sep) == [a] + Split(b, sep)
    decreases |a|
  {
    var s := a + [sep] + b;
    if |a| == 0 {
      assert s[1..] == b;
    } else {
      assert s[1..] == a[1..] + [sep] + b;
      SplitConcat(a[1..], b, sep);
      assert [s[0]] + a[1..] == a;
    }
  }

  /** The first part of a split is a prefix of the text. */
  lemma {:induction false} SplitHeadPrefix(s: string, sep: char)
    ensures Split(s, sep)[0] <= s
    decreases |s|
  {
    if |s| > 0 {
      SplitHeadPrefix(s[1..], sep);
      assert s == [s[0]] + s[1..];
    }
  }

  /** Whatever occurs inside a part of a split occurs in the text. */
  lemma {:induction false} SplitPartContains(s: string, sep: char, i: nat, t: string)
    requires i < |Split(s, sep)| && Contains(Split(s, sep)[i], t)
    ensures Contains(s, t)
    decreases |s|
  {
    if |s| == 0 {
      assert t <= s;
    } else {
      var rest := Split(s[1..], sep);
      if s[0] == sep {
        if i == 0 {
          assert t <= s;
        } else {
          SplitPartContains(s[1..], sep, i - 1, t);
        }
      } else if i > 0 {
        SplitPartContains(s[1..], sep, i, t);
      } else {
        var part := [s[0]] + rest[0];
        assert Split(s, sep)[0] == part;
        if t <= part {
          SplitHeadPrefix(s[1..], sep);
          assert part <= s;
        } else {
          SplitPartContains(s[1..], sep, 0, t);
        }
      }
    }
  }

  /** Whatever occurs inside `s.strip(c)` occurs in `s`. */
  lemma StripCharContains(s: string, c: char, t: string)
    requires Contains(StripChar(s, c), t)
    ensures Contains(s, t)
  {
    var l := StripCharLeft(s, c);
    var r := StripCharRight(l, c);
    assert r == l[..|r|];
    ContainsPrefix(l, |r|, t);
    assert l == s[|s| - |l|..];
    ContainsSuffix(s, |s| - |l|, t);
  }

  lemma ContainsSuffix(s: string, k: nat, t: string)
    requires k <= |s| && Contains(s[k..], t)
    ensures Contains(s, t)
  {
    var i := IndexOf(s[k..], t).value;
    assert s[k..][i..] == s[k + i..];
    ContainsAt(s, t, k + i);
  }

  lemma ContainsPrefix(s: string, k: nat, t: string)
    requires k <= |s| && Contains(s[..k], t)
    ensures Contains(s, t)
  {
    var i := IndexOf(s[..k], t).value;
    assert s[..k][i..] == s[i..k];
    assert t <= s[i..] by {
      assert forall j :: 0 <= j < |t| ==> t[j] == s[i..k][j] == s[i..][j];
    }
    ContainsAt(s, t, i);
  }

  /** `sep.join(parts)`. */
  function Join(parts: seq<string>, sep: string): string
    decreases |parts|
  {
    if |parts| == 0 then ""
    else if |parts| == 1 then parts[0]
    else parts[0] + sep + Join(parts[1..], sep)
  }

  lemma JoinHead(head: string, tail: seq<string>, sep: string)
    ensures Join([head] + tail, sep) == if |tail| == 0 then head else head + sep + Join(tail, sep)
  {
    assert ([head] + tail)[1..] == tail;
  }

  /** ASCII lower-casing of one character (non-ASCII letters are kept as they are). */
  function LowerChar(c: char): char
  {
    if 'A' <= c <= 'Z' then (c as int + 32) as char else c
  }

  /** Python `s.lower()` / JavaScript `toLowerCase()`, restricted to ASCII letters. */
  function Lower(s: string): (r: string)
    ensures |r| == |s|
    ensures forall k :: 0 <= k < |s| ==> r[k] == LowerChar(s[k])
  {
    seq(|s|, k requires 0 <= k < |s| => LowerChar(s[k]))
  }

  lemma LowerIdempotent(s: string)
    ensures Lower(Lower(s)) == Lower(s)
  {
  }

  /** Python `s.replace(pat, "")`: removes the leftmost non-overlapping occurrences of `pat`. */
  function RemoveAll(s: string, pat: string): (r: string)
    requires |pat| > 0
    ensures |r| <= |s|
    ensures !Contains(s, pat) ==> r == s
    decreases |s|
  {
    if |s| == 0 then ""
    else if pat <= s then RemoveAll(s[|pat|..], pat)
    else
      assert !Contains(s, pat) ==> !Contains(s[1..], pat);
      [s[0]] + RemoveAll(s[1..], pat)
  }

  /** Strict code-point order on text, as Python's `<` on `str` and SQLite's BINARY collation. */
  predicate Less(a: string, b: string)
    decreases |a|
  {
    |b| > 0 && (|a| == 0 || a[0] < b[0] || (a[0] == b[0] && Less(a[1..], b[1..])))
  }

  lemma {:induction false} LessIrreflexive(a: string)
    ensures !Less(a, a)
    decreases |a|
  {
    if |a| > 0 { LessIrreflexive(a[1..]); }
  }

  lemma {:induction false} LessTrans(a: string, b: string, c: string)
    requires Less(a, b) && Less(b, c)
    ensures Less(a, c)
    decreases |a|
  {
    if |a| > 0 && a[0] == b[0] && b[0] == c[0] { LessTrans(a[1..], b[1..], c[1..]); }
  }

  lemma {:induction false} LessTotal(a: string, b: string)
    ensures a == b || Less(a, b) || Less(b, a)
    decreases |a|
  {
    if |a| > 0 && |b| > 0 && a[0] == b[0] {
      LessTotal(a[1..], b[1..]);
      assert a == [a[0]] + a[1..] && b == [b[0]] + b[1..];
    }
  }

  lemma LessAsym(a: string, b: string)
    requires Less(a, b)
    ensures !Less(b, a) && a != b
  {
    if Less(b, a) { LessTrans(a, b, a); LessIrreflexive(a); }
    if a == b { LessIrreflexive(a); }
  }

  predicate LessEq(a: string, b: string)
  {
    a == b || Less(a, b)
  }

  /** Non-increasing code-point order. */
  predicate Descending(s: seq<string>)
  {
    forall i, j :: 0 <= i < j < |s| ==> LessEq(s[j], s[i])
  }

  /** Non-decreasing code-point order. */
  predicate Ascending(s: seq<string>)
  {
    forall i, j :: 0 <= i < j < |s| ==> LessEq(s[i], s[j])
  }

  /** Some element satisfies `p`, checked front to back. */
  predicate AnyOf<T>(p: T -> bool, s: seq<T>)
    decreases |s|
  {
    |s| > 0 && (p(s[0]) || AnyOf(p, s[1..]))
  }

  lemma {:induction false} AnyOfIff<T>(p: T -> bool, s: seq<T>)
    ensures AnyOf(p, s) <==> exists k :: 0 <= k < |s| && p(s[k])
    decreases |s|
  {
    if |s| > 0 {
      AnyOfIff(p, s[1..]);
      if exists k :: 0 <= k < |s| && p(s[k]) {
        var k :| 0 <= k < |s| && p(s[k]);
        if k > 0 { assert s[1..][k - 1] == s[k]; }
      }
      if AnyOf(p, s[1..]) {
        var k :| 0 <= k < |s[1..]| && p(s[1..][k]);
        assert s[k + 1] == s[1..][k];
      }
    }
  }

  predicate Distinct<T(==)>(s: seq<T>)
  {
    forall i, j :: 0 <= i < j < |s| ==> s[i] != s[j]
  }

  /** Inserts `x` into a descending list before the first element not greater than it. */
  function InsertDesc(x: string, s: seq<string>): (r: seq<string>)
    requires Descending(s)
    ensures Descending(r)
    ensures multiset(r) == multiset(s) + multiset{x}
    decreases |s|
  {
    if |s| == 0 then [x]
    else if LessEq(s[0], x) then
      PrependAbove(x, s);
      [x] + s
    else
      var t := InsertDesc(x, s[1..]);
      PrependHead(x, s, t);
      [s[0]] + t
  }

  /** An element not below the head of a descending list can go in front of it. */
  lemma PrependAbove(x: string, s: seq<string>)
    requires Descending(s) && |s| > 0 && LessEq(s[0], x)
    ensures Descending([x] + s)
  {
    forall j | 0 < j < |s| ensures LessEq(s[j], x) {
      if s[j] != s[0] && s[0] != x { LessTrans(s[j], s[0], x); }
    }
    var r := [x] + s;
    assert forall j :: 0 < j < |r| ==> r[j] == s[j - 1];
  }

  /** The head of a descending list stays in front of the rest with an element below it inserted. */
  lemma PrependHead(x: string, s: seq<string>, t: seq<string>)
    requires Descending(s) && |s| > 0 && !LessEq(s[0], x)
    requires Descending(t) && multiset(t) == multiset(s[1..]) + multiset{x}
    ensures Descending([s[0]] + t)
    ensures multiset([s[0]] + t) == multiset(s) + multiset{x}
  {
    LessTotal(x, s[0]);
    assert s == [s[0]] + s[1..];
    forall y | y in t ensures LessEq(y, s[0]) {
      if y != x { assert y in multiset(t); assert y in multiset(s[1..]); }
    }
    var r := [s[0]] + t;
    assert forall j :: 0 < j < |r| ==> r[j] == t[j - 1] && r[j] in t;
  }

  /** `sorted(xs, reverse=True)`: a descending permutation of `xs`. */
  function SortDesc(xs: seq<string>): (r: seq<string>)
    ensures Descending(r)
    ensures multiset(r) == multiset(xs)
    decreases |xs|
  {
    if |xs| == 0 then []
    else
      assert xs == xs[..|xs| - 1] + [xs[|xs| - 1]];
      InsertDesc(xs[|xs| - 1], SortDesc(xs[..|xs| - 1]))
  }

  /** `sorted(xs)`: an ascending permutation of `xs`. */
  function SortAsc(xs: seq<string>): (r: seq<string>)
    ensures Ascending(r)
    ensures multiset(r) == multiset(xs)
  {
    var d := SortDesc(xs);
    assert multiset(Reverse(d)) == multiset(d) by { ReverseMultiset(d); }
    Reverse(d)
  }

  lemma {:induction false} ReverseMultiset<T>(s: seq<T>)
    ensures multiset(Reverse(s)) == multiset(s)
    decreases |s|
  {
    if |s| > 0 {
      ReverseMultiset(s[1..]);
      assert Reverse(s) == Reverse(s[1..]) + [s[0]];
      assert s == [s[0]] + s[1..];
    }
  }

  /** A descending list without duplicates is strictly descending. */
  lemma DistinctDescending(s: seq<string>)
    requires Descending(s) && Distinct(s)
    ensures forall i, j :: 0 <= i < j < |s| ==> Less(s[j], s[i])
  {
  }

  /** Sorting keeps exactly the elements, so distinct input gives distinct output. */
  lemma SortDescDistinct(xs: seq<string>)
    requires Distinct(xs)
    ensures Distinct(SortDesc(xs)) && |SortDesc(xs)| == |xs|
  {
    var r := SortDesc(xs);
    assert |r| == |multiset(r)| == |multiset(xs)| == |xs|;
    DistinctIffSingleCounts(xs);
    DistinctIffSingleCounts(r);
  }

  /** A list is duplicate-free iff no element occurs twice in its multiset. */
  lemma {:induction false} DistinctIffSingleCounts<T>(xs: seq<T>)
    ensures Distinct(xs) <==> forall x :: multiset(xs)[x] <= 1
    decreases |xs|
  {
    if |xs| > 0 {
      DistinctIffSingleCounts(xs[1..]);
      assert xs == [xs[0]] + xs[1..];
      if Distinct(xs) {
        assert xs[0] !in xs[1..];
        assert Distinct(xs[1..]);
      } else {
        var i, j :| 0 <= i < j < |xs| && xs[i] == xs[j];
        if i == 0 {
          assert xs[j] in xs[1..];
          assert multiset(xs)[xs[0]] >= 2;
        } else {
          assert !Distinct(xs[1..]) by { assert xs[1..][i - 1] == xs[1..][j - 1]; }
          var x :| multiset(xs[1..])[x] > 1;
          assert multiset(xs)[x] > 1;
        }
      }
    }
  }

  /** Reversal of a sequence (`list[::-1]`, `list.reverse()`). */
  function Reverse<T>(s: seq<T>): (r: seq<T>)
    ensures |r| == |s|
    ensures forall k :: 0 <= k < |s| ==> r[k] == s[|s| - 1 - k]
  {
    seq(|s|, k requires 0 <= k < |s| => s[|s| - 1 - k])
  }

  lemma ReverseInvolutive<T>(s: seq<T>)
    ensures Reverse(Reverse(s)) == s
  {
  }

  /** Python `str(n)` for an integer. */
  function IntToString(n: int): (r: string)
    ensures |r| > 0
  {
    if n < 0 then "-" + NatToString(-n) else NatToString(n)
  }

  function NatToString(n: nat): (r: string)
    ensures |r| > 0
    ensures forall k :: 0 <= k < |r| ==> '0' <= r[k] <= '9'
    decreases n
  {
    if n < 10 then [Digit(n)] else NatToString(n / 10) + [Digit(n % 10)]
  }

  function Digit(d: nat): (c: char)
    requires d < 10
    ensures '0' <= c <= '9' && c as int - '0' as int == d
  {
    ((d + '0' as int) as char)
  }

  /** The decimal value of a string of ASCII digits. */
  function DigitsValue(s: string): nat
    requires forall k :: 0 <= k < |s| ==> '0' <= s[k] <= '9'
    decreases |s|
  {
    if |s| == 0 then 0 else DigitsValue(s[..|s| - 1]) * 10 + (s[|s| - 1] as int - '0' as int)
  }

  lemma {:induction false} NatToStringValue(n: nat)
    ensures DigitsValue(NatToString(n)) == n
    decreases n
  {
    if n >= 10 {
      NatToStringValue(n / 10);
      var s := NatToString(n / 10) + [Digit(n % 10)];
      assert s[..|s| - 1] == NatToString(n / 10);
    }
  }

  predicate AllDigits(s: string)
  {
    forall k :: 0 <= k < |s| ==> '0' <= s[k] <= '9'
  }
}

=== FILE: src/tallies.dfy ===
/**
 * Python's `dict[str, int]` used as a counter (`d[k] = d.get(k, 0) + 1`),
 * with its insertion order: a list of key/count pairs, each key once,
 * in first-seen order.
 */
module Tallies {
  datatype Count = Count(key: string, n: int)

  predicate UniqueKeys(ts: seq<Count>)
  {
    forall i, j :: 0 <= i < j < |ts| ==> ts[i].key != ts[j].key
  }

  function Keys(ts: seq<Count>): (r: seq<string>)
    ensures |r| == |ts| && forall i :: 0 <= i < |ts| ==> r[i] == ts[i].key
  {
    seq(|ts|, i requires 0 <= i < |ts| => ts[i].key)
  }

  /** `d.get(k, 0)`. */
  function Get(ts: seq<Count>, k: string): int
    decreases |ts|
  {
    if |ts| == 0 then 0 else if ts[0].key == k then ts[0].n else Get(ts[1..], k)
  }

  /** `d[k] = d.get(k, 0) + 1`: an existing key keeps its place, a new one goes last. */
  function Inc(ts: seq<Count>, k: string): (r: seq<Count>)
    decreases |ts|
  {
    if |ts| == 0 then [Count(k, 1)]
    else if ts[0].key == k then [Count(k, ts[0].n + 1)] + ts[1..]
    else [ts[0]] + Inc(ts[1..], k)
  }

  /** `sum(d.values())`. */
  function Total(ts: seq<Count>): int
    decreases |ts|
  {
    if |ts| == 0 then 0 else ts[0].n + Total(ts[1..])
  }

  /** `del d[k]` when present; otherwise nothing. */
  function Remove(ts: seq<Count>, k: string): (r: seq<Count>)
    ensures forall i :: 0 <= i < |r| ==> r[i].key != k && r[i] in ts
    ensures |r| <= |ts|
    decreases |ts|
  {
    if |ts| == 0 then [] else if ts[0].key == k then Remove(ts[1..], k) else [ts[0]] + Remove(ts[1..], k)
  }

  /** Incrementing adds one to `k`, leaves every other count alone, and keeps keys unique and in first-seen order. */
  lemma IncSpec(ts: seq<Count>, k: string)
    requires UniqueKeys(ts)
    ensures UniqueKeys(Inc(ts, k))
    ensures Get(Inc(ts, k), k) == Get(ts, k) + 1
    ensures forall j :: j != k ==> Get(Inc(ts, k), j) == Get(ts, j)
    ensures Total(Inc(ts, k)) == Total(ts) + 1
    ensures Keys(Inc(ts, k)) == if k in Keys(ts) then Keys(ts) else Keys(ts) + [k]
  {
    IncKeys(ts, k);
    IncTotal(ts, k);
    forall j ensures Get(Inc(ts, k), j) == Get(ts, j) + if j == k then 1 else 0 {
      IncGet(ts, k, j);
    }
  }

  /** Incrementing keeps keys unique, keeps their order and appends a new key. */
  lemma IncKeys(ts: seq<Count>, k: string)
    requires UniqueKeys(ts)
    ensures UniqueKeys(Inc(ts, k))
    ensures Keys(Inc(ts, k)) == if k in Keys(ts) then Keys(ts) else Keys(ts) + [k]
  {
    IncUnique(ts, k);
    IncShape(ts, k);
    var r := Inc(ts, k);
    if k in Keys(ts) {
      assert Keys(r) == Keys(ts);
    } else {
      assert Keys(r) == Keys(ts) + [k];
    }
  }

  /** Incrementing keeps keys unique. */
  lemma IncUnique(ts: seq<Count>, k: string)
    requires UniqueKeys(ts)
    ensures UniqueKeys(Inc(ts, k))
  {
    IncShape(ts, k);
    if k !in Keys(ts) {
      assert forall i :: 0 <= i < |ts| ==> Keys(ts)[i] == ts[i].key;
    }
  }

  /** After incrementing `k` the keys are those before plus `k`. */
  lemma IncHas(ts: seq<Count>, k: string, j: string)
    ensures j in Keys(Inc(ts, k)) <==> j == k || j in Keys(ts)
  {
    IncShape(ts, k);
    var r := Inc(ts, k);
    if j in Keys(r) {
      var i :| 0 <= i < |r| && Keys(r)[i] == j;
      if i < |ts| {
        assert Keys(ts)[i] == j;
      }
    }
    if j in Keys(ts) {
      var i :| 0 <= i < |ts| && Keys(ts)[i] == j;
      assert Keys(r)[i] == j;
    }
    if j == k && k in Keys(ts) {
      var i :| 0 <= i < |ts| && Keys(ts)[i] == k;
      assert Keys(r)[i] == k;
    }
    if j == k && k !in Keys(ts) {
      assert Keys(r)[|ts|] == k;
    }
  }

  /** How often `k` occurs: in the first element and in the rest. */
  lemma CountCons(xs: seq<string>, k: string)
    requires |xs| > 0
    ensures multiset(xs)[k] == (if xs[0] == k then 1 else 0) + multiset(xs[1..])[k]
  {
    assert xs == [xs[0]] + xs[1..];
  }

  /** Incrementing keeps every entry's key in place and appends `k` when it is new. */
  lemma {:induction false} IncShape(ts: seq<Count>, k: string)
    ensures var r := Inc(ts, k);
      && |r| == |ts| + (if k in Keys(ts) then 0 else 1)
      && (forall i :: 0 <= i < |ts| ==> r[i].key == ts[i].key)
      && (k !in Keys(ts) ==> r[|ts|].key == k)
    decreases |ts|
  {
    if |ts| > 0 {
      var r := Inc(ts, k);
      InKeysCons(ts, k);
      if ts[0].key == k {
        assert r[1..] == ts[1..];
      } else {
        IncShape(ts[1..], k);
        var r' := Inc(ts[1..], k);
        assert r == [ts[0]] + r';
        assert forall i :: 0 < i < |ts| ==> r[i] == r'[i - 1] && ts[i] == ts[1..][i - 1];
      }
    }
  }

  /** A key is among the keys when it is the first one or among the rest. */
  lemma InKeysCons(ts: seq<Count>, k: string)
    requires |ts| > 0
    ensures k in Keys(ts) <==> k == ts[0].key || k in Keys(ts[1..])
  {
    var all, rest := Keys(ts), Keys(ts[1..]);
    if k in all {
      var i :| 0 <= i < |all| && all[i] == k;
      if i > 0 {
        assert rest[i - 1] == k;
      }
    }
    if k in rest {
      var i :| 0 <= i < |rest| && rest[i] == k;
      assert all[i + 1] == k;
    }
  }

  /** Incrementing adds one to `k`'s count and leaves every other count alone. */
  lemma {:induction false} IncGet(ts: seq<Count>, k: string, j: string)
    requires UniqueKeys(ts)
    ensures Get(Inc(ts, k), j) == Get(ts, j) + if j == k then 1 else 0
    decreases |ts|
  {
    if |ts| > 0 {
      var r := Inc(ts, k);
      if ts[0].key == k {
        assert r[1..] == ts[1..];
        if j == k {
          assert k !in Keys(ts[1..]);
          GetAbsent(ts[1..], k);
        }
      } else {
        IncGet(ts[1..], k, j);
        assert r[1..] == Inc(ts[1..], k);
      }
    }
  }

  /** Incrementing adds one to the total. */
  lemma {:induction false} IncTotal(ts: seq<Count>, k: string)
    ensures Total(Inc(ts, k)) == Total(ts) + 1
    decreases |ts|
  {
    if |ts| > 0 {
      var r := Inc(ts, k);
      if ts[0].key == k {
        assert r[1..] == ts[1..];
      } else {
        IncTotal(ts[1..], k);
        assert r[1..] == Inc(ts[1..], k);
      }
    }
  }

  /** Deleting a key that is not there changes nothing. */
  lemma {:induction false} RemoveAbsent(ts: seq<Count>, k: string)
    requires k !in Keys(ts)
    ensures Remove(ts, k) == ts
    decreases |ts|
  {
    if |ts| > 0 {
      assert Keys(ts[1..]) == Keys(ts)[1..];
      RemoveAbsent(ts[1..], k);
      assert ts == [ts[0]] + ts[1..];
    }
  }

  lemma {:induction false} GetAbsent(ts: seq<Count>, k: string)
    requires k !in Keys(ts)
    ensures Get(ts, k) == 0
    decreases |ts|
  {
    if |ts| > 0 {
      assert Keys(ts[1..]) == Keys(ts)[1..];
      GetAbsent(ts[1..], k);
    }
  }

  /** Counts built only by increments are positive. */
  predicate Positive(ts: seq<Count>)
  {
    forall i :: 0 <= i < |ts| ==> ts[i].n > 0
  }

  lemma {:induction false} IncPositive(ts: seq<Count>, k: string)
    requires Positive(ts)
    ensures Positive(Inc(ts, k))
    decreases |ts|
  {
    if |ts| > 0 && ts[0].key != k {
      IncPositive(ts[1..], k);
    }
  }

  lemma {:induction false} TotalNonNegative(ts: seq<Count>)
    requires Positive(ts)
    ensures Total(ts) >= |ts|
    decreases |ts|
  {
    if |ts| > 0 { TotalNonNegative(ts[1..]); }
  }

  /** Deleting `k` zeroes its count and leaves every other count alone. */
  lemma {:induction false} GetRemove(ts: seq<Count>, k: string, j: string)
    requires UniqueKeys(ts)
    ensures UniqueKeys(Remove(ts, k))
    ensures Get(Remove(ts, k), j) == if j == k then 0 else Get(ts, j)
    decreases |ts|
  {
    if |ts| > 0 {
      GetRemove(ts[1..], k, j);
      if ts[0].key == j && j != k {
        assert ts[0].key !in Keys(ts[1..]);
        var r := Remove(ts[1..], k);
        forall i | 0 <= i < |r| ensures r[i].key != j {
          assert r[i] in ts[1..];
        }
        assert forall i :: 0 <= i < |Remove(ts, k)| ==> Remove(ts, k)[i] == ([ts[0]] + r)[i];
      } else if ts[0].key != k {
        var r := Remove(ts[1..], k);
        assert Remove(ts, k) == [ts[0]] + r;
        forall i | 0 <= i < |r| ensures r[i].key != ts[0].key {
          assert r[i] in ts[1..];
        }
      }
    }
  }

  /** `d[k] += v` on a `defaultdict(int)`: an existing key keeps its place, a new one goes last. */
  function AddTo(ts: seq<Count>, k: string, v: int): (r: seq<Count>)
    decreases |ts|
  {
    if |ts| == 0 then [Count(k, v)]
    else if ts[0].key == k then [Count(k, ts[0].n + v)] + ts[1..]
    else [ts[0]] + AddTo(ts[1..], k, v)
  }

  lemma {:induction false} AddToSpec(ts: seq<Count>, k: string, v: int)
    requires UniqueKeys(ts)
    ensures UniqueKeys(AddTo(ts, k, v))
    ensures forall j :: Get(AddTo(ts, k, v), j) == Get(ts, j) + (if j == k then v else 0)
    ensures Total(AddTo(ts, k, v)) == Total(ts) + v
    ensures forall j :: j in Keys(AddTo(ts, k, v)) <==> j in Keys(ts) || j == k
    decreases |ts|
  {
    if |ts| > 0 {
      if ts[0].key == k {
        assert AddTo(ts, k, v)[1..] == ts[1..];
        assert k !in Keys(ts[1..]);
        GetAbsent(ts[1..], k);
        assert Keys(AddTo(ts, k, v)) == Keys(ts);
      } else {
        AddToSpec(ts[1..], k, v);
        var r := AddTo(ts, k, v);
        assert r[1..] == AddTo(ts[1..], k, v);
        assert ts[0].key !in Keys(ts[1..]);
        assert ts[0].key !in Keys(AddTo(ts[1..], k, v));
        assert Keys(ts) == [ts[0].key] + Keys(ts[1..]);
        assert Keys(r) == [ts[0].key] + Keys(AddTo(ts[1..], k, v));
      }
    }
  }

  /** `for key, value in items.items(): total[key] += value`. */
  function MergeCounts(total: seq<Count>, items: seq<Count>): seq<Count>
    decreases |items|
  {
    if |items| == 0 then total else MergeCounts(AddTo(total, items[0].key, items[0].n), items[1..])
  }

  /** Merging adds each key's count to the running total: totals add, and so does every key's count. */
  lemma {:induction false} MergeSpec(total: seq<Count>, items: seq<Count>)
    requires UniqueKeys(total) && UniqueKeys(items)
    ensures UniqueKeys(MergeCounts(total, items))
    ensures Total(MergeCounts(total, items)) == Total(total) + Total(items)
    ensures forall j :: Get(MergeCounts(total, items), j) == Get(total, j) + Get(items, j)
    decreases |items|
  {
    if |items| > 0 {
      var t := AddTo(total, items[0].key, items[0].n);
      AddToSpec(total, items[0].key, items[0].n);
      assert UniqueKeys(items[1..]);
      MergeSpec(t, items[1..]);
      assert items[0].key !in Keys(items[1..]);
      GetAbsent(items[1..], items[0].key);
    }
  }

  /** The counter after counting `names` one after another. */
  function IncAll(counts: seq<Count>, names: seq<string>): seq<Count>
    decreases |names|
  {
    if |names| == 0 then counts else IncAll(Inc(counts, names[0]), names[1..])
  }

  lemma {:induction false} IncAllSpec(counts: seq<Count>, names: seq<string>)
    requires UniqueKeys(counts)
    ensures UniqueKeys(IncAll(counts, names))
    ensures Total(IncAll(counts, names)) == Total(counts) + |names|
    ensures forall k :: k in Keys(IncAll(counts, names)) <==> k in Keys(counts) || k in names
    decreases |names|
  {
    if |names| > 0 {
      var c := Inc(counts, names[0]);
      IncSpec(counts, names[0]);
      IncAllSpec(c, names[1..]);
      assert forall k :: k in Keys(c) <==> k in Keys(counts) || k == names[0];
      assert forall k :: k in names <==> k == names[0] || k in names[1..];
    }
  }

  /** Each name adds one to its own count and to no other. */
  lemma {:induction false} IncAllGet(counts: seq<Count>, xs: seq<string>, k: string)
    requires UniqueKeys(counts)
    ensures Get(IncAll(counts, xs), k) == Get(counts, k) + multiset(xs)[k]
    decreases |xs|
  {
    if |xs| > 0 {
      IncUnique(counts, xs[0]);
      IncGet(counts, xs[0], k);
      IncAllGet(Inc(counts, xs[0]), xs[1..], k);
      CountCons(xs, k);
    }
  }

  /** The names in the order they first appear, after those already `seen`. */
  function FirstSeen(seen: seq<string>, xs: seq<string>): seq<string>
    decreases |xs|
  {
    if |xs| == 0 then seen
    else FirstSeen(if xs[0] in seen then seen else seen + [xs[0]], xs[1..])
  }

  /** `list(d.keys())` after counting: the names in first-seen order, each once. */
  lemma {:induction false} IncAllKeys(counts: seq<Count>, xs: seq<string>)
    requires UniqueKeys(counts)
    ensures Keys(IncAll(counts, xs)) == FirstSeen(Keys(counts), xs)
    decreases |xs|
  {
    if |xs| > 0 {
      IncSpec(counts, xs[0]);
      IncAllKeys(Inc(counts, xs[0]), xs[1..]);
    }
  }

  /** Each name once, and exactly the names already seen or in `xs`. */
  lemma {:induction false} FirstSeenSpec(seen: seq<string>, xs: seq<string>)
    requires forall i, j :: 0 <= i < j < |seen| ==> seen[i] != seen[j]
    ensures var r := FirstSeen(seen, xs);
      && (forall i, j :: 0 <= i < j < |r| ==> r[i] != r[j])
      && (forall x :: x in r <==> x in seen || x in xs)
    decreases |xs|
  {
    if |xs| > 0 {
      var next := if xs[0] in seen then seen else seen + [xs[0]];
      FirstSeenSpec(next, xs[1..]);
      assert forall x :: x in xs <==> x == xs[0] || x in xs[1..];
    }
  }

  /** The counter total grows by the last count. */
  lemma {:induction false} TotalSnoc(ts: seq<Count>, c: Count)
    ensures Total(ts + [c]) == Total(ts) + c.n
    decreases |ts|
  {
    if |ts| > 0 {
      assert (ts + [c])[1..] == ts[1..] + [c];
      TotalSnoc(ts[1..], c);
    }
  }
}

=== FILE: src/upgrade.dfy ===
/**
 * upgrade_logs.py: the converter of legacy BetterGI log lines
 * (`HH:MM:SS.fff level type details`) to the bracketed format
 * (`[HH:MM:SS.fff] [level] type details`), the format detection that
 * decides whether a file needs it, and the backup-then-rewrite of each
 * `.log` file of a directory.
 */
module Upgrade {
  import opened Wrappers
  import opened Strings
  import Manager

  // ---------------------------------------------------------------------
  // `NEW_PATTERN` and `detect_version`
  // ---------------------------------------------------------------------

  /** `\d`, ASCII digits only. */
  predicate IsDigit(c: char)
  {
    '0' <= c <= '9'
  }

  /** `\d{2}:\d{2}:\d{2}\.\d{3}` at position `p`. */
  predicate ClockAt(s: string, p: nat)
  {
    p + 12 <= |s|
    && IsDigit(s[p]) && IsDigit(s[p + 1]) && s[p + 2] == ':'
    && IsDigit(s[p + 3]) && IsDigit(s[p + 4]) && s[p + 5] == ':'
    && IsDigit(s[p + 6]) && IsDigit(s[p + 7]) && s[p + 8] == '.'
    && IsDigit(s[p + 9]) && IsDigit(s[p + 10]) && IsDigit(s[p + 11])
  }

  /** `NEW_PATTERN` at position `p`: that clock between square brackets. */
  predicate StampAt(s: string, p: nat)
  {
    p + 14 <= |s| && s[p] == '[' && ClockAt(s, p + 1) && s[p + 13] == ']'
  }

  /** `NEW_PATTERN.search`, from position `p` on: the leftmost stamp. */
  function FindStamp(s: string, p: nat): (r: Option<nat>)
    ensures r.Some? ==> p <= r.value && StampAt(s, r.value) && forall q :: p <= q < r.value ==> !StampAt(s, q)
    ensures r.None? ==> forall q :: p <= q ==> !StampAt(s, q)
    decreases |s| - p
  {
    if p + 14 > |s| then None
    else if StampAt(s, p) then Some(p)
    else FindStamp(s, p + 1)
  }

  datatype Version = New | Old

  /** `detect_version`: "new" exactly when a bracketed clock occurs anywhere in the text. */
  function DetectVersion(content: string): (v: Version)
    ensures v == New <==> exists p: nat :: StampAt(content, p)
  {
    if FindStamp(content, 0).Some? then New else Old
  }

  /** A stamp at the start of a text stays there whatever follows. */
  lemma StampPrefix(s: string, t: string)
    requires StampAt(s, 0)
    ensures StampAt(s + t, 0)
  {
    assert (s + t)[..14] == s[..14];
  }

  // ---------------------------------------------------------------------
  // `LEGACY_LINE`
  // ---------------------------------------------------------------------

  /** `\w`: ASCII letters, digits and `_`, and the CJK unified ideographs. */
  predicate IsWord(c: char)
  {
    ('a' <= c <= 'z') || ('A' <= c <= 'Z') || ('0' <= c <= '9') || c == '_'
    || ('\U{4E00}' <= c <= '\U{9FFF}')
  }

  /** The end of the maximal run of whitespace from `i`. */
  function SpaceEnd(s: string, i: nat): (r: nat)
    requires i <= |s|
    ensures i <= r <= |s|
    ensures r < |s| ==> !IsSpace(s[r])
    decreases |s| - i
  {
    if i < |s| && IsSpace(s[i]) then SpaceEnd(s, i + 1) else i
  }

  /** The end of the maximal run of word characters from `i`. */
  function WordEnd(s: string, i: nat): (r: nat)
    requires i <= |s|
    ensures i <= r <= |s|
    ensures r < |s| ==> !IsWord(s[r])
    decreases |s| - i
  {
    if i < |s| && IsWord(s[i]) then WordEnd(s, i + 1) else i
  }

  /** The end of `.*` from `i`: up to the first `\n`. */
  function RestEnd(s: string, i: nat): (r: nat)
    requires i <= |s|
    ensures i <= r <= |s|
    ensures r < |s| ==> s[r] == '\n'
    decreases |s| - i
  {
    if i < |s| && s[i] != '\n' then RestEnd(s, i + 1) else i
  }

  /** The four groups of a legacy line. */
  datatype Legacy = Legacy(ts: string, level: string, logType: string, details: string)

  /**
   * `LEGACY_LINE.match(line)`, anchored at the start of the line.  Every
   * whitespace character is a non-word character and the reverse, so each
   * `\s+` and `\w+` takes its maximal run whatever the backtracking; the
   * last `\s+` is greedy and `(.*)` takes what is left up to a newline.
   */
  function MatchLegacy(line: string): Option<Legacy>
  {
    if !ClockAt(line, 0) then None
    else
      var a := SpaceEnd(line, 12);
      var b := WordEnd(line, a);
      var c := SpaceEnd(line, b);
      var d := WordEnd(line, c);
      var e := SpaceEnd(line, d);
      if a == 12 || b == a || c == b || d == c || e == d then None
      else Some(Legacy(line[..12], line[a..b], line[c..d], line[e..RestEnd(line, e)]))
  }

  predicate AllWord(s: string)
  {
    forall k :: 0 <= k < |s| ==> IsWord(s[k])
  }

  /** The groups a legacy writer can put on one line: a clock, two words, and details without a newline or leading space. */
  predicate WellFormed(m: Legacy)
  {
    |m.ts| == 12 && ClockAt(m.ts, 0)
    && |m.level| > 0 && AllWord(m.level) && |m.logType| > 0 && AllWord(m.logType)
    && '\n' !in m.details && (|m.details| > 0 ==> !IsSpace(m.details[0]))
  }

  /** A legacy line as BetterGI wrote it, with single spaces. */
  function LegacyLine(m: Legacy): string
  {
    m.ts + " " + m.level + " " + m.logType + " " + m.details
  }

  lemma WordNotSpace(c: char)
    ensures IsWord(c) ==> !IsSpace(c)
  {
  }

  /** The characters of a word run are word characters. */
  lemma {:induction false} WordEndAll(s: string, i: nat)
    requires i <= |s|
    ensures forall k :: i <= k < WordEnd(s, i) ==> IsWord(s[k])
    decreases |s| - i
  {
    if i < |s| && IsWord(s[i]) {
      WordEndAll(s, i + 1);
    }
  }

  lemma {:induction false} WordRun(s: string, i: nat, j: nat)
    requires i <= j <= |s|
    requires forall k :: i <= k < j ==> IsWord(s[k])
    requires j < |s| ==> !IsWord(s[j])
    ensures WordEnd(s, i) == j
    decreases j - i
  {
    if i < j {
      WordRun(s, i + 1, j);
    }
  }

  lemma {:induction false} RestRun(s: string, i: nat)
    requires i <= |s|
    requires forall k :: i <= k < |s| ==> s[k] != '\n'
    ensures RestEnd(s, i) == |s|
    decreases |s| - i
  {
    if i < |s| {
      RestRun(s, i + 1);
    }
  }

  /** One space followed by a non-space is a run of one. */
  lemma SpaceStep(x: string, y: string)
    requires |y| == 0 || !IsSpace(y[0])
    ensures SpaceEnd(x + " " + y, |x|) == |x| + 1
  {
    var s := x + " " + y;
    assert s[|x|] == ' ';
    if |y| > 0 {
      assert s[|x| + 1] == y[0];
    }
    assert SpaceEnd(s, |x|) == SpaceEnd(s, |x| + 1);
  }

  /** A word followed by a non-word character is a maximal run. */
  lemma WordStep(x: string, w: string, y: string)
    requires AllWord(w) && (|y| > 0 ==> !IsWord(y[0]))
    ensures WordEnd(x + w + y, |x|) == |x| + |w|
  {
    var s := x + w + y;
    forall k | |x| <= k < |x| + |w|
      ensures IsWord(s[k])
    {
      assert s[k] == w[k - |x|];
    }
    if |y| > 0 {
      assert s[|x| + |w|] == y[0];
    }
    WordRun(s, |x|, |x| + |w|);
  }

  lemma RestStep(x: string, y: string)
    requires '\n' !in y
    ensures RestEnd(x + y, |x|) == |x| + |y| && (x + y)[|x|..] == y
  {
    forall k | |x| <= k < |x| + |y|
      ensures (x + y)[k] != '\n'
    {
      assert (x + y)[k] == y[k - |x|];
    }
    RestRun(x + y, |x|);
  }

  /** Where each run of a written legacy line ends. */
  lemma LegacyEnds(m: Legacy)
    requires WellFormed(m)
    ensures var line, b := LegacyLine(m), 13 + |m.level|;
      && SpaceEnd(line, 12) == 13
      && WordEnd(line, 13) == b
      && SpaceEnd(line, b) == b + 1
      && WordEnd(line, b + 1) == b + 1 + |m.logType|
      && SpaceEnd(line, b + 1 + |m.logType|) == b + 2 + |m.logType|
      && RestEnd(line, b + 2 + |m.logType|) == |line|
  {
    var line := LegacyLine(m);
    WordNotSpace(m.level[0]);
    WordNotSpace(m.logType[0]);
    var x2 := m.ts + " ";
    var x3 := x2 + m.level;
    var x4 := x3 + " ";
    var x5 := x4 + m.logType;
    var x6 := x5 + " ";
    assert line == m.ts + " " + (m.level + " " + m.logType + " " + m.details);
    SpaceStep(m.ts, m.level + " " + m.logType + " " + m.details);
    assert line == x2 + m.level + (" " + m.logType + " " + m.details);
    WordStep(x2, m.level, " " + m.logType + " " + m.details);
    assert line == x3 + " " + (m.logType + " " + m.details);
    SpaceStep(x3, m.logType + " " + m.details);
    assert line == x4 + m.logType + (" " + m.details);
    WordStep(x4, m.logType, " " + m.details);
    assert line == x5 + " " + m.details;
    SpaceStep(x5, m.details);
    assert line == x6 + m.details;
    RestStep(x6, m.details);
  }

  /** The groups of a written legacy line, where `LegacyEnds` puts them. */
  lemma LegacySlices(m: Legacy)
    requires WellFormed(m)
    ensures var line, b := LegacyLine(m), 13 + |m.level|;
      && ClockAt(line, 0)
      && line[..12] == m.ts
      && line[13..b] == m.level
      && line[b + 1..b + 1 + |m.logType|] == m.logType
      && line[b + 2 + |m.logType|..|line|] == m.details
  {
    var line := LegacyLine(m);
    assert line == m.ts + (" " + m.level + " " + m.logType + " " + m.details);
    assert line[..12] == m.ts;
    var x3 := m.ts + " " + m.level;
    assert line == x3 + (" " + m.logType + " " + m.details);
    assert line[13..|x3|] == m.level;
    var x5 := x3 + " " + m.logType;
    assert line == x5 + (" " + m.details);
    assert line[|x3| + 1..|x5|] == m.logType;
    assert line[|x5| + 1..|line|] == m.details;
  }

  /** The pattern reads back exactly the groups a legacy line was written from. */
  lemma LegacyRoundTrip(m: Legacy)
    requires WellFormed(m)
    ensures MatchLegacy(LegacyLine(m)) == Some(m)
  {
    LegacyEnds(m);
    LegacySlices(m);
  }

  /** `[ts] [level] type details`. */
  function Upgraded(m: Legacy): string
  {
    "[" + m.ts + "] [" + m.level + "] " + m.logType + " " + m.details
  }

  // ---------------------------------------------------------------------
  // `str.splitlines` and `convert_legacy`
  // ---------------------------------------------------------------------

  /** The line boundaries of `str.splitlines`. */
  predicate IsLineBreak(c: char)
  {
    c == '\n' || c == '\r' || c == '\U{000B}' || c == '\U{000C}'
    || ('\U{001C}' <= c <= '\U{001E}') || c == '\U{0085}' || c == '\U{2028}' || c == '\U{2029}'
  }

  predicate NoBreak(s: string)
  {
    forall k :: 0 <= k < |s| ==> !IsLineBreak(s[k])
  }

  /** The first line boundary at or after `i`, or the end. */
  function BreakAt(s: string, i: nat): (r: nat)
    requires i <= |s|
    ensures i <= r <= |s|
    ensures r < |s| ==> IsLineBreak(s[r])
    decreases |s| - i
  {
    if i < |s| && !IsLineBreak(s[i]) then BreakAt(s, i + 1) else i
  }

  /** `s.splitlines()`: `\r\n` is one boundary, and a final boundary opens no empty line. */
  function SplitLines(s: string): seq<string>
    decreases |s|
  {
    if |s| == 0 then []
    else
      var i := BreakAt(s, 0);
      if i == |s| then [s]
      else
        var j := if s[i] == '\r' && i + 1 < |s| && s[i + 1] == '\n' then i + 2 else i + 1;
        [s[..i]] + SplitLines(s[j..])
  }

  lemma {:induction false} BreakAtAll(s: string, i: nat)
    requires i <= |s|
    ensures forall k :: i <= k < BreakAt(s, i) ==> !IsLineBreak(s[k])
    decreases |s| - i
  {
    if i < |s| && !IsLineBreak(s[i]) {
      BreakAtAll(s, i + 1);
    }
  }

  /** No line of `splitlines` holds a line boundary. */
  lemma {:induction false} SplitLinesNoBreak(s: string)
    ensures forall l :: l in SplitLines(s) ==> NoBreak(l)
    decreases |s|
  {
    if |s| > 0 {
      var i := BreakAt(s, 0);
      BreakAtAll(s, 0);
      if i < |s| {
        var j := if s[i] == '\r' && i + 1 < |s| && s[i + 1] == '\n' then i + 2 else i + 1;
        SplitLinesNoBreak(s[j..]);
        assert NoBreak(s[..i]);
      } else {
        assert NoBreak(s);
      }
    }
  }

  lemma {:induction false} BreakRun(s: string, i: nat, j: nat)
    requires i <= j <= |s|
    requires forall k :: i <= k < j ==> !IsLineBreak(s[k])
    requires j < |s| ==> IsLineBreak(s[j])
    ensures BreakAt(s, i) == j
    decreases j - i
  {
    if i < j {
      BreakRun(s, i + 1, j);
    }
  }

  /** Lines without boundaries, joined by `\n` with a non-empty last one, split back into themselves. */
  lemma {:induction false} SplitJoin(ls: seq<string>)
    requires forall k :: 0 <= k < |ls| ==> NoBreak(ls[k])
    requires |ls| > 0 ==> |ls[|ls| - 1]| > 0
    ensures SplitLines(Join(ls, "\n")) == ls
    decreases |ls|
  {
    if |ls| == 1 {
      BreakRun(ls[0], 0, |ls[0]|);
    } else if |ls| > 1 {
      var s := Join(ls, "\n");
      var rest := Join(ls[1..], "\n");
      assert s == ls[0] + "\n" + rest;
      forall k | 0 <= k < |ls[0]|
        ensures !IsLineBreak(s[k])
      {
        assert s[k] == ls[0][k];
      }
      assert s[|ls[0]|] == '\n';
      BreakRun(s, 0, |ls[0]|);
      assert s[..|ls[0]|] == ls[0];
      assert s[|ls[0]| + 1..] == rest;
      SplitJoin(ls[1..]);
    }
  }

  /** `not line.strip()`. */
  predicate Blank(line: string)
  {
    |Strip(line)| == 0
  }

  /** The lines `convert_legacy` converts. */
  function NonBlank(lines: seq<string>): (r: seq<string>)
    ensures forall k :: 0 <= k < |r| ==> r[k] in lines && !Blank(r[k])
    decreases |lines|
  {
    if |lines| == 0 then []
    else if Blank(lines[0]) then NonBlank(lines[1..])
    else [lines[0]] + NonBlank(lines[1..])
  }

  /** What one line adds: nothing when blank, its conversion, or `None` where `parse` finds no match. */
  function LineResult(line: string, parse: string -> Option<Legacy>): Option<seq<string>>
  {
    if Blank(line) then Some([])
    else
      match parse(line)
      case None => None
      case Some(m) => Some([Upgraded(m)])
  }

  /** The lines converted so far ahead of those still to come. */
  function After(done: seq<string>, o: Option<seq<string>>): Option<seq<string>>
  {
    match o
    case None => None
    case Some(rest) => Some(done + rest)
  }

  /** The loop of `convert_legacy`, with `parse` for `LEGACY_LINE.match`: `None` where it raises `ValueError`. */
  function ConvertLines(lines: seq<string>, parse: string -> Option<Legacy>): Option<seq<string>>
    decreases |lines|
  {
    if |lines| == 0 then Some([])
    else
      match LineResult(lines[0], parse)
      case None => None
      case Some(u) => After(u, ConvertLines(lines[1..], parse))
  }

  /** The converted lines joined by `\n`, or `None` where the loop raises. */
  function ConvertText(lines: seq<string>): Option<string>
  {
    match ConvertLines(lines, MatchLegacy)
    case None => None
    case Some(ls) => Some(Join(ls, "\n"))
  }

  /** `convert_legacy`. */
  function ConvertLegacy(content: string): Option<string>
  {
    ConvertText(SplitLines(content))
  }

  /** The conversion raises exactly when some non-blank line does not parse. */
  lemma {:induction false} ConvertLinesNone(lines: seq<string>, parse: string -> Option<Legacy>)
    ensures ConvertLines(lines, parse).None? <==> exists k :: 0 <= k < |NonBlank(lines)| && parse(NonBlank(lines)[k]).None?
    decreases |lines|
  {
    if |lines| > 0 {
      ConvertLinesNone(lines[1..], parse);
      var nb, nb' := NonBlank(lines), NonBlank(lines[1..]);
      if !Blank(lines[0]) {
        assert nb[0] == lines[0] && nb[1..] == nb';
        if exists k :: 0 <= k < |nb'| && parse(nb'[k]).None? {
          var k :| 0 <= k < |nb'| && parse(nb'[k]).None?;
          assert nb[k + 1] == nb'[k];
        }
        if exists k :: 0 <= k < |nb| && parse(nb[k]).None? {
          var k :| 0 <= k < |nb| && parse(nb[k]).None?;
          if k > 0 {
            assert nb'[k - 1] == nb[k];
          }
        }
      }
    }
  }

  /** Otherwise it yields one converted line per non-blank line, in order, and drops the blank ones. */
  lemma {:induction false} ConvertLinesSome(lines: seq<string>, parse: string -> Option<Legacy>)
    requires ConvertLines(lines, parse).Some?
    ensures var out, nb := ConvertLines(lines, parse).value, NonBlank(lines);
      && |out| == |nb|
      && forall k :: 0 <= k < |nb| ==> parse(nb[k]).Some? && out[k] == Upgraded(parse(nb[k]).value)
    decreases |lines|
  {
    if |lines| > 0 {
      var u := LineResult(lines[0], parse).value;
      var rest := ConvertLines(lines[1..], parse).value;
      ConvertLinesSome(lines[1..], parse);
      var nb, nb' := NonBlank(lines), NonBlank(lines[1..]);
      var out := ConvertLines(lines, parse).value;
      assert out == u + rest;
      if Blank(lines[0]) {
        assert out == rest;
      } else {
        var y := Upgraded(parse(lines[0]).value);
        assert nb == [lines[0]] + nb';
        assert out == [y] + rest;
        PrependConverted(lines[0], nb', y, rest, parse);
      }
    }
  }

  /** A converted line put in front of converted lines. */
  lemma PrependConverted(l: string, ls: seq<string>, y: string, ys: seq<string>, parse: string -> Option<Legacy>)
    requires parse(l).Some? && y == Upgraded(parse(l).value)
    requires |ys| == |ls| && forall k :: 0 <= k < |ls| ==> parse(ls[k]).Some? && ys[k] == Upgraded(parse(ls[k]).value)
    ensures var xs, out := [l] + ls, [y] + ys;
      |out| == |xs| && forall k :: 0 <= k < |xs| ==> parse(xs[k]).Some? && out[k] == Upgraded(parse(xs[k]).value)
  {
    var xs, out := [l] + ls, [y] + ys;
    forall k | 0 <= k < |xs|
      ensures parse(xs[k]).Some? && out[k] == Upgraded(parse(xs[k]).value)
    {
      if k > 0 {
        assert xs[k] == ls[k - 1] && out[k] == ys[k - 1];
      }
    }
  }

  /** The groups of a match: a clock and two words, and details cut from the line. */
  lemma MatchFields(line: string)
    requires MatchLegacy(line).Some?
    ensures var m := MatchLegacy(line).value;
      && |m.ts| == 12 && ClockAt(m.ts, 0) && AllWord(m.level) && AllWord(m.logType)
      && (NoBreak(line) ==> NoBreak(m.details))
  {
    var m := MatchLegacy(line).value;
    var a := SpaceEnd(line, 12);
    var b := WordEnd(line, a);
    var c := SpaceEnd(line, b);
    var d := WordEnd(line, c);
    var e := SpaceEnd(line, d);
    WordEndAll(line, a);
    WordEndAll(line, c);
    assert m.level == line[a..b];
    assert m.logType == line[c..d];
    assert m.details == line[e..RestEnd(line, e)];
  }

  lemma NoBreakConcat(a: string, b: string)
    requires NoBreak(a) && NoBreak(b)
    ensures NoBreak(a + b)
  {
    forall k | 0 <= k < |a + b|
      ensures !IsLineBreak((a + b)[k])
    {
      if k >= |a| {
        assert (a + b)[k] == b[k - |a|];
      }
    }
  }

  /** A converted line starts with a bracketed clock. */
  lemma UpgradedStamp(m: Legacy)
    requires |m.ts| == 12 && ClockAt(m.ts, 0)
    ensures StampAt(Upgraded(m), 0)
  {
    var head := "[" + m.ts + "]";
    assert head[1..13] == m.ts;
    assert StampAt(head, 0);
    assert Upgraded(m) == head + (" [" + m.level + "] " + m.logType + " " + m.details);
    StampPrefix(head, " [" + m.level + "] " + m.logType + " " + m.details);
  }

  /** A converted line has no line boundary when its details have none. */
  lemma UpgradedNoBreak(m: Legacy)
    requires |m.ts| == 12 && ClockAt(m.ts, 0) && AllWord(m.level) && AllWord(m.logType) && NoBreak(m.details)
    ensures NoBreak(Upgraded(m))
  {
    NoBreakConcat("[", m.ts);
    NoBreakConcat("[" + m.ts, "] [");
    NoBreakConcat("[" + m.ts + "] [", m.level);
    NoBreakConcat("[" + m.ts + "] [" + m.level, "] ");
    NoBreakConcat("[" + m.ts + "] [" + m.level + "] ", m.logType);
    NoBreakConcat("[" + m.ts + "] [" + m.level + "] " + m.logType, " ");
    NoBreakConcat("[" + m.ts + "] [" + m.level + "] " + m.logType + " ", m.details);
  }

  /**
   * The converted text has one line per non-blank input line and no
   * trailing newline: splitting it into lines gives back the converted
   * lines.
   */
  lemma ConvertedLines(content: string)
    requires ConvertLegacy(content).Some?
    ensures var lines := SplitLines(content);
      && ConvertLines(lines, MatchLegacy).Some?
      && SplitLines(ConvertLegacy(content).value) == ConvertLines(lines, MatchLegacy).value
      && |SplitLines(ConvertLegacy(content).value)| == |NonBlank(lines)|
  {
    var lines := SplitLines(content);
    ConvertLinesSome(lines, MatchLegacy);
    SplitLinesNoBreak(content);
    var out, nb := ConvertLines(lines, MatchLegacy).value, NonBlank(lines);
    forall k | 0 <= k < |out|
      ensures NoBreak(out[k]) && |out[k]| > 0
    {
      MatchFields(nb[k]);
      UpgradedNoBreak(MatchLegacy(nb[k]).value);
    }
    SplitJoin(out);
  }

  /** Converted lines, the first of which starts with a bracketed clock. */
  lemma ConvertedTextIsNew(lines: seq<string>)
    requires ConvertLines(lines, MatchLegacy).Some? && |NonBlank(lines)| > 0
    ensures DetectVersion(ConvertText(lines).value) == New
  {
    ConvertLinesSome(lines, MatchLegacy);
    var out, nb := ConvertLines(lines, MatchLegacy).value, NonBlank(lines);
    MatchFields(nb[0]);
    UpgradedStamp(MatchLegacy(nb[0]).value);
    StampJoin(out);
  }

  lemma StampJoin(out: seq<string>)
    requires |out| > 0 && StampAt(out[0], 0)
    ensures StampAt(Join(out, "\n"), 0)
  {
    if |out| > 1 {
      assert Join(out, "\n") == out[0] + ("\n" + Join(out[1..], "\n"));
      StampPrefix(out[0], "\n" + Join(out[1..], "\n"));
    }
  }

  /**
   * A legacy text with at least one non-blank line converts to a text
   * `detect_version` calls new.
   */
  lemma ConvertedIsNew(content: string)
    requires ConvertLegacy(content).Some? && |NonBlank(SplitLines(content))| > 0
    ensures DetectVersion(ConvertLegacy(content).value) == New
  {
    ConvertedTextIsNew(SplitLines(content));
  }

  /** A text with only blank lines converts to the empty text, which `detect_version` calls old. */
  lemma BlankConvertsToEmpty(content: string)
    requires |NonBlank(SplitLines(content))| == 0
    ensures ConvertLegacy(content) == Some("")
    ensures DetectVersion("") == Old
  {
    ConvertLinesNone(SplitLines(content), MatchLegacy);
    ConvertLinesSome(SplitLines(content), MatchLegacy);
  }

  /** `convert_legacy`: the lines of the text, converted one at a time. */
  method Convert(content: string) returns (r: Option<string>)
    ensures r == ConvertLegacy(content)
  {
    r := ConvertAll(SplitLines(content));
  }

  /** The loop of `convert_legacy`, appending one converted line at a time. */
  method ConvertAll(lines: seq<string>) returns (r: Option<string>)
    ensures r == ConvertText(lines)
  {
    var converted: seq<string> := [];
    var i := 0;
    assert lines[i..] == lines;
    AfterNothing(ConvertLines(lines, MatchLegacy));
    while i < |lines|
      invariant 0 <= i <= |lines|
      invariant After(converted, ConvertLines(lines[i..], MatchLegacy)) == ConvertLines(lines, MatchLegacy)
    {
      assert lines[i..][0] == lines[i] && lines[i..][1..] == lines[i + 1..];
      var o := ConvertOne(lines[i]);
      if o.None? {
        return None;
      }
      AfterTwice(converted, o.value, ConvertLines(lines[i + 1..], MatchLegacy));
      converted := converted + o.value;
      i := i + 1;
    }
    assert lines[i..] == [];
    assert converted + [] == converted;
    assert ConvertLines(lines, MatchLegacy) == Some(converted);
    r := Some(Join(converted, "\n"));
  }

  lemma AfterNothing(o: Option<seq<string>>)
    ensures After([], o) == o
  {
    if o.Some? {
      assert [] + o.value == o.value;
    }
  }

  lemma AfterTwice(done: seq<string>, u: seq<string>, o: Option<seq<string>>)
    ensures After(done, After(u, o)) == After(done + u, o)
  {
    if o.Some? {
      assert done + (u + o.value) == (done + u) + o.value;
    }
  }

  /** The body of the loop of `convert_legacy` for one line. */
  method ConvertOne(line: string) returns (o: Option<seq<string>>)
    ensures o == LineResult(line, MatchLegacy)
  {
    if Blank(line) {
      return Some([]);
    }
    var m := MatchLegacy(line);
    if m.None? {
      return None;
    }
    o := Some([Upgraded(m.value)]);
  }

  // ---------------------------------------------------------------------
  // `upgrade_file` and `main`
  // ---------------------------------------------------------------------

  /** The backup `upgrade_file` copies a log to. */
  function Backup(name: string): (b: string)
    ensures b != name && |b| == |name| + 4
  {
    name + ".bak"
  }

  predicate EndsWithLog(name: string)
  {
    |name| >= |Manager.LogSuffix| && name[|name| - |Manager.LogSuffix|..] == Manager.LogSuffix
  }

  /**
   * `upgrade_file` on the files of the log directory: `None` where opening
   * or decoding raises; a new-format or unconvertible file is left alone;
   * otherwise the original text is copied to the backup and the file is
   * rewritten with the converted text.
   */
  function UpgradeFile(files: map<string, Manager.FileEntry>, name: string): Option<map<string, Manager.FileEntry>>
  {
    if name !in files || files[name].Unreadable? then None
    else
      var content := files[name].text;
      if DetectVersion(content) == New then Some(files)
      else
        match ConvertLegacy(content)
        case None => Some(files)
        case Some(converted) => Some(files[Backup(name) := files[name]][name := Manager.Readable(converted)])
  }

  /**
   * The directory after `upgrade_file`: untouched for a new-format or an
   * unconvertible file; otherwise the backup holds the original text, the
   * file its conversion, and no other file changes.
   */
  lemma UpgradeFileSpec(files: map<string, Manager.FileEntry>, name: string)
    ensures UpgradeFile(files, name).None? <==> name !in files || files[name].Unreadable?
    ensures UpgradeFile(files, name).Some? ==>
      var content, after := files[name].text, UpgradeFile(files, name).value;
      if DetectVersion(content) == New || ConvertLegacy(content).None? then after == files
      else
        && after[Backup(name)] == Manager.Readable(content)
        && after[name] == Manager.Readable(ConvertLegacy(content).value)
        && forall g :: g != name && g != Backup(name) ==> (g in after <==> g in files) && (g in files ==> after[g] == files[g])
  {
  }

  /** A file that has been upgraded, and had a non-blank line, is left alone by a second run. */
  lemma UpgradeTwice(files: map<string, Manager.FileEntry>, name: string)
    requires UpgradeFile(files, name).Some?
    requires files[name].Readable? && |NonBlank(SplitLines(files[name].text))| > 0
    ensures var once := UpgradeFile(files, name).value;
      UpgradeFile(once, name) == Some(once)
  {
    var content := files[name].text;
    if DetectVersion(content) == Old && ConvertLegacy(content).Some? {
      ConvertedIsNew(content);
    }
  }

  /**
   * A file of blank lines is rewritten empty, and a second run, finding
   * the empty text not new, overwrites the backup with it: the original
   * text is then gone.
   */
  lemma BlankBackupLost(files: map<string, Manager.FileEntry>, name: string)
    requires name in files && files[name].Readable? && DetectVersion(files[name].text) == Old
    requires |NonBlank(SplitLines(files[name].text))| == 0
    ensures var once := UpgradeFile(files, name).value;
      && once[name] == Manager.Readable("")
      && UpgradeFile(once, name).Some?
      && UpgradeFile(once, name).value[Backup(name)] == Manager.Readable("")
  {
    BlankConvertsToEmpty(files[name].text);
    BlankConvertsToEmpty("");
  }

  /** `main`'s loop over the listing: the `.log` names, one after another, until one raises. */
  function UpgradeNames(files: map<string, Manager.FileEntry>, names: seq<string>): (map<string, Manager.FileEntry>, bool)
    decreases |names|
  {
    if |names| == 0 then (files, false)
    else if !EndsWithLog(names[0]) then UpgradeNames(files, names[1..])
    else
      match UpgradeFile(files, names[0])
      case None => (files, true)
      case Some(files') => UpgradeNames(files', names[1..])
  }

  /** Only the `.log` names of the listing and their backups can change. */
  lemma {:induction false} UpgradeNamesOthers(files: map<string, Manager.FileEntry>, names: seq<string>, g: string)
    requires forall n :: n in names && EndsWithLog(n) ==> g != n && g != Backup(n)
    ensures var after := UpgradeNames(files, names).0;
      (g in after <==> g in files) && (g in files ==> after[g] == files[g])
    decreases |names|
  {
    if |names| > 0 {
      assert forall n :: n in names[1..] ==> n in names;
      if EndsWithLog(names[0]) && UpgradeFile(files, names[0]).Some? {
        UpgradeFileSpec(files, names[0]);
        UpgradeNamesOthers(UpgradeFile(files, names[0]).value, names[1..], g);
      } else if !EndsWithLog(names[0]) {
        UpgradeNamesOthers(files, names[1..], g);
      }
    }
  }

  /** A log directory whose files `main` upgrades. */
  class LogDirectory {
    var files: map<string, Manager.FileEntry>

    constructor (files0: map<string, Manager.FileEntry>)
      ensures files == files0
    {
      files := files0;
    }

    /** `upgrade_file`; `raised` where it raises, leaving the files as they were. */
    method Upgrade(name: string) returns (raised: bool)
      modifies this
      ensures raised == UpgradeFile(old(files), name).None?
      ensures files == if raised then old(files) else UpgradeFile(old(files), name).value
    {
      if name !in files || files[name].Unreadable? {
        return true;
      }
      var content := files[name].text;
      if DetectVersion(content) == New {
        return false;
      }
      var converted := Convert(content);
      if converted.None? {
        return false;
      }
      files := files[Backup(name) := files[name]];
      files := files[name := Manager.Readable(converted.value)];
      raised := false;
    }

    /** `main`, over a listing taken before any file is written. */
    method UpgradeAll(listing: seq<string>) returns (raised: bool)
      modifies this
      ensures (files, raised) == UpgradeNames(old(files), listing)
    {
      var i := 0;
      while i < |listing|
        invariant 0 <= i <= |listing|
        invariant UpgradeNames(files, listing[i..]) == UpgradeNames(old(files), listing)
      {
        assert listing[i..][0] == listing[i] && listing[i..][1..] == listing[i + 1..];
        if EndsWithLog(listing[i]) {
          raised := Upgrade(listing[i]);
          if raised {
            return;
          }
        }
        i := i + 1;
      }
      assert listing[i..] == [];
      raised := false;
    }
  }
}

=== FILE: src/window_finder.dfy ===
/**
 * The window finder of app/streaming/window_finder.py and the program
 * lister of app/streaming/programs.py.  The operating system is injected:
 * the windows the enumeration reports (in its order, with their
 * visibility), the process name a handle resolves to (`None` where every
 * lookup failed; the name is already the lowercased file name), and the
 * window rectangle of a handle (`None` where the lookup raised).
 */
module WindowFinder {
  import opened Wrappers
  import opened Strings
  import Tallies

  /** Processes never offered for streaming unless the caller names its own list. */
  const DefaultBlacklist: seq<string> := [
    "dwm.exe", "winlogon.exe", "csrss.exe", "explorer.exe", "svchost.exe",
    "lsass.exe", "smss.exe", "wininit.exe", "services.exe", "spoolsv.exe",
    "conhost.exe", "dllhost.exe", "rundll32.exe", "taskhostw.exe", "sihost.exe",
    "ctfmon.exe", "fontdrvhost.exe", "lsm.exe", "nvidia overlay.exe", "textinputhost.exe"]

  /** `(left, top, right, bottom)`. */
  type Rect = (int, int, int, int)

  /** A top-level window as the enumeration reports it. */
  datatype Window = Window(hwnd: int, visible: bool)

  /** The blacklist the constructor stores: the given names (or the default ones when none or an empty list is given), lowercased. */
  function Blacklist(systemProcesses: Option<seq<string>>): set<string>
  {
    var names := if systemProcesses.Some? && |systemProcesses.value| > 0 then systemProcesses.value else DefaultBlacklist;
    set p | p in names :: Lower(p)
  }

  /** The stored names are lowercase, and a name is blacklisted exactly when it lowercases to one given. */
  lemma BlacklistSpec(systemProcesses: Option<seq<string>>)
    ensures forall b :: b in Blacklist(systemProcesses) ==> Lower(b) == b
    ensures systemProcesses.Some? && |systemProcesses.value| > 0 ==>
      forall p :: p in systemProcesses.value ==> Lower(p) in Blacklist(systemProcesses)
    ensures systemProcesses.None? || systemProcesses.value == [] ==>
      forall p :: p in DefaultBlacklist ==> Lower(p) in Blacklist(systemProcesses)
  {
    var names := if systemProcesses.Some? && |systemProcesses.value| > 0 then systemProcesses.value else DefaultBlacklist;
    forall b | b in Blacklist(systemProcesses) ensures Lower(b) == b {
      var p :| p in names && Lower(p) == b;
      LowerIdempotent(p);
    }
  }

  /** The handles `collect` keeps, in enumeration order. */
  function VisibleHandles(ws: seq<Window>): seq<int>
    decreases |ws|
  {
    if |ws| == 0 then []
    else VisibleHandles(ws[..|ws| - 1]) + (if ws[|ws| - 1].visible then [ws[|ws| - 1].hwnd] else [])
  }

  /** The handle/name pairs the generator yields: handles whose name resolved to a non-empty text. */
  function Named(handles: seq<int>, processName: int -> Option<string>): seq<(int, string)>
    decreases |handles|
  {
    if |handles| == 0 then []
    else
      var h := handles[|handles| - 1];
      var name := processName(h);
      Named(handles[..|handles| - 1], processName) + (if name.Some? && name.value != "" then [(h, name.value)] else [])
  }

  /** `iter_visible_windows`, as the list of what it yields. */
  function VisibleWindows(ws: seq<Window>, processName: int -> Option<string>): seq<(int, string)>
  {
    Named(VisibleHandles(ws), processName)
  }

  lemma {:induction false} VisibleHandlesSpec(ws: seq<Window>)
    ensures forall h :: h in VisibleHandles(ws) <==> exists w :: w in ws && w.visible && w.hwnd == h
    decreases |ws|
  {
    if |ws| > 0 {
      VisibleHandlesSpec(ws[..|ws| - 1]);
      assert ws == ws[..|ws| - 1] + [ws[|ws| - 1]];
    }
  }

  lemma {:induction false} NamedSpec(handles: seq<int>, processName: int -> Option<string>)
    ensures forall h, n :: (h, n) in Named(handles, processName) <==>
      h in handles && processName(h) == Some(n) && n != ""
    decreases |handles|
  {
    if |handles| > 0 {
      NamedSpec(handles[..|handles| - 1], processName);
      assert handles == handles[..|handles| - 1] + [handles[|handles| - 1]];
    }
  }

  /**
   * What `iter_visible_windows` yields is exactly the visible windows
   * whose process name resolved to a non-empty text, each with its name.
   */
  lemma VisibleWindowsSpec(ws: seq<Window>, processName: int -> Option<string>)
    ensures forall h, n :: (h, n) in VisibleWindows(ws, processName) <==>
      (exists w :: w in ws && w.visible && w.hwnd == h) && processName(h) == Some(n) && n != ""
  {
    VisibleHandlesSpec(ws);
    NamedSpec(VisibleHandles(ws), processName);
  }

  /** The first handle, in order, whose name is `q`; 0 when there is none. */
  function FirstHandle(pairs: seq<(int, string)>, q: string): int
    decreases |pairs|
  {
    if |pairs| == 0 then 0 else if pairs[0].1 == q then pairs[0].0 else FirstHandle(pairs[1..], q)
  }

  /** The answer belongs to the first pair with the name, and is 0 when no pair has it. */
  lemma {:induction false} FirstHandleSpec(pairs: seq<(int, string)>, q: string)
    ensures (forall i :: 0 <= i < |pairs| ==> pairs[i].1 != q) ==> FirstHandle(pairs, q) == 0
    ensures forall i :: 0 <= i < |pairs| && pairs[i].1 == q && (forall j :: 0 <= j < i ==> pairs[j].1 != q) ==>
      FirstHandle(pairs, q) == pairs[i].0
    decreases |pairs|
  {
    if |pairs| > 0 {
      FirstHandleSpec(pairs[1..], q);
      forall i | 0 < i < |pairs| && pairs[i].1 == q && (forall j :: 0 <= j < i ==> pairs[j].1 != q)
        ensures FirstHandle(pairs, q) == pairs[i].0
      {
        assert pairs[0].1 != q;
        assert pairs[1..][i - 1] == pairs[i];
        assert forall j :: 0 <= j < i - 1 ==> pairs[1..][j].1 != q by {
          forall j | 0 <= j < i - 1 ensures pairs[1..][j].1 != q {
            assert pairs[1..][j] == pairs[j + 1];
          }
        }
      }
    }
  }

  predicate EndsWith(s: string, suffix: string)
  {
    |suffix| <= |s| && s[|s| - |suffix|..] == suffix
  }

  /** `_is_candidate`: an `.exe`, not blacklisted, not a Windows or Microsoft component, and not of empty size. */
  function IsCandidate(blacklist: set<string>, windowRect: int -> Option<Rect>, hwnd: int, name: string): bool
  {
    if !EndsWith(name, ".exe") then false
    else if name in blacklist then false
    else if "windows" <= name || "microsoft" <= name then false
    else
      match windowRect(hwnd)
      case None => true
      case Some(r) => r.2 - r.0 > 0 && r.3 - r.1 > 0
  }

  /**
   * The name tests come first; past them, a rectangle with no width or no
   * height excludes the window and a failed rectangle lookup keeps it.
   */
  lemma IsCandidateSpec(blacklist: set<string>, windowRect: int -> Option<Rect>, hwnd: int, name: string)
    ensures IsCandidate(blacklist, windowRect, hwnd, name) ==>
      EndsWith(name, ".exe") && name !in blacklist && !("windows" <= name) && !("microsoft" <= name)
    ensures EndsWith(name, ".exe") && name !in blacklist && !("windows" <= name) && !("microsoft" <= name) ==>
      (IsCandidate(blacklist, windowRect, hwnd, name) <==>
        windowRect(hwnd).None? || (windowRect(hwnd).value.2 - windowRect(hwnd).value.0 > 0
                                   && windowRect(hwnd).value.3 - windowRect(hwnd).value.1 > 0))
  {
  }

  /** The names `list_visible_programs` appends, in order. */
  function CandidateNames(pairs: seq<(int, string)>, blacklist: set<string>, windowRect: int -> Option<Rect>): seq<string>
    decreases |pairs|
  {
    if |pairs| == 0 then []
    else
      var p := pairs[|pairs| - 1];
      CandidateNames(pairs[..|pairs| - 1], blacklist, windowRect)
        + (if IsCandidate(blacklist, windowRect, p.0, p.1) then [p.1] else [])
  }

  lemma {:induction false} CandidateNamesSpec(pairs: seq<(int, string)>, blacklist: set<string>, windowRect: int -> Option<Rect>)
    ensures forall n :: n in CandidateNames(pairs, blacklist, windowRect) <==>
      exists h :: (h, n) in pairs && IsCandidate(blacklist, windowRect, h, n)
    decreases |pairs|
  {
    if |pairs| > 0 {
      CandidateNamesSpec(pairs[..|pairs| - 1], blacklist, windowRect);
      assert pairs == pairs[..|pairs| - 1] + [pairs[|pairs| - 1]];
    }
  }

  /** `sorted(set(programs))`. */
  function SortedUnique(names: seq<string>): seq<string>
  {
    SortAsc(Tallies.FirstSeen([], names))
  }

  /** Sorted, without duplicates, and holding exactly the given names. */
  lemma SortedUniqueSpec(names: seq<string>)
    ensures Ascending(SortedUnique(names)) && Distinct(SortedUnique(names))
    ensures forall n :: n in SortedUnique(names) <==> n in names
  {
    var u := Tallies.FirstSeen([], names);
    Tallies.FirstSeenSpec([], names);
    var r := SortAsc(u);
    assert multiset(r) == multiset(u);
    forall n ensures n in r <==> n in u {
      assert n in r <==> n in multiset(r);
      assert n in u <==> n in multiset(u);
    }
    assert Distinct(r) by {
      assert Distinct(u);
      DistinctIffSingleCounts(u);
      DistinctIffSingleCounts(r);
    }
  }

  /** The finder over an injected system. */
  class Finder {
    const blacklist: set<string>
    const windows: seq<Window>
    const processName: int -> Option<string>
    const windowRect: int -> Option<Rect>

    constructor (systemProcesses: Option<seq<string>>, windows: seq<Window>,
                 processName: int -> Option<string>, windowRect: int -> Option<Rect>)
      ensures blacklist == Blacklist(systemProcesses)
      ensures this.windows == windows && this.processName == processName && this.windowRect == windowRect
    {
      var names := if systemProcesses.Some? && |systemProcesses.value| > 0 then systemProcesses.value else DefaultBlacklist;
      blacklist := set p | p in names :: Lower(p);
      this.windows := windows;
      this.processName := processName;
      this.windowRect := windowRect;
    }

    /** `iter_visible_windows`: the visible handles first, then those whose name resolves. */
    method IterVisibleWindows() returns (r: seq<(int, string)>)
      ensures r == VisibleWindows(windows, processName)
    {
      var handles: seq<int> := [];
      var i := 0;
      while i < |windows|
        invariant 0 <= i <= |windows|
        invariant handles == VisibleHandles(windows[..i])
      {
        assert windows[..i + 1][..i] == windows[..i];
        if windows[i].visible {
          handles := handles + [windows[i].hwnd];
        }
        i := i + 1;
      }
      assert windows[..i] == windows;
      r := [];
      var k := 0;
      while k < |handles|
        invariant 0 <= k <= |handles|
        invariant r == Named(handles[..k], processName)
      {
        assert handles[..k + 1][..k] == handles[..k];
        var name := processName(handles[k]);
        if name.Some? && name.value != "" {
          r := r + [(handles[k], name.value)];
        }
        k := k + 1;
      }
      assert handles[..k] == handles;
    }

    /** `find`: the first visible window of the process with the lowercased name; 0 if none. */
    method Find(processName: string) returns (hwnd: int)
      ensures hwnd == FirstHandle(VisibleWindows(windows, this.processName), Lower(processName))
    {
      var q := Lower(processName);
      var pairs := IterVisibleWindows();
      var i := 0;
      while i < |pairs|
        invariant 0 <= i <= |pairs|
        invariant FirstHandle(pairs[i..], q) == FirstHandle(pairs, q)
      {
        assert pairs[i..][1..] == pairs[i + 1..];
        if pairs[i].1 == q {
          return pairs[i].0;
        }
        i := i + 1;
      }
      return 0;
    }

    /** `list_visible_programs`: the candidate names, sorted and each once. */
    method ListVisiblePrograms() returns (r: seq<string>)
      ensures r == SortedUnique(CandidateNames(VisibleWindows(windows, processName), blacklist, windowRect))
      ensures Ascending(r) && Distinct(r)
      ensures forall n :: n in r <==>
        (exists w :: w in windows && w.visible && processName(w.hwnd) == Some(n)
                     && n != "" && IsCandidate(blacklist, windowRect, w.hwnd, n))
    {
      var pairs := IterVisibleWindows();
      var programs: seq<string> := [];
      var i := 0;
      while i < |pairs|
        invariant 0 <= i <= |pairs|
        invariant programs == CandidateNames(pairs[..i], blacklist, windowRect)
      {
        assert pairs[..i + 1][..i] == pairs[..i];
        if IsCandidate(blacklist, windowRect, pairs[i].0, pairs[i].1) {
          programs := programs + [pairs[i].1];
        }
        i := i + 1;
      }
      assert pairs[..i] == pairs;
      r := SortAsc(Tallies.FirstSeen([], programs));
      SortedUniqueSpec(programs);
      CandidateNamesSpec(pairs, blacklist, windowRect);
      VisibleWindowsSpec(windows, processName);
    }
  }
}

/** `ProgramLister` of app/streaming/programs.py, over the names its finder lists. */
module Programs {
  import opened Wrappers
  import opened Strings

  const DesktopLabel := "桌面.exe"

  /** `list_programs`: the finder's names, or those whose lowercase form is among the lowercased allowlist. */
  function ListPrograms(programs: seq<string>, allowlist: Option<seq<string>>): seq<string>
    decreases |programs|
  {
    if allowlist.None? then programs
    else if |programs| == 0 then []
    else
      var allowed := set a | a in allowlist.value :: Lower(a);
      var rest := ListPrograms(programs[..|programs| - 1], allowlist);
      var p := programs[|programs| - 1];
      if Lower(p) in allowed then rest + [p] else rest
  }

  /** `ys` is `xs` with some elements left out, the others in their order. */
  predicate Subsequence<T(==)>(ys: seq<T>, xs: seq<T>)
    decreases |xs|
  {
    if |ys| == 0 then true
    else if |xs| == 0 then false
    else if ys[|ys| - 1] == xs[|xs| - 1] then Subsequence(ys[..|ys| - 1], xs[..|xs| - 1])
    else Subsequence(ys, xs[..|xs| - 1])
  }

  lemma {:induction false} SubsequenceOfSelf<T>(xs: seq<T>)
    ensures Subsequence(xs, xs)
    decreases |xs|
  {
    if |xs| > 0 {
      SubsequenceOfSelf(xs[..|xs| - 1]);
    }
  }

  /**
   * Without an allowlist the finder's names come back unchanged; with one,
   * a name is kept exactly when its lowercase form is allowed; either way
   * the answer keeps the finder's order.
   */
  lemma ListProgramsSpec(programs: seq<string>, allowlist: Option<seq<string>>)
    ensures allowlist.None? ==> ListPrograms(programs, allowlist) == programs
    ensures allowlist.Some? ==> forall p :: p in ListPrograms(programs, allowlist) <==>
      p in programs && exists a :: a in allowlist.value && Lower(a) == Lower(p)
    ensures Subsequence(ListPrograms(programs, allowlist), programs)
  {
    if allowlist.Some? {
      ListProgramsMembers(programs, allowlist.value);
    }
    ListProgramsOrder(programs, allowlist);
  }

  /** With an allowlist, a name is kept exactly when its lowercase form is allowed. */
  lemma {:induction false} ListProgramsMembers(programs: seq<string>, allowlist: seq<string>)
    ensures forall p :: p in ListPrograms(programs, Some(allowlist)) <==>
      p in programs && exists a :: a in allowlist && Lower(a) == Lower(p)
    decreases |programs|
  {
    if |programs| > 0 {
      var init, last := programs[..|programs| - 1], programs[|programs| - 1];
      ListProgramsMembers(init, allowlist);
      forall p ensures p in programs <==> p in init || p == last {
        if p in programs {
          var i :| 0 <= i < |programs| && programs[i] == p;
          if i < |programs| - 1 {
            assert init[i] == p;
          }
        }
      }
    }
  }

  /** The answer keeps the finder's order. */
  lemma {:induction false} ListProgramsOrder(programs: seq<string>, allowlist: Option<seq<string>>)
    ensures Subsequence(ListPrograms(programs, allowlist), programs)
    decreases |programs|
  {
    if allowlist.None? {
      SubsequenceOfSelf(programs);
    } else if |programs| > 0 {
      var init := programs[..|programs| - 1];
      ListProgramsOrder(init, allowlist);
      var allowed := set a | a in allowlist.value :: Lower(a);
      var r := ListPrograms(programs, allowlist);
      var last := programs[|programs| - 1];
      if Lower(last) in allowed {
        assert r == ListPrograms(init, allowlist) + [last];
        assert r[|r| - 1] == last && r[..|r| - 1] == ListPrograms(init, allowlist);
      } else {
        assert r == ListPrograms(init, allowlist);
        // a kept name is allowed, so the last kept name is not `last`
        ListProgramsMembers(init, allowlist.value);
      }
    }
  }

  /** `list_with_desktop`: the listed programs, then the desktop label. */
  function ListWithDesktop(programs: seq<string>, allowlist: Option<seq<string>>, desktopLabel: string): (r: seq<string>)
    ensures |r| > 0 && r[|r| - 1] == desktopLabel
    ensures r[..|r| - 1] == ListPrograms(programs, allowlist)
  {
    ListPrograms(programs, allowlist) + [desktopLabel]
  }
}

=== FILE: src/wrappers.dfy ===
/** Optional values, as used for Python's `None` and for "no match". */
module Wrappers {
  datatype Option<T> = None | Some(value: T)

  /** What a call into a collaborator gave back: its value, or the text of the exception it raised. */
  datatype Answer<T> = Ok(value: T) | Threw(error: string)
}
